=== FILE: README.md ===
# InsurAI plan ingestion and comparison, modelled in Dafny

InsurAI lets an administrator upload insurance plan documents (PDF, Word, spreadsheets).
The server extracts their text and asks a language model for structured plans. It then
replaces a provider's plans for an emirate in one transaction. Users filter and compare the
stored plans, answer a short questionnaire, and chat with an advisor.

This project models that core as pure Dafny functions over immutable data, and proves what
each step promises:

- **Ingestion** (`backend/routes/admin.js`):
  - the upload route's guards;
  - per-file accounting;
  - the all-or-nothing delete-then-insert of a (provider, state) pair;
  - the reply message;
  - the plan update, delete and admin listing routes.
- **Extraction** (`backend/services/gemini.js`):
  - the prompt;
  - the fence stripping, JSON span and structure checks of the reply;
  - the deterministic mock extractor;
  - the advisor chat prompt.
- **Public routes**:
  - plan search, listing and paging (`backend/routes/plans.js`);
  - input validation (`backend/middleware/validation.js`);
  - registration, login and token checks (`backend/routes/auth.js`, `backend/middleware/auth.js`);
  - the chat log (`backend/routes/chat.js`);
  - CORS and the upload limit (`backend/server.js`).
- **Client**:
  - the request encoders of `frontend/src/services/api.js`;
  - the rules of the questionnaire, chatbot, provider selection, comparison table, comparison page and admin dashboard components.

Shared modules:

| module | what it models |
|---|---|
| `Wrappers` | `Option` and `Result` |
| `Values` | JavaScript values and property access |
| `Text` | JavaScript string built-ins |
| `Numbers` | `parseInt`, `parseFloat`, `String(n)`, `Math.round` |
| `Ordering` | a stable sort and distinct sorted names |

Calls the model cannot see are function-valued parameters:

- the language model;
- `JSON.parse`;
- the PDF, Word and Excel decoders;
- the file move;
- the database's type conversions;
- bcrypt and JWT.

## Model

| member | source | states |
|---|---|---|
| `ExtractionPrompt.Clip` | backend/services/gemini.js:254-255 | A CSV of at most 2000 characters is passed whole; a longer one is cut to its first 2000 and the truncation mark is appended, so the result is exactly 2000 plus the mark long. |
| `ExtractionPrompt.TablesBlock` | backend/services/gemini.js:249-257 | The tables block is present exactly when the table list is non-empty, and then opens with a newline. |
| `ExtractionPrompt.FilenameLineIff` | backend/services/gemini.js:245-248 | The metadata opens with `Filename: ` exactly when a file name is given. |
| `ExtractionPrompt.ExcerptsConcat` | backend/services/gemini.js:251-256 | Each table contributes its own excerpt, in list order: the excerpts of two lists back to back are the two excerpt blocks back to back. |
| `ExtractionPrompt.DocumentUntruncated` | backend/services/gemini.js:260 | The prompt starts with the extraction instructions and ends with the document label, the whole document text (never cut) and the closing request. |
| `ExtractionPrompt.Prompt` | backend/services/gemini.js:243-260 | The prompt opens with the extraction instructions and is at least as long as the instructions and the whole document together. |
| `ReplyParser.StripFences` | backend/services/gemini.js:270 | Removing the "```json" and "```" markers never lengthens the reply and leaves no "```" anywhere in it. |
| `ReplyParser.NoFenceLeft` | backend/services/gemini.js:270 | The global "```" pass leaves no fence behind, even where removing one brings backticks together. |
| `ReplyParser.StripAtMarker` | backend/services/gemini.js:270 | A marker at the front is removed together with all the white space after it. |
| `ReplyParser.StripPrefixFree` | backend/services/gemini.js:270 | Text without a backtick in front of a marker passes through the marker pass unchanged. |
| `ReplyParser.StripAbsent` | backend/services/gemini.js:270 | Text lacking some character of the marker is left as it is. |
| `ReplyParser.FirstPass` | backend/services/gemini.js:270 | On a fenced reply the "```json" pass removes the opening fence with the white space after it and nothing else. |
| `ReplyParser.SecondPass` | backend/services/gemini.js:270 | The "```" pass then removes the closing fence and its trailing white space, leaving preamble and body. |
| `ReplyParser.Candidate` | backend/services/gemini.js:273 | A span found by the greedy brace match starts with '{', ends with '}' and is at least two characters long. |
| `ReplyParser.CandidateSpec` | backend/services/gemini.js:273-277 | A span exists exactly when some '{' comes before some '}'; it is the widest one, with no '{' before it and no '}' after it in the text. |
| `ReplyParser.BraceSpan` | backend/services/gemini.js:273 | Some '{' precedes some '}' exactly when the first '{' precedes the last '}'. |
| `ReplyParser.CandidateFrame` | backend/services/gemini.js:273 | Brace-free text before and after a reply does not change the span taken. |
| `ReplyParser.FencedReply` | backend/services/gemini.js:269-273 | A JSON body wrapped in "```json" fences with any white space, behind a brace-free preamble, yields the same candidate span as the bare body. |
| `ReplyParser.Validate` | backend/services/gemini.js:288-302 | A parsed value is accepted exactly when it is an object with a non-empty `plans` array, whose items come back in order. A non-array `plans` and an empty one fail with their own messages, and `null` fails. The provider is the parsed name when truthy, "Unknown Provider" otherwise. |
| `ReplyParser.Head` | backend/services/gemini.js:276 | The quoted reply is a prefix of the text of at most `n` characters, and the whole text when it is short enough. |
| `ReplyParser.ParseReply` | backend/services/gemini.js:269-302 | An accepted reply always has at least one plan and a truthy provider name. |
| `ReplyParser.ParseReplyOk` | backend/services/gemini.js:269-302 | A reply is accepted exactly when its de-fenced text holds a brace span that parses to a plan object; the plans are those of the parsed value. |
| `ReplyParser.ParseReplyErrors` | backend/services/gemini.js:273-286 | Without a brace span the error quotes at most 200 leading characters of the cleaned reply; a span the parser rejects is reported with the parser's message. |
| `MockExtractor.UpToAny` | backend/services/gemini.js:215 | The provider name is the longest prefix of the file name free of '.', '_' and '-': it is a prefix, holds no separator, and ends at a separator or at the end. |
| `MockExtractor.UpToAnyStops` | backend/services/gemini.js:215 | A separator-free prefix followed by a separator is exactly what is kept. |
| `MockExtractor.CombinedUploadProvider` | backend/services/gemini.js:215 | The name `Combined_<n>_files` the upload route passes always yields the provider "Combined". |
| `MockExtractor.CsvRows` | backend/services/gemini.js:13 | Every row of the split CSV has at least one cell. |
| `MockExtractor.NonEmptyRows` | backend/services/gemini.js:13 | Blank lines are dropped before the split, so every row has a cell and there are no more rows than lines. |
| `MockExtractor.NonEmptyLines` | backend/services/gemini.js:13 | `filter(Boolean)` keeps only non-empty lines, each one of the input's. |
| `MockExtractor.RowsRejoin` | backend/services/gemini.js:13 | Joining each row back with commas gives the non-empty lines again, in order: the split loses nothing. |
| `MockExtractor.DataRows` | backend/services/gemini.js:14-15 | The data rows are the CSV rows after the header row. |
| `MockExtractor.MockCsvFeatures` | backend/services/gemini.js:10-20 | One feature string: with a table it starts with "Age-based pricing: ", without one it is the fallback sentence. |
| `MockExtractor.MockCsvContent` | backend/services/gemini.js:13-16 | The feature reads the first table only: the prefix, then one pricing line per data row, in order, joined by " \| ". |
| `MockExtractor.HeaderIgnored` | backend/services/gemini.js:14-15 | Any two non-empty header lines give the same feature. |
| `MockExtractor.GroupRun` | backend/services/gemini.js:224 | The captured group is the longest run of digits and commas. |
| `MockExtractor.AfterWord` | backend/services/gemini.js:224 | A word of the pattern matches exactly when the text opens with it, ignoring case. |
| `MockExtractor.MatchAt` | backend/services/gemini.js:224 | A match anchored at a position captures a non-empty group of digits and commas. |
| `MockExtractor.Group` | backend/services/gemini.js:224 | The group captured is a non-empty leading run of digits and commas. |
| `MockExtractor.FindCoverage` | backend/services/gemini.js:224 | A found group consists of digits and commas only. |
| `MockExtractor.FindCoverageNone` | backend/services/gemini.js:224 | There is no match exactly when no position of the text starts one. |
| `MockExtractor.FindCoverageLeftmost` | backend/services/gemini.js:224 | The match used is the one at the leftmost position that starts a match. |
| `MockExtractor.CoverageValue` | backend/services/gemini.js:225 | After the commas are removed, the figure is `NaN` exactly when the group held only commas. |
| `MockExtractor.CoverageRoundTrip` | backend/services/gemini.js:223-225 | "Max Coverage: n" at the start of the document reads back as the number n. |
| `MockExtractor.MockFeatures` | backend/services/gemini.js:218-235 | The feature list has one entry: the table summary when tables were given, the default sentence otherwise. |
| `MockExtractor.MockValues` | backend/services/gemini.js:227-238 | The mock plan has exactly one value per key of the plan object. |
| `MockExtractor.MockExtract` | backend/services/gemini.js:213-240 | The mock result is one plan object, reported under the provider named after the file. |
| `MockExtractor.MockProvider` | backend/services/gemini.js:215 | Without a file name the provider is "Mock Provider". Otherwise it is the file name up to its first '.', '_' or '-'. |
| `MockExtractor.MaxCoverage` | backend/services/gemini.js:223-225 | The coverage is `null` exactly when the document has no "max coverage" figure. Otherwise it is `NaN` or a non-negative number. |
| `MockExtractor.FindsLabelled` | backend/services/gemini.js:224 | "Max Coverage: " followed by digits yields exactly those digits. |
| `MockExtractor.MockPlanNamed` | backend/services/gemini.js:217-234 | The mock plan is named "Mock Plan from <provider>", of type Health and of Family coverage. |
| `MockExtractor.MockPlanCarries` | backend/services/gemini.js:233-235 | The mock plan carries the coverage figure and the feature list it was given. |
| `MockExtractor.ReadField` | backend/services/gemini.js:227-238 | The keys of the mock plan are distinct, so each reads back its own value. |
| `PlanExtraction.ExtractPlanData` | backend/services/gemini.js:211-311 | In mock mode the result is the mock extraction. Every error comes from the real branch and starts with "Failed to extract plan data from document: ". Every success has at least one plan. |
| `PlanExtraction.RealBranch` | backend/services/gemini.js:242-310 | Outside mock mode a failed model call becomes the prefix plus its message. An answer succeeds exactly when the reply parser accepts it. A parser error is passed on behind the prefix. |
| `PlanExtraction.Attempt` | backend/services/gemini.js:260-310 | A failed model call gives its message. An answer is parsed as the reply parser reads it, and a success always holds at least one plan. |
| `PlanExtraction.OnlyThePrompt` | backend/services/gemini.js:260-262 | Two models that answer the prompt alike give the same outcome: the prompt is all the model sees. |
| `PlanExtraction.MockDeterministic` | backend/services/gemini.js:213-241 | The mock branch ignores the instructions and the model: its result depends on the document and the options only. |
| `PlanExtraction.FenceTransparent` | backend/services/gemini.js:269-306 | A model that wraps its JSON in a ```json fence gives the same extraction as one that answers with the bare JSON. |
| `AdvisorChat.Recent` | backend/services/gemini.js:183 | `slice(-10)` keeps the last min(n, 10) exchanges, as a suffix of the history. |
| `AdvisorChat.TurnsSpec` | backend/services/gemini.js:184-187 | Each exchange becomes two paragraphs, "User: " and the message, then "Assistant: " and the reply. |
| `AdvisorChat.ContextFrame` | backend/services/gemini.js:180-193 | The prompt opens with the instructions and closes with "User: " plus the new message and a bare "Assistant:". It has 2·min(n,10)+3 paragraphs. |
| `AdvisorChat.ContextWindow` | backend/services/gemini.js:182-191 | The remembered exchanges are the last min(n, 10), replayed oldest first. |
| `AdvisorChat.ChatPrompt` | backend/services/gemini.js:180-193 | The prompt opens with the advisor instructions followed by a blank line. |
| `AdvisorChat.OlderForgotten` | backend/services/gemini.js:183 | With ten or more recent exchanges, anything older does not reach the model. |
| `AdvisorChat.ChatWithAdvisor` | backend/services/gemini.js:171-204 | The mock mode answers "Mock reply to: " plus the message. Any failure outside it is the one advisor error. A real reply is trimmed. |
| `AdvisorChat.AdvisorOutcome` | backend/services/gemini.js:195-203 | Outside mock mode the reply succeeds exactly when the model answers the prompt. |
| `Documents.ExtName` | backend/routes/admin.js:73 | `path.extname` is empty or a '.' followed by no other '.', a proper suffix of the base name. |
| `Documents.FormatOf` | backend/routes/admin.js:72-85 | The type tests run in order: PDF when the MIME type says pdf or the lower-cased extension is .pdf; Word only when not PDF; spreadsheet only when neither. |
| `Documents.SheetTables` | backend/routes/admin.js:57-63 | A table is produced per sheet whose CSV conversion succeeds, and all sheets give tables exactly when every conversion succeeds. |
| `Documents.CsvFailureKeepsText` | backend/routes/admin.js:48-64 | A sheet whose CSV conversion throws still contributes its rows to the text; only its table is missing. |
| `Documents.SheetTablesConcat` | backend/routes/admin.js:48-64 | Text and tables of consecutive sheets are the concatenations, in sheet order. |
| `Documents.ExcelText` | backend/routes/admin.js:48-64 | There is at most one table per sheet, and one for every sheet exactly when every sheet converts to CSV. A workbook without sheets gives no text and no tables. |
| `Documents.ExtractText` | backend/routes/admin.js:72-85 | An unsupported file fails with "Unsupported file type"; PDF and Word yield their decoded text and no tables; a spreadsheet yields its rows and tables. |
| `Catalog.Param` | backend/routes/admin.js:286-294 | A parameter is SQL NULL exactly when the plan field is `null` or `undefined`. |
| `Catalog.Numeric` | backend/routes/admin.js:286-288 | A cost column is NULL exactly for `null`/`undefined`; other text goes through the server's numeric input, which may reject it. |
| `Catalog.Integer` | backend/routes/admin.js:115 | An id given as text is usable exactly when the server reads it as an integer. |
| `Catalog.FindProvider` | backend/routes/admin.js:241-247 | The provider found is the first row with exactly that name; a NULL name matches nothing. |
| `Catalog.Resolve` | backend/routes/admin.js:240-256 | An existing provider keeps the table unchanged and is reused; otherwise one row with that name is appended and used. |
| `Catalog.NewRow` | backend/routes/admin.js:278-295 | A written row belongs to the pair, is active and records the source and time; a null plan throws. |
| `Catalog.Rows` | backend/routes/admin.js:276-297 | When the rows are written, there is one per extracted plan. |
| `Catalog.RowsSpec` | backend/routes/admin.js:276-297 | The list is written exactly when every plan can be, and each row is the one written for the plan at the same position. |
| `Catalog.Fresh` | backend/routes/admin.js:278-285 | New plans take the next n ids, each once. |
| `Catalog.Replace` | backend/routes/admin.js:236-319 | The transaction inserts one row per plan from the next free id and reports as deleted exactly the number of plans the pair had. |
| `Catalog.RowsInPair` | backend/routes/admin.js:283-294 | Every new row belongs to the pair, is active and records the document source. |
| `Catalog.AppendSpec` | backend/routes/admin.js:278-297 | The new rows take the fresh ids in order and every other id keeps its row. |
| `Catalog.SwapOthers` | backend/routes/admin.js:268-297 | Rows of other (provider, state) pairs survive the delete-then-insert unchanged, and none is added. |
| `Catalog.SwapPair` | backend/routes/admin.js:268-297 | Afterwards the pair's ids are exactly the fresh ones. |
| `Catalog.SwapInOrder` | backend/routes/admin.js:276-297 | The fresh ids hold the new rows in plan order. |
| `Catalog.ReplaceShape` | backend/routes/admin.js:236-299 | The committed store is the resolved provider table and the plan table with the pair swapped for the new rows. |
| `Catalog.ReplaceKeepsOthers` | backend/routes/admin.js:268-271 | Every plan of another (provider, state) pair keeps its id and row, no such plan appears, the states are unchanged and providers are only added. |
| `Catalog.ReplaceExact` | backend/routes/admin.js:268-297 | After replacement the pair's plans are exactly the newly inserted ones. |
| `Catalog.ReplaceInOrder` | backend/routes/admin.js:276-297 | The new ids hold the new rows in order, each active. |
| `Catalog.ReplaceRows` | backend/routes/admin.js:286-294 | The i-th new row is the one written for the i-th extracted plan. |
| `Catalog.ReplaceProvider` | backend/routes/admin.js:240-256 | The provider is found by exact name or created, and its row carries the name. |
| `Catalog.ReplaceFails` | backend/routes/admin.js:276-297 | The transaction fails exactly when one of the extracted plans cannot be written. |
| `Catalog.ReplaceValid` | backend/routes/admin.js:236-299 | Replacement keeps the store well formed: every plan names a known provider and its id is below the next id to issue. |
| `Catalog.ReplaceIdempotent` | backend/routes/admin.js:262-265 | Replacing twice with the same input reuses the provider, deletes what the first run inserted and leaves the pair with the same rows. |
| `Catalog.ProviderFound` | backend/routes/admin.js:241-247 | A name whose first occurrence is at position i is found there. |
| `Ingestion.Process` | backend/routes/admin.js:148-196 | A file counts as not saved exactly when its move fails. |
| `Ingestion.Results` | backend/routes/admin.js:148-197 | Each upload is processed once, the i-th stored under index i. |
| `Ingestion.Tally` | backend/routes/admin.js:133-197 | successful + failed equals the number of files, there is one detail per failure, and one table source per table. |
| `Ingestion.Gather` | backend/routes/admin.js:141-197 | After the loop every file is counted once, and every detail so far is a failed-file detail. |
| `Ingestion.TallyCounts` | backend/routes/admin.js:181-185 | Every file fails exactly when no file was read. |
| `Ingestion.TallySaved` | backend/routes/admin.js:155-156 | A file is among the saved names exactly when its move succeeded, even if its text could not be extracted afterwards. |
| `Ingestion.GatherInputs` | backend/routes/admin.js:148-197 | The loop reads only the clock, the upload directory, the file move and the decoders. |
| `Ingestion.ProviderFor` | backend/routes/admin.js:226-230 | A missing or empty manual name never overrides. A truthy extracted name other than "Unknown Provider" is kept. Otherwise the manual name is used. |
| `Ingestion.Reported` | backend/routes/admin.js:296 | One reported plan per inserted row. |
| `Ingestion.Ingest` | backend/routes/admin.js:141-230 | After the guards the route never refuses: it aborts, fails or goes on to the transaction. |
| `Ingestion.Commit` | backend/routes/admin.js:232-345 | The transaction either completes the upload or fails it like an extraction failure. |
| `Ingestion.SomeUpdated` | backend/routes/admin.js:348 | `some(p => p.updated)` either answers or throws on an `undefined` entry. |
| `Ingestion.SomeUpdatedSomes` | backend/routes/admin.js:347-348 | Over plans only, `some` answers whether any plan was updated. |
| `Ingestion.ReportsCompared` | backend/routes/admin.js:347-356 | With no failed file the report as written equals the corrected one; with one it throws after the commit. |
| `Ingestion.AsWrittenCrashes` | backend/routes/admin.js:347-348 | On the same request and store, the route as written crashes with a TypeError after committing whenever the corrected route completes with a failed file. Otherwise the two agree. |
| `Ingestion.IngestCompared` | backend/routes/admin.js:347-363 | The two routes differ only in the report that follows the commit. |
| `Ingestion.CommitCompared` | backend/routes/admin.js:347-363 | The two commits store the same thing, and their replies differ exactly when a failed file meets a completed upload. |
| `Ingestion.Guarded` | backend/routes/admin.js:99-118 | A request past the guards has files, a non-empty state id that reads as an integer, and a known state. |
| `Ingestion.GuardOrder` | backend/routes/admin.js:99-109 | No file at all is refused with "No files uploaded" first; then a missing or empty state id with "State ID is required". |
| `Ingestion.GuardsBeforeSave` | backend/routes/admin.js:98-118 | A refused request is refused whatever the file system would do, with one of the three guard errors, and the store unchanged. |
| `Ingestion.AllFailedSkipsModel` | backend/routes/admin.js:199-205 | When every file fails there is no model call: the answer is the 400 with the accounting, whatever the model. |
| `Ingestion.Extracted` | backend/routes/admin.js:141-224 | An ingestion that reached the transaction read at least one file and got a successful extraction. |
| `Ingestion.Committed` | backend/routes/admin.js:232-363 | A committed upload made the replacement for the chosen provider and reported its rows. |
| `Ingestion.FailureKeepsStore` | backend/routes/admin.js:315-345 | In the corrected route (`Handle`), only a completed upload changes the store. Every refusal and failure, a rolled-back transaction included, leaves it as it was. |
| `Ingestion.Completed` | backend/routes/admin.js:91-363 | A completed upload resolved its state, ran the loop with at least one success, extracted data and committed the replacement, stage by stage. |
| `Ingestion.UploadedAccounting` | backend/routes/admin.js:133-139 | A completed upload counts every file once, gives each failure a detail, and lists at least one inserted plan in the success detail. |
| `Ingestion.AbortedAccounting` | backend/routes/admin.js:199-205 | An aborted or failed upload still accounts for every file. |
| `Ingestion.UploadedValid` | backend/routes/admin.js:236-299 | A completed upload keeps the store well formed. |
| `Ingestion.ReportedRows` | backend/routes/admin.js:278-296 | Every reported plan is in the table under its id, active, of the replaced pair and tagged with the source. |
| `Ingestion.UploadedRows` | backend/routes/admin.js:259-309 | The reported plans are in the store under their ids, active, of the upload's provider and state, and tagged with the saved file names. |
| `Ingestion.UploadedKeepsOthers` | backend/routes/admin.js:268-297 | A completed upload touches only the pair it replaced: every other plan keeps its id and row and no other plan appears. |
| `Ingestion.HadExistingDeleted` | backend/routes/admin.js:296 | Every reported plan carries the same `updated` flag: whether the delete removed anything. |
| `Ingestion.ReplacedExisting` | backend/routes/admin.js:268-296 | A non-empty extraction reports "updated" exactly when the pair already had plans. |
| `Ingestion.UploadedMessage` | backend/routes/admin.js:347-356 | The message says "Replaced existing plans" exactly when the store already held a plan of that provider and state, and "Created" otherwise. |
| `Ingestion.MockUploadProvider` | backend/routes/admin.js:214-230 | In mock mode the combined extraction is always named "Combined", and no manual name overrides that. |
| `Ingestion.Upload` | backend/routes/admin.js:91-118 | A request without files is refused with "No files uploaded". A refused request leaves the store as it was and names one of the three guard errors. |
| `Ingestion.Handle` | backend/routes/admin.js:91-363 | The corrected route: a refusal leaves the store as it was and names one of the guard errors. A completed upload reports as many plans as it inserted. |
| `Ingestion.HandleAsWritten` | backend/routes/admin.js:347-363 | The route as written refuses exactly the requests the corrected one refuses, with the same answer. |
| `Ingestion.UploadReported` | backend/routes/admin.js:347-356 | A completed upload counts its inserted rows in `total_plans_added` and reports them with the corrected "Created" or "Replaced" message. |
| `Ingestion.CommitReported` | backend/routes/admin.js:232-356 | A committed transaction reported by the corrected report carries the message for its results and the number of rows inserted. |
| `Ingestion.IngestAborted` | backend/routes/admin.js:199-224 | An ingestion that stops before the transaction counts every file once, gives each failure a failed-file detail and adds no plans. When nothing was extracted, no file succeeded. |
| `Ingestion.Message` | backend/routes/admin.js:350-356 | The message opens with the file counts and then says "Replaced" exactly when some plan was updated, and "Created" otherwise. |
| `PlanAdmin.PresentAmong` | backend/routes/admin.js:437-481 | The columns set are never more than those offered. |
| `PlanAdmin.PresentAmongSpec` | backend/routes/admin.js:437-481 | A column is set exactly when its field is not `undefined`, and the set columns keep the handler's order. |
| `PlanAdmin.PresentSpec` | backend/routes/admin.js:441-481 | Over the seven updatable columns, `null` is written and only `undefined` is skipped, in the handler's order. |
| `PlanAdmin.Assignments` | backend/routes/admin.js:441-490 | One `SET` item per present column. |
| `PlanAdmin.Params` | backend/routes/admin.js:487-493 | The bound values are the present fields, then the id: one more than the columns. |
| `PlanAdmin.PlaceholdersBind` | backend/routes/admin.js:437-493 | Placeholders count from $1 in column order, each bound to its field, and the id takes the one after the last. |
| `PlanAdmin.Update` | backend/routes/admin.js:424-508 | A failed update leaves the store unchanged. |
| `PlanAdmin.AssignAllSpec` | backend/routes/admin.js:489-494 | Each set column holds its converted value; every other column and field keeps its own. |
| `PlanAdmin.UpdateEffect` | backend/routes/admin.js:489-503 | A successful update changes one plan: its present columns take the body values and its update time is the statement's; every other plan is untouched. |
| `PlanAdmin.UpdateFailures` | backend/routes/admin.js:483-498 | No fields fails with 400 exactly when every body field is `undefined`. A 404 comes exactly when some field is present, the id and values convert, and the plan is missing. No failure changes the store. |
| `PlanAdmin.UpdateIdempotent` | backend/routes/admin.js:489-494 | Repeating an update at the same timestamp changes nothing more. |
| `PlanAdmin.Delete` | backend/routes/admin.js:514-532 | A failed delete leaves the store unchanged. |
| `PlanAdmin.DeleteEffect` | backend/routes/admin.js:519-527 | Success exactly when the id is an integer. Only `hard_delete=true` removes that one plan. Any other value marks it inactive and keeps every plan. |
| `PlanAdmin.DeleteIdempotent` | backend/routes/admin.js:519-525 | Deleting twice is deleting once. |
| `PlanAdmin.Criteria` | backend/routes/admin.js:393-403 | A non-empty `state_id` filters by state. Any `is_active` filters, and only the text "true" asks for active plans. |
| `PlanAdmin.NewestPreorder` | backend/routes/admin.js:405 | Newest first by creation time is a total preorder, so the sort is well defined. |
| `PlanAdmin.List` | backend/routes/admin.js:378-418 | The reported count is the number of plans listed; a failure is the fixed 500. |
| `PlanAdmin.ListSpec` | backend/routes/admin.js:380-413 | A listing is a window of at most `limit` plans of the newest-first ranking. Every plan in it is stored, of a known provider, and passes the filters. |
| `PlanQuery.LikeLiteral` | backend/routes/plans.js:78-79 | A literal followed by the rest of a LIKE pattern matches a text that starts with the literal and whose remainder matches the rest. |
| `PlanQuery.LikeContains` | backend/routes/plans.js:78-79 | `%x%` for a literal x matches exactly the texts that contain x. |
| `PlanQuery.CoverageContains` | backend/routes/plans.js:77-81 | The coverage-type filter keeps a plan exactly when its coverage type contains the given text, ignoring letter case. |
| `PlanQuery.CheaperPreorder` | backend/routes/plans.js:84 | Ordering by monthly cost, ascending, is a total preorder. |
| `PlanQuery.Given` | backend/routes/plans.js:42-81 | A query parameter takes part exactly when it is present and non-empty, and then as given. |
| `PlanQuery.StateFilter` | backend/routes/plans.js:27 | A given `state_id` filters when the server reads it as an integer and fails the query otherwise. Without one, the user's own state filters when it is truthy, and nothing does when it is not. |
| `PlanQuery.Criteria` | backend/routes/plans.js:42-81 | The criteria are read exactly when the state filter is. The type and coverage filters are present exactly when given, and each given numeric bound is its `parseFloat` value. |
| `PlanQuery.Search` | backend/routes/plans.js:13-161 | A rejected query is 400 with the gate's error, a query the database refuses is 500. A found page holds at most `limit` plans, and `has_more` is offset + page size < total. |
| `PlanQuery.SearchSpec` | backend/routes/plans.js:30-147 | A search answers with a page of the filtered ranking, cheapest first. Each plan on it is an active stored plan of a known provider that passes every filter. In a well-formed store every such plan is ranked, the total counts them all, and `has_more` says whether the ranking goes on. |
| `PlanQuery.JoinCounts` | backend/routes/plans.js:93-138 | When every plan names a stored provider, the count query without the join keeps the same plans as the listing query. |
| `PlanQuery.CoverageNaN` | backend/routes/plans.js:70-74 | A minimum coverage that does not start like a number passes the gate, is bound as NaN, and no plan reaches it. |
| `PlanQuery.Fetch` | backend/routes/plans.js:167-190 | An id that is not an integer is 500. A plan is returned exactly when the id names an active plan of a known provider; otherwise 404. |
| `PlanQuery.FetchListed` | backend/routes/plans.js:167-190 | A plan the detail route returns is one an unfiltered search ranks. |
| `Listings.CandidatesSpec` | backend/routes/plans.js:30-36 | The candidate rows are exactly the stored plans the filter keeps, each with its provider and state names. |
| `Listings.Ranked` | backend/routes/plans.js:84 | The ranking is sorted by the given order and is a permutation of the kept plans. |
| `Listings.RankedSound` | backend/routes/plans.js:30-36 | Every ranked row is a stored plan the filter keeps, with its names. |
| `Listings.RankedComplete` | backend/routes/plans.js:30-36 | With ids issued in order, every kept plan is in the ranking. |
| `Listings.RankedCount` | backend/routes/plans.js:137-138 | The ranking lists each kept plan once: its length is the number of kept ids, which is what the count query returns. |
| `Listings.CandidatesCount` | backend/routes/plans.js:93-138 | The number of candidates is the number of kept ids below the bound. |
| `Listings.Bound` | backend/routes/plans.js:87-88 | An absent limit or offset takes its default. A given one is its `parseInt` value when that is a non-negative `bigint`; NaN, a negative value or one above 2^63 - 1 is refused by the database. |
| `Listings.Page` | backend/routes/plans.js:87 | A page holds at most `limit` rows. |
| `Listings.PageWithin` | backend/routes/plans.js:146 | A page keeps the order of what it is cut from. There are rows beyond it exactly when the page is full and more rows follow. |
| `Validation.ValidateEmail` | backend/middleware/validation.js:4-7 | An e-mail passes exactly when it has the plain shape: no space, an '@' with something before it, and a '.' after it with text on both sides. |
| `Validation.EmailShapes` | backend/middleware/validation.js:5 | The anchored regular expression accepts exactly the strings of the plain description. |
| `Validation.ValidatePassword` | backend/middleware/validation.js:10-14 | A password passes exactly when it is at least 8 allowed characters with a lower-case letter, an upper-case letter, a digit and a special character. |
| `Validation.PasswordShapes` | backend/middleware/validation.js:12 | The look-ahead expression accepts exactly the strong passwords: the look-aheads ask for nothing beyond the classes being present. |
| `Validation.Registration` | backend/middleware/validation.js:17-40 | Registration passes exactly when all four fields are truthy, the e-mail has the shape and the password is strong. |
| `Validation.RegistrationOrder` | backend/middleware/validation.js:20-37 | A missing field is reported whatever else is wrong, and a bad e-mail before a weak password. |
| `Validation.Login` | backend/middleware/validation.js:43-59 | Login passes exactly when both fields are truthy and the e-mail has the shape; a missing field is reported first. |
| `Validation.LoginIgnoresStrength` | backend/middleware/validation.js:43-59 | For every well-formed e-mail and non-empty password, login passes, and if registration would refuse only the password as weak, login still passes. |
| `Validation.PlanQuery` | backend/middleware/validation.js:62-85 | A query passes exactly when a given type is one of the five plan types and a given maximum deductible or cost starts like a number. |
| `Validation.Sanitize` | backend/middleware/validation.js:88-91 | A non-string comes back as it is. A string comes back no longer, built from its own characters, and free of '<' and '>'. |
| `Validation.SanitizeClean` | backend/middleware/validation.js:88-91 | Text already trimmed and free of angle brackets comes back unchanged. |
| `Validation.SanitizeNotIdempotent` | backend/middleware/validation.js:90 | Trimming comes before the brackets are removed, so "< >" sanitises to " " and a second pass removes more. |
| `Auth.Expiry` | backend/middleware/auth.js:59 | The token lifetime is the configured one when non-empty, and never empty. |
| `Auth.GenerateToken` | backend/middleware/auth.js:55-61 | With a signer whose verification reads back what it signs, the token verifies to the user's id, e-mail and role. |
| `Auth.TokenOf` | backend/middleware/auth.js:8 | A token read from the header is non-empty and holds no space. |
| `Auth.BearerToken` | backend/middleware/auth.js:8 | A header of one word, a space and a token yields the token, whatever the word is. |
| `Auth.NoToken` | backend/middleware/auth.js:8-12 | A header without a space, or with two spaces after the first word, carries no token. |
| `Auth.Authenticate` | backend/middleware/auth.js:5-39 | Access is granted exactly for a token that verifies and names an existing user, who is then attached. Refusals are 401, 403 or 404. |
| `Auth.RequireAdmin` | backend/middleware/auth.js:42-52 | The request goes on exactly when a user is attached and has the role "admin". |
| `Auth.AdminAccess` | backend/middleware/auth.js:42-52 | A request granted by the admin chain carries an admin user. |
| `Auth.AdminAccessSpec` | backend/middleware/auth.js:5-52 | The admin routes are reached exactly with a verifying token of an existing admin. An ordinary user gets 403, and an authentication failure is passed on unchanged. |
| `Auth.VerifyToken` | backend/middleware/auth.js:64-70 | The claims when the token verifies, and nothing (`null`) when verification fails. |
| `Auth.Lookup` | backend/routes/auth.js:18-21 | The user found has that e-mail and the lowest such id; none is found only when no user has it. |
| `Auth.LookupComplete` | backend/routes/auth.js:18-25 | With every id issued in order, the lookup finds an e-mail exactly when some user has it. |
| `Auth.Register` | backend/routes/auth.js:13-76 | A failed registration writes nothing and answers 400, 409 or 500. A success stores a new "user" with the lower-cased e-mail, the hashed password and the state, and returns a token for it. |
| `Auth.RegisterValid` | backend/routes/auth.js:17-47 | Registration keeps e-mails lower case and unique. |
| `Auth.InsertValid` | backend/routes/auth.js:42-47 | A new lower-case e-mail that no user has keeps the accounts valid. |
| `Auth.RegisterDuplicate` | backend/routes/auth.js:17-25 | An e-mail some user already has, in any letter case, is refused with 409 before the state is checked, and nothing is written. |
| `Auth.Login` | backend/routes/auth.js:82-131 | A login answers 400, 401 or 500, or logs in a stored user whose password `compare` accepts, with a token for that user. |
| `Auth.LoginUniform` | backend/routes/auth.js:96-107 | An unknown e-mail and a wrong password give the same reply. |
| `Auth.LoginRefused` | backend/routes/auth.js:103-107 | When `compare` rejects the password for every account with that e-mail, login is 401 "Invalid email or password". |
| `Auth.LoginFinds` | backend/routes/auth.js:87-114 | An e-mail the lookup finds, with a password `compare` accepts, logs in that user with a token for its id, e-mail and role. |
| `Auth.RegisterThenLogin` | backend/routes/auth.js:13-131 | An account just registered can log in at once with the same e-mail and password. |
| `Auth.ByNamePreorder` | backend/routes/auth.js:140 | Ordering rows by name under a total preorder on names is itself a total preorder. |
| `Auth.ListStates` | backend/routes/auth.js:137-150 | The listing is ordered by state name and is a permutation of the states table's rows. |
| `Auth.ListStatesSpec` | backend/routes/auth.js:137-150 | Every stored row is listed as often as it is stored, nothing else is listed, and the names come in collation order. |
| `ChatLog.Mine` | backend/routes/chat.js:67-77 | The history holds only the user's exchanges, of the session when one is given, taken from the log. |
| `ChatLog.MineMembers` | backend/routes/chat.js:67-77 | An exchange is kept exactly when it belongs to the user, and to the session when one is given. |
| `ChatLog.Last` | backend/routes/chat.js:24-33 | `ORDER BY created_at DESC LIMIT n` read back in reverse is the last n rows in chronological order. |
| `ChatLog.Exchanges` | backend/routes/chat.js:25-33 | Each stored row hands the advisor its message and response, in order. |
| `ChatLog.Post` | backend/routes/chat.js:12-57 | A missing, empty or whitespace-only message is 400 "Message is required", and every failure stores nothing. An answer stores exactly one exchange at the end of the log, and the reply is what the advisor said. |
| `ChatLog.Context` | backend/routes/chat.js:24-33 | The advisor sees at most ten past exchanges. |
| `ChatLog.ContextSpec` | backend/routes/chat.js:24-33 | The advisor sees only that user's exchanges of that session: the most recent ten, in the order they were made. |
| `ChatLog.Read` | backend/routes/chat.js:63-92 | A bad limit is the fixed 500. With a non-empty session id every entry returned is of that session. The count is the number returned. |
| `ChatLog.ReadSpec` | backend/routes/chat.js:63-92 | The history is the last `limit` (50 by default) of the user's exchanges, of the session when a non-empty one is given, in log order. An exchange takes part exactly when it is the user's and of that session. |
| `ChatLog.MineInOrder` | backend/routes/chat.js:67-85 | The filtered history is a subsequence of the log: its entries sit at strictly increasing log positions. |
| `ChatLog.PostThenRead` | backend/routes/chat.js:39-85 | A posted exchange is the newest entry of its session's history. |
| `ChatLog.MineAppended` | backend/routes/chat.js:39-43 | A new exchange that passes the filter ends the filtered history: the log is append-only. |
| `ChatLog.Clear` | backend/routes/chat.js:98-112 | Clearing only removes exchanges, and none of that user's for that session remains. |
| `ChatLog.ClearSpec` | backend/routes/chat.js:102-105 | Clearing empties that session of that user and leaves every other user's and session's history exactly as it was. |
| `Server.AllowedOrigins` | backend/server.js:24-29 | The allowed origins are the three local ones plus the configured front end when it is non-empty. |
| `Server.Cors` | backend/server.js:32-42 | The callback either allows or fails with "Not allowed by CORS". |
| `Server.CorsSpec` | backend/server.js:32-42 | A request passes exactly when it has no origin, or the origin is listed, is the configured front end, or contains "vercel.app". |
| `Server.PreviewSubstring` | backend/server.js:37 | The preview test is a substring test, so a host under another domain that merely mentions "vercel.app" is let through. |
| `Server.UploadLimit` | backend/server.js:50-56 | A request that is stopped gets 413 with "File size exceeds the 10MB limit". |
| `Server.UploadLimitSpec` | backend/server.js:51-52 | A request goes on exactly when every file is at most 10 MiB. |
| `ClientApi.Params` | frontend/src/services/api.js:61-67 | The query sends at most one entry per filter, each under a filter's own name. |
| `ClientApi.Received` | frontend/src/services/api.js:62-68 | What the server reads under a name is a value the client sent under that name. |
| `ClientApi.ReceivedParams` | frontend/src/services/api.js:61-67 | The server reads under each name exactly the filter given under it, as text, unless the client dropped it: `undefined`, `null`, and for the plan search also the empty string. |
| `ClientApi.ReceivedAt` | frontend/src/services/api.js:63-66 | The filter at position i reaches the server under its own name unless it was dropped. |
| `ClientApi.BlankIgnored` | frontend/src/services/api.js:64 | Dropping empty strings on the plan search changes nothing the search uses, since the server treats an empty parameter as not given. |
| `ClientApi.AdminBlankActive` | frontend/src/services/api.js:134-140 | The admin list passes an empty `is_active` through, and the server then lists inactive plans only. |
| `ClientApi.FilesNamed` | frontend/src/services/api.js:113-119 | The files read under one name are never more than the form's parts. |
| `ClientApi.TextNamed` | frontend/src/services/api.js:121-124 | A text field read from the form is one the form holds. |
| `ClientApi.Presented` | frontend/src/services/api.js:113-119 | However the upload middleware presents the files under a name (one as an object, several as an array), the route's list is those files in order. |
| `ClientApi.FilesNamedSplit` | frontend/src/services/api.js:113-124 | The files under a name in two parts of a form are those of each part, in order. |
| `ClientApi.UploadRoundTrip` | frontend/src/services/api.js:109-132 | The route reads exactly the chosen files, in order, the state id as sent, and the provider name only when it was truthy. |
| `ClientApi.FileParts` | frontend/src/services/api.js:113-119 | The file parts of the upload form hold only files. |
| `ClientApi.FormFiles` | frontend/src/services/api.js:113-124 | Text fields after the files do not change which files the route reads. |
| `ClientApi.EmptySelection` | frontend/src/services/api.js:113-116 | An empty array of files puts no file in the form, so the route answers "No files uploaded". |
| `ClientApi.DeletePath` | frontend/src/services/api.js:150-154 | The delete request goes to the plan's own URL. |
| `ClientApi.HardDeleteParam` | frontend/src/services/api.js:151 | The route sees `hard_delete` exactly when a hard delete was asked for. |
| `ClientApi.DeleteFromClient` | frontend/src/services/api.js:150-154 | A hard delete from the client removes the plan; a plain one only marks it inactive. |
| `ClientApi.Authorization` | frontend/src/services/api.js:14-25 | A request carries `Authorization: Bearer <token>` exactly when a non-empty token is stored. |
| `ClientApi.AuthorizationRoundTrip` | frontend/src/services/api.js:16-19 | The server recovers a stored token that has no space in it. Without a stored token the server answers 401. |
| `ClientApi.OnError` | frontend/src/services/api.js:28-39 | A 401 forgets the token and the user and sends the browser to the login page; any other status leaves storage alone. |
| `ClientApi.LoggedOutAfter401` | frontend/src/services/api.js:31-35 | After a 401 the next request goes out without credentials and is refused again. |
| `ClientApi.MessageBody` | frontend/src/services/api.js:85-91 | The chat request carries the message as given. |
| `ClientApi.NewSession` | frontend/src/services/api.js:85-91 | A message sent without a session id starts a session named after the user and the clock; one sent with a session id keeps it. |
| `ClientApi.HistoryParams` | frontend/src/services/api.js:93-99 | The history query has `limit` always and `session_id` only when the session is truthy. |
| `ClientApi.HistoryReceived` | frontend/src/services/api.js:93-99 | The history route sees the limit as sent, and a session filter exactly when one was given. |
| `Questionnaire.Set` | frontend/src/components/Questionnaire.jsx:31 | The spread update sets the named field and keeps every other field. |
| `Questionnaire.Budget` | frontend/src/components/Questionnaire.jsx:34-38 | A salary that reads as a number suggests a tenth of it, rounded, as text. A salary that does not read as a number suggests "NaN". |
| `Questionnaire.Next` | frontend/src/components/Questionnaire.jsx:44-48 | Next stays within steps 1 to 3: it moves one step forward, or stays on the last step. |
| `Questionnaire.Back` | frontend/src/components/Questionnaire.jsx:50-54 | Back stays within steps 1 to 3: it moves one step back, or stays on the first step. |
| `Questionnaire.StepValid` | frontend/src/components/Questionnaire.jsx:71-76 | Only steps 1 to 3 can be valid, and each is valid exactly when its own field (type, coverage, budget) is non-empty. |
| `Questionnaire.BudgetOfSalary` | frontend/src/components/Questionnaire.jsx:34-38 | A salary typed as a whole number is read as that number. |
| `Questionnaire.SuggestedTenth` | frontend/src/components/Questionnaire.jsx:35-37 | The suggested budget is a tenth of the monthly salary, rounded half up, as text. |
| `Questionnaire.Change` | frontend/src/components/Questionnaire.jsx:30-42 | Only the named field changes, except that a non-empty salary also replaces the budget with the suggested one. |
| `Questionnaire.WalkStays` | frontend/src/components/Questionnaire.jsx:44-54 | No sequence of Next and Back presses leaves steps 1 to 3. |
| `Questionnaire.WalkForward` | frontend/src/components/Questionnaire.jsx:44-48 | Pressing Next enough times reaches the last step. |
| `Questionnaire.SalaryCompletes` | frontend/src/components/Questionnaire.jsx:71-76 | Entering a salary is enough to finish the last step, because it fills the budget. |
| `Questionnaire.Filters` | frontend/src/components/Questionnaire.jsx:56-69 | The comparison page is handed six filters under distinct names. |
| `Questionnaire.SubmitReceived` | frontend/src/components/Questionnaire.jsx:56-69 | The plan search receives the budget as `max_cost`, the chosen type as `type` and the coverage type, each exactly when it is filled in. |
| `Chatbot.Open` | frontend/src/components/Chatbot.jsx:16-29 | The window opens with one assistant welcome and no request in flight. |
| `Chatbot.SessionAsServer` | frontend/src/components/Chatbot.jsx:18 | The client names its session the way the server names one it has to invent. |
| `Chatbot.Send` | frontend/src/components/Chatbot.jsx:39-53 | Blank input or a request in flight does nothing. Otherwise the trimmed text is shown as the user's message and is what is sent, the input is cleared, and the window waits. |
| `Chatbot.Settle` | frontend/src/components/Chatbot.jsx:55-81 | Exactly one assistant message is appended: the reply, or the apology flagged as an error. The window stops waiting. |
| `Chatbot.Step` | frontend/src/components/Chatbot.jsx:39-82 | One event keeps the session and every earlier message, and adds at most one message. |
| `Chatbot.Run` | frontend/src/components/Chatbot.jsx:39-82 | A run of events keeps the session and every earlier message, and adds at most one message per event. |
| `Chatbot.StepBalanced` | frontend/src/components/Chatbot.jsx:39-82 | Each event keeps one answer or apology per user message, the awaited one aside, and never removes or changes an earlier message. |
| `Chatbot.RunAppendOnly` | frontend/src/components/Chatbot.jsx:39-82 | Whatever happens, the list only grows and still starts with the welcome. There is one answer or apology per message sent, except the one awaited. |
| `Chatbot.OpenBalanced` | frontend/src/components/Chatbot.jsx:16-29 | The opened window is balanced. |
| `InteractiveComparison.Providers` | frontend/src/components/InteractiveComparison.jsx:38 | The provider list is strictly sorted and holds exactly the plans' provider names. |
| `InteractiveComparison.Top` | frontend/src/components/InteractiveComparison.jsx:58 | `slice(0, count)` is a prefix of the providers, `count` long when that many exist, all of them when count is larger, and empty for a `NaN` count. |
| `InteractiveComparison.Initial` | frontend/src/components/InteractiveComparison.jsx:41-46 | The first selection is the first three providers, or all of them if fewer. |
| `InteractiveComparison.InitialDistinct` | frontend/src/components/InteractiveComparison.jsx:38-46 | The initial selection has no duplicate and names only existing providers. |
| `InteractiveComparison.Without` | frontend/src/components/InteractiveComparison.jsx:72 | Filtering a provider out keeps exactly the other members. |
| `InteractiveComparison.WithoutKeepsDistinct` | frontend/src/components/InteractiveComparison.jsx:72 | Filtering keeps a selection free of duplicates. |
| `InteractiveComparison.ToggleSpec` | frontend/src/components/InteractiveComparison.jsx:69-77 | A toggle flips the membership of that one provider, keeps every other, and never introduces a duplicate. |
| `InteractiveComparison.ToggleTwice` | frontend/src/components/InteractiveComparison.jsx:69-77 | Adding a provider and toggling it again gives the selection back unchanged. |
| `InteractiveComparison.WithoutAbsent` | frontend/src/components/InteractiveComparison.jsx:72 | Filtering out a provider that is not selected changes nothing. |
| `InteractiveComparison.WithoutAppended` | frontend/src/components/InteractiveComparison.jsx:72-74 | Removing a provider just appended gives the previous selection. |
| `InteractiveComparison.SetMode` | frontend/src/components/InteractiveComparison.jsx:55-60 | Switching to 'top' reselects the first providers; switching to manual keeps the selection. |
| `InteractiveComparison.SetCount` | frontend/src/components/InteractiveComparison.jsx:62-67 | The count always changes, the selection only in 'top' mode, where a `NaN` count empties it. |
| `InteractiveComparison.ClearedCount` | frontend/src/components/InteractiveComparison.jsx:222 | Clearing the count field in 'top' mode stores `NaN`, empties the selection and blocks the comparison. |
| `InteractiveComparison.TopStaysTop` | frontend/src/components/InteractiveComparison.jsx:55-67 | In 'top' mode the selection is always the first `count` providers, whatever order the mode and count changes come in. |
| `InteractiveComparison.InitialComparable` | frontend/src/components/InteractiveComparison.jsx:86-92 | A comparison can start right after loading exactly when there are at least two providers. |
| `InteractiveComparison.Toggle` | frontend/src/components/InteractiveComparison.jsx:69-77 | A toggle flips whether that provider is selected and keeps every other provider's membership. |
| `InteractiveComparison.Stored` | frontend/src/components/InteractiveComparison.jsx:148 | `parseInt(v) || ''` stores a number exactly when `parseInt` reads one other than 0, and then that number. |
| `InteractiveComparison.ProfileFromTyped` | frontend/src/components/InteractiveComparison.jsx:80-83 | Typing an age and a salary lets the profile be submitted exactly when the age is not 0 and the salary reads as a non-zero integer. A typed 0 or text without digits is stored as empty. |
| `ComparisonTable.FindFirst` | frontend/src/components/ComparisonTable.jsx:29 | `find` gives the first position whose plan passes the test, and nothing exactly when no plan passes it. |
| `ComparisonTable.FirstAt` | frontend/src/components/ComparisonTable.jsx:10-12 | The position found holds a plan of that insurer, and nothing is found exactly when the insurer has no plan. |
| `ComparisonTable.InitialChoice` | frontend/src/components/ComparisonTable.jsx:7-16 | Exactly the insurers that have plans get an entry, and each entry is the id of that insurer's first plan. |
| `ComparisonTable.ChoosePlan` | frontend/src/components/ComparisonTable.jsx:20-25 | Picking a plan sets that insurer's choice and leaves every other insurer's choice as it was. |
| `ComparisonTable.WithId` | frontend/src/components/ComparisonTable.jsx:29 | The position found holds a plan with that id, and nothing is found exactly when no plan has it. |
| `ComparisonTable.Shown` | frontend/src/components/ComparisonTable.jsx:27-30 | A plan shown for an insurer is one of the plans and carries the id chosen for that insurer. |
| `ComparisonTable.InitialShowsOwn` | frontend/src/components/ComparisonTable.jsx:7-16 | Right after the table opens, every insurer with plans shows one of its own plans. |
| `ComparisonTable.Parsed` | frontend/src/components/ComparisonTable.jsx:36-58 | A falsy column reads as the empty default, and so does a string that does not parse. |
| `ComparisonTable.ParsedText` | frontend/src/components/ComparisonTable.jsx:36-58 | A column stored as JSON text reads the same as the object it encodes. |
| `ComparisonTable.OpenBandNeverMatches` | frontend/src/components/ComparisonTable.jsx:70-73 | A range without a dash, such as "65+", matches no age, because its missing upper bound is `NaN`. |
| `ComparisonTable.BandMatches` | frontend/src/components/ComparisonTable.jsx:70-73 | A range "lo-hi" written with whole numbers matches exactly the ages from lo to hi. |
| `ComparisonTable.NoDash` | frontend/src/components/ComparisonTable.jsx:71 | A run of digits has no dash, so a range's lower bound splits off at its own dash. |
| `ComparisonTable.BandFor` | frontend/src/components/ComparisonTable.jsx:70-73 | The band found is one of the bands and contains the age. Nothing is found exactly when no band contains it. |
| `ComparisonTable.HasEntries` | frontend/src/components/ComparisonTable.jsx:69 | `length` of a null or undefined pricing column throws; of an array it is non-zero exactly when the array has entries. |
| `ComparisonTable.BandOf` | frontend/src/components/ComparisonTable.jsx:70-71 | An entry reads as a band exactly when its `age_range` is a string, and the band keeps the entry's `premium`. |
| `ComparisonTable.FindBand` | frontend/src/components/ComparisonTable.jsx:70-73 | A band `find` returns contains the age. When it throws, some entry has an `age_range` that is not a string. |
| `ComparisonTable.FindBandWellFormed` | frontend/src/components/ComparisonTable.jsx:70-73 | On entries that all have a string range, `find` never throws and returns the first band containing the age. |
| `ComparisonTable.FindBandStops` | frontend/src/components/ComparisonTable.jsx:70-73 | Entries after the first containing band are never read: appending any entries, even malformed ones, keeps the answer. |
| `ComparisonTable.FoundStays` | frontend/src/components/ComparisonTable.jsx:70-73 | A band already found stays the answer when one more entry follows. |
| `ComparisonTable.PremiumOf` | frontend/src/components/ComparisonTable.jsx:65-77 | Without age pricing, or without an age while a pricing value is present, the premium is the monthly cost column. A band premium is only used when an age is given. |
| `ComparisonTable.PremiumFromBands` | frontend/src/components/ComparisonTable.jsx:65-77 | With an age and well-formed bands, the premium is a twelfth of the first containing band's premium read as a number, and the monthly cost column when no band contains the age. |
| `ComparisonTable.PremiumNumber` | frontend/src/components/ComparisonTable.jsx:79 | A band premium goes on to scoring only when it is neither NaN nor zero; a column premium goes on exactly when the column is set. |
| `ComparisonTable.Tier` | frontend/src/components/ComparisonTable.jsx:86-99 | The affordability tier gives 10, 20, 30 or 40 points and one of the four affordability verdicts. |
| `ComparisonTable.Bonuses` | frontend/src/components/ComparisonTable.jsx:116-132 | The bonuses are a multiple of five between 0 and 30, with at most four reasons, none of them an affordability verdict. "Wide hospital network" is given exactly when the network count is truthy and above 50 as JavaScript compares it. |
| `ComparisonTable.WideNetworkCount` | frontend/src/components/ComparisonTable.jsx:129 | A network count of n hospitals, sent as a number or as its decimal text, earns the bonus exactly when n > 50. |
| `ComparisonTable.Recommend` | frontend/src/components/ComparisonTable.jsx:60-110 | There is no recommendation without a truthy salary. With one, the card fails exactly when reading the premium throws, or when a usable premium meets features that parsed to `null`, whose coverage flags cannot be read. A recommendation exists exactly when the premium is a usable number and the features can be read. |
| `ComparisonTable.NullFeaturesThrow` | frontend/src/components/ComparisonTable.jsx:36-103 | Features stored as the JSON text "null" make a plan with a usable premium fail instead of being scored. |
| `ComparisonTable.RecommendSpec` | frontend/src/components/ComparisonTable.jsx:60-139 | Every recommendation made has a score between 10 and 100, reasons opening with exactly one affordability verdict, and a "recommended" badge that agrees with the rounded score shown. |
| `ComparisonTable.ScoreSpec` | frontend/src/components/ComparisonTable.jsx:81-139 | For any ratio, NaN and infinities included, and any features, the score has the same bounds, reasons and badge agreement. |
| `ComparisonTable.FeaturesAsText` | frontend/src/components/ComparisonTable.jsx:36-46 | Features stored as JSON text give the same recommendation as the object they encode. |
| `ComparisonTable.PricingAsText` | frontend/src/components/ComparisonTable.jsx:48-58 | Age pricing stored as JSON text gives the same recommendation as the value it encodes. |
| `ComparisonTable.ZeroCostScored` | frontend/src/components/ComparisonTable.jsx:68-81 | A monthly cost stored as the NUMERIC text "0.00" is truthy, so a plan without age pricing is scored at ratio 0 as "Highly affordable". |
| `ComparisonTable.ScoreRounding` | frontend/src/components/ComparisonTable.jsx:112-138 | Tier points and bonuses are multiples of five and breadth points are sevenths of 30, so no score lies between 69.5 and 70. Rounding therefore never crosses the badge's threshold. |
| `ComparisonTable.BenefitCell` | frontend/src/components/ComparisonTable.jsx:326 | A benefit shows as covered exactly when it is `true`, and as not covered exactly when it is `false`. |
| `ComparisonTable.Areas` | frontend/src/components/ComparisonTable.jsx:342-345 | Each region is listed exactly when its flag is truthy, in the fixed order UAE, GCC, International. |
| `ComparisonPage.Load` | frontend/src/components/ComparisonPage.jsx:21-64 | The page first searches with the given filters. It searches a second time, with the relaxed filters, exactly when the first search returns no plan. An error shows exactly when no plan does, and alternatives show exactly when the relaxed search was needed and found plans. |
| `ComparisonPage.LoadShows` | frontend/src/components/ComparisonPage.jsx:29-57 | Exact matches are shown as the server sent them. Alternatives are one to ten plans drawn from the relaxed result and sorted nearest the budget first. |
| `ComparisonPage.Relaxed` | frontend/src/components/ComparisonPage.jsx:32-35 | The relaxed filters have distinct names. |
| `ComparisonPage.RelaxedReceived` | frontend/src/components/ComparisonPage.jsx:32-37 | The relaxed search sends the plan type and the state exactly as the first search did, and nothing else. |
| `ComparisonPage.Budget` | frontend/src/components/ComparisonPage.jsx:41 | A budget that does not read as a number becomes 0; any other is the number read. |
| `ComparisonPage.Gap` | frontend/src/components/ComparisonPage.jsx:45 | The distance from the budget is never negative. |
| `ComparisonPage.NearerPreorder` | frontend/src/components/ComparisonPage.jsx:47 | Comparing by distance from the budget is a total preorder, so the sort is well defined. |
| `ComparisonPage.Closest` | frontend/src/components/ComparisonPage.jsx:42-48 | Ten plans are kept, or all if fewer, drawn from the alternatives and sorted nearest first. No plan left out is nearer than one kept. |
| `ComparisonPage.Shortlist` | frontend/src/components/ComparisonPage.jsx:48 | Cutting a sorted list after k plans leaves out no plan nearer than one kept. |
| `ComparisonPage.InfiniteBudgetKeepsOrder` | frontend/src/components/ComparisonPage.jsx:41-48 | Against an infinite budget every plan ties, and the stable sort keeps the server's order. |
| `ComparisonPage.PriceDifference` | frontend/src/components/ComparisonPage.jsx:70-79 | A difference is shown exactly when alternatives are shown and a budget was given. A budget that is not a number gives "over budget". |
| `ComparisonPage.DifferenceIsGap` | frontend/src/components/ComparisonPage.jsx:70-79 | For a numeric budget the label agrees with the sort key. "Within budget" shows exactly at distance zero; otherwise the amount is the distance, under when cheaper and over when dearer. |
| `ComparisonPage.FormatBoolean` | frontend/src/components/ComparisonPage.jsx:81-84 | A dash exactly for `null` or `undefined`, and a tick exactly for a truthy value. |
| `ComparisonPage.FormatValue` | frontend/src/components/ComparisonPage.jsx:86-89 | A dash exactly for `null` or `undefined`; any other value is shown as it is. |
| `ComparisonPage.Names` | frontend/src/components/ComparisonPage.jsx:97 | An object's keys are its field names, in order. |
| `ComparisonPage.Dedup` | frontend/src/components/ComparisonPage.jsx:93-103 | Collecting into a `Set` gives each element once and loses none. |
| `ComparisonPage.AllFeatures` | frontend/src/components/ComparisonPage.jsx:92-104 | The feature columns have no duplicates. |
| `ComparisonPage.FlatHas` | frontend/src/components/ComparisonPage.jsx:95-101 | A key is among the gathered keys exactly when some plan with features has it. |
| `ComparisonPage.FeatureColumns` | frontend/src/components/ComparisonPage.jsx:92-104 | A column exists for exactly the keys some plan's features have. |
| `ComparisonPage.FlatAppend` | frontend/src/components/ComparisonPage.jsx:95-101 | The keys of two lists of plans are those of the first followed by those of the second. |
| `ComparisonPage.DedupPrefix` | frontend/src/components/ComparisonPage.jsx:93-103 | Adding elements at the end of the input only adds entries at the end of the `Set`. |
| `ComparisonPage.FeaturesFirstSeen` | frontend/src/components/ComparisonPage.jsx:92-104 | Columns come in first-seen order: plans added at the end only add columns at the end. |
| `ComparisonPage.Lookup` | frontend/src/components/ComparisonPage.jsx:107-132 | A label is found exactly when the table has an entry for the key, and the label found is that entry's. |
| `ComparisonPage.Capitalise` | frontend/src/components/ComparisonPage.jsx:132 | The text keeps its length. A character is upper-cased exactly when it starts a word, and every other character stays as it is. |
| `ComparisonPage.Label` | frontend/src/components/ComparisonPage.jsx:132 | A key the table knows gets the table's label. |
| `ComparisonPage.DerivedLabel` | frontend/src/components/ComparisonPage.jsx:132 | An unknown key is labelled by its own words. The label has the key's length, and underscores become spaces. Only letter case changes otherwise, and a lower-case letter that starts a word becomes a capital. |
| `ComparisonPage.SameLetters` | frontend/src/components/ComparisonPage.jsx:132 | Capitalising changes letter case only and never makes an underscore. |
| `ComparisonPage.Capitals` | frontend/src/components/ComparisonPage.jsx:132 | After the underscores become spaces, a lower-case letter at the start of the key or after an underscore or a space comes out as a capital. |
| `ComparisonPage.UpperLetter` | frontend/src/components/ComparisonPage.jsx:132 | Upper-casing a lower-case ASCII letter gives a capital. |
| `ComparisonPage.CaseOnly` | frontend/src/components/ComparisonPage.jsx:132 | Upper-casing keeps a character's lower-case form and never produces an underscore. |
| `ComparisonPage.IndexBelow` | frontend/src/components/ComparisonPage.jsx:136 | An index numeral below the length names its index, and nothing else is found. |
| `ComparisonPage.Member` | frontend/src/components/ComparisonPage.jsx:136 | `?.[key]` reads an object's property, an array's or string's `length`, and `undefined` from any other primitive, `null` or `undefined`. |
| `ComparisonPage.MemberAtIndex` | frontend/src/components/ComparisonPage.jsx:97-136 | Every index column `Object.keys` lists for array or string features reads back that element or character. |
| `ComparisonPage.FeatureCell` | frontend/src/components/ComparisonPage.jsx:135-147 | A cell is a dash exactly for a missing value and a tick or cross exactly for a boolean (a tick for `true`). It is a figure exactly for a number. Array and string features are read by index. |
| `AdminDashboard.Rejected` | frontend/src/components/AdminDashboard.jsx:87 | The rejected files are exactly the picked files whose type is not one of the five allowed document types. |
| `AdminDashboard.FileNames` | frontend/src/components/AdminDashboard.jsx:92 | The names listed are the rejected files' names, in order. |
| `AdminDashboard.FileChange` | frontend/src/components/AdminDashboard.jsx:75-100 | Picking nothing changes nothing. A pick with any file of another type empties the selection and names the rejected files in an error. Any other pick is selected whole and clears the status. |
| `AdminDashboard.SelectionAllowed` | frontend/src/components/AdminDashboard.jsx:75-100 | After any pick every selected file has an allowed type, and a pick is kept whole or not at all. |
| `AdminDashboard.StartUpload` | frontend/src/components/AdminDashboard.jsx:102-126 | The files are sent exactly when there are files, a state and an insurer name that is not blank after trimming. The name sent is the typed one when "new company" is chosen. Missing files or state give the fixed error, and every refusal is an error. |
| `AdminDashboard.SentUploadArrives` | frontend/src/components/AdminDashboard.jsx:102-129 | A request the dashboard lets through passes the route's file guard. The route receives exactly the chosen files, the state, and the insurer's name as typed (not trimmed). |
| `AdminDashboard.Arrives` | frontend/src/services/api.js:109-132 | An upload of some files with a non-empty insurer name reaches the route with those files, that state and that name. |
| `AdminDashboard.ResultsJson` | backend/routes/admin.js:133-139 | The `results` object carries the route's file counts and plan count under the names the dashboard reads. |
| `AdminDashboard.Wire` | backend/routes/admin.js:358-370 | A successful answer carries the counts under `results` and has no top-level `total_plans_added`. Only the failed-extraction and crashed answers carry `details`. |
| `AdminDashboard.AsWrittenShowsUndefined` | frontend/src/components/AdminDashboard.jsx:133 | Every successful upload is reported as "Total plans added/updated: undefined". |
| `AdminDashboard.UploadMessageCounts` | frontend/src/components/AdminDashboard.jsx:131-133 | Read from `results`, the message gives the file counts and the number of plans the route stored. |
| `AdminDashboard.ShowNat` | frontend/src/components/AdminDashboard.jsx:131-133 | A whole number in a template is written in decimal. |
| `AdminDashboard.UploadMessageAsWritten` | frontend/src/components/AdminDashboard.jsx:131-133 | When the answer has no top-level `total_plans_added`, the status line ends in "undefined". |
| `AdminDashboard.UploadMessage` | frontend/src/components/AdminDashboard.jsx:131-133 | When `results.total_plans_added` is a whole number n, the status line ends in n written in decimal. |
| `AdminDashboard.FinishWith` | frontend/src/components/AdminDashboard.jsx:128-160 | With any status-line writer: a 2xx answer resets the form and shows that writer's message, as a warning when some file failed. Any other answer shows an error and keeps the form. The upload is over either way. |
| `AdminDashboard.Finish` | frontend/src/components/AdminDashboard.jsx:128-160 | The dashboard as written: a 2xx answer resets the form and shows a success or warning with the status line read from the top level. Any other answer shows an error and keeps the form. |
| `AdminDashboard.FinishCorrected` | frontend/src/components/AdminDashboard.jsx:128-160 | With the count read from `results`, a 2xx answer shows the corrected status line. Every other answer is handled as written. |
| `AdminDashboard.FinishNotice` | frontend/src/components/AdminDashboard.jsx:131-157 | As written, every completed upload shows the counts followed by "undefined". Corrected, it shows the status line read from `results`, as a warning exactly when some file failed. An error shows the route's details when it sent non-empty ones, and the fixed message otherwise. |
| `AdminDashboard.TogglePatch` | frontend/src/components/AdminDashboard.jsx:165 | The switch asks for the opposite of the status shown. |
| `AdminDashboard.OnlyLast` | backend/routes/admin.js:437-481 | A patch that sets only the last column assigns just that column. |
| `AdminDashboard.ToggleFlips` | frontend/src/components/AdminDashboard.jsx:163-170 | The switch is never refused as empty. When the plan is updated it holds the opposite of the status the list showed, and every other column is kept. |
| `AdminDashboard.ProviderNames` | frontend/src/components/AdminDashboard.jsx:66 | The insurer names are read off the plans one for one. |
| `AdminDashboard.Providers` | frontend/src/components/AdminDashboard.jsx:66 | The insurer list is strictly sorted and holds exactly the insurers that have plans. |
| `AdminDashboard.Filtered` | frontend/src/components/AdminDashboard.jsx:32-39 | With no insurer chosen every plan is listed; otherwise exactly that insurer's plans are. |
| `AdminDashboard.Of` | frontend/src/components/AdminDashboard.jsx:395 | An insurer's plans are exactly the plans it offers. |
| `AdminDashboard.ActiveOf` | frontend/src/components/AdminDashboard.jsx:397 | The active plans are exactly the plans marked active. |
| `AdminDashboard.Line` | frontend/src/components/AdminDashboard.jsx:394-397 | An insurer's active plans are never more than its plans, which are never more than all plans. |
| `AdminDashboard.OfAppend` | frontend/src/components/AdminDashboard.jsx:395 | Adding a plan adds one to its insurer's count and leaves every other count alone. |
| `AdminDashboard.TotalAppend` | frontend/src/components/AdminDashboard.jsx:394-396 | Adding a plan adds to the table's total once for each time its insurer is listed. |
| `AdminDashboard.OccursOnce` | frontend/src/components/AdminDashboard.jsx:66 | An insurer in a list without duplicates is listed once, and an absent one not at all. |
| `AdminDashboard.Partition` | frontend/src/components/AdminDashboard.jsx:394-396 | When the insurers are distinct and cover every plan, the per-insurer counts add up to the number of plans. |
| `AdminDashboard.TotalEmpty` | frontend/src/components/AdminDashboard.jsx:394-396 | With no plans every count is zero. |
| `AdminDashboard.CountsAddUp` | frontend/src/components/AdminDashboard.jsx:382-397 | The insurer table accounts for every plan exactly once: its plan counts add up to the number of plans shown in the total line. |
| `Text.TrimStart` | backend/services/gemini.js:224 | The result is a suffix of the input, what was dropped is all white space, and the result does not start with white space. |
| `Text.TrimEnd` | backend/middleware/validation.js:90 | The result is a prefix of the input, what was dropped is all white space, and the result does not end with white space. |
| `Text.Trim` | backend/middleware/validation.js:90 | `trim()` is empty exactly for all-white-space text, and otherwise neither starts nor ends with white space. |
| `Text.TrimStartNoSpace` | backend/services/gemini.js:224 | Text that does not start with white space is left alone. |
| `Text.Lower` | backend/routes/auth.js:20 | `toLowerCase()` keeps the length and lower-cases each character on its own. |
| `Text.LowerIdempotent` | backend/routes/auth.js:20-46 | Lower-casing twice is lower-casing once, so an address stored lower-cased is found again. |
| `Text.IndexOf` | frontend/src/components/ComparisonTable.jsx:71 | The position of the first occurrence, or -1 exactly when the character does not occur. |
| `Text.LastIndexOf` | backend/routes/admin.js:73 | The position of the last occurrence, or -1 exactly when the character does not occur. |
| `Text.Split` | backend/services/gemini.js:13 | `split` gives at least one piece, and no piece contains the separator. |
| `Text.JoinSplit` | backend/services/gemini.js:13 | Joining the pieces of a split with the separator gives the text back. |
| `Text.SplitFirst` | backend/middleware/auth.js:8 | The first piece of a split is the text up to the first separator. |
| `Text.RemoveChars` | backend/services/gemini.js:225 | Removing characters keeps every other character and drops every removed one, adding none. |
| `Text.ReplaceChar` | frontend/src/components/ComparisonPage.jsx:132 | `replace(/_/g, ' ')` keeps the length and replaces exactly the occurrences of the one character. |
| `Text.BelowIrreflexive` | frontend/src/components/InteractiveComparison.jsx:38 | No text sorts before itself. |
| `Text.BelowTransitive` | frontend/src/components/InteractiveComparison.jsx:38 | The order `sort()` uses on names is transitive. |
| `Text.BelowTotal` | frontend/src/components/InteractiveComparison.jsx:38 | Of two different names, one sorts before the other. |
| `Text.Below` | frontend/src/components/InteractiveComparison.jsx:38 | When one name begins the other, it sorts first exactly when it is the shorter. |
| `Numbers.NatToString` | backend/routes/chat.js:21 | A whole number is written as digits without a leading zero, and the digits read back as that number. |
| `Numbers.IntToString` | backend/routes/chat.js:21 | A negative integer is written with a minus sign before its magnitude's digits. |
| `Numbers.JsParseInt` | backend/routes/plans.js:88 | `parseInt` gives `NaN` exactly when no digits follow the leading white space and sign. Without a minus sign the result is not negative. |
| `Numbers.Magnitude` | backend/routes/plans.js:88 | The digits part reads as `NaN` exactly when it has no leading digit, or no hex digit after a `0x` prefix. Otherwise it is a non-negative number. |
| `Numbers.ParseIntOfNat` | backend/routes/plans.js:88 | `parseInt` reads back a whole number written in decimal. |
| `Numbers.ParseDigits` | backend/routes/plans.js:88 | `parseInt` of a run of digits is the number they spell. |
| `Numbers.ParseFloatNaN` | backend/middleware/validation.js:72 | `parseFloat` gives `NaN` exactly when the text does not start, after white space, like a number. |
| `Numbers.ParseFloatOfNat` | backend/routes/plans.js:63 | `parseFloat` reads back a whole number written in decimal. |
| `Numbers.DecimalValue` | backend/routes/plans.js:63 | A decimal prefix reads as nothing exactly when the text starts with neither a digit nor a point followed by a digit. |
| `Numbers.JsParseFloat` | backend/routes/plans.js:63 | `parseFloat` gives `NaN` exactly when the text does not start like a number. |
| `Numbers.RadixValueSpec` | frontend/src/components/ComparisonTable.jsx:71 | A digit string has a value in a radix exactly when each of its characters is a digit of that radix. |
| `Numbers.StringToNumber` | frontend/src/components/ComparisonTable.jsx:129 | `Number` of blank text is 0, and it is infinite only for the text "Infinity" after an optional sign. |
| `Numbers.NumberNaN` | frontend/src/components/ComparisonTable.jsx:129 | Text whose first non-blank character after the sign is not a digit or a point, and which is not "Infinity", reads as `NaN`. |
| `Numbers.NumberOfNat` | frontend/src/components/ComparisonTable.jsx:129 | `Number` and `parseFloat` both read back a whole number written in decimal. |
| `Numbers.ToNumber` | frontend/src/components/ComparisonTable.jsx:75 | A number converts to itself, text as `Number` reads it, and objects, `undefined` and `NaN` to `NaN`. |
| `Numbers.ElementNumber` | frontend/src/components/ComparisonTable.jsx:75 | Inside a one-element array, `null` and `undefined` convert to 0, and a boolean to `NaN`. |
| `Numbers.ToNumberOfNat` | frontend/src/components/ComparisonTable.jsx:75-81 | A whole number converts to itself whether it is sent as a number, as its decimal text, or wrapped in a one-element array. |
| `Numbers.JsRound` | frontend/src/components/Questionnaire.jsx:37 | `Math.round` gives the integer within one half of the number, halves going up. |
| `Ordering.Insert` | backend/routes/plans.js:84 | Inserting into a sorted list keeps it sorted and adds one element. |
| `Ordering.InsertPermutes` | backend/routes/plans.js:84 | Insertion adds exactly the new element. |
| `Ordering.SortBy` | backend/routes/plans.js:84 | The result is sorted by the given total preorder and is a permutation of the input. |
| `Ordering.AllTies` | frontend/src/components/ComparisonPage.jsx:47 | When every pair ties, the stable sort keeps the input order. |
| `Ordering.InsertDistinct` | frontend/src/components/InteractiveComparison.jsx:38 | Adding a name to a strictly sorted list keeps it strictly sorted. |
| `Ordering.InsertDistinctElems` | frontend/src/components/InteractiveComparison.jsx:38 | Adding a name adds exactly that name, whether or not it was already there. |
| `Ordering.DistinctSorted` | frontend/src/components/InteractiveComparison.jsx:38 | `[...new Set(names)].sort()` is strictly sorted and holds exactly the names given. |
| `Ordering.StrictlySortedDistinct` | frontend/src/components/InteractiveComparison.jsx:38 | A strictly sorted list has no duplicates. |
| `Values.Get` | backend/services/gemini.js:289 | Reading a property fails exactly on `null` and `undefined`. A property an object lacks reads as `undefined`. |

## Left out

- Foreign calls are parameters and are not modelled inside. These are the language model's `generateContent`, `JSON.parse`, pdf-parse, mammoth and xlsx, bcrypt, jsonwebtoken, and the database driver's value conversions. The model proves its properties for every behaviour of these calls.
- The clock (`Date.now()`, `NOW()`, token expiry) is a parameter `now`.
- File I/O is left out: the uploads directory, saving, moving and deleting temporary files, and the cleanup paths after a failure. The file move is a parameter that may fail.
- Logging (`console.log`, `console.error`) has no effect on any answer and is left out.
- The connection pool, SSL settings and transaction isolation of the database configuration are left out. A transaction is a function that either yields the new store or fails, leaving the store as it was.
- Concurrency is left out. Two uploads for the same insurer and state at once, and two registrations of one e-mail racing between the duplicate check and the insert, are not modelled.
- `GET /api/admin/stats` (backend/routes/admin.js:538-574) and `GET /api/plans/meta/types` (backend/routes/plans.js:196-209) are left out. They are counting and listing queries that no rule of the core depends on.
- `testGeminiConnection` (backend/services/gemini.js:317-328) is left out. It is a network probe.
- ExtractionPrompt.Prompt: the extraction instructions (backend/services/gemini.js:47-163) are a parameter `template`, not the constant text. No rule inspects their wording.
- AdvisorChat.ContextWindow: the advisor instructions (backend/services/gemini.js:23-45) are likewise a parameter.
- ExtractionPrompt.Clip: counts Unicode scalar values, while `substring` and `length` count UTF-16 code units. A CSV holding characters outside the Basic Multilingual Plane is cut at a different place, and JavaScript can split a surrogate pair there.
- ReplyParser.Head: has the same scalar-versus-code-unit difference for the 200-character excerpt in the error message.
- ReplyParser.FencedReply: is stated for a body with no backtick and a preamble with no backtick or brace. A body holding three backticks in a row is itself changed by the fence stripping, so there the fenced and bare replies can differ.
- Text.Below: orders strings by Unicode scalar value, while `sort()` compares UTF-16 code units. The two orders agree unless one string has a character in U+E000–U+FFFF where the other has one outside the Basic Multilingual Plane. Ordering.DistinctSorted, InteractiveComparison.Providers and AdminDashboard.Providers inherit this.
- Text.Lower: folds ASCII letters only, while `toLowerCase` and PostgreSQL's `ILIKE` fold every cased letter. E-mail comparisons and the coverage-type search therefore differ on non-ASCII letters.
- Numbers.JsParseFloat: reads decimal text as an exact real instead of the nearest double. All the budget, premium and ratio arithmetic is over exact reals, so binary rounding is not modelled.
- Numbers.JsParseInt: values past 2^53 are exact integers here, while `parseInt` returns the nearest double.
- Numbers.ParseDigits: a run of more than about sixteen digits reads as the exact number here and as the nearest double in JavaScript.
- Numbers.ParseIntOfNat: the same holds for whole numbers past 2^53.
- Listings.Bound: a limit or offset near 2^63 is rounded to a double before PostgreSQL sees it; the model compares the exact integer with the `bigint` range.
- ChatLog.Last: assumes log order equals `created_at` order. Rows written in the same instant tie, and PostgreSQL promises no order among ties.
- `toFixed` and `toLocaleString` are display formatting and are left out. So are the affordability ratio's one-decimal text and the "AED" amounts.
- Listings.Ranked: among plans that `ORDER BY` ties, the model keeps id order. PostgreSQL promises no order among ties.
- Auth.Authenticate: a database error during the user lookup is not modelled. It happens inside the `jwt.verify` callback, outside the surrounding `try`, so the request gets no answer.
- Auth.ListStates: the rows carry the id and the name only; the `state_code` column is left out, as no rule reads it.
- ClientApi.Params: URL percent-encoding of query values is left out. The model passes each name and text as a pair, which is what the server reads back after decoding. The multipart encoding of the upload form is treated the same way.
- ComparisonPage.Lookup: `labels[key]` would also find properties inherited from `Object.prototype` (such as "constructor"). The model looks up only the table's own entries.
- ComparisonPage.Member: properties inherited from a prototype, other than an array's or a string's `length` (such as `constructor`), read as `undefined`.
- ComparisonPage.FeaturesFirstSeen: a plan's feature keys are taken in the order the server sends them. PostgreSQL's `jsonb` type reorders object keys when it stores them, which decides that order in practice.
- Chatbot.Open: message timestamps, scrolling and the suggested-question buttons' layout are left out.
- Rendering-only parts are left out: the JSX markup and CSS of every component, the PDF export, and ProviderDetailView.jsx, Register.jsx, Home.jsx and App.jsx.
- The scripts and test harnesses are left out, as are server start-up and signal handling. These are test_gemini_extraction.js, backend/test_extraction.js, backend/routes/test.js and backend/scripts/.

## Findings

| source | as written | input that shows it | evidently intended | confidence | as-written member | corrected member |
|---|---|---|---|---|---|---|
| backend/routes/admin.js:347-348 | `results.details.flatMap(d => d.plans)` puts `undefined` in the list for each failed file, whose detail has no `plans`. Then `.some(p => p.updated)` reads `updated` of `undefined` and throws. This happens after COMMIT, so the store is updated but the answer is a 500. | Two files, `notes.txt` (unsupported type, so extraction throws) and `plan.pdf` (extracts, and the model returns one plan). | Collect the plans of the successful detail only, and answer 200 with the "Created" or "Replaced" message. | high; not executed | `Ingestion.AsWrittenCrashes` | `Ingestion.UploadedMessage` |
| frontend/src/components/AdminDashboard.jsx:133 | The status line reads `result.total_plans_added`. The route sends that count only inside `results` (plus `total_plans` at the top level). | Any successful upload: the status ends "Total plans added/updated: undefined". | Read `result.results.total_plans_added`. | high; not executed | `AdminDashboard.AsWrittenShowsUndefined` | `AdminDashboard.UploadMessageCounts` |

=== FILE: admin_dashboard.dfy ===
/** The administrator's page of frontend/src/components/AdminDashboard.jsx: choosing the
    documents to upload, the guards before the upload request, the status shown for the
    route's answer, the per-insurer plan list, and the active/inactive switch. */
module AdminDashboard {
  import opened Wrappers
  import opened Values
  import Numbers
  import Text
  import Ordering
  import Documents
  import Ingestion
  import Catalog
  import PlanAdmin
  import Validation
  import ClientApi

  datatype Kind = NoStatus | Error | Info | Warning | Success

  /** The status line under the upload form. */
  datatype Notice = Notice(kind: Kind, message: string)

  const Cleared: Notice := Notice(NoStatus, [])

  // ---------------------------------------------------------------- choosing files

  const AllowedTypes: seq<string> := [
    "application/pdf",
    "application/msword",
    "application/vnd.openxmlformats-officedocument.wordprocessingml.document",
    "application/vnd.ms-excel",
    "application/vnd.openxmlformats-officedocument.spreadsheetml.sheet"]

  predicate Allowed(u: Documents.Upload) {
    u.mimetype in AllowedTypes
  }

  /** The picked files whose type is not allowed, in order. */
  function Rejected(files: seq<Documents.Upload>): (r: seq<Documents.Upload>)
    ensures forall u :: u in r <==> u in files && !Allowed(u)
    ensures |r| <= |files|
  {
    if files == [] then []
    else
      var rest := Rejected(files[..|files| - 1]);
      var last := files[|files| - 1];
      assert files == files[..|files| - 1] + [last];
      if Allowed(last) then rest else rest + [last]
  }

  function FileNames(files: seq<Documents.Upload>): (r: seq<string>)
    ensures |r| == |files| && forall i :: 0 <= i < |files| ==> r[i] == files[i].name
  {
    seq(|files|, i requires 0 <= i < |files| => files[i].name)
  }

  function InvalidMessage(rejected: seq<Documents.Upload>): string {
    "Invalid file type(s): " + Text.Join(FileNames(rejected), ", ")
      + ". Please upload only PDF, Word, or Excel files."
  }

  /** `handleFileChange`: picking nothing changes nothing; a pick with any file of another
      type clears the selection and names the offending files; otherwise the pick becomes
      the selection and the status is cleared. */
  function FileChange(selected: seq<Documents.Upload>, notice: Notice, picked: seq<Documents.Upload>)
    : (r: (seq<Documents.Upload>, Notice))
    ensures picked == [] ==> r == (selected, notice)
    ensures picked != [] && Rejected(picked) != [] ==> r == ([], Notice(Error, InvalidMessage(Rejected(picked))))
    ensures picked != [] && Rejected(picked) == [] ==> r == (picked, Cleared)
  {
    if picked == [] then (selected, notice)
    else
      var bad := Rejected(picked);
      if bad != [] then ([], Notice(Error, InvalidMessage(bad))) else (picked, Cleared)
  }

  /** The selection is all or nothing: after any pick, every selected file has an allowed
      type, and a pick is kept whole or not at all. */
  lemma SelectionAllowed(selected: seq<Documents.Upload>, notice: Notice, picked: seq<Documents.Upload>)
    requires forall u :: u in selected ==> Allowed(u)
    ensures var r := FileChange(selected, notice, picked).0;
            && (forall u :: u in r ==> Allowed(u))
            && (r == selected || r == picked || r == [])
            && (picked != [] ==> (r == picked <==> forall u :: u in picked ==> Allowed(u)))
  {
    if picked != [] && Rejected(picked) != [] {
      assert Rejected(picked)[0] in Rejected(picked);
    }
    if picked != [] && Rejected(picked) == [] {
      forall u | u in picked
        ensures Allowed(u)
      {
        assert u !in Rejected(picked);
      }
    }
  }

  // ---------------------------------------------------------------- starting an upload

  const NewProvider: string := "__new__"
  const MissingInput: string := "Please select both file(s) and a state."
  const MissingProvider: string := "Please select an existing company or enter a new company name."

  /** What pressing Upload does: show an error, or send the files, the state and the
      insurer's name. */
  datatype Attempt = Blocked(notice: Notice) | Send(files: seq<Documents.Upload>, state: string, provider: string)

  /** The name sent: the typed one when the selector is on "new company". */
  function ProviderChoice(choice: string, typed: string): string {
    if choice == NewProvider then typed else choice
  }

  /** `handleUpload` up to the request. */
  function StartUpload(files: seq<Documents.Upload>, state: string, choice: string, typed: string): (r: Attempt)
    ensures r.Send? <==> files != [] && state != [] && Text.Trim(ProviderChoice(choice, typed)) != []
    ensures r.Send? ==> r == Send(files, state, ProviderChoice(choice, typed))
    ensures files == [] || state == [] ==> r == Blocked(Notice(Error, MissingInput))
    ensures r.Blocked? ==> r.notice.kind == Error
  {
    if files == [] || state == [] then Blocked(Notice(Error, MissingInput))
    else
      var provider := ProviderChoice(choice, typed);
      if provider == [] || Text.Trim(provider) == [] then Blocked(Notice(Error, MissingProvider))
      else Send(files, state, provider)
  }

  /** A request the dashboard lets through passes the route's own guards on files and
      state: the route receives exactly the chosen files, the state, and the insurer's name
      as typed (not trimmed). */
  lemma SentUploadArrives(files: seq<Documents.Upload>, state: string, choice: string, typed: string,
                          render: Value -> string)
    requires StartUpload(files, state, choice, typed).Send?
    ensures var a := StartUpload(files, state, choice, typed);
            var req := ClientApi.Receive(ClientApi.UploadForm(ClientApi.Several(a.files), Str(a.state), Str(a.provider), render));
            && !Ingestion.NoFiles(req)
            && Ingestion.Uploads(req) == files
            && req.stateId == Some(state)
            && req.providerName == Some(ProviderChoice(choice, typed))
  {
    var a := StartUpload(files, state, choice, typed);
    assert a == Send(files, state, ProviderChoice(choice, typed));
    Arrives(files, state, a.provider, render);
  }

  lemma Arrives(files: seq<Documents.Upload>, state: string, provider: string, render: Value -> string)
    requires files != [] && provider != []
    ensures var req := ClientApi.Receive(ClientApi.UploadForm(ClientApi.Several(files), Str(state), Str(provider), render));
            && !Ingestion.NoFiles(req)
            && Ingestion.Uploads(req) == files
            && req.stateId == Some(state)
            && req.providerName == Some(provider)
  {
    ClientApi.UploadRoundTrip(ClientApi.Several(files), Str(state), Str(provider), render);
  }

  // ---------------------------------------------------------------- the route's answer

  /** The `results` object as the route sends it. */
  function ResultsJson(s: Ingestion.Summary, detail: Ingestion.Detail -> Value): (r: Value)
    ensures Prop(r, "total_plans_added") == Num(s.plansAdded as real)
    ensures Prop(r, "failed") == Num(s.failed as real)
    ensures Prop(r, "total_files") == Num(s.totalFiles as real)
    ensures Prop(r, "successful") == Num(s.successful as real)
  {
    var fields := [("total_files", Num(s.totalFiles as real)),
                   ("successful", Num(s.successful as real)),
                   ("failed", Num(s.failed as real)),
                   ("total_plans_added", Num(s.plansAdded as real)),
                   ("details", Arr(seq(|s.details|, i requires 0 <= i < |s.details| => detail(s.details[i]))))];
    FieldAt(fields, "total_files", 0);
    FieldAt(fields, "successful", 1);
    FieldAt(fields, "failed", 2);
    FieldAt(fields, "total_plans_added", 3);
    Obj(fields)
  }

  /** The JSON body of each answer of the upload route; how a detail entry is written is a
      parameter. */
  function Wire(o: Ingestion.Outcome, detail: Ingestion.Detail -> Value): (r: Value)
    ensures r.Obj?
    ensures o.Uploaded? ==> Prop(r, "results") == ResultsJson(o.results, detail)
    ensures o.Uploaded? ==> Prop(r, "total_plans_added") == Undefined
    ensures o.ExtractionFailed? || o.Crashed? ==> Prop(r, "details") == Str(o.details)
    ensures !(o.ExtractionFailed? || o.Crashed?) ==> Prop(r, "details") == Undefined
  {
    match o
    case Uploaded(message, stateName, totalPlans, results) =>
      var fields := [("message", Str(message)), ("state", Str(stateName)), ("total_plans", Num(totalPlans as real)),
                     ("results", ResultsJson(results, detail))];
      FieldAt(fields, "results", 3);
      FieldSpec(fields, "details");
      FieldSpec(fields, "total_plans_added");
      Obj(fields)
    case Refused(error) =>
      var fields := [("error", Str(error))];
      FieldSpec(fields, "details");
      Obj(fields)
    case NothingExtracted(results) =>
      var fields := [("error", Str("Failed to extract text from all files")), ("results", ResultsJson(results, detail))];
      FieldSpec(fields, "details");
      Obj(fields)
    case ExtractionFailed(details, results) =>
      var fields := [("error", Str("Failed to process files with AI")), ("details", Str(details)),
                     ("results", ResultsJson(results, detail))];
      FieldAt(fields, "details", 1);
      Obj(fields)
    case Crashed(details) =>
      var fields := [("error", Str("Failed to upload and process files")), ("details", Str(details))];
      FieldAt(fields, "details", 1);
      Obj(fields)
  }

  /** `${v}` in a template: how a value is written into text. Whole non-negative numbers
      are written in digits; the text of the remaining numbers and of arrays and objects is a
      parameter. */
  function Show(v: Value, render: Value -> string): string {
    match v
    case Undefined => "undefined"
    case Null => "null"
    case Bool(b) => if b then "true" else "false"
    case NaN => "NaN"
    case Str(s) => s
    case Num(n) => if n >= 0.0 && n.Floor as real == n then Numbers.NatToString(n.Floor) else render(v)
    case _ => render(v)
  }

  const PlansAddedLabel: string := "Total plans added/updated: "

  function Counts(results: Value, render: Value -> string): string {
    "Processed " + Show(Prop(results, "total_files"), render) + " file(s): "
      + Show(Prop(results, "successful"), render) + " successful, "
      + Show(Prop(results, "failed"), render) + " failed. "
  }

  /** The success message as the dashboard writes it: the plans count is read from the top
      level of the answer. */
  function UploadMessageAsWritten(result: Value, render: Value -> string): (r: string)
    ensures Prop(result, "total_plans_added").Undefined? ==>
              r == Counts(Prop(result, "results"), render) + PlansAddedLabel + "undefined"
  {
    Counts(Prop(result, "results"), render) + PlansAddedLabel + Show(Prop(result, "total_plans_added"), render)
  }

  /** The success message with the plans count read from `results`, where the route puts
      it. */
  function UploadMessage(result: Value, render: Value -> string): (r: string)
    ensures forall n: nat :: Prop(Prop(result, "results"), "total_plans_added") == Num(n as real) ==>
              r == Counts(Prop(result, "results"), render) + PlansAddedLabel + Numbers.NatToString(n)
  {
    var results := Prop(result, "results");
    var t := Prop(results, "total_plans_added");
    ShowNat(if t.Num? && t.n >= 0.0 then t.n.Floor else 0, render);
    Counts(results, render) + PlansAddedLabel + Show(Prop(results, "total_plans_added"), render)
  }

  /** Every successful upload is reported as "Total plans added/updated: undefined": the
      route never puts `total_plans_added` at the top level. */
  lemma AsWrittenShowsUndefined(o: Ingestion.Outcome, detail: Ingestion.Detail -> Value, render: Value -> string)
    requires o.Uploaded?
    ensures var m := UploadMessageAsWritten(Wire(o, detail), render);
            m == Counts(ResultsJson(o.results, detail), render) + PlansAddedLabel + "undefined"
  {
    assert Prop(Wire(o, detail), "results") == ResultsJson(o.results, detail);
  }

  /** Read from `results`, the message reports the file counts and the number of plans the
      route stored. */
  lemma UploadMessageCounts(o: Ingestion.Outcome, detail: Ingestion.Detail -> Value, render: Value -> string)
    requires o.Uploaded?
    ensures UploadMessage(Wire(o, detail), render) ==
              "Processed " + Numbers.NatToString(o.results.totalFiles) + " file(s): "
              + Numbers.NatToString(o.results.successful) + " successful, "
              + Numbers.NatToString(o.results.failed) + " failed. "
              + PlansAddedLabel + Numbers.NatToString(o.results.plansAdded)
  {
    assert Prop(Wire(o, detail), "results") == ResultsJson(o.results, detail);
    ShowNat(o.results.totalFiles, render);
    ShowNat(o.results.successful, render);
    ShowNat(o.results.failed, render);
    ShowNat(o.results.plansAdded, render);
  }

  lemma ShowNat(n: nat, render: Value -> string)
    ensures Show(Num(n as real), render) == Numbers.NatToString(n)
  {
    assert (n as real).Floor == n;
  }

  const UploadFailed: string := "Failed to upload and process files."

  /** The form: chosen files, state, insurer selector and typed name, the status line, and
      whether a request is in flight. */
  datatype Panel = Panel(files: seq<Documents.Upload>, state: string, choice: string, typed: string,
                         notice: Notice, uploading: bool)

  /** The rest of `handleUpload`, with the success message given: a 2xx answer shows it,
      as a warning when some file failed, and resets the form; any other answer shows its
      `details`, or a fixed message when it has none, and keeps the form. */
  function FinishWith(p: Panel, o: Ingestion.Outcome, detail: Ingestion.Detail -> Value,
                      render: Value -> string, message: Value -> string): (r: Panel)
    ensures !r.uploading
    ensures Ingestion.Status(o) == 200 ==>
              && r.files == [] && r.state == [] && r.choice == [] && r.typed == []
              && (r.notice.kind == Warning || r.notice.kind == Success)
              && r.notice.message == message(Wire(o, detail))
    ensures Ingestion.Status(o) != 200 ==> r == p.(notice := Notice(Error, r.notice.message), uploading := false)
  {
    var data := Wire(o, detail);
    if Ingestion.Status(o) == 200 then
      var failed := Prop(Prop(data, "results"), "failed");
      var kind := if failed.Num? && failed.n > 0.0 then Warning else Success;
      Panel([], [], [], [], Notice(kind, message(data)), false)
    else
      var details := Prop(data, "details");
      var text := if Truthy(details) then Show(details, render) else UploadFailed;
      p.(notice := Notice(Error, text), uploading := false)
  }

  /** `handleUpload`'s ending as the dashboard writes it: the success message reads the
      plans count from the top level of the answer. */
  function Finish(p: Panel, o: Ingestion.Outcome, detail: Ingestion.Detail -> Value, render: Value -> string)
    : (r: Panel)
    ensures !r.uploading
    ensures Ingestion.Status(o) == 200 ==>
              && r.files == [] && r.state == [] && r.choice == [] && r.typed == []
              && (r.notice.kind == Warning || r.notice.kind == Success)
    ensures Ingestion.Status(o) != 200 ==> r == p.(notice := Notice(Error, r.notice.message), uploading := false)
  {
    FinishWith(p, o, detail, render, (v: Value) => UploadMessageAsWritten(v, render))
  }

  /** The same ending with the plans count read from `results`. */
  function FinishCorrected(p: Panel, o: Ingestion.Outcome, detail: Ingestion.Detail -> Value,
                           render: Value -> string): (r: Panel)
    ensures !r.uploading
    ensures Ingestion.Status(o) == 200 ==>
              && r.files == [] && r.state == [] && r.choice == [] && r.typed == []
              && (r.notice.kind == Warning || r.notice.kind == Success)
    ensures Ingestion.Status(o) != 200 ==> r == Finish(p, o, detail, render)
  {
    FinishWith(p, o, detail, render, (v: Value) => UploadMessage(v, render))
  }

  /** The status is a warning exactly when some file failed; an error shows the route's
      details when it sent non-empty ones and the fixed message otherwise. As written, a
      success always ends in "undefined"; corrected, it gives the counts. */
  lemma FinishNotice(p: Panel, o: Ingestion.Outcome, detail: Ingestion.Detail -> Value, render: Value -> string)
    ensures var n := Finish(p, o, detail, render).notice;
            && (o.Uploaded? ==> (n.kind == Warning <==> o.results.failed > 0))
            && (o.Uploaded? ==> n.message == Counts(ResultsJson(o.results, detail), render) + PlansAddedLabel + "undefined")
            && ((o.ExtractionFailed? || o.Crashed?) && o.details != [] ==> n.message == o.details)
            && ((o.ExtractionFailed? || o.Crashed?) && o.details == [] ==> n.message == UploadFailed)
            && (o.Refused? || o.NothingExtracted? ==> n.message == UploadFailed)
    ensures var n := FinishCorrected(p, o, detail, render).notice;
            && (o.Uploaded? ==> (n.kind == Warning <==> o.results.failed > 0))
            && (o.Uploaded? ==> n.message == UploadMessage(Wire(o, detail), render))
  {
    if o.Uploaded? {
      assert Prop(Wire(o, detail), "results") == ResultsJson(o.results, detail);
      AsWrittenShowsUndefined(o, detail, render);
    }
  }

  // ---------------------------------------------------------------- the plan list

  /** A plan as the list uses it. */
  datatype Row = Row(id: int, provider: string, active: bool)

  function ProviderNames(plans: seq<Row>): (r: seq<string>)
    ensures |r| == |plans| && forall i :: 0 <= i < |plans| ==> r[i] == plans[i].provider
  {
    seq(|plans|, i requires 0 <= i < |plans| => plans[i].provider)
  }

  /** `[...new Set(plans.map(p => p.provider_name))].sort()`. */
  function Providers(plans: seq<Row>): (r: seq<string>)
    ensures Ordering.StrictlySorted(r)
    ensures forall p :: p in r <==> exists i :: 0 <= i < |plans| && plans[i].provider == p
  {
    var names := ProviderNames(plans);
    var r := Ordering.DistinctSorted(names);
    assert forall p :: p in names <==> exists i :: 0 <= i < |plans| && plans[i].provider == p by {
      forall p | p in names
        ensures exists i :: 0 <= i < |plans| && plans[i].provider == p
      {
        var i :| 0 <= i < |names| && names[i] == p;
      }
      forall p | exists i :: 0 <= i < |plans| && plans[i].provider == p
        ensures p in names
      {
        var i :| 0 <= i < |plans| && plans[i].provider == p;
        assert names[i] == p;
      }
    }
    r
  }

  /** `plans.filter(plan => plan.provider_name === provider)`. */
  function Of(plans: seq<Row>, provider: string): (r: seq<Row>)
    ensures |r| <= |plans|
    ensures forall x :: x in r <==> x in plans && x.provider == provider
  {
    if plans == [] then []
    else
      var rest := Of(plans[..|plans| - 1], provider);
      var last := plans[|plans| - 1];
      assert plans == plans[..|plans| - 1] + [last];
      if last.provider == provider then rest + [last] else rest
  }

  function ActiveOf(plans: seq<Row>): (r: seq<Row>)
    ensures |r| <= |plans|
    ensures forall x :: x in r <==> x in plans && x.active
  {
    if plans == [] then []
    else
      var rest := ActiveOf(plans[..|plans| - 1]);
      var last := plans[|plans| - 1];
      assert plans == plans[..|plans| - 1] + [last];
      if last.active then rest + [last] else rest
  }

  /** One line of the insurer table: the number of plans and of active plans. */
  function Line(plans: seq<Row>, provider: string): (r: (nat, nat))
    ensures r.1 <= r.0 <= |plans|
  {
    var mine := Of(plans, provider);
    (|mine|, |ActiveOf(mine)|)
  }

  /** `filteredPlans`: every plan when no insurer is chosen, otherwise that insurer's. */
  function Filtered(plans: seq<Row>, selected: string): (r: seq<Row>)
    ensures selected == [] ==> r == plans
    ensures selected != [] ==> forall x :: x in r <==> x in plans && x.provider == selected
  {
    if selected == [] then plans else Of(plans, selected)
  }

  function Total(providers: seq<string>, plans: seq<Row>): nat {
    if providers == [] then 0 else Total(providers[..|providers| - 1], plans) + |Of(plans, providers[|providers| - 1])|
  }

  function Occurrences(providers: seq<string>, p: string): nat {
    if providers == [] then 0
    else Occurrences(providers[..|providers| - 1], p) + (if providers[|providers| - 1] == p then 1 else 0)
  }

  lemma {:induction false} OfAppend(plans: seq<Row>, x: Row, provider: string)
    ensures |Of(plans + [x], provider)| == |Of(plans, provider)| + (if x.provider == provider then 1 else 0)
  {
    assert (plans + [x])[..|plans|] == plans;
  }

  lemma {:induction false} TotalAppend(providers: seq<string>, plans: seq<Row>, x: Row)
    ensures Total(providers, plans + [x]) == Total(providers, plans) + Occurrences(providers, x.provider)
    decreases |providers|
  {
    if providers != [] {
      TotalAppend(providers[..|providers| - 1], plans, x);
      OfAppend(plans, x, providers[|providers| - 1]);
    }
  }

  lemma {:induction false} OccursOnce(providers: seq<string>, p: string)
    requires Ordering.Distinct(providers)
    ensures Occurrences(providers, p) == if p in providers then 1 else 0
    decreases |providers|
  {
    if providers != [] {
      var init := providers[..|providers| - 1];
      OccursOnce(init, p);
      assert providers == init + [providers[|providers| - 1]];
    }
  }

  lemma {:induction false} Partition(providers: seq<string>, plans: seq<Row>)
    requires Ordering.Distinct(providers)
    requires forall i :: 0 <= i < |plans| ==> plans[i].provider in providers
    ensures Total(providers, plans) == |plans|
    decreases |plans|
  {
    if plans == [] {
      TotalEmpty(providers);
    } else {
      var init := plans[..|plans| - 1];
      var x := plans[|plans| - 1];
      assert plans == init + [x];
      Partition(providers, init);
      TotalAppend(providers, init, x);
      OccursOnce(providers, x.provider);
    }
  }

  lemma {:induction false} TotalEmpty(providers: seq<string>)
    ensures Total(providers, []) == 0
    decreases |providers|
  {
    if providers != [] {
      TotalEmpty(providers[..|providers| - 1]);
    }
  }

  /** The insurer table accounts for every plan exactly once: its plan counts add up to the
      number of plans. */
  lemma CountsAddUp(plans: seq<Row>)
    ensures Total(Providers(plans), plans) == |plans|
  {
    var providers := Providers(plans);
    Ordering.StrictlySortedDistinct(providers);
    forall i | 0 <= i < |plans|
      ensures plans[i].provider in providers
    {
    }
    Partition(providers, plans);
  }

  // ---------------------------------------------------------------- switching a plan

  /** `handleTogglePlan`: the update body `{ is_active: !currentStatus }`. */
  function TogglePatch(current: bool): (r: PlanAdmin.Patch)
    ensures r.isActive == Bool(!current)
  {
    PlanAdmin.Patch(Undefined, Undefined, Undefined, Undefined, Undefined, Undefined, Bool(!current))
  }

  lemma {:induction false} OnlyLast(p: PlanAdmin.Patch, cols: seq<PlanAdmin.Column>)
    requires cols != [] && !PlanAdmin.FieldOf(p, cols[|cols| - 1]).Undefined?
    requires forall i :: 0 <= i < |cols| - 1 ==> PlanAdmin.FieldOf(p, cols[i]).Undefined?
    ensures PlanAdmin.PresentAmong(p, cols) == [cols[|cols| - 1]]
    decreases |cols|
  {
    if |cols| > 1 {
      OnlyLast(p, cols[1..]);
    }
  }

  /** The switch is never refused as empty; when the plan is updated it holds the opposite
      of the status the list showed, and every other column is kept. */
  lemma ToggleFlips(c: Catalog.Catalog, id: string, current: bool, d: Catalog.Driver, now: int)
    ensures PlanAdmin.Present(TogglePatch(current)) == [PlanAdmin.IsActive]
    ensures var (reply, after) := PlanAdmin.Update(c, id, TogglePatch(current), d, now);
            reply.PlanUpdated? ==>
              && PlanAdmin.Read(reply.plan, PlanAdmin.IsActive) == PlanAdmin.FlagCell(Some(!current))
              && forall col :: col != PlanAdmin.IsActive ==>
                   PlanAdmin.Read(reply.plan, col) == PlanAdmin.Read(c.plans[Catalog.Integer(id, d).value], col)
  {
    var p := TogglePatch(current);
    OnlyLast(p, PlanAdmin.Columns);
    if PlanAdmin.Update(c, id, p, d, now).0.PlanUpdated? {
      PlanAdmin.UpdateEffect(c, id, p, d, now);
    }
  }
}

=== FILE: advisor_chat.dfy ===
/** `chatWithAdvisor` (backend/services/gemini.js): the advisor prompt is the fixed
    instructions, the last ten exchanges as alternating "User:" / "Assistant:" paragraphs,
    the new message, and a bare "Assistant:" for the model to continue. The instructions are
    a long constant and are a parameter here. */
module AdvisorChat {
  import opened Wrappers
  import Text

  /** One stored exchange of the conversation history. */
  datatype Exchange = Exchange(message: string, response: string)

  const Window: nat := 10
  const MockPrefix: string := "Mock reply to: "
  const Failure: string := "Failed to get response from AI advisor"
  const Separator: string := "\n\n"

  function Min(a: nat, b: nat): nat { if a <= b then a else b }

  /** `history.slice(-n)` for a positive `n`: the last `n` entries, or all of them. */
  function Recent<T>(history: seq<T>, n: nat): (r: seq<T>)
    requires n > 0
    ensures |r| == Min(|history|, n)
    ensures r == history[|history| - |r|..]
  {
    if |history| <= n then history else history[|history| - n..]
  }

  /** Each exchange as its "User:" paragraph followed by its "Assistant:" paragraph. */
  function Turns(history: seq<Exchange>): seq<string> {
    if history == [] then []
    else ["User: " + history[0].message, "Assistant: " + history[0].response] + Turns(history[1..])
  }

  /** The paragraphs of the prompt, in order. */
  function Context(system: string, history: seq<Exchange>, message: string): seq<string> {
    [system] + Turns(Recent(history, Window)) + ["User: " + message, "Assistant:"]
  }

  /** The paragraphs joined by blank lines: the instructions open the prompt. */
  function ChatPrompt(system: string, history: seq<Exchange>, message: string): (r: string)
    ensures Text.IsPrefix(system + Separator, r)
  {
    var c := Context(system, history, message);
    assert c == [system] + c[1..];
    Text.JoinCons(system, c[1..], Separator);
    Text.Join(c, Separator)
  }

  /** Two paragraphs per exchange: the user's message, then the stored reply. */
  lemma {:induction false} TurnsSpec(history: seq<Exchange>)
    ensures |Turns(history)| == 2 * |history|
    ensures forall k :: 0 <= k < |history| ==>
              Turns(history)[2 * k] == "User: " + history[k].message
              && Turns(history)[2 * k + 1] == "Assistant: " + history[k].response
  {
    if history != [] {
      TurnsSpec(history[1..]);
      var t := Turns(history);
      forall k | 1 <= k < |history|
        ensures t[2 * k] == "User: " + history[k].message
        ensures t[2 * k + 1] == "Assistant: " + history[k].response
      {
        assert t[2 * k] == Turns(history[1..])[2 * (k - 1)];
        assert t[2 * k + 1] == Turns(history[1..])[2 * (k - 1) + 1];
      }
    }
  }

  /** The prompt opens with the instructions and closes with the new message and a bare
      "Assistant:"; in between are two paragraphs per remembered exchange. */
  lemma ContextFrame(system: string, history: seq<Exchange>, message: string)
    ensures var c := Context(system, history, message);
            && |c| == 2 * Min(|history|, Window) + 3
            && c[0] == system
            && c[|c| - 2] == "User: " + message
            && c[|c| - 1] == "Assistant:"
  {
    TurnsSpec(Recent(history, Window));
  }

  /** The remembered exchanges are the last `min(n, 10)`, replayed oldest first. */
  lemma ContextWindow(system: string, history: seq<Exchange>, message: string)
    ensures var c := Context(system, history, message);
            var w := Min(|history|, Window);
            var recent := history[|history| - w..];
            && |c| == 2 * w + 3
            && forall k :: 0 <= k < |recent| ==>
                 c[1 + 2 * k] == "User: " + recent[k].message
                 && c[2 + 2 * k] == "Assistant: " + recent[k].response
  {
    var recent := Recent(history, Window);
    var t := Turns(recent);
    TurnsSpec(recent);
    var c := Context(system, history, message);
    assert c == [system] + t + ["User: " + message, "Assistant:"];
    forall k | 0 <= k < |recent|
      ensures c[1 + 2 * k] == "User: " + recent[k].message
      ensures c[2 + 2 * k] == "Assistant: " + recent[k].response
    {
      assert c[1 + 2 * k] == t[2 * k] && c[2 + 2 * k] == t[2 * k + 1];
    }
  }

  /** Older exchanges beyond the window do not reach the model. */
  lemma OlderForgotten(system: string, older: seq<Exchange>, history: seq<Exchange>, message: string)
    requires |history| >= Window
    ensures ChatPrompt(system, older + history, message) == ChatPrompt(system, history, message)
  {
    var h := older + history;
    assert h[|h| - Window..] == history[|history| - Window..];
  }

  /** `chatWithAdvisor(message, history)`: `mock` is the MOCK_GEMINI switch, `generate` the
      model call. Any failure of the call becomes the one advisor error. */
  function ChatWithAdvisor(system: string, history: seq<Exchange>, message: string, mock: bool,
                           generate: string -> Result<string>): (r: Result<string>)
    ensures mock ==> r == Ok(MockPrefix + message)
    ensures r.Err? ==> !mock && r.message == Failure
    ensures !mock && r.Ok? ==> r.value == [] || (!Text.IsJsSpace(r.value[0]) && !Text.IsJsSpace(r.value[|r.value| - 1]))
  {
    if mock then Ok(MockPrefix + message)
    else
      match generate(ChatPrompt(system, history, message))
      case Ok(text) => Ok(Text.Trim(text))
      case Err(_) => Err(Failure)
  }

  /** Outside mock mode the reply succeeds exactly when the model answers the prompt. */
  lemma AdvisorOutcome(system: string, history: seq<Exchange>, message: string,
                       generate: string -> Result<string>)
    ensures ChatWithAdvisor(system, history, message, false, generate).Ok?
            <==> generate(ChatPrompt(system, history, message)).Ok?
  {
  }
}

=== FILE: auth.dfy ===
/** Accounts and access: `authenticateToken`, `requireAdmin`, `generateToken` and
    `verifyToken` of backend/middleware/auth.js, and the register and login routes of
    backend/routes/auth.js, and its states listing. Password hashing and token signing are foreign and are
    parameters; so is the clock behind a token's expiry. */
module Auth {
  import opened Wrappers
  import opened Values
  import Text
  import Catalog
  import Validation
  import Ordering

  /** One row of the users table. E-mails are stored lower-cased. */
  datatype User = User(email: string, hash: string, fullName: Option<string>, state: Option<int>,
                       role: string, created: int)

  /** The users by id, with the next id the sequence will issue. */
  datatype Accounts = Accounts(users: map<nat, User>, nextUser: nat)

  /** Every id was issued before, every stored e-mail is lower case, and no two users share
      an e-mail. */
  predicate Valid(a: Accounts) {
    && (forall k :: k in a.users ==> k < a.nextUser && Text.Lower(a.users[k].email) == a.users[k].email)
    && (forall j, k :: j in a.users && k in a.users && a.users[j].email == a.users[k].email ==> j == k)
  }

  /** `bcrypt.hash(data, rounds)` and `bcrypt.compare(data, hash)`. */
  datatype Crypto = Crypto(hash: (string, nat) -> string, compare: (string, string) -> bool)

  /** The token payload. */
  datatype Claims = Claims(userId: nat, email: string, role: string)

  /** `jwt.sign(payload, secret, { expiresIn })` and `jwt.verify(token, secret)`, with the
      secret and the clock folded in; `verify` yields `None` where the library throws. */
  datatype Signer = Signer(sign: (Claims, string) -> string, verify: string -> Option<Claims>)

  const SaltRounds: nat := 10
  const DefaultExpiry: string := "24h"

  /** `process.env.JWT_EXPIRY || '24h'`. */
  function Expiry(setting: Option<string>): (r: string)
    ensures r != []
    ensures setting.Some? && setting.value != [] ==> r == setting.value
  {
    if setting.Some? && setting.value != [] then setting.value else DefaultExpiry
  }

  /** A signer whose `verify` reads back every payload its `sign` put in, whatever the
      expiry (the clock being folded in, as for a token checked before it expires). */
  ghost predicate ReadsBack(signer: Signer) {
    forall c: Claims, e: string :: signer.verify(signer.sign(c, e)) == Some(c)
  }

  /** `generateToken(userId, email, role)`: a token that verifies to the user's id, e-mail
      and role. */
  function GenerateToken(signer: Signer, expiry: Option<string>, id: nat, email: string, role: string): (r: string)
    ensures ReadsBack(signer) ==> signer.verify(r) == Some(Claims(id, email, role))
  {
    signer.sign(Claims(id, email, role), Expiry(expiry))
  }

  // ---------------------------------------------------------------- middleware

  /** What the access middleware decides: go on with the user, or answer with an error. */
  datatype Access = Granted(id: nat, user: User) | Denied(status: nat, error: string)

  const TokenRequired: string := "Access token required"
  const BadToken: string := "Invalid or expired token"
  const UnknownUser: string := "User not found"
  const LoginRequired: string := "Authentication required"
  const AdminRequired: string := "Admin access required"

  /** `authHeader && authHeader.split(' ')[1]`, `None` when falsy: the second space-separated
      piece of the header. The scheme word in front is not looked at. */
  function TokenOf(header: Option<string>): (r: Option<string>)
    ensures r.Some? ==> r.value != [] && ' ' !in r.value
  {
    if header.None? || header.value == [] then None
    else
      var parts := Text.Split(header.value, ' ');
      if |parts| >= 2 && parts[1] != [] then Some(parts[1]) else None
  }

  /** A header of one word, a space and a token without spaces yields the token, whatever
      the word is. */
  lemma BearerToken(scheme: string, token: string)
    requires ' ' !in scheme && ' ' !in token
    ensures TokenOf(Some(scheme + " " + token)) == if token == [] then None else Some(token)
  {
    Text.SplitFirst(scheme, token, ' ');
    assert Text.Split(token, ' ') == [token];
  }

  /** A header without a space, or with two spaces after the scheme, carries no token. */
  lemma NoToken(word: string, rest: string)
    requires ' ' !in word
    ensures TokenOf(Some(word)) == None
    ensures TokenOf(Some(word + "  " + rest)) == None
  {
    assert Text.Split(word, ' ') == [word];
    assert word + "  " + rest == word + " " + (" " + rest);
    Text.SplitFirst(word, " " + rest, ' ');
    LeadingSpace(rest);
  }

  lemma LeadingSpace(rest: string)
    ensures Text.Split(" " + rest, ' ')[0] == []
  {
    assert (" " + rest)[0] == ' ';
  }

  /** `authenticateToken`: a missing token is 401, a token that does not verify 403, a
      token for a user that no longer exists 404. */
  function Authenticate(a: Accounts, header: Option<string>, signer: Signer): (r: Access)
    ensures r.Granted? <==> TokenOf(header).Some? && signer.verify(TokenOf(header).value).Some?
                            && signer.verify(TokenOf(header).value).value.userId in a.users
    ensures r.Granted? ==> r.id in a.users && r.user == a.users[r.id]
                           && signer.verify(TokenOf(header).value).value.userId == r.id
    ensures r.Denied? ==> r.status in {401, 403, 404}
  {
    match TokenOf(header)
    case None => Denied(401, TokenRequired)
    case Some(token) =>
      match signer.verify(token)
      case None => Denied(403, BadToken)
      case Some(claims) =>
        if claims.userId in a.users then Granted(claims.userId, a.users[claims.userId])
        else Denied(404, UnknownUser)
  }

  /** `requireAdmin` on the user the previous middleware attached, if any. */
  function RequireAdmin(user: Option<User>): (r: Option<Access>)
    ensures r.None? <==> user.Some? && user.value.role == "admin"
  {
    if user.None? then Some(Denied(401, LoginRequired))
    else if user.value.role != "admin" then Some(Denied(403, AdminRequired))
    else None
  }

  /** `authenticateToken` followed by `requireAdmin`, as the admin routes mount them. */
  function AdminAccess(a: Accounts, header: Option<string>, signer: Signer): (r: Access)
    ensures r.Granted? ==> r.user.role == "admin"
  {
    match Authenticate(a, header, signer)
    case Denied(s, e) => Denied(s, e)
    case Granted(id, user) =>
      match RequireAdmin(Some(user))
      case None => Granted(id, user)
      case Some(denied) => denied
  }

  /** The admin routes are reached exactly with a verifying token of an existing user whose
      role is "admin"; an ordinary user is refused with 403. */
  lemma AdminAccessSpec(a: Accounts, header: Option<string>, signer: Signer)
    ensures var r := AdminAccess(a, header, signer);
            var auth := Authenticate(a, header, signer);
            && (r.Granted? <==> auth.Granted? && auth.user.role == "admin")
            && (auth.Granted? && auth.user.role != "admin" ==> r == Denied(403, AdminRequired))
            && (auth.Denied? ==> r == auth)
  {
  }

  /** `verifyToken`: the claims, or `null` when verification throws. */
  function VerifyToken(signer: Signer, token: string): (r: Option<Claims>)
    ensures r.Some? ==> signer.verify(token) == r
    ensures r.None? ==> signer.verify(token).None?
  {
    signer.verify(token)
  }

  // ---------------------------------------------------------------- routes

  datatype Reply =
    | Registered(token: string, id: nat, user: User)
    | LoggedIn(token: string, id: nat, user: User)
    | Failed(status: nat, error: string)

  const EmailTaken: string := "Email already registered"
  const BadState: string := "Invalid state ID"
  const RegisterFailure: string := "Failed to register user"
  const BadCredentials: string := "Invalid email or password"
  const LoginFailure: string := "Failed to login"

  /** `SELECT ... FROM users WHERE email = $1` over the ids below `n`: the lowest id with
      that e-mail. */
  function Lookup(a: Accounts, email: string, n: nat): (r: Option<nat>)
    ensures r.Some? ==> r.value < n && r.value in a.users && a.users[r.value].email == email
    ensures r.Some? ==> forall k :: k < r.value && k in a.users ==> a.users[k].email != email
    ensures r.None? ==> forall k :: k < n && k in a.users ==> a.users[k].email != email
  {
    if n == 0 then None
    else
      match Lookup(a, email, n - 1)
      case Some(k) => Some(k)
      case None => if n - 1 in a.users && a.users[n - 1].email == email then Some(n - 1) else None
  }

  predicate Registers(a: Accounts, email: string) {
    exists k :: k in a.users && a.users[k].email == email
  }

  /** With every id issued below `nextUser`, the lookup finds an e-mail exactly when some
      user has it. */
  lemma LookupComplete(a: Accounts, email: string)
    requires Valid(a)
    ensures Lookup(a, email, a.nextUser).Some? <==> Registers(a, email)
  {
  }

  /** `POST /register`: the registration gate (400), then the lower-cased e-mail must be
      free (409), then the state must exist (400); the password is hashed with ten rounds
      and the new user gets the role "user" and a token. `toLowerCase` and the hash throw
      on a non-string, which ends in 500, as does a state id the server cannot read. */
  function Register(a: Accounts, states: map<int, string>, email: Value, password: Value,
                    fullName: Value, stateId: Value, d: Catalog.Driver, crypto: Crypto,
                    signer: Signer, expiry: Option<string>, now: int): (r: (Reply, Accounts))
    ensures r.0.Failed? ==> r.1 == a
    ensures r.0.Failed? ==> r.0.status in {400, 409, 500}
    ensures !r.0.LoggedIn?
    ensures r.0.Registered? ==>
              && email.Str? && password.Str?
              && r.0.id == a.nextUser && r.0.user.email == Text.Lower(email.s)
              && r.0.user.role == "user" && r.0.user.created == now
              && r.0.user.hash == crypto.hash(password.s, SaltRounds)
              && r.0.user.state.Some? && r.0.user.state.value in states
              && r.0.token == GenerateToken(signer, expiry, r.0.id, r.0.user.email, "user")
              && r.1 == Accounts(a.users[a.nextUser := r.0.user], a.nextUser + 1)
    ensures r.0.Registered? ==> forall k :: k < a.nextUser && k in a.users ==> a.users[k].email != r.0.user.email
    ensures r.0.Registered? ==> Validation.Login(email, password, d.render).Pass?
  {
    match Validation.Registration(email, password, fullName, stateId, d.render)
    case Reject(e) => (Failed(400, e), a)
    case Pass =>
      if !email.Str? then (Failed(500, RegisterFailure), a)
      else
        var lowered := Text.Lower(email.s);
        if Lookup(a, lowered, a.nextUser).Some? then (Failed(409, EmailTaken), a)
        else
          match Catalog.Param(stateId, d)
          case None => (Failed(500, RegisterFailure), a)
          case Some(t) =>
            match Catalog.Integer(t, d)
            case Err(_) => (Failed(500, RegisterFailure), a)
            case Ok(state) =>
              if state !in states then (Failed(400, BadState), a)
              else if !password.Str? then (Failed(500, RegisterFailure), a)
              else
                var user := User(lowered, crypto.hash(password.s, SaltRounds), Catalog.Param(fullName, d),
                                 Some(state), "user", now);
                var id := a.nextUser;
                (Registered(GenerateToken(signer, expiry, id, lowered, "user"), id, user),
                 Accounts(a.users[id := user], id + 1))
  }

  /** Registration keeps e-mails lower case and unique. */
  lemma RegisterValid(a: Accounts, states: map<int, string>, email: Value, password: Value,
                      fullName: Value, stateId: Value, d: Catalog.Driver, crypto: Crypto,
                      signer: Signer, expiry: Option<string>, now: int)
    requires Valid(a)
    ensures Valid(Register(a, states, email, password, fullName, stateId, d, crypto, signer, expiry, now).1)
  {
    var r := Register(a, states, email, password, fullName, stateId, d, crypto, signer, expiry, now);
    if r.0.Registered? {
      Text.LowerIdempotent(email.s);
      InsertValid(a, r.0.user);
    }
  }

  /** A new lower-case e-mail no user has keeps the accounts valid. */
  lemma InsertValid(a: Accounts, user: User)
    requires Valid(a) && Text.Lower(user.email) == user.email
    requires forall k :: k < a.nextUser && k in a.users ==> a.users[k].email != user.email
    ensures Valid(Accounts(a.users[a.nextUser := user], a.nextUser + 1))
  {
  }

  /** An e-mail some user has, in any letter case, is refused with 409 before the state is
      looked at, and nothing is written. */
  lemma RegisterDuplicate(a: Accounts, states: map<int, string>, email: string, password: Value,
                          fullName: Value, stateId: Value, d: Catalog.Driver, crypto: Crypto,
                          signer: Signer, expiry: Option<string>, now: int)
    requires Valid(a) && Registers(a, Text.Lower(email))
    requires Validation.Registration(Str(email), password, fullName, stateId, d.render).Pass?
    ensures Register(a, states, Str(email), password, fullName, stateId, d, crypto, signer, expiry, now)
            == (Failed(409, EmailTaken), a)
  {
    LookupComplete(a, Text.Lower(email));
  }

  /** `POST /login`: the login gate (400); an unknown e-mail and a wrong password give the
      same 401; `toLowerCase` and the comparison throw on a non-string, which ends in 500. */
  function Login(a: Accounts, email: Value, password: Value, crypto: Crypto, signer: Signer,
                 expiry: Option<string>, render: Value -> string): (r: Reply)
    ensures !r.Registered?
    ensures r.Failed? ==> r.status in {400, 401, 500}
    ensures r.LoggedIn? ==>
              && email.Str? && password.Str?
              && r.id in a.users && r.user == a.users[r.id]
              && r.user.email == Text.Lower(email.s)
              && crypto.compare(password.s, r.user.hash)
              && r.token == GenerateToken(signer, expiry, r.id, r.user.email, r.user.role)
  {
    match Validation.Login(email, password, render)
    case Reject(e) => Failed(400, e)
    case Pass =>
      if !email.Str? then Failed(500, LoginFailure)
      else
        match Lookup(a, Text.Lower(email.s), a.nextUser)
        case None => Failed(401, BadCredentials)
        case Some(id) =>
          var user := a.users[id];
          if !password.Str? then Failed(500, LoginFailure)
          else if !crypto.compare(password.s, user.hash) then Failed(401, BadCredentials)
          else LoggedIn(GenerateToken(signer, expiry, id, user.email, user.role), id, user)
  }

  /** The reply does not tell an unknown e-mail from a wrong password. */
  lemma LoginUniform(a: Accounts, unknown: string, known: string, password: string, crypto: Crypto,
                     signer: Signer, expiry: Option<string>, render: Value -> string)
    requires Valid(a)
    requires Validation.Login(Str(unknown), Str(password), render).Pass?
    requires Validation.Login(Str(known), Str(password), render).Pass?
    requires !Registers(a, Text.Lower(unknown))
    requires forall k :: k in a.users && a.users[k].email == Text.Lower(known) ==>
               !crypto.compare(password, a.users[k].hash)
    ensures Login(a, Str(unknown), Str(password), crypto, signer, expiry, render) == Failed(401, BadCredentials)
    ensures Login(a, Str(known), Str(password), crypto, signer, expiry, render) == Failed(401, BadCredentials)
  {
    LookupComplete(a, Text.Lower(unknown));
    LoginRefused(a, known, password, crypto, signer, expiry, render);
  }

  lemma LoginRefused(a: Accounts, email: string, password: string, crypto: Crypto,
                     signer: Signer, expiry: Option<string>, render: Value -> string)
    requires Validation.Login(Str(email), Str(password), render).Pass?
    requires forall k :: k in a.users && a.users[k].email == Text.Lower(email) ==>
               !crypto.compare(password, a.users[k].hash)
    ensures Login(a, Str(email), Str(password), crypto, signer, expiry, render) == Failed(401, BadCredentials)
  {
  }

  /** Login with an e-mail the lookup finds and the password `compare` accepts. */
  lemma LoginFinds(b: Accounts, email: string, password: string, id: nat, crypto: Crypto,
                   signer: Signer, expiry: Option<string>, render: Value -> string)
    requires Validation.Login(Str(email), Str(password), render).Pass?
    requires Lookup(b, Text.Lower(email), b.nextUser) == Some(id)
    requires crypto.compare(password, b.users[id].hash)
    ensures Login(b, Str(email), Str(password), crypto, signer, expiry, render)
            == LoggedIn(GenerateToken(signer, expiry, id, b.users[id].email, b.users[id].role), id, b.users[id])
  {
  }

  /** The account a registration creates can log in at once with the same e-mail and
      password, given a hash that `compare` accepts. */
  lemma RegisterThenLogin(a: Accounts, states: map<int, string>, email: string, password: string,
                          fullName: Value, stateId: Value, d: Catalog.Driver, crypto: Crypto,
                          signer: Signer, expiry: Option<string>, now: int)
    requires crypto.compare(password, crypto.hash(password, SaltRounds))
    requires Register(a, states, Str(email), Str(password), fullName, stateId, d, crypto, signer, expiry, now).0.Registered?
    ensures var (reply, after) := Register(a, states, Str(email), Str(password), fullName, stateId, d, crypto,
                                           signer, expiry, now);
            Login(after, Str(email), Str(password), crypto, signer, expiry, d.render)
            == LoggedIn(reply.token, reply.id, reply.user)
  {
    var (reply, after) := Register(a, states, Str(email), Str(password), fullName, stateId, d, crypto,
                                   signer, expiry, now);
    var e := Text.Lower(email);
    assert Lookup(after, e, a.nextUser).None?;
    assert Lookup(after, e, after.nextUser) == Some(a.nextUser);
    LoginFinds(after, email, password, a.nextUser, crypto, signer, expiry, d.render);
  }

  // ---------------------------------------------------------------- states

  /** Rows compared by state name under the database's collation `le`. */
  function ByName(le: (string, string) -> bool): ((int, string), (int, string)) -> bool {
    (x: (int, string), y: (int, string)) => le(x.1, y.1)
  }

  lemma ByNamePreorder(le: (string, string) -> bool)
    requires Ordering.TotalPreorder(le)
    ensures Ordering.TotalPreorder(ByName(le))
  {
    var named := ByName(le);
    forall a, b
      ensures named(a, b) || named(b, a)
    {
      assert le(a.1, b.1) || le(b.1, a.1);
    }
    forall a, b, c | named(a, b) && named(b, c)
      ensures named(a, c)
    {
      assert le(a.1, b.1) && le(b.1, c.1);
    }
  }

  /** `GET /states`: the rows of the states table (id and name, in storage order) ordered
      by name. The collation is the database's and is a parameter; states sharing a name
      come in no promised order. */
  function ListStates(table: seq<(int, string)>, le: (string, string) -> bool): (r: seq<(int, string)>)
    requires Ordering.TotalPreorder(le)
    ensures Ordering.SortedBy(r, ByName(le))
    ensures multiset(r) == multiset(table)
  {
    ByNamePreorder(le);
    Ordering.SortBy(table, ByName(le))
  }

  /** Every row is listed, as often as it is stored and with nothing added, and the names
      come in collation order. */
  lemma ListStatesSpec(table: seq<(int, string)>, le: (string, string) -> bool)
    requires Ordering.TotalPreorder(le)
    ensures var r := ListStates(table, le);
            && |r| == |table|
            && (forall row :: row in table <==> row in r)
            && (forall i, j :: 0 <= i < j < |r| ==> le(r[i].1, r[j].1))
  {
    var r := ListStates(table, le);
    assert |r| == |multiset(r)| == |multiset(table)| == |table|;
    forall row
      ensures row in table <==> row in r
    {
      assert row in table <==> row in multiset(table);
      assert row in r <==> row in multiset(r);
    }
    forall i, j | 0 <= i < j < |r|
      ensures le(r[i].1, r[j].1)
    {
      assert ByName(le)(r[i], r[j]);
    }
  }
}

=== FILE: catalog.dfy ===
/** The relational store as the plan routes see it: states, providers and plans, with the
    column conversions the database driver and the server apply to bound parameters, and
    the replacement transaction of backend/routes/admin.js (find or create the provider,
    delete the pair's plans, insert the new ones). A transaction is a function that either
    yields the new store or fails, so a failure leaves the store as it was. */
module Catalog {
  import opened Wrappers
  import opened Values

  /** The foreign conversions between JavaScript values and column values: the text the
      driver sends for a non-string parameter, the server's input syntax for integer,
      numeric and boolean columns (`None` when it rejects the text), and `JSON.stringify`. */
  datatype Driver = Driver(
    render: Value -> string,
    integer: string -> Option<int>,
    numeric: string -> Option<real>,
    boolean: string -> Option<bool>,
    stringify: Value -> string)

  /** The text sent for a parameter; `None` is SQL NULL, which `null` and `undefined` become. */
  function Param(v: Value, d: Driver): (r: Option<string>)
    ensures r.None? <==> v.Null? || v.Undefined?
  {
    match v
    case Null => None
    case Undefined => None
    case Str(s) => Some(s)
    case _ => Some(d.render(v))
  }

  function Invalid(kind: string, t: string): string {
    "invalid input syntax for type " + kind + ": \"" + t + "\""
  }

  /** A parameter bound to a numeric column: NULL stays NULL, a number is stored as is, any
      other text goes through the server's numeric input, which may reject it. */
  function Numeric(v: Value, d: Driver): (r: Result<Option<real>>)
    ensures r.Ok? && r.value.None? <==> v.Null? || v.Undefined?
  {
    if v.Num? then Ok(Some(v.n))
    else
      match Param(v, d)
      case None => Ok(None)
      case Some(t) => if d.numeric(t).Some? then Ok(d.numeric(t)) else Err(Invalid("numeric", t))
  }

  /** A parameter bound to a boolean column. */
  function Flag(v: Value, d: Driver): Result<Option<bool>> {
    if v.Bool? then Ok(Some(v.b))
    else
      match Param(v, d)
      case None => Ok(None)
      case Some(t) => if d.boolean(t).Some? then Ok(d.boolean(t)) else Err(Invalid("boolean", t))
  }

  /** A text parameter bound to an integer column (an id taken from a URL or a form). */
  function Integer(t: string, d: Driver): (r: Result<int>)
    ensures r.Ok? <==> d.integer(t).Some?
  {
    if d.integer(t).Some? then Ok(d.integer(t).value) else Err(Invalid("integer", t))
  }

  /** One row of the plans table. Text columns hold `None` for NULL; the feature list and
      the benefits table are kept as the values that were bound; `agePricing` and
      `structured` hold JSON text. `active` is `None` when the column was set to NULL. */
  datatype PlanRow = PlanRow(
    provider: nat,
    state: int,
    name: Option<string>,
    planType: Option<string>,
    monthlyCost: Option<real>,
    annualCost: Option<real>,
    deductible: Option<real>,
    maxCoverage: Option<real>,
    coverageType: Option<string>,
    features: Value,
    eligibility: Option<string>,
    exclusions: Option<string>,
    source: string,
    benefitsTable: Value,
    agePricing: Option<string>,
    structured: string,
    active: Option<bool>,
    created: int,
    updated: int)

  /** States by id with their names; providers by id, the id being the position (provider
      rows are only ever added); plans by id, with the next id the sequence will issue. */
  datatype Catalog = Catalog(
    states: map<int, string>,
    providers: seq<Option<string>>,
    plans: map<nat, PlanRow>,
    nextPlan: nat)

  /** Every plan id was issued before and every plan names an existing provider. */
  predicate Valid(c: Catalog) {
    forall k :: k in c.plans ==> k < c.nextPlan && c.plans[k].provider < |c.providers|
  }

  predicate InPair(row: PlanRow, provider: nat, state: int) {
    row.provider == provider && row.state == state
  }

  /** `SELECT id FROM providers WHERE name = $1`: the first provider of that name; a NULL
      name matches nothing. */
  function FindProvider(names: seq<Option<string>>, name: Option<string>): (r: Option<nat>)
    ensures r.Some? ==> r.value < |names| && names[r.value] == name && name.Some?
    ensures r.Some? ==> forall j :: 0 <= j < r.value ==> names[j] != name
    ensures r.None? ==> name.None? || name !in names
  {
    if name.None? || names == [] then None
    else if names[0] == name then Some(0)
    else
      match FindProvider(names[1..], name)
      case None => None
      case Some(i) => Some(i + 1)
  }

  /** The provider of that name, created when there is none. */
  function Resolve(names: seq<Option<string>>, name: Option<string>): (r: (seq<Option<string>>, nat))
    ensures r.1 < |r.0| && r.0[r.1] == name
    ensures FindProvider(names, name).Some? ==> r == (names, FindProvider(names, name).value)
    ensures FindProvider(names, name).None? ==> r == (names + [name], |names|)
  {
    match FindProvider(names, name)
    case Some(i) => (names, i)
    case None => (names + [name], |names|)
  }

  /** The row `INSERT INTO plans` writes for one extracted plan: reading a field of a null
      plan throws; the four cost columns go through numeric input; the benefits table is
      NULL when falsy, the age pricing NULL when falsy and JSON text otherwise, the
      structured features '{}' when falsy and JSON text otherwise; the row is active. */
  function NewRow(plan: Value, provider: nat, state: int, source: string, d: Driver, now: int)
    : (r: Result<PlanRow>)
    ensures r.Ok? ==> InPair(r.value, provider, state) && r.value.active == Some(true)
    ensures r.Ok? ==> r.value.source == source && r.value.created == now
    ensures plan.Null? || plan.Undefined? ==> r.Err?
  {
    if plan.Null? || plan.Undefined? then Err(Get(plan, "plan_name").message)
    else
      var monthly :- Numeric(Prop(plan, "monthly_cost"), d);
      var annual :- Numeric(Prop(plan, "annual_cost"), d);
      var deductible :- Numeric(Prop(plan, "deductible"), d);
      var coverage :- Numeric(Prop(plan, "max_coverage"), d);
      var benefits := Prop(plan, "benefits_table");
      var pricing := Prop(plan, "age_based_pricing");
      var structured := Prop(plan, "structured_features");
      Ok(PlanRow(
        provider, state,
        Param(Prop(plan, "plan_name"), d), Param(Prop(plan, "plan_type"), d),
        monthly, annual, deductible, coverage,
        Param(Prop(plan, "coverage_type"), d), Prop(plan, "features"),
        Param(Prop(plan, "eligibility_criteria"), d), Param(Prop(plan, "exclusions"), d),
        source,
        if Truthy(benefits) then benefits else Null,
        if Truthy(pricing) then Some(d.stringify(pricing)) else None,
        if Truthy(structured) then d.stringify(structured) else "{}",
        Some(true), now, now))
  }

  /** The rows for all extracted plans, in order; the first plan that cannot be written
      fails the whole list. */
  function Rows(plans: seq<Value>, provider: nat, state: int, source: string, d: Driver, now: int)
    : (r: Result<seq<PlanRow>>)
    ensures r.Ok? ==> |r.value| == |plans|
  {
    if plans == [] then Ok([])
    else
      var first :- NewRow(plans[0], provider, state, source, d, now);
      var rest :- Rows(plans[1..], provider, state, source, d, now);
      Ok([first] + rest)
  }

  /** Each row is the one written for the plan at the same position, and the list is
      written exactly when every plan can be. */
  lemma {:induction false} RowsSpec(plans: seq<Value>, provider: nat, state: int, source: string, d: Driver, now: int)
    ensures var r := Rows(plans, provider, state, source, d, now);
            r.Ok? <==> forall i :: 0 <= i < |plans| ==> NewRow(plans[i], provider, state, source, d, now).Ok?
    ensures var r := Rows(plans, provider, state, source, d, now);
            r.Ok? ==> forall i :: 0 <= i < |plans| ==> NewRow(plans[i], provider, state, source, d, now) == Ok(r.value[i])
  {
    if plans != [] {
      RowsSpec(plans[1..], provider, state, source, d, now);
      var r := Rows(plans, provider, state, source, d, now);
      forall i | 1 <= i < |plans|
        ensures plans[i] == plans[1..][i - 1]
      {
      }
    }
  }

  /** `DELETE FROM plans WHERE provider_id = $1 AND state_id = $2`. */
  function Without(plans: map<nat, PlanRow>, provider: nat, state: int): map<nat, PlanRow> {
    map k | k in plans && !InPair(plans[k], provider, state) :: plans[k]
  }

  /** The ids of the pair's plans. */
  function PairIds(plans: map<nat, PlanRow>, provider: nat, state: int): set<nat> {
    set k | k in plans && InPair(plans[k], provider, state)
  }

  /** The ids `next` to `next + n - 1`. */
  function Fresh(next: nat, n: nat): (r: set<nat>)
    ensures forall i :: i in r <==> next <= i < next + n
    ensures |r| == n
  {
    if n == 0 then {} else Fresh(next, n - 1) + {next + n - 1}
  }

  /** The rows inserted one after another, under ids `next`, `next + 1`, ... */
  function Append<R>(m: map<nat, R>, next: nat, rows: seq<R>): map<nat, R>
    decreases |rows|
  {
    if rows == [] then m else Append(m[next := rows[0]], next + 1, rows[1..])
  }

  /** What a committed replacement produced: the new store, the provider id, the number of
      rows the delete removed, and the inserted rows (ids `from`, `from + 1`, ...). */
  datatype Replacement = Replacement(after: Catalog, provider: nat, deleted: nat, from: nat, rows: seq<PlanRow>)

  /** The replacement transaction: find or create the provider, delete every plan of the
      (provider, state) pair, insert one active row per extracted plan. */
  function Replace(c: Catalog, name: Option<string>, state: int, plans: seq<Value>, source: string, d: Driver, now: int)
    : (r: Result<Replacement>)
    ensures r.Ok? ==> r.value.from == c.nextPlan && |r.value.rows| == |plans|
    ensures r.Ok? ==> r.value.deleted == |PairIds(c.plans, r.value.provider, state)|
  {
    var (providers, provider) := Resolve(c.providers, name);
    var rows :- Rows(plans, provider, state, source, d, now);
    var kept := Without(c.plans, provider, state);
    var after := Catalog(c.states, providers, Append(kept, c.nextPlan, rows), c.nextPlan + |rows|);
    Ok(Replacement(after, provider, |PairIds(c.plans, provider, state)|, c.nextPlan, rows))
  }

  /** Every new row belongs to the pair, is active and records the document source. */
  lemma RowsInPair(plans: seq<Value>, provider: nat, state: int, source: string, d: Driver, now: int, rows: seq<PlanRow>)
    requires Rows(plans, provider, state, source, d, now) == Ok(rows)
    ensures forall i :: 0 <= i < |rows| ==>
              InPair(rows[i], provider, state) && rows[i].active == Some(true) && rows[i].source == source
  {
    RowsSpec(plans, provider, state, source, d, now);
  }

  /** The new rows take the fresh ids in order and every other id keeps its row. */
  lemma {:induction false} AppendSpec<R>(m: map<nat, R>, next: nat, rows: seq<R>)
    ensures forall k :: k in Append(m, next, rows) <==> k in m || next <= k < next + |rows|
    ensures forall k :: k in m && !(next <= k < next + |rows|) ==> Append(m, next, rows)[k] == m[k]
    ensures forall i :: 0 <= i < |rows| ==> Append(m, next, rows)[next + i] == rows[i]
    decreases |rows|
  {
    if rows != [] {
      AppendSpec(m[next := rows[0]], next + 1, rows[1..]);
      forall i | 0 <= i < |rows|
        ensures next + i in Append(m, next, rows) && Append(m, next, rows)[next + i] == rows[i]
      {
        if i > 0 {
          assert rows[1..][i - 1] == rows[i];
          assert next + i == (next + 1) + (i - 1);
        }
      }
    }
  }

  /** Id `k` holds `row`. */
  predicate Holds(plans: map<nat, PlanRow>, k: int, row: PlanRow) {
    k in plans && plans[k] == row
  }

  /** Ids `next`, `next + 1`, ... hold `rows` in order. */
  predicate InOrder(plans: map<nat, PlanRow>, next: nat, rows: seq<PlanRow>) {
    forall i :: 0 <= i < |rows| ==> Holds(plans, next + i, rows[i])
  }

  predicate AllInPair(rows: seq<PlanRow>, provider: nat, state: int) {
    forall i :: 0 <= i < |rows| ==> InPair(rows[i], provider, state)
  }

  /** The table after the pair's rows are deleted and `rows` appended. */
  function Swap(m: map<nat, PlanRow>, provider: nat, state: int, next: nat, rows: seq<PlanRow>): map<nat, PlanRow> {
    Append(Without(m, provider, state), next, rows)
  }

  /** Rows of other pairs survive a swap unchanged, and a swap adds none. */
  lemma SwapOthers(m: map<nat, PlanRow>, provider: nat, state: int, next: nat, rows: seq<PlanRow>)
    requires forall k :: k in m ==> k < next
    requires AllInPair(rows, provider, state)
    ensures var a := Swap(m, provider, state, next, rows);
            forall k :: k in m && !InPair(m[k], provider, state) ==> k in a && a[k] == m[k]
    ensures var a := Swap(m, provider, state, next, rows);
            forall k :: k in a && !InPair(a[k], provider, state) ==> k in m && a[k] == m[k]
  {
    var kept := Without(m, provider, state);
    AppendSpec(kept, next, rows);
    var a := Swap(m, provider, state, next, rows);
    forall k | k in a && next <= k < next + |rows|
      ensures InPair(a[k], provider, state)
    {
      assert a[k] == rows[k - next];
    }
  }

  /** After a swap the pair's ids are exactly the fresh ones, holding the new rows in order. */
  lemma SwapPair(m: map<nat, PlanRow>, provider: nat, state: int, next: nat, rows: seq<PlanRow>)
    requires forall k :: k in m ==> k < next
    requires AllInPair(rows, provider, state)
    ensures PairIds(Swap(m, provider, state, next, rows), provider, state) == Fresh(next, |rows|)
  {
    var kept := Without(m, provider, state);
    AppendSpec(kept, next, rows);
    var a := Swap(m, provider, state, next, rows);
    forall k | next <= k < next + |rows|
      ensures k in PairIds(a, provider, state)
    {
      assert a[k] == rows[k - next];
    }
  }

  /** The new rows take the fresh ids in order. */
  lemma SwapInOrder(m: map<nat, PlanRow>, a: map<nat, PlanRow>, provider: nat, state: int, next: nat, rows: seq<PlanRow>)
    requires a == Swap(m, provider, state, next, rows)
    ensures InOrder(a, next, rows)
  {
    AppendSpec(Without(m, provider, state), next, rows);
    forall i | 0 <= i < |rows|
      ensures Holds(a, next + i, rows[i])
    {
      assert next + i in a;
    }
  }

  /** The committed store, spelled out. */
  lemma ReplaceShape(c: Catalog, name: Option<string>, state: int, plans: seq<Value>, source: string, d: Driver, now: int)
    requires Replace(c, name, state, plans, source, d, now).Ok?
    ensures var r := Replace(c, name, state, plans, source, d, now).value;
            && r.provider == Resolve(c.providers, name).1
            && Rows(plans, r.provider, state, source, d, now) == Ok(r.rows)
            && AllInPair(r.rows, r.provider, state)
            && r.after == Catalog(c.states, Resolve(c.providers, name).0,
                                  Swap(c.plans, r.provider, state, c.nextPlan, r.rows),
                                  c.nextPlan + |r.rows|)
  {
    var r := Replace(c, name, state, plans, source, d, now).value;
    RowsInPair(plans, r.provider, state, source, d, now, r.rows);
  }

  /** Replacement touches nothing outside its pair: every plan of another (provider, state)
      pair keeps its id and its row, and no such plan appears. States are unchanged and
      providers are only ever added. */
  lemma ReplaceKeepsOthers(c: Catalog, name: Option<string>, state: int, plans: seq<Value>, source: string, d: Driver, now: int)
    requires Valid(c)
    requires Replace(c, name, state, plans, source, d, now).Ok?
    ensures var r := Replace(c, name, state, plans, source, d, now).value;
            && r.after.states == c.states
            && |c.providers| <= |r.after.providers| && r.after.providers[..|c.providers|] == c.providers
            && (forall k :: k in c.plans && !InPair(c.plans[k], r.provider, state) ==>
                  k in r.after.plans && r.after.plans[k] == c.plans[k])
            && (forall k :: k in r.after.plans && !InPair(r.after.plans[k], r.provider, state) ==>
                  k in c.plans && r.after.plans[k] == c.plans[k])
  {
    var r := Replace(c, name, state, plans, source, d, now).value;
    ReplaceShape(c, name, state, plans, source, d, now);
    SwapOthers(c.plans, r.provider, state, c.nextPlan, r.rows);
  }

  /** After replacement the pair's ids are exactly the fresh ones. */
  lemma ReplaceExact(c: Catalog, name: Option<string>, state: int, plans: seq<Value>, source: string, d: Driver, now: int)
    requires Valid(c)
    requires Replace(c, name, state, plans, source, d, now).Ok?
    ensures var r := Replace(c, name, state, plans, source, d, now).value;
            PairIds(r.after.plans, r.provider, state) == Fresh(r.from, |r.rows|)
  {
    var r := Replace(c, name, state, plans, source, d, now).value;
    ReplaceShape(c, name, state, plans, source, d, now);
    SwapPair(c.plans, r.provider, state, c.nextPlan, r.rows);
  }

  /** The fresh ids hold the new rows in order, each of them active. */
  lemma ReplaceInOrder(c: Catalog, name: Option<string>, state: int, plans: seq<Value>, source: string, d: Driver, now: int,
                       r: Replacement)
    requires Replace(c, name, state, plans, source, d, now) == Ok(r)
    ensures InOrder(r.after.plans, r.from, r.rows)
    ensures forall i :: 0 <= i < |r.rows| ==>
              r.rows[i].active == Some(true) && r.rows[i].source == source && InPair(r.rows[i], r.provider, state)
  {
    ReplaceShape(c, name, state, plans, source, d, now);
    RowsInPair(plans, r.provider, state, source, d, now, r.rows);
    SwapInOrder(c.plans, r.after.plans, r.provider, state, r.from, r.rows);
  }

  /** The i-th new row is the one written for the i-th extracted plan. */
  lemma ReplaceRows(c: Catalog, name: Option<string>, state: int, plans: seq<Value>, source: string, d: Driver, now: int)
    requires Replace(c, name, state, plans, source, d, now).Ok?
    ensures var r := Replace(c, name, state, plans, source, d, now).value;
            forall i :: 0 <= i < |plans| ==> NewRow(plans[i], r.provider, state, source, d, now) == Ok(r.rows[i])
  {
    var r := Replace(c, name, state, plans, source, d, now).value;
    ReplaceShape(c, name, state, plans, source, d, now);
    RowsSpec(plans, r.provider, state, source, d, now);
  }

  /** The provider is found by exact name when it exists and created otherwise; either way
      its row carries the name. */
  lemma ReplaceProvider(c: Catalog, name: Option<string>, state: int, plans: seq<Value>, source: string, d: Driver, now: int)
    requires Replace(c, name, state, plans, source, d, now).Ok?
    ensures var r := Replace(c, name, state, plans, source, d, now).value;
            && r.provider < |r.after.providers| && r.after.providers[r.provider] == name
            && (name.Some? ==> forall j :: 0 <= j < r.provider ==> r.after.providers[j] != name)
            && (FindProvider(c.providers, name).Some? ==>
                  r.provider == FindProvider(c.providers, name).value && r.after.providers == c.providers)
            && (FindProvider(c.providers, name).None? ==>
                  r.provider == |c.providers| && r.after.providers == c.providers + [name])
  {
    ReplaceShape(c, name, state, plans, source, d, now);
    var r := Replace(c, name, state, plans, source, d, now).value;
    if FindProvider(c.providers, name).None? && name.Some? {
      forall j | 0 <= j < r.provider
        ensures r.after.providers[j] != name
      {
        assert r.after.providers[j] == c.providers[j] && c.providers[j] in c.providers;
      }
    }
  }

  /** A replacement fails exactly when one of the extracted plans cannot be written. */
  lemma ReplaceFails(c: Catalog, name: Option<string>, state: int, plans: seq<Value>, source: string, d: Driver, now: int)
    ensures var provider := Resolve(c.providers, name).1;
            Replace(c, name, state, plans, source, d, now).Err?
            <==> exists i :: 0 <= i < |plans| && NewRow(plans[i], provider, state, source, d, now).Err?
  {
    var provider := Resolve(c.providers, name).1;
    RowsSpec(plans, provider, state, source, d, now);
  }

  /** Replacement keeps the store well formed. */
  lemma ReplaceValid(c: Catalog, name: Option<string>, state: int, plans: seq<Value>, source: string, d: Driver, now: int)
    requires Valid(c)
    requires Replace(c, name, state, plans, source, d, now).Ok?
    ensures Valid(Replace(c, name, state, plans, source, d, now).value.after)
  {
    var r := Replace(c, name, state, plans, source, d, now).value;
    ReplaceShape(c, name, state, plans, source, d, now);
    SwapOthers(c.plans, r.provider, state, c.nextPlan, r.rows);
    SwapPair(c.plans, r.provider, state, c.nextPlan, r.rows);
    forall k | k in r.after.plans
      ensures k < r.after.nextPlan && r.after.plans[k].provider < |r.after.providers|
    {
      if InPair(r.after.plans[k], r.provider, state) {
        assert k in PairIds(r.after.plans, r.provider, state);
      }
    }
  }

  /** Replacing twice with the same input under a non-NULL provider name finds the same
      provider the second time, deletes the rows the first run inserted, and leaves the pair
      with the same rows. (A NULL name matches no provider, so each run creates one.) */
  lemma ReplaceIdempotent(c: Catalog, name: Option<string>, state: int, plans: seq<Value>, source: string, d: Driver, now: int)
    requires Valid(c) && name.Some?
    requires Replace(c, name, state, plans, source, d, now).Ok?
    ensures var r1 := Replace(c, name, state, plans, source, d, now).value;
            var r2 := Replace(r1.after, name, state, plans, source, d, now);
            && r2.Ok?
            && r2.value.provider == r1.provider
            && r2.value.rows == r1.rows
            && r2.value.deleted == |plans|
  {
    var r1 := Replace(c, name, state, plans, source, d, now).value;
    ReplaceProvider(c, name, state, plans, source, d, now);
    ReplaceExact(c, name, state, plans, source, d, now);
    ReplaceShape(c, name, state, plans, source, d, now);
    ProviderFound(r1.after.providers, name, r1.provider);
  }

  /** A name whose first occurrence is at `i` is found at `i`. */
  lemma ProviderFound(names: seq<Option<string>>, name: Option<string>, i: nat)
    requires name.Some? && i < |names| && names[i] == name
    requires forall j :: 0 <= j < i ==> names[j] != name
    ensures FindProvider(names, name) == Some(i)
  {
    assert names[i] in names;
    var k := FindProvider(names, name).value;
    assert !(k < i) && !(i < k);
  }
}

=== FILE: chat_log.dfy ===
/** The advisor chat routes of backend/routes/chat.js over the chat_history table: posting
    a message (the advisor sees the last ten exchanges of the same session, and the
    exchange is stored only once there is a reply), reading a user's history, and clearing
    one session. */
module ChatLog {
  import opened Wrappers
  import opened Values
  import Text
  import Numbers
  import Listings
  import AdvisorChat

  /** One stored exchange. The table is kept in insertion order, which is also the order of
      `created_at`. */
  datatype Entry = Entry(user: nat, session: string, message: string, response: string, created: int)

  datatype Reply =
    | Answered(reply: string, session: string)
    | History(entries: seq<Entry>, count: nat)
    | Failed(status: nat, error: string)

  const MessageRequired: string := "Message is required"
  const HistoryFailure: string := "Failed to fetch chat history"
  const ContextSize: nat := 10
  const DefaultLimit: nat := 50

  /** The exchanges of one user, restricted to one session when one is given, in order. */
  function Mine(log: seq<Entry>, user: nat, session: Option<string>): (r: seq<Entry>)
    ensures |r| <= |log|
    ensures forall i :: 0 <= i < |r| ==> r[i].user == user && (session.Some? ==> r[i].session == session.value)
    ensures forall e :: e in r ==> e in log
  {
    if log == [] then []
    else
      var e := log[|log| - 1];
      Mine(log[..|log| - 1], user, session)
        + (if e.user == user && (session.None? || e.session == session.value) then [e] else [])
  }

  /** An exchange of the user (and session) is kept, anything else is dropped. */
  lemma {:induction false} MineMembers(log: seq<Entry>, user: nat, session: Option<string>)
    ensures forall e :: e in Mine(log, user, session) <==>
              e in log && e.user == user && (session.None? || e.session == session.value)
  {
    if log != [] {
      MineMembers(log[..|log| - 1], user, session);
      assert log == log[..|log| - 1] + [log[|log| - 1]];
    }
  }

  /** `ORDER BY created_at DESC LIMIT n` read back in reverse: the last `n` rows. */
  function Last<T>(s: seq<T>, n: nat): (r: seq<T>)
    ensures |r| == if n <= |s| then n else |s|
    ensures r == s[|s| - |r|..]
  {
    if n <= |s| then s[|s| - n..] else s
  }

  function Exchanges(entries: seq<Entry>): (r: seq<AdvisorChat.Exchange>)
    ensures |r| == |entries|
    ensures forall i :: 0 <= i < |r| ==> r[i] == AdvisorChat.Exchange(entries[i].message, entries[i].response)
  {
    seq(|entries|, i requires 0 <= i < |entries| => AdvisorChat.Exchange(entries[i].message, entries[i].response))
  }

  /** `session_id || \`session_${user}_${Date.now()}\``: a given session, or a new one named
      after the user and the clock. */
  function SessionOf(session: Value, user: nat, now: int, render: Value -> string): string {
    if Truthy(session) then (if session.Str? then session.s else render(session))
    else "session_" + Numbers.NatToString(user) + "_" + Numbers.IntToString(now)
  }

  /** `POST /api/chat`: a missing or blank message is 400 (and a message that is not a
      string fails `trim`, which ends in 500); otherwise the advisor gets the last ten
      exchanges of the session, oldest first, and the exchange is stored only after it
      answers. */
  function Post(log: seq<Entry>, user: nat, message: Value, session: Value, now: int,
                render: Value -> string, system: string, mock: bool,
                generate: string -> Result<string>): (r: (Reply, seq<Entry>))
    ensures r.0.Failed? ==> r.1 == log
    ensures r.0.Failed? ==> r.0.status in {400, 500}
    ensures !Truthy(message) ==> r.0 == Failed(400, MessageRequired)
    ensures message.Str? && Text.Trim(message.s) == [] ==> r.0 == Failed(400, MessageRequired)
    ensures r.0.Answered? ==>
              && message.Str? && Text.Trim(message.s) != []
              && r.0.session == SessionOf(session, user, now, render)
              && r.1 == log + [Entry(user, r.0.session, message.s, r.0.reply, now)]
              && AdvisorChat.ChatWithAdvisor(system, Context(log, user, r.0.session), message.s, mock, generate)
                 == Ok(r.0.reply)
    ensures r.0.Answered? || r.0.Failed?
  {
    if !Truthy(message) then (Failed(400, MessageRequired), log)
    else if !message.Str? then (Failed(500, AdvisorChat.Failure), log)
    else if Text.Trim(message.s) == [] then (Failed(400, MessageRequired), log)
    else
      var id := SessionOf(session, user, now, render);
      match AdvisorChat.ChatWithAdvisor(system, Context(log, user, id), message.s, mock, generate)
      case Err(e) => (Failed(500, AdvisorChat.Failure), log)
      case Ok(reply) => (Answered(reply, id), log + [Entry(user, id, message.s, reply, now)])
  }

  /** The history the advisor sees: the session's last ten exchanges, oldest first. */
  function Context(log: seq<Entry>, user: nat, session: string): (r: seq<AdvisorChat.Exchange>)
    ensures |r| <= ContextSize
  {
    Exchanges(Last(Mine(log, user, Some(session)), ContextSize))
  }

  /** Only the user's own exchanges of that session reach the advisor, the most recent ones,
      in the order they were made. */
  lemma ContextSpec(log: seq<Entry>, user: nat, session: string)
    ensures var mine := Mine(log, user, Some(session));
            var r := Context(log, user, session);
            && |r| == (if |mine| <= ContextSize then |mine| else ContextSize)
            && forall i :: 0 <= i < |r| ==>
                 var e := mine[|mine| - |r| + i];
                 && e in log && e.user == user && e.session == session
                 && r[i] == AdvisorChat.Exchange(e.message, e.response)
  {
    var mine := Mine(log, user, Some(session));
    var r := Context(log, user, session);
    forall j | |mine| - |r| <= j < |mine|
      ensures mine[j] in log
    {
      assert mine[j] in mine;
    }
  }

  /** `GET /api/chat/history`: the user's newest `limit` exchanges (50 by default), of one
      session when one is given, in chronological order. A limit that does not parse, or is
      negative, fails the query. */
  function Read(log: seq<Entry>, user: nat, session: Option<string>, limit: Option<string>): (r: Reply)
    ensures r.History? || r.Failed?
    ensures r.Failed? ==> r == Failed(500, HistoryFailure)
    ensures r.History? ==> Listings.Bound(limit, DefaultLimit).Ok?
                           && r.count == |r.entries| <= Listings.Bound(limit, DefaultLimit).value
    ensures r.History? ==> forall e :: e in r.entries ==> e in log && e.user == user
    ensures r.History? && session.Some? && session.value != [] ==>
              forall i :: 0 <= i < |r.entries| ==> r.entries[i].session == session.value
  {
    match Listings.Bound(limit, DefaultLimit)
    case Err(_) => Failed(500, HistoryFailure)
    case Ok(n) =>
      var filter := if session.Some? && session.value != [] then session else None;
      var rows := Last(Mine(log, user, filter), n);
      assert forall e :: e in rows ==> e in Mine(log, user, filter);
      History(rows, |rows|)
  }

  /** The history read: the newest `limit` of the user's exchanges (of the session, when a
      non-empty one is given), oldest first, each as stored; the exchanges kept are
      exactly the log's exchanges of that user and session. */
  lemma ReadSpec(log: seq<Entry>, user: nat, session: Option<string>, limit: Option<string>)
    requires Listings.Bound(limit, DefaultLimit).Ok?
    ensures var filter := if session.Some? && session.value != [] then session else None;
            var page := Last(Mine(log, user, filter), Listings.Bound(limit, DefaultLimit).value);
            Read(log, user, session, limit) == History(page, |page|)
    ensures var filter := if session.Some? && session.value != [] then session else None;
            forall e :: e in Mine(log, user, filter) <==>
              e in log && e.user == user && (filter.None? || e.session == filter.value)
  {
    var filter := if session.Some? && session.value != [] then session else None;
    MineMembers(log, user, filter);
  }

  /** The exchanges kept are the matching ones, at increasing positions of the log: the
      history is in the order the exchanges were stored. */
  lemma {:induction false} MineInOrder(log: seq<Entry>, user: nat, session: Option<string>) returns (at: seq<nat>)
    ensures var mine := Mine(log, user, session);
            && |at| == |mine|
            && (forall i :: 0 <= i < |at| ==> at[i] < |log| && log[at[i]] == mine[i])
            && (forall i, j :: 0 <= i < j < |at| ==> at[i] < at[j])
  {
    if log == [] {
      at := [];
    } else {
      var init := log[..|log| - 1];
      var e := log[|log| - 1];
      var before := MineInOrder(init, user, session);
      if e.user == user && (session.None? || e.session == session.value) {
        at := before + [|log| - 1];
      } else {
        at := before;
      }
    }
  }

  /** A posted exchange is the newest entry of its session's history. */
  lemma PostThenRead(log: seq<Entry>, user: nat, message: Value, session: Value, now: int,
                     render: Value -> string, system: string, mock: bool,
                     generate: string -> Result<string>, limit: Option<string>)
    requires Post(log, user, message, session, now, render, system, mock, generate).0.Answered?
    requires Listings.Bound(limit, DefaultLimit).Ok? && Listings.Bound(limit, DefaultLimit).value > 0
    ensures var (reply, after) := Post(log, user, message, session, now, render, system, mock, generate);
            var h := Read(after, user, Some(reply.session), limit);
            && h.History? && h.entries != []
            && h.entries[|h.entries| - 1] == Entry(user, reply.session, message.s, reply.reply, now)
  {
    var (reply, after) := Post(log, user, message, session, now, render, system, mock, generate);
    ReadAppended(log, Entry(user, reply.session, message.s, reply.reply, now), limit);
  }

  lemma ReadAppended(log: seq<Entry>, e: Entry, limit: Option<string>)
    requires Listings.Bound(limit, DefaultLimit).Ok? && Listings.Bound(limit, DefaultLimit).value > 0
    ensures var h := Read(log + [e], e.user, Some(e.session), limit);
            h.History? && h.entries != [] && h.entries[|h.entries| - 1] == e
  {
    var filter := if e.session != [] then Some(e.session) else None;
    MineAppended(log, e, filter);
    var mine := Mine(log + [e], e.user, filter);
    var n := Listings.Bound(limit, DefaultLimit).value;
    assert Last(mine, n)[|Last(mine, n)| - 1] == mine[|mine| - 1];
  }

  /** A new exchange that passes the filter ends the filtered history. */
  lemma MineAppended(log: seq<Entry>, e: Entry, filter: Option<string>)
    requires filter.None? || filter == Some(e.session)
    ensures Mine(log + [e], e.user, filter) == Mine(log, e.user, filter) + [e]
  {
    assert (log + [e])[..|log|] == log;
  }

  /** `DELETE /api/chat/history/:session_id`: every exchange of that user and session. */
  function Clear(log: seq<Entry>, user: nat, session: string): (r: seq<Entry>)
    ensures |r| <= |log|
    ensures forall e :: e in r ==> e in log && !(e.user == user && e.session == session)
  {
    if log == [] then []
    else
      var e := log[|log| - 1];
      Clear(log[..|log| - 1], user, session) + (if e.user == user && e.session == session then [] else [e])
  }

  /** Clearing empties that session of that user and leaves every other user's and every
      other session's history exactly as it was. */
  lemma {:induction false} ClearSpec(log: seq<Entry>, user: nat, session: string, other: nat, kept: Option<string>)
    ensures Mine(Clear(log, user, session), user, Some(session)) == []
    ensures other != user || (kept.Some? && kept.value != session) ==>
              Mine(Clear(log, user, session), other, kept) == Mine(log, other, kept)
  {
    if log != [] {
      ClearSpec(log[..|log| - 1], user, session, other, kept);
      var c := Clear(log, user, session);
      var e := log[|log| - 1];
      var rest := Clear(log[..|log| - 1], user, session);
      if !(e.user == user && e.session == session) {
        assert c[..|c| - 1] == rest && c[|c| - 1] == e;
      } else {
        assert c == rest;
      }
    }
  }
}

=== FILE: chatbot.dfy ===
/** The advisor chat window of frontend/src/components/Chatbot.jsx: a message list that
    opens with a welcome, a send action that ignores blank input and a second send while a
    reply is awaited, and exactly one answer or apology per request. */
module Chatbot {
  import opened Wrappers
  import opened Values
  import Numbers
  import Text
  import ChatLog

  datatype Role = UserRole | AssistantRole

  /** One bubble of the conversation; the timestamps are left out. */
  datatype Message = Message(role: Role, content: string, isError: bool)

  /** The component state: the messages shown, the input box, whether a request is in
      flight, and the session id. */
  datatype Window = Window(messages: seq<Message>, input: string, loading: bool, session: string)

  const Apology: string := "I apologize, but I'm having trouble responding right now. Please try again in a moment."

  function Welcome(fullName: string, stateName: string): string {
    "Hello " + fullName + "! I'm your AI Insurance Advisor. I can help you understand insurance concepts, "
      + "explain plan details, and answer any questions you have about insurance in " + stateName
      + ". How can I assist you today?"
  }

  /** `session_${user.id}_${Date.now()}`. */
  function SessionId(user: nat, now: int): string {
    "session_" + Numbers.NatToString(user) + "_" + Numbers.IntToString(now)
  }

  /** The window when it first opens. */
  function Open(user: nat, now: int, fullName: string, stateName: string): (w: Window)
    ensures |w.messages| == 1 && w.messages[0].role == AssistantRole && !w.loading
  {
    Window([Message(AssistantRole, Welcome(fullName, stateName), false)], [], false, SessionId(user, now))
  }

  /** The client names its session the way the server names one it has to invent, so
      both sides agree on the format. */
  lemma SessionAsServer(user: nat, now: int, render: Value -> string)
    ensures SessionId(user, now) == ChatLog.SessionOf(Null, user, now, render)
  {
  }

  /** `handleSend` up to the request: blank input or a request in flight does nothing;
      otherwise the trimmed text is shown as the user's message, the input is cleared, and
      the trimmed text is what is sent. */
  function Send(w: Window): (r: (Window, Option<string>))
    ensures r.1.None? <==> Text.Trim(w.input) == [] || w.loading
    ensures r.1.None? ==> r.0 == w
    ensures r.1.Some? ==>
              && r.1.value == Text.Trim(w.input) && r.1.value != []
              && r.0 == Window(w.messages + [Message(UserRole, r.1.value, false)], [], true, w.session)
  {
    if Text.Trim(w.input) == [] || w.loading then (w, None)
    else
      var text := Text.Trim(w.input);
      (Window(w.messages + [Message(UserRole, text, false)], [], true, w.session), Some(text))
  }

  /** The rest of `handleSend`: the reply, or the apology flagged as an error when the
      request failed, and the window stops waiting. */
  function Settle(w: Window, reply: Option<string>): (r: Window)
    ensures |r.messages| == |w.messages| + 1 && r.messages[..|w.messages|] == w.messages
    ensures r.messages[|w.messages|].role == AssistantRole
    ensures r.messages[|w.messages|].isError <==> reply.None?
    ensures reply.Some? ==> r.messages[|w.messages|].content == reply.value
    ensures !r.loading && r.input == w.input && r.session == w.session
  {
    var m := match reply
      case Some(text) => Message(AssistantRole, text, false)
      case None => Message(AssistantRole, Apology, true);
    assert (w.messages + [m])[..|w.messages|] == w.messages;
    w.(messages := w.messages + [m], loading := false)
  }

  /** What can happen to the window: typing (or picking a suggested question), pressing
      Send, and the answer to the request in flight arriving. */
  datatype Event = Type(text: string) | Press | Answer(reply: Option<string>)

  /** One event: the earlier messages stay in place, at most one is added, and the window
      keeps its session. */
  function Step(w: Window, e: Event): (r: Window)
    ensures w.messages <= r.messages && |r.messages| <= |w.messages| + 1
    ensures r.session == w.session
  {
    match e
    case Type(text) => w.(input := text)
    case Press => Send(w).0
    case Answer(reply) => if w.loading then Settle(w, reply) else w
  }

  /** A run of events: the list only grows, by at most one message per event, and the
      session never changes. */
  function Run(w: Window, events: seq<Event>): (r: Window)
    ensures w.messages <= r.messages && |r.messages| <= |w.messages| + |events|
    ensures r.session == w.session
    decreases |events|
  {
    if events == [] then w else Run(Step(w, events[0]), events[1..])
  }

  function Count(ms: seq<Message>, role: Role): nat {
    if ms == [] then 0 else Count(ms[..|ms| - 1], role) + (if ms[|ms| - 1].role == role then 1 else 0)
  }

  /** Every user message but the one awaiting its answer has been answered: after the
      welcome, user messages and answers alternate. */
  predicate Balanced(w: Window) {
    && w.messages != [] && w.messages[0].role == AssistantRole
    && Count(w.messages, UserRole) + 1 == Count(w.messages, AssistantRole) + (if w.loading then 1 else 0)
  }

  lemma CountAppend(ms: seq<Message>, m: Message, role: Role)
    ensures Count(ms + [m], role) == Count(ms, role) + (if m.role == role then 1 else 0)
  {
    assert (ms + [m])[..|ms|] == ms;
  }

  lemma StepBalanced(w: Window, e: Event)
    requires Balanced(w)
    ensures Balanced(Step(w, e))
    ensures w.messages <= Step(w, e).messages
  {
    match e
    case Type(_) =>
    case Press =>
      if Send(w).1.Some? {
        CountAppend(w.messages, Message(UserRole, Send(w).1.value, false), UserRole);
        CountAppend(w.messages, Message(UserRole, Send(w).1.value, false), AssistantRole);
      }
    case Answer(reply) =>
      if w.loading {
        var r := Settle(w, reply);
        assert r.messages == w.messages + [r.messages[|w.messages|]];
        CountAppend(w.messages, r.messages[|w.messages|], UserRole);
        CountAppend(w.messages, r.messages[|w.messages|], AssistantRole);
      }
  }

  /** From the moment the window opens, whatever happens: the list only grows (earlier
      messages stay, in place), it still starts with the welcome, and there is exactly one
      answer or apology per message sent, except for the one awaiting its answer. */
  lemma {:induction false} RunAppendOnly(w: Window, events: seq<Event>)
    requires Balanced(w)
    ensures Balanced(Run(w, events))
    ensures w.messages <= Run(w, events).messages
    decreases |events|
  {
    if events != [] {
      StepBalanced(w, events[0]);
      RunAppendOnly(Step(w, events[0]), events[1..]);
    }
  }

  lemma OpenBalanced(user: nat, now: int, fullName: string, stateName: string)
    ensures Balanced(Open(user, now, fullName, stateName))
  {
    var w := Open(user, now, fullName, stateName);
    assert w.messages[..0] == [];
  }
}

=== FILE: client_api.dfy ===
/** The browser side of the API in frontend/src/services/api.js: how filters become query
    parameters, how an upload becomes a multipart form, the delete URL, the chat requests,
    and the two interceptors that attach the stored token and forget it on a 401. Each is
    connected to what the server reads from the request. */
module ClientApi {
  import opened Wrappers
  import opened Values
  import Documents
  import Validation
  import Ingestion
  import Catalog
  import PlanAdmin
  import Auth
  import ChatLog
  import Text

  // ---------------------------------------------------------------- query parameters

  /** A filter value is appended unless it is `undefined` or `null`, and, on the plan search
      side, unless it is the empty string. */
  predicate Sent(v: Value, dropEmpty: bool) {
    !v.Undefined? && !v.Null? && !(dropEmpty && v == Str([]))
  }

  /** The keys of a JavaScript object are distinct. */
  predicate UniqueKeys(filters: seq<(string, Value)>) {
    forall i, j :: 0 <= i < j < |filters| ==> filters[i].0 != filters[j].0
  }

  /** `Object.keys(filters).forEach(... params.append(key, filters[key]))`: the kept filters,
      in order, each value turned into text. `plansAPI.getPlans` drops empty strings
      (`dropEmpty`), `adminAPI.getPlans` does not. */
  function Params(filters: seq<(string, Value)>, dropEmpty: bool, render: Value -> string)
    : (r: seq<(string, string)>)
    ensures |r| <= |filters|
    ensures forall i :: 0 <= i < |r| ==> exists j :: 0 <= j < |filters| && r[i].0 == filters[j].0
  {
    if filters == [] then []
    else
      var (key, v) := filters[|filters| - 1];
      var init := Params(filters[..|filters| - 1], dropEmpty, render);
      if Sent(v, dropEmpty) then init + [(key, Validation.AsText(v, render))] else init
  }

  /** `req.query[key]` on the server: the text sent under that name, if any. */
  function Received(params: seq<(string, string)>, key: string): (r: Option<string>)
    ensures r.Some? ==> exists i :: 0 <= i < |params| && params[i] == (key, r.value)
  {
    if params == [] then None
    else if params[|params| - 1].0 == key then Some(params[|params| - 1].1)
    else Received(params[..|params| - 1], key)
  }

  /** The server reads under each name exactly the filter given under that name, as text,
      unless the client dropped it. */
  lemma {:induction false} ReceivedParams(filters: seq<(string, Value)>, dropEmpty: bool,
                                          render: Value -> string, key: string)
    requires UniqueKeys(filters)
    ensures Received(Params(filters, dropEmpty, render), key) ==
              if Field(filters, key).Some? && Sent(Field(filters, key).value, dropEmpty)
              then Some(Validation.AsText(Field(filters, key).value, render))
              else None
  {
    if filters != [] {
      var init := filters[..|filters| - 1];
      assert UniqueKeys(init) by {
        forall i, j | 0 <= i < j < |init|
          ensures init[i].0 != init[j].0
        {
          assert init[i] == filters[i] && init[j] == filters[j];
        }
      }
      ReceivedParams(init, dropEmpty, render, key);
      var (k, v) := filters[|filters| - 1];
      var before := Params(init, dropEmpty, render);
      var after := Params(filters, dropEmpty, render);
      assert after == if Sent(v, dropEmpty) then before + [(k, Validation.AsText(v, render))] else before;
      if k != key {
        assert Field(filters, key) == Field(init, key);
        if Sent(v, dropEmpty) {
          assert after[..|after| - 1] == before;
        }
      } else {
        assert Field(filters, key) == Some(v);
        assert Field(init, key).None? by {
          FieldSpec(init, key);
          forall i | 0 <= i < |init|
            ensures init[i].0 != key
          {
            assert init[i] == filters[i];
          }
        }
      }
    }
  }

  /** The filter at position `i` reaches the server under its own name unless it was
      dropped. */
  lemma ReceivedAt(filters: seq<(string, Value)>, dropEmpty: bool, render: Value -> string, i: nat)
    requires UniqueKeys(filters) && i < |filters|
    ensures Received(Params(filters, dropEmpty, render), filters[i].0) ==
              if Sent(filters[i].1, dropEmpty) then Some(Validation.AsText(filters[i].1, render)) else None
  {
    FieldAt(filters, filters[i].0, i);
    ReceivedParams(filters, dropEmpty, render, filters[i].0);
  }

  /** Dropping empty strings on the plan search side changes nothing the search uses: the
      server treats an empty parameter as not given. */
  lemma BlankIgnored(filters: seq<(string, Value)>, render: Value -> string, key: string)
    requires UniqueKeys(filters)
    ensures Validation.Given(Received(Params(filters, true, render), key)) <==>
              Validation.Given(Received(Params(filters, false, render), key))
    ensures Validation.Given(Received(Params(filters, true, render), key)) ==>
              Received(Params(filters, true, render), key) == Received(Params(filters, false, render), key)
  {
    ReceivedParams(filters, true, render, key);
    ReceivedParams(filters, false, render, key);
  }

  /** The admin plan list passes an empty `is_active` through, and the server reads any
      `is_active` other than "true" as a request for inactive plans only. */
  lemma AdminBlankActive(filters: seq<(string, Value)>, render: Value -> string, d: Catalog.Driver)
    requires UniqueKeys(filters)
    requires Field(filters, "is_active") == Some(Str([]))
    ensures var p := Params(filters, false, render);
            var q := PlanAdmin.ListQuery(Received(p, "state_id"), Received(p, "is_active"),
                                         Received(p, "limit"), Received(p, "offset"));
            && Received(p, "is_active") == Some([])
            && (PlanAdmin.Criteria(q, d).Ok? ==> PlanAdmin.Criteria(q, d).value.active == Some(false))
  {
    ReceivedParams(filters, false, render, "is_active");
  }

  // ---------------------------------------------------------------- upload form

  /** `uploadPlans(files, ...)`: an array of files, or a single one. */
  datatype Files = Single(upload: Documents.Upload) | Several(uploads: seq<Documents.Upload>)

  /** One multipart part. */
  datatype Part = FilePart(name: string, upload: Documents.Upload) | TextPart(name: string, text: string)

  /** The form: every file of an array under `files`, a single file under `file`, then
      `state_id` always and `provider_name` only when truthy. */
  function UploadForm(files: Files, stateId: Value, providerName: Value, render: Value -> string)
    : (r: seq<Part>)
  {
    FileParts(files)
      + [TextPart("state_id", Validation.AsText(stateId, render))]
      + (if Truthy(providerName) then [TextPart("provider_name", Validation.AsText(providerName, render))] else [])
  }

  /** The uploads sent under one name, in order. */
  function FilesNamed(form: seq<Part>, name: string): (r: seq<Documents.Upload>)
    ensures |r| <= |form|
  {
    if form == [] then []
    else
      var p := form[|form| - 1];
      FilesNamed(form[..|form| - 1], name) + (if p.FilePart? && p.name == name then [p.upload] else [])
  }

  /** The first text sent under one name. */
  function TextNamed(form: seq<Part>, name: string): (r: Option<string>)
    ensures r.Some? ==> TextPart(name, r.value) in form
  {
    if form == [] then None
    else if form[0].TextPart? && form[0].name == name then Some(form[0].text)
    else TextNamed(form[1..], name)
  }

  /** How the upload middleware presents a field: nothing, one file as an object, several as
      an array. */
  function Presented(us: seq<Documents.Upload>): (r: Ingestion.FileField)
    ensures Ingestion.AsList(r) == us
  {
    if |us| == 0 then Ingestion.Absent
    else if |us| == 1 then Ingestion.One(us[0])
    else Ingestion.Many(us)
  }

  /** The request the upload route sees for a form. */
  function Receive(form: seq<Part>): Ingestion.UploadRequest {
    Ingestion.UploadRequest(Presented(FilesNamed(form, "files")), Presented(FilesNamed(form, "file")),
                            TextNamed(form, "state_id"), TextNamed(form, "provider_name"))
  }

  function Chosen(files: Files): seq<Documents.Upload> {
    match files
    case Single(u) => [u]
    case Several(us) => us
  }

  lemma {:induction false} FilesNamedSplit(a: seq<Part>, b: seq<Part>, name: string)
    ensures FilesNamed(a + b, name) == FilesNamed(a, name) + FilesNamed(b, name)
    decreases |b|
  {
    if b == [] {
      assert a + b == a;
    } else {
      var init := b[..|b| - 1];
      assert (a + b)[..|a + b| - 1] == a + init;
      assert (a + b)[|a + b| - 1] == b[|b| - 1];
      FilesNamedSplit(a, init, name);
    }
  }

  lemma {:induction false} NoFilesNamed(form: seq<Part>, name: string)
    requires forall i :: 0 <= i < |form| ==> form[i].TextPart?
    ensures FilesNamed(form, name) == []
    decreases |form|
  {
    if form != [] {
      NoFilesNamed(form[..|form| - 1], name);
    }
  }

  lemma {:induction false} AllFilesNamed(us: seq<Documents.Upload>, name: string)
    ensures var form := seq(|us|, i requires 0 <= i < |us| => FilePart(name, us[i]));
            && FilesNamed(form, name) == us
            && (forall other :: other != name ==> FilesNamed(form, other) == [])
    decreases |us|
  {
    var form := seq(|us|, i requires 0 <= i < |us| => FilePart(name, us[i]));
    if us != [] {
      var init := us[..|us| - 1];
      AllFilesNamed(init, name);
      assert form[..|form| - 1] == seq(|init|, i requires 0 <= i < |init| => FilePart(name, init[i]));
    }
  }

  lemma TextAfterFiles(fileParts: seq<Part>, rest: seq<Part>, name: string)
    requires forall i :: 0 <= i < |fileParts| ==> fileParts[i].FilePart?
    ensures TextNamed(fileParts + rest, name) == TextNamed(rest, name)
    decreases |fileParts|
  {
    if fileParts == [] {
      assert fileParts + rest == rest;
    } else {
      assert (fileParts + rest)[0] == fileParts[0];
      assert (fileParts + rest)[1..] == fileParts[1..] + rest;
      TextAfterFiles(fileParts[1..], rest, name);
    }
  }

  /** What the route reads from the form is what the dashboard chose: exactly the chosen
      files, in order (an array of one file arrives as a single object, which the route
      turns back into a list), the state as sent, and the provider name only when it was
      truthy. */
  lemma UploadRoundTrip(files: Files, stateId: Value, providerName: Value, render: Value -> string)
    ensures var req := Receive(UploadForm(files, stateId, providerName, render));
            && Ingestion.Uploads(req) == Chosen(files)
            && req.stateId == Some(Validation.AsText(stateId, render))
            && req.providerName == (if Truthy(providerName) then Some(Validation.AsText(providerName, render)) else None)
  {
    var texts := [TextPart("state_id", Validation.AsText(stateId, render))]
      + (if Truthy(providerName) then [TextPart("provider_name", Validation.AsText(providerName, render))] else []);
    var form := UploadForm(files, stateId, providerName, render);
    assert form == FileParts(files) + texts;
    FormFiles(files, texts);
    TextAfterFiles(FileParts(files), texts, "state_id");
    TextAfterFiles(FileParts(files), texts, "provider_name");
  }

  /** The file parts of the form. */
  function FileParts(files: Files): (r: seq<Part>)
    ensures forall i :: 0 <= i < |r| ==> r[i].FilePart?
  {
    match files
    case Single(u) => [FilePart("file", u)]
    case Several(us) => seq(|us|, i requires 0 <= i < |us| => FilePart("files", us[i]))
  }

  lemma FormFiles(files: Files, texts: seq<Part>)
    requires forall i :: 0 <= i < |texts| ==> texts[i].TextPart?
    ensures Ingestion.Uploads(Receive(FileParts(files) + texts)) == Chosen(files)
  {
    var fileParts := FileParts(files);
    NoFilesNamed(texts, "files");
    NoFilesNamed(texts, "file");
    FilesNamedSplit(fileParts, texts, "files");
    FilesNamedSplit(fileParts, texts, "file");
    match files
    case Single(u) =>
      assert fileParts[..0] == [];
      assert FilesNamed(fileParts, "file") == [u];
      assert FilesNamed(fileParts, "files") == [];
    case Several(us) =>
      AllFilesNamed(us, "files");
  }

  /** An empty selection sent as an array puts no file in the form, so the route answers
      "No files uploaded". */
  lemma EmptySelection(stateId: Value, providerName: Value, render: Value -> string)
    ensures Ingestion.NoFiles(Receive(UploadForm(Several([]), stateId, providerName, render)))
  {
    UploadRoundTrip(Several([]), stateId, providerName, render);
  }

  // ---------------------------------------------------------------- plan deletion

  const AdminPlans: string := "/api/admin/plans/"
  const HardFlag: string := "?hard_delete=true"

  /** `deletePlan(id, hardDelete)`: the plan's URL, with `?hard_delete=true` when asked. */
  function DeletePath(id: string, hardDelete: bool): (r: string)
    ensures Text.IsPrefix(AdminPlans + id, r)
  {
    AdminPlans + id + (if hardDelete then HardFlag else [])
  }

  /** What the delete route reads as `hard_delete`. */
  function HardDeleteParam(hardDelete: bool): (r: Option<string>)
    ensures r.Some? <==> hardDelete
  {
    if hardDelete then Some("true") else None
  }

  /** The flag travels as the text the route needs: a hard delete from the client removes
      the plan, a plain one (what the dashboard sends) only marks it inactive. */
  lemma DeleteFromClient(c: Catalog.Catalog, id: string, hardDelete: bool, d: Catalog.Driver)
    requires Catalog.Integer(id, d).Ok?
    ensures var k := Catalog.Integer(id, d).value;
            var after := PlanAdmin.Delete(c, id, HardDeleteParam(hardDelete), d).1;
            && (hardDelete ==> k !in after.plans)
            && (!hardDelete && k in c.plans ==> k in after.plans && after.plans[k].active == Some(false))
  {
    PlanAdmin.DeleteEffect(c, id, HardDeleteParam(hardDelete), d);
  }

  // ---------------------------------------------------------------- interceptors

  /** The two `localStorage` entries the client keeps. */
  datatype Storage = Storage(token: Option<string>, user: Option<string>)

  /** The request interceptor: `Authorization: Bearer <token>` exactly when a non-empty
      token is stored. */
  function Authorization(s: Storage): (r: Option<string>)
    ensures r.Some? <==> s.token.Some? && s.token.value != []
  {
    if s.token.Some? && s.token.value != [] then Some("Bearer " + s.token.value) else None
  }

  /** The server recovers a stored token that has no space in it (a signed token never
      does), and without a stored token it answers 401. */
  lemma AuthorizationRoundTrip(s: Storage, a: Auth.Accounts, signer: Auth.Signer)
    ensures s.token.Some? && s.token.value != [] && ' ' !in s.token.value ==>
              Auth.TokenOf(Authorization(s)) == s.token
    ensures Authorization(s).None? ==> Auth.Authenticate(a, Authorization(s), signer) == Auth.Denied(401, Auth.TokenRequired)
  {
    if s.token.Some? && s.token.value != [] && ' ' !in s.token.value {
      Auth.BearerToken("Bearer", s.token.value);
    }
  }

  /** The response interceptor: a 401 forgets the token and the user and sends the browser
      to the login page; any other status leaves the storage alone. */
  function OnError(s: Storage, status: Option<nat>): (r: (Storage, bool))
    ensures r.1 <==> status == Some(401)
    ensures r.1 ==> r.0 == Storage(None, None)
    ensures !r.1 ==> r.0 == s
  {
    if status == Some(401) then (Storage(None, None), true) else (s, false)
  }

  /** After a 401 the next request goes out without credentials and is refused again. */
  lemma LoggedOutAfter401(s: Storage, a: Auth.Accounts, signer: Auth.Signer)
    ensures Auth.Authenticate(a, Authorization(OnError(s, Some(401)).0), signer).Denied?
  {
    AuthorizationRoundTrip(OnError(s, Some(401)).0, a, signer);
  }

  // ---------------------------------------------------------------- chat requests

  /** `sendMessage(message, sessionId = null)`: the JSON body. */
  function MessageBody(message: Value, session: Option<Value>): (r: Value)
    ensures Prop(r, "message") == message
  {
    var fields := [("message", message), ("session_id", session.GetOr(Null))];
    assert fields[1].0[0] != "message"[0];
    FieldAt(fields, "message", 0);
    Obj(fields)
  }

  /** A message sent without a session id starts a new session named after the user and the
      clock; one sent with a session keeps it. */
  lemma NewSession(message: Value, session: Option<Value>, user: nat, now: int, render: Value -> string)
    ensures session.None? ==>
              ChatLog.SessionOf(Prop(MessageBody(message, session), "session_id"), user, now, render)
                == ChatLog.SessionOf(Null, user, now, render)
    ensures session.Some? && session.value.Str? && session.value.s != [] ==>
              ChatLog.SessionOf(Prop(MessageBody(message, session), "session_id"), user, now, render)
                == session.value.s
  {
  }

  /** `getHistory(sessionId = null, limit = 50)`: `session_id` only when truthy, `limit`
      always. */
  function HistoryParams(session: Value, limit: Value, render: Value -> string): (r: seq<(string, string)>)
    ensures |r| == if Truthy(session) then 2 else 1
  {
    (if Truthy(session) then [("session_id", Validation.AsText(session, render))] else [])
      + [("limit", Validation.AsText(limit, render))]
  }

  /** The history route sees the limit as sent, and a session filter exactly when one was
      given. */
  lemma HistoryReceived(session: Value, limit: Value, render: Value -> string)
    ensures var p := HistoryParams(session, limit, render);
            && Received(p, "limit") == Some(Validation.AsText(limit, render))
            && Received(p, "session_id") == (if Truthy(session) then Some(Validation.AsText(session, render)) else None)
  {
    var p := HistoryParams(session, limit, render);
    if Truthy(session) {
      assert p[..1] == [("session_id", Validation.AsText(session, render))];
    } else {
      assert p[..0] == [];
    }
  }
}

=== FILE: comparison_page.dfy ===
/** The results page of frontend/src/components/ComparisonPage.jsx: the plan search with its
    fallback to the closest alternatives, the price difference shown beside each
    alternative, the feature columns, their labels, and how a feature value is displayed. */
module ComparisonPage {
  import opened Wrappers
  import opened Values
  import Numbers
  import Text
  import Ordering
  import Validation
  import ClientApi
  import ComparisonTable

  type Offer = ComparisonTable.Offer
  type Filters = seq<(string, Value)>

  // ---------------------------------------------------------------- loading

  /** The search with everything but the plan type and the state dropped. */
  function Relaxed(filters: Filters): (r: Filters)
    ensures ClientApi.UniqueKeys(r)
  {
    [("type", Field(filters, "type").GetOr(Undefined)),
     ("state_id", Field(filters, "state_id").GetOr(Undefined))]
  }

  /** The relaxed search sends the plan type and the state exactly as the first search
      did, and nothing else. */
  lemma RelaxedReceived(filters: Filters, render: Value -> string, key: string)
    requires ClientApi.UniqueKeys(filters)
    ensures var relaxed := ClientApi.Received(ClientApi.Params(Relaxed(filters), true, render), key);
            && (key == "type" || key == "state_id" ==>
                  relaxed == ClientApi.Received(ClientApi.Params(filters, true, render), key))
            && (key != "type" && key != "state_id" ==> relaxed.None?)
  {
    ClientApi.ReceivedParams(Relaxed(filters), true, render, key);
    ClientApi.ReceivedParams(filters, true, render, key);
    if key == "type" {
      ClientApi.ReceivedAt(Relaxed(filters), true, render, 0);
    } else if key == "state_id" {
      ClientApi.ReceivedAt(Relaxed(filters), true, render, 1);
    }
  }

  /** `parseFloat(v)`: a number is itself; `undefined`, `null`, booleans and `NaN` read as
      `NaN`; anything else is read from its text. */
  function ReadNumber(v: Value, render: Value -> string): Numbers.Float {
    match v
    case Num(n) => Numbers.Finite(n)
    case Undefined => Numbers.FNaN
    case Null => Numbers.FNaN
    case Bool(_) => Numbers.FNaN
    case NaN => Numbers.FNaN
    case _ => Numbers.JsParseFloat(Validation.AsText(v, render))
  }

  /** `parseFloat(filters.max_cost) || 0`. */
  function Budget(maxCost: Value, render: Value -> string): (r: Numbers.Float)
    ensures !r.FNaN?
    ensures ReadNumber(maxCost, render).FNaN? ==> r == Numbers.Finite(0.0)
    ensures !ReadNumber(maxCost, render).FNaN? ==> r == ReadNumber(maxCost, render)
  {
    match ReadNumber(maxCost, render)
    case FNaN => Numbers.Finite(0.0)
    case x => x
  }

  function Abs(x: real): real {
    if x < 0.0 then -x else x
  }

  /** `Math.abs((plan.monthly_cost || 0) - budget)`. Against an infinite budget every plan is
      infinitely far and the comparator's `Infinity - Infinity` is `NaN`, which `sort`
      reads as a tie; the model gives every plan the same gap. */
  function Gap(o: Offer, budget: Numbers.Float): (r: real)
    ensures r >= 0.0
  {
    match budget
    case Finite(b) => Abs(o.monthlyCost.GetOr(0.0) - b)
    case _ => 0.0
  }

  /** The order the alternatives are sorted in. */
  function NearerOrSame(budget: Numbers.Float): (Offer, Offer) -> bool {
    (a: Offer, b: Offer) => Gap(a, budget) <= Gap(b, budget)
  }

  lemma NearerPreorder(budget: Numbers.Float)
    ensures Ordering.TotalPreorder(NearerOrSame(budget))
  {
  }

  const MaxAlternatives: nat := 10

  /** The ten plans (or all, if fewer) closest to the budget, closest first: no plan left
      out is closer than any plan shown. */
  function Closest(alternatives: seq<Offer>, budget: Numbers.Float): (r: seq<Offer>)
    ensures |r| == if |alternatives| < MaxAlternatives then |alternatives| else MaxAlternatives
    ensures multiset(r) <= multiset(alternatives)
    ensures Ordering.SortedBy(r, NearerOrSame(budget))
    ensures forall x, y :: x in multiset(alternatives) - multiset(r) && y in r ==> Gap(y, budget) <= Gap(x, budget)
  {
    NearerPreorder(budget);
    var sorted := Ordering.SortBy(alternatives, NearerOrSame(budget));
    var k := if |sorted| < MaxAlternatives then |sorted| else MaxAlternatives;
    assert |sorted| == |alternatives| by {
      assert |multiset(sorted)| == |multiset(alternatives)|;
    }
    Shortlist(sorted, k, budget);
    sorted[..k]
  }

  lemma Shortlist(sorted: seq<Offer>, k: nat, budget: Numbers.Float)
    requires k <= |sorted| && Ordering.SortedBy(sorted, NearerOrSame(budget))
    ensures multiset(sorted[..k]) <= multiset(sorted)
    ensures forall x, y :: x in multiset(sorted) - multiset(sorted[..k]) && y in sorted[..k] ==> Gap(y, budget) <= Gap(x, budget)
  {
    assert sorted == sorted[..k] + sorted[k..];
    assert multiset(sorted) - multiset(sorted[..k]) == multiset(sorted[k..]);
    forall x, y | x in multiset(sorted) - multiset(sorted[..k]) && y in sorted[..k]
      ensures Gap(y, budget) <= Gap(x, budget)
    {
      assert x in sorted[k..];
      var j :| k <= j < |sorted| && sorted[j] == x;
      var i :| 0 <= i < k && sorted[i] == y;
      assert NearerOrSame(budget)(sorted[i], sorted[j]);
    }
  }

  /** Against an infinite budget the alternatives keep the order the server sent them in. */
  lemma InfiniteBudgetKeepsOrder(alternatives: seq<Offer>, negative: bool)
    ensures var k := if |alternatives| < MaxAlternatives then |alternatives| else MaxAlternatives;
            Closest(alternatives, Numbers.FInf(negative)) == alternatives[..k]
  {
    var budget := Numbers.FInf(negative);
    NearerPreorder(budget);
    Ordering.AllTies(alternatives, NearerOrSame(budget));
  }

  /** What the page shows once loading ends. */
  datatype View = View(plans: seq<Offer>, error: string, alternatives: bool)

  const LoadFailed: string := "Failed to load insurance plans. Please try again."
  const NoneInState: string := "No insurance plans available for your state. Please contact support."

  /** `fetchPlans`, with the plan search as a parameter (`None` when the request fails).
      Returns the view and the searches sent, in order. */
  function Load(filters: Filters, search: Filters -> Option<seq<Offer>>, render: Value -> string)
    : (r: (View, seq<Filters>))
    ensures |r.1| >= 1 && r.1[0] == filters
    ensures |r.1| == 2 <==> search(filters) == Some([])
    ensures |r.1| == 2 ==> r.1[1] == Relaxed(filters)
    ensures r.0.error == [] <==> r.0.plans != []
    ensures r.0.alternatives <==> |r.1| == 2 && r.0.error == []
  {
    match search(filters)
    case None => (View([], LoadFailed, false), [filters])
    case Some(found) =>
      if found != [] then (View(found, [], false), [filters])
      else
        var relaxed := Relaxed(filters);
        var sent := [filters, relaxed];
        match search(relaxed)
        case None => (View([], LoadFailed, false), sent)
        case Some(alternatives) =>
          if alternatives == [] then (View([], NoneInState, false), sent)
          else
            var budget := Budget(Field(filters, "max_cost").GetOr(Undefined), render);
            (View(Closest(alternatives, budget), [], true), sent)
  }

  /** Exact matches are shown as the server sent them; alternatives are at most ten plans
      of the relaxed result, closest to the budget first. */
  lemma LoadShows(filters: Filters, search: Filters -> Option<seq<Offer>>, render: Value -> string)
    ensures var v := Load(filters, search, render).0;
            && (search(filters).Some? && search(filters).value != [] ==> v.plans == search(filters).value)
            && (v.alternatives ==>
                  var budget := Budget(Field(filters, "max_cost").GetOr(Undefined), render);
                  && 1 <= |v.plans| <= MaxAlternatives
                  && multiset(v.plans) <= multiset(search(Relaxed(filters)).value)
                  && Ordering.SortedBy(v.plans, NearerOrSame(budget)))
  {
  }

  // ---------------------------------------------------------------- price difference

  datatype Difference = Within | Under(amount: Numbers.Float) | Over(amount: Numbers.Float)

  /** `getPriceDifference(plan.monthly_cost)` for a plan with a cost: nothing unless
      alternatives are shown and a budget was given; otherwise the sign of cost minus
      budget. A budget that is not a number makes every comparison false, which lands on
      "over budget". */
  function PriceDifference(showing: bool, maxCost: Value, o: Offer, render: Value -> string): (r: Option<Difference>)
    ensures r.Some? <==> showing && Truthy(maxCost)
    ensures r.Some? && ReadNumber(maxCost, render).FNaN? ==> r.value == Over(Numbers.FNaN)
  {
    if !showing || !Truthy(maxCost) then None
    else
      var cost := o.monthlyCost.GetOr(0.0);
      match ReadNumber(maxCost, render)
      case FNaN => Some(Over(Numbers.FNaN))
      case FInf(negative) => Some(if negative then Over(Numbers.FInf(false)) else Under(Numbers.FInf(false)))
      case Finite(b) =>
        var diff := cost - b;
        Some(if diff == 0.0 then Within else if diff < 0.0 then Under(Numbers.Finite(-diff)) else Over(Numbers.Finite(diff)))
  }

  /** For a numeric budget the label agrees with the sort key: "within budget" exactly at
      gap zero, otherwise the amount shown is the gap, under when cheaper and over when
      dearer. */
  lemma DifferenceIsGap(maxCost: Value, o: Offer, render: Value -> string)
    requires Truthy(maxCost) && ReadNumber(maxCost, render).Finite?
    ensures var d := PriceDifference(true, maxCost, o, render).value;
            var gap := Gap(o, Budget(maxCost, render));
            var cost := o.monthlyCost.GetOr(0.0);
            var b := ReadNumber(maxCost, render).r;
            && (d.Within? <==> gap == 0.0)
            && (!d.Within? ==> d.amount == Numbers.Finite(gap))
            && (d.Under? <==> cost < b)
            && (d.Over? <==> cost > b)
  {
  }

  // ---------------------------------------------------------------- feature columns

  function Names<V>(fields: seq<(string, V)>): (r: seq<string>)
    ensures |r| == |fields| && forall i :: 0 <= i < |fields| ==> r[i] == fields[i].0
  {
    seq(|fields|, i requires 0 <= i < |fields| => fields[i].0)
  }

  /** `Object.keys(v)`: an object's field names, the indices of an array or a string, and
      nothing for other values. */
  function KeysOf(v: Value): seq<string> {
    match v
    case Obj(fields) => Names(fields)
    case Arr(items) => seq(|items|, i requires 0 <= i => Numbers.NatToString(i))
    case Str(s) => seq(|s|, i requires 0 <= i => Numbers.NatToString(i))
    case _ => []
  }

  /** The keys of every plan with features, plan after plan. */
  function Flat(plans: seq<Offer>): seq<string> {
    if plans == [] then []
    else
      var last := plans[|plans| - 1];
      Flat(plans[..|plans| - 1]) + (if Truthy(last.features) then KeysOf(last.features) else [])
  }

  /** Every element once, at its first occurrence (adding to a `Set` and reading it back). */
  function Dedup(s: seq<string>): (r: seq<string>)
    ensures Ordering.Distinct(r)
    ensures forall x :: x in r <==> x in s
  {
    if s == [] then []
    else
      var d := Dedup(s[..|s| - 1]);
      var x := s[|s| - 1];
      assert s == s[..|s| - 1] + [x];
      if x in d then d else d + [x]
  }

  /** `getAllFeatures`. */
  function AllFeatures(plans: seq<Offer>): (r: seq<string>)
    ensures Ordering.Distinct(r)
  {
    Dedup(Flat(plans))
  }

  predicate HasKey(plans: seq<Offer>, key: string) {
    exists i :: 0 <= i < |plans| && Truthy(plans[i].features) && key in KeysOf(plans[i].features)
  }

  lemma {:induction false} FlatHas(plans: seq<Offer>, key: string)
    ensures key in Flat(plans) <==> HasKey(plans, key)
  {
    if plans != [] {
      var init := plans[..|plans| - 1];
      var last := plans[|plans| - 1];
      var own := if Truthy(last.features) then KeysOf(last.features) else [];
      FlatHas(init, key);
      assert Flat(plans) == Flat(init) + own;
      if key in Flat(init) {
        var i :| 0 <= i < |init| && Truthy(init[i].features) && key in KeysOf(init[i].features);
        assert plans[i] == init[i];
      } else if key in own {
        assert plans[|plans| - 1] == last;
      }
      if HasKey(plans, key) {
        var i :| 0 <= i < |plans| && Truthy(plans[i].features) && key in KeysOf(plans[i].features);
        if i < |init| {
          assert init[i] == plans[i];
        }
      }
    }
  }

  /** A column exists for exactly the keys some plan's features have. */
  lemma FeatureColumns(plans: seq<Offer>, key: string)
    ensures key in AllFeatures(plans) <==> HasKey(plans, key)
  {
    FlatHas(plans, key);
  }

  lemma {:induction false} FlatAppend(ps: seq<Offer>, qs: seq<Offer>)
    ensures Flat(ps + qs) == Flat(ps) + Flat(qs)
    decreases |qs|
  {
    if qs == [] {
      assert ps + qs == ps;
    } else {
      var init := qs[..|qs| - 1];
      var last := qs[|qs| - 1];
      var own := if Truthy(last.features) then KeysOf(last.features) else [];
      FlatAppend(ps, init);
      assert (ps + qs)[..|ps + qs| - 1] == ps + init && (ps + qs)[|ps + qs| - 1] == last;
      assert Flat(ps + qs) == Flat(ps + init) + own;
      assert Flat(qs) == Flat(init) + own;
    }
  }

  lemma {:induction false} DedupPrefix(s: seq<string>, t: seq<string>)
    ensures Dedup(s) <= Dedup(s + t)
    decreases |t|
  {
    if t == [] {
      assert s + t == s;
    } else {
      var init := t[..|t| - 1];
      DedupPrefix(s, init);
      assert (s + t)[..|s + t| - 1] == s + init;
    }
  }

  /** Columns come in first-seen order: adding plans at the end only adds columns at the
      end. */
  lemma FeaturesFirstSeen(ps: seq<Offer>, qs: seq<Offer>)
    ensures AllFeatures(ps) <= AllFeatures(ps + qs)
  {
    FlatAppend(ps, qs);
    DedupPrefix(Flat(ps), Flat(qs));
  }

  // ---------------------------------------------------------------- labels

  const Labels: seq<(string, string)> := [
    ("network_hospitals_count", "Network Hospitals"),
    ("network_type", "Network Type"),
    ("uae_coverage", "UAE Coverage"),
    ("gcc_coverage", "GCC Coverage"),
    ("international_coverage", "International Coverage"),
    ("outpatient_coverage", "Outpatient"),
    ("inpatient_coverage", "Inpatient"),
    ("dental_coverage", "Dental"),
    ("optical_coverage", "Optical"),
    ("maternity_coverage", "Maternity"),
    ("pre_existing_conditions", "Pre-existing Conditions"),
    ("pharmacy_coverage", "Pharmacy"),
    ("emergency_coverage", "Emergency"),
    ("ambulance_service", "Ambulance"),
    ("preventive_care", "Preventive Care"),
    ("chronic_conditions_covered", "Chronic Conditions"),
    ("mental_health_coverage", "Mental Health"),
    ("physiotherapy_coverage", "Physiotherapy"),
    ("alternative_medicine", "Alternative Medicine"),
    ("waiting_period_days", "Waiting Period (days)"),
    ("copay_percentage", "Co-pay %"),
    ("room_type", "Room Type"),
    ("cashless_claims", "Cashless Claims")]

  /** `labels[key]`: the label of the first entry with that key. */
  function Lookup(table: seq<(string, string)>, key: string): (r: Option<string>)
    ensures r.None? <==> forall i :: 0 <= i < |table| ==> table[i].0 != key
    ensures r.Some? ==> exists i :: 0 <= i < |table| && table[i] == (key, r.value)
  {
    if table == [] then None
    else if table[0].0 == key then Some(table[0].1)
    else
      var r := Lookup(table[1..], key);
      assert forall i :: 0 <= i < |table| - 1 ==> table[1..][i] == table[i + 1];
      r
  }

  /** `\w` in a regular expression without the `u` flag. */
  predicate WordChar(c: char) {
    'a' <= c <= 'z' || 'A' <= c <= 'Z' || '0' <= c <= '9' || c == '_'
  }

  /** `\b\w`: a word character not preceded by one. */
  predicate WordStart(s: string, k: nat)
    requires k < |s|
  {
    WordChar(s[k]) && (k == 0 || !WordChar(s[k - 1]))
  }

  /** `replace(/\b\w/g, l => l.toUpperCase())`: the first character of every word is
      upper-cased. */
  function Capitalise(s: string): (r: string)
    ensures |r| == |s|
    ensures forall k :: 0 <= k < |s| ==> r[k] == if WordStart(s, k) then Text.UpperChar(s[k]) else s[k]
  {
    seq(|s|, k requires 0 <= k < |s| => if WordStart(s, k) then Text.UpperChar(s[k]) else s[k])
  }

  /** `labels[key] || key.replace(/_/g, ' ').replace(/\b\w/g, ...)` for a given table. */
  function Label(table: seq<(string, string)>, key: string): (r: string)
    ensures Lookup(table, key).Some? ==> r == Lookup(table, key).value
  {
    match Lookup(table, key)
    case Some(text) => text
    case None => Capitalise(Text.ReplaceChar(key, '_', ' '))
  }

  /** `getFeatureLabel`. */
  function FeatureLabel(key: string): string {
    Label(Labels, key)
  }

  /** A key the table does not know is labelled by its own words: underscores become
      spaces, every word starts with a capital, and nothing changes but letter case. */
  lemma DerivedLabel(table: seq<(string, string)>, key: string)
    requires Lookup(table, key).None?
    ensures var r := Label(table, key);
            && |r| == |key|
            && '_' !in r
            && Text.Lower(r) == Text.Lower(Text.ReplaceChar(key, '_', ' '))
            && forall k :: 0 <= k < |key| && (k == 0 || key[k - 1] == '_' || key[k - 1] == ' ') && 'a' <= key[k] <= 'z' ==>
                 'A' <= r[k] <= 'Z'
  {
    var s := Text.ReplaceChar(key, '_', ' ');
    SameLetters(s);
    Capitals(key);
  }

  /** Capitalising changes letter case only, and never makes an underscore. */
  lemma SameLetters(s: string)
    ensures '_' in Capitalise(s) ==> '_' in s
    ensures Text.Lower(Capitalise(s)) == Text.Lower(s)
  {
    var r := Capitalise(s);
    forall k | 0 <= k < |s|
      ensures Text.LowerChar(r[k]) == Text.LowerChar(s[k]) && (r[k] == '_' ==> s[k] == '_')
    {
      CaseOnly(s[k]);
    }
    assert Text.Lower(r) == Text.Lower(s);
  }

  /** A lower-case letter at the start of the key or after an underscore or a space comes
      out as a capital. */
  lemma Capitals(key: string)
    ensures var r := Capitalise(Text.ReplaceChar(key, '_', ' '));
            forall k :: 0 <= k < |key| && (k == 0 || key[k - 1] == '_' || key[k - 1] == ' ') && 'a' <= key[k] <= 'z' ==>
              'A' <= r[k] <= 'Z'
  {
    var s := Text.ReplaceChar(key, '_', ' ');
    forall k | 0 <= k < |key| && (k == 0 || key[k - 1] == '_' || key[k - 1] == ' ') && 'a' <= key[k] <= 'z'
      ensures 'A' <= Capitalise(s)[k] <= 'Z'
    {
      assert s[k] == key[k] && WordChar(s[k]);
      assert k > 0 ==> s[k - 1] == ' ';
      assert WordStart(s, k);
      assert Capitalise(s)[k] == Text.UpperChar(s[k]);
      UpperLetter(s[k]);
    }
  }

  lemma UpperLetter(c: char)
    requires 'a' <= c <= 'z'
    ensures 'A' <= Text.UpperChar(c) <= 'Z'
  {
  }

  lemma CaseOnly(c: char)
    ensures Text.LowerChar(Text.UpperChar(c)) == Text.LowerChar(c)
    ensures Text.UpperChar(c) == '_' ==> c == '_'
  {
  }

  // ---------------------------------------------------------------- feature values

  const Dash: string := "—"

  /** How a feature value is displayed. */
  datatype Cell = Mark(text: string) | Figure(v: Value) | Plain(v: Value) | Missing

  /** The index below `n` whose decimal numeral is `key`, if any. */
  function IndexBelow(key: string, n: nat): (r: Option<nat>)
    ensures r.Some? ==> r.value < n && Numbers.NatToString(r.value) == key
    ensures r.None? ==> forall i :: 0 <= i < n ==> Numbers.NatToString(i) != key
  {
    if n == 0 then None
    else if Numbers.NatToString(n - 1) == key then Some(n - 1)
    else IndexBelow(key, n - 1)
  }

  /** `v?.[key]`: an object's property; an array's element or a string's character under
      its index numeral, and its `length`; `undefined` for everything else. */
  function Member(v: Value, key: string): (r: Value)
    ensures v.Obj? ==> r == Prop(v, key)
    ensures v.Arr? && key == "length" ==> r == Num(|v.items| as real)
    ensures v.Str? && key == "length" ==> r == Num(|v.s| as real)
    ensures !v.Obj? && !v.Arr? && !v.Str? ==> r.Undefined?
  {
    match v
    case Obj(_) => Prop(v, key)
    case Arr(items) =>
      if key == "length" then Num(|items| as real)
      else (match IndexBelow(key, |items|) case Some(i) => items[i] case None => Undefined)
    case Str(s) =>
      if key == "length" then Num(|s| as real)
      else (match IndexBelow(key, |s|) case Some(i) => Str([s[i]]) case None => Undefined)
    case _ => Undefined
  }

  /** Each index column `Object.keys` lists for an array or a string reads back its own
      element or character. */
  lemma MemberAtIndex(v: Value, i: nat)
    requires v.Arr? || v.Str?
    requires i < |KeysOf(v)|
    ensures v.Arr? ==> Member(v, KeysOf(v)[i]) == v.items[i]
    ensures v.Str? ==> Member(v, KeysOf(v)[i]) == Str([v.s[i]])
  {
    var key := Numbers.NatToString(i);
    assert KeysOf(v)[i] == key;
    assert key != "length";
    var n := if v.Arr? then |v.items| else |v.s|;
    var j := IndexBelow(key, n);
    assert j.Some?;
    Numbers.ParseIntOfNat(i);
    Numbers.ParseIntOfNat(j.value);
  }

  /** `renderFeatureValue`: booleans as ticks, numbers as they are, `null` and `undefined`
      as a dash, anything else as it is. */
  function FeatureCell(features: Value, key: string): (r: Cell)
    ensures r.Missing? <==> Member(features, key).Undefined? || Member(features, key).Null?
    ensures r.Mark? <==> Member(features, key).Bool?
    ensures r.Mark? ==> (r.text == "✓" <==> Member(features, key).b)
    ensures r.Figure? <==> Member(features, key).Num? || Member(features, key).NaN?
  {
    var v := Member(features, key);
    match v
    case Bool(_) => Mark(FormatBoolean(v))
    case Num(_) => Figure(v)
    case NaN => Figure(v)
    case _ => FormatValue(v)
  }

  /** `formatBoolean`: a dash for a missing value, otherwise a tick or a cross by
      truthiness. */
  function FormatBoolean(v: Value): (r: string)
    ensures r == Dash <==> v.Undefined? || v.Null?
    ensures r == "✓" <==> Truthy(v)
  {
    if v.Undefined? || v.Null? then Dash else if Truthy(v) then "✓" else "✗"
  }

  /** `formatValue`. */
  function FormatValue(v: Value): (r: Cell)
    ensures r.Missing? <==> v.Undefined? || v.Null?
    ensures !r.Missing? ==> r == Plain(v)
  {
    if v.Undefined? || v.Null? then Missing else Plain(v)
  }
}

=== FILE: comparison_table.dfy ===
/** The side-by-side table of frontend/src/components/ComparisonTable.jsx: which plan of each
    insurer is shown, how stored JSON columns are read back, the premium for the user's age
    band, the recommendation score, and the benefit and coverage-area cells. */
module ComparisonTable {
  import opened Wrappers
  import opened Values
  import Numbers
  import Text

  /** A plan as the table uses it: its id, insurer, the value of its NUMERIC monthly cost
      (absent when NULL; the server sends it as decimal text), and the two JSON columns as
      the server sent them. */
  datatype Offer = Offer(id: int, provider: string, monthlyCost: Option<real>, features: Value, agePricing: Value)

  // ---------------------------------------------------------------- which plan is shown

  /** `Array.prototype.find` as a position: the first plan that passes `test`. */
  function FindFirst(plans: seq<Offer>, test: Offer -> bool): (r: Option<nat>)
    ensures r.None? <==> forall i :: 0 <= i < |plans| ==> !test(plans[i])
    ensures r.Some? ==> r.value < |plans| && test(plans[r.value])
                        && forall j :: 0 <= j < r.value ==> !test(plans[j])
  {
    if plans == [] then None
    else
      var r := FindFirst(plans[..|plans| - 1], test);
      if r.Some? then r
      else if test(plans[|plans| - 1]) then Some(|plans| - 1)
      else None
  }

  /** The position of the first plan of an insurer, in list order. */
  function FirstAt(plans: seq<Offer>, provider: string): (r: Option<nat>)
    ensures r.None? <==> forall i :: 0 <= i < |plans| ==> plans[i].provider != provider
    ensures r.Some? ==> r.value < |plans| && plans[r.value].provider == provider
                        && forall j :: 0 <= j < r.value ==> plans[j].provider != provider
  {
    FindFirst(plans, (o: Offer) => o.provider == provider)
  }

  /** The id of the first plan of an insurer. */
  function FirstOf(plans: seq<Offer>, provider: string): Option<int> {
    match FirstAt(plans, provider)
    case None => None
    case Some(i) => Some(plans[i].id)
  }

  /** The initial choice: every insurer with at least one plan shows its first plan;
      insurers without plans get no entry. */
  function InitialChoice(providers: seq<string>, plans: seq<Offer>): (r: map<string, int>)
    ensures forall p :: p in r <==> p in providers && FirstOf(plans, p).Some?
    ensures forall p :: p in r ==> r[p] == FirstOf(plans, p).value
  {
    map p | p in providers && FirstOf(plans, p).Some? :: FirstOf(plans, p).value
  }

  /** `handlePlanChange`: only that insurer's choice changes. */
  function ChoosePlan(choice: map<string, int>, provider: string, id: int): (r: map<string, int>)
    ensures provider in r && r[provider] == id
    ensures forall p :: p != provider ==> (p in r <==> p in choice) && (p in r ==> r[p] == choice[p])
  {
    choice[provider := id]
  }

  /** `getSelectedPlan`: the first plan carrying the chosen id. */
  function Shown(choice: map<string, int>, plans: seq<Offer>, provider: string): (r: Option<Offer>)
    ensures r.Some? ==> provider in choice && r.value in plans && r.value.id == choice[provider]
  {
    if provider !in choice then None
    else
      match WithId(plans, choice[provider])
      case Some(i) => Some(plans[i])
      case None => None
  }

  /** `allPlans.find(p => p.id === id)`, as a position. */
  function WithId(plans: seq<Offer>, id: int): (r: Option<nat>)
    ensures r.None? <==> forall i :: 0 <= i < |plans| ==> plans[i].id != id
    ensures r.Some? ==> r.value < |plans| && plans[r.value].id == id
                        && forall j :: 0 <= j < r.value ==> plans[j].id != id
  {
    FindFirst(plans, (o: Offer) => o.id == id)
  }

  /** Right after the table opens, every insurer with plans shows one of its own plans. */
  lemma InitialShowsOwn(providers: seq<string>, plans: seq<Offer>, p: string)
    requires p in providers && exists i :: 0 <= i < |plans| && plans[i].provider == p
    ensures p in InitialChoice(providers, plans)
    ensures var id := InitialChoice(providers, plans)[p];
            exists i :: 0 <= i < |plans| && plans[i].id == id && plans[i].provider == p
  {
  }

  // ---------------------------------------------------------------- stored JSON

  /** `parseStructuredFeatures` / `parseAgePricing`: a falsy column is `empty`, a string is
      parsed (an unparsable one is `empty`), anything else is taken as it is. */
  function Parsed(v: Value, empty: Value, parse: string -> Option<Value>): (r: Value)
    ensures !Truthy(v) ==> r == empty
    ensures v.Str? && parse(v.s).None? ==> r == empty
  {
    if !Truthy(v) then empty
    else if v.Str? then (match parse(v.s) case Some(x) => x case None => empty)
    else v
  }

  const NoFeatures: Value := Obj([])
  const NoBands: Value := Arr([])

  /** A column stored as JSON text reads the same as the object it encodes. */
  lemma ParsedText(s: string, x: Value, empty: Value, parse: string -> Option<Value>)
    requires s != [] && parse(s) == Some(x) && Truthy(x) && !x.Str?
    ensures Parsed(Str(s), empty, parse) == Parsed(x, empty, parse) == x
  {
  }

  // ---------------------------------------------------------------- age bands

  /** One entry of the age pricing with its range read: the two bounds `parseInt` gives
      (`None` for `NaN`) and the annual premium as stored. */
  datatype AgeBand = AgeBand(lo: Option<int>, hi: Option<int>, premium: Value)

  /** `ap.age_range.split('-').map(x => parseInt(x))`: the pieces before the first dash and
      between the first and a second one; a range without a dash has no upper bound,
      `parseInt(undefined)` being `NaN`. */
  function ReadBand(range: string, premium: Value): AgeBand {
    var parts := Text.Split(range, '-');
    AgeBand(Numbers.JsParseInt(parts[0]), if |parts| >= 2 then Numbers.JsParseInt(parts[1]) else None, premium)
  }

  /** An entry as the `find` callback reads it. `ap.age_range.split` throws (`None`) unless
      the entry has a string `age_range`: on `null`, on a missing range, on a number. */
  function BandOf(ap: Value): (r: Option<AgeBand>)
    ensures r.Some? <==> Prop(ap, "age_range").Str?
    ensures r.Some? ==> r.value.premium == Prop(ap, "premium")
  {
    var range := Prop(ap, "age_range");
    if range.Str? then Some(ReadBand(range.s, Prop(ap, "premium"))) else None
  }

  /** `age >= min && age <= max`; `NaN` satisfies no comparison. */
  predicate InBand(age: int, b: AgeBand) {
    b.lo.Some? && b.hi.Some? && b.lo.value <= age <= b.hi.value
  }

  /** A range without a dash, such as "65+", matches no age. */
  lemma OpenBandNeverMatches(age: int, range: string, premium: Value)
    requires '-' !in range
    ensures !InBand(age, ReadBand(range, premium))
  {
    assert Text.IndexOf(range, '-') == -1;
  }

  /** "lo-hi" written with whole numbers matches exactly the ages from lo to hi. */
  lemma BandMatches(age: int, lo: nat, hi: nat, premium: Value)
    ensures InBand(age, ReadBand(Numbers.NatToString(lo) + "-" + Numbers.NatToString(hi), premium)) <==> lo <= age <= hi
  {
    var a := Numbers.NatToString(lo);
    var b := Numbers.NatToString(hi);
    var range := a + "-" + b;
    assert range == a + ['-'] + b;
    NoDash(a);
    NoDash(b);
    Text.SplitFirst(a, b, '-');
    assert Text.IndexOf(b, '-') == -1;
    assert Text.Split(range, '-') == [a, b];
    Numbers.ParseIntOfNat(lo);
    Numbers.ParseIntOfNat(hi);
    assert ReadBand(range, premium) == AgeBand(Some(lo), Some(hi), premium);
  }

  lemma NoDash(s: string)
    requires Numbers.AllDigits(s)
    ensures '-' !in s
  {
    forall k | 0 <= k < |s|
      ensures s[k] != '-'
    {
      assert Numbers.IsDigit(s[k]);
    }
  }

  /** The first band containing the age, over bands already read: the reference the
      search over stored entries is compared with. */
  function BandFor(bands: seq<AgeBand>, age: int): (r: Option<AgeBand>)
    ensures r.None? <==> forall i :: 0 <= i < |bands| ==> !InBand(age, bands[i])
    ensures r.Some? ==> exists i :: 0 <= i < |bands| && bands[i] == r.value && InBand(age, r.value)
                                     && forall j :: 0 <= j < i ==> !InBand(age, bands[j])
  {
    if bands == [] then None
    else
      var r := BandFor(bands[..|bands| - 1], age);
      if r.Some? then r
      else if InBand(age, bands[|bands| - 1]) then Some(bands[|bands| - 1])
      else None
  }

  const TypeError: string := "TypeError"

  /** `agePricing.find(...)` over the stored entries: the first entry whose range holds the
      age. The search stops there; an entry it reaches before finding one, and whose range
      cannot be split, throws. */
  function FindBand(items: seq<Value>, age: int): (r: Result<Option<AgeBand>>)
    ensures r.Ok? && r.value.Some? ==> InBand(age, r.value.value)
    ensures r.Err? ==> exists i :: 0 <= i < |items| && BandOf(items[i]).None?
  {
    if items == [] then Ok(None)
    else
      match FindBand(items[..|items| - 1], age)
      case Err(e) => Err(e)
      case Ok(Some(b)) => Ok(Some(b))
      case Ok(None) =>
        match BandOf(items[|items| - 1])
        case None => Err(TypeError)
        case Some(b) => Ok(if InBand(age, b) then Some(b) else None)
  }

  /** The entries read as bands, when every one of them has a string range. */
  function Bands(items: seq<Value>): (r: seq<AgeBand>)
    requires forall i :: 0 <= i < |items| ==> BandOf(items[i]).Some?
    ensures |r| == |items| && forall i :: 0 <= i < |items| ==> r[i] == BandOf(items[i]).value
  {
    seq(|items|, i requires 0 <= i < |items| && BandOf(items[i]).Some? => BandOf(items[i]).value)
  }

  /** When every entry is well formed, the search finds what the reference finds. */
  lemma {:induction false} FindBandWellFormed(items: seq<Value>, age: int)
    requires forall i :: 0 <= i < |items| ==> BandOf(items[i]).Some?
    ensures FindBand(items, age) == Ok(BandFor(Bands(items), age))
  {
    if items != [] {
      var init := items[..|items| - 1];
      FindBandWellFormed(init, age);
      var bands := Bands(items);
      assert bands[..|bands| - 1] == Bands(init);
      assert bands[|bands| - 1] == BandOf(items[|items| - 1]).value;
    }
  }

  /** Once a band is found, entries after it are never read: malformed ones do not throw. */
  lemma {:induction false} FindBandStops(items: seq<Value>, rest: seq<Value>, age: int)
    requires FindBand(items, age).Ok? && FindBand(items, age).value.Some?
    ensures FindBand(items + rest, age) == FindBand(items, age)
    decreases |rest|
  {
    if rest != [] {
      var init := rest[..|rest| - 1];
      FindBandStops(items, init, age);
      var whole := items + rest;
      assert whole[..|whole| - 1] == items + init;
      FoundStays(whole, age);
    } else {
      assert items + rest == items;
    }
  }

  lemma FoundStays(items: seq<Value>, age: int)
    requires items != []
    requires var r := FindBand(items[..|items| - 1], age); r.Ok? && r.value.Some?
    ensures FindBand(items, age) == FindBand(items[..|items| - 1], age)
  {
  }

  /** `agePricing.length > 0`: the length of an array or a string, an object's `length`
      property compared as a number, nothing for other values. Reading it off `null`
      throws. */
  function HasEntries(v: Value): (r: Result<bool>)
    ensures r.Err? <==> v.Null? || v.Undefined?
    ensures v.Arr? ==> r == Ok(v.items != [])
  {
    match v
    case Null => Err(TypeError)
    case Undefined => Err(TypeError)
    case Arr(items) => Ok(items != [])
    case Str(t) => Ok(t != [])
    case Obj(_) => Ok(Above(Prop(v, "length"), 0.0))
    case _ => Ok(false)
  }

  /** `v > x` for a number `x`: `v` is converted to a number, `NaN` compares false. */
  predicate Above(v: Value, x: real) {
    match Numbers.ToNumber(v)
    case Finite(y) => y > x
    case FInf(negative) => !negative
    case FNaN => false
  }

  /** A profile number as `parseInt(v) || ''` stores it: present and not zero is truthy. */
  predicate Given(x: Option<int>) {
    x.Some? && x.value != 0
  }

  /** The premium `getAIRecommendation` starts from. The plan's monthly cost comes as the
      server sends a NUMERIC column, as its decimal text: truthy whenever it is not NULL,
      "0.00" included, and read back as its value. A band's premium is a twelfth of the
      stored annual premium, converted to a number. */
  datatype Premium = Column(cost: Option<real>) | Band(monthly: Numbers.Float)

  function Twelfth(x: Numbers.Float): Numbers.Float {
    match x
    case Finite(v) => Numbers.Finite(v / 12.0)
    case _ => x
  }

  /** Lines 67-77 on the parsed pricing: with entries and a truthy age, the band the search
      finds sets the premium; otherwise it is the monthly cost. Reading the length off
      `null`, calling `find` on something that is not an array, or a malformed entry
      throws. */
  function PremiumOf(o: Offer, age: Option<int>, parse: string -> Option<Value>): (r: Result<Premium>)
    ensures var pricing := Parsed(o.agePricing, NoBands, parse);
            !Truthy(o.agePricing) || (!Given(age) && !pricing.Null? && !pricing.Undefined?) ==> r == Ok(Column(o.monthlyCost))
    ensures r.Ok? && r.value.Band? ==> Given(age)
  {
    var pricing := Parsed(o.agePricing, NoBands, parse);
    match HasEntries(pricing)
    case Err(e) => Err(e)
    case Ok(has) =>
      if !has || !Given(age) then Ok(Column(o.monthlyCost))
      else if !pricing.Arr? then Err(TypeError)
      else
        match FindBand(pricing.items, age.value)
        case Err(e) => Err(e)
        case Ok(None) => Ok(Column(o.monthlyCost))
        case Ok(Some(b)) => Ok(Band(Twelfth(Numbers.ToNumber(b.premium))))
  }

  /** Stored as an array of well-formed entries, the pricing gives the premium of the band
      the reference search finds, and the monthly cost when none contains the age. */
  lemma PremiumFromBands(o: Offer, age: Option<int>, parse: string -> Option<Value>, items: seq<Value>)
    requires o.agePricing == Arr(items) && items != [] && Given(age)
    requires forall i :: 0 <= i < |items| ==> BandOf(items[i]).Some?
    ensures var found := BandFor(Bands(items), age.value);
            PremiumOf(o, age, parse) == Ok(if found.Some? then Band(Twelfth(Numbers.ToNumber(found.value.premium)))
                                           else Column(o.monthlyCost))
  {
    FindBandWellFormed(items, age.value);
  }

  /** `if (!premium) return null`: the premium as a number, `None` when it is falsy (a NULL
      cost, or a band premium that is 0 or `NaN`). */
  function PremiumNumber(p: Premium): (r: Option<Numbers.Float>)
    ensures p.Band? && r.Some? ==> !r.value.FNaN? && r.value != Numbers.Finite(0.0)
    ensures p.Column? ==> (r.Some? <==> p.cost.Some?)
  {
    match p
    case Column(None) => None
    case Column(Some(c)) => Some(Numbers.Finite(c))
    case Band(x) => if x.FNaN? || x == Numbers.Finite(0.0) then None else Some(x)
  }

  // ---------------------------------------------------------------- recommendation

  const HighlyAffordable: string := "Highly affordable"
  const Affordable: string := "Affordable"
  const ModeratelyPriced: string := "Moderately priced"
  const PremiumPricing: string := "Premium pricing"

  predicate AffordabilityReason(s: string) {
    s == HighlyAffordable || s == Affordable || s == ModeratelyPriced || s == PremiumPricing
  }

  /** `(premium / salary) * 100` in floating point terms. */
  function Ratio(premium: Numbers.Float, salary: int): Numbers.Float {
    match premium
    case FNaN => Numbers.FNaN
    case FInf(negative) => Numbers.FInf(if salary < 0 then !negative else negative)
    case Finite(p) =>
      if salary != 0 then Numbers.Finite(p / salary as real * 100.0)
      else if p == 0.0 then Numbers.FNaN
      else Numbers.FInf(p < 0.0)
  }

  /** The affordability tier: points and the one reason that goes first. */
  function Tier(ratio: Numbers.Float): (r: (int, string))
    ensures r.0 in {10, 20, 30, 40} && AffordabilityReason(r.1)
  {
    var below := (x: real) => match ratio
      case Finite(v) => v < x
      case FInf(negative) => negative
      case FNaN => false;
    if below(5.0) then (40, HighlyAffordable)
    else if below(10.0) then (30, Affordable)
    else if below(15.0) then (20, ModeratelyPriced)
    else (10, PremiumPricing)
  }

  const CoverageFlags: seq<string> := ["outpatient_coverage", "inpatient_coverage", "dental_coverage",
                                       "optical_coverage", "maternity_coverage", "pharmacy_coverage",
                                       "emergency_coverage"]

  /** How many of the seven coverage flags are truthy. */
  function Covered(features: Value, keys: seq<string>): (k: nat)
    ensures k <= |keys|
  {
    if keys == [] then 0
    else Covered(features, keys[..|keys| - 1]) + (if Truthy(Prop(features, keys[|keys| - 1])) then 1 else 0)
  }

  /** `features.network_hospitals_count && features.network_hospitals_count > 50`: the
      count is compared as a number, so a count stored as text counts too. */
  predicate WideNetwork(features: Value) {
    var v := Prop(features, "network_hospitals_count");
    Truthy(v) && Above(v, 50.0)
  }

  /** A whole-number count of hospitals earns the bonus above 50, whether it is stored as a
      JSON number or as its decimal text. */
  lemma WideNetworkCount(features: Value, n: nat)
    requires var v := Prop(features, "network_hospitals_count");
             v == Num(n as real) || v == Str(Numbers.NatToString(n))
    ensures WideNetwork(features) <==> n > 50
  {
    var v := Prop(features, "network_hospitals_count");
    Numbers.ToNumberOfNat(n);
    assert Numbers.ToNumber(v) == Numbers.Finite(n as real);
    if n > 50 {
      assert Truthy(v);
    }
  }

  datatype Recommendation = Recommendation(score: int, exact: real, reasons: seq<string>, recommended: bool)

  /** The bonus points and their reasons, in the order they are checked. */
  function Bonuses(features: Value): (r: (int, seq<string>))
    ensures 0 <= r.0 <= 30 && r.0 % 5 == 0 && |r.1| <= 4
    ensures forall i :: 0 <= i < |r.1| ==> !AffordabilityReason(r.1[i])
    ensures (r.0 >= 5 && "Wide hospital network" in r.1) <==> WideNetwork(features)
  {
    var pre := if Truthy(Prop(features, "pre_existing_conditions")) then (10, ["Covers pre-existing conditions"]) else (0, []);
    var cash := if Truthy(Prop(features, "cashless_claims")) then (10, ["Cashless claims"]) else (0, []);
    var intl := if Truthy(Prop(features, "international_coverage")) then (5, ["International coverage"]) else (0, []);
    var net := if WideNetwork(features) then (5, ["Wide hospital network"]) else (0, []);
    (pre.0 + cash.0 + intl.0 + net.0, pre.1 + cash.1 + intl.1 + net.1)
  }

  function BreadthReason(k: nat): seq<string> {
    if k >= 6 then ["Comprehensive coverage"] else if k >= 4 then ["Good coverage"] else []
  }

  /** The score for an affordability ratio and parsed features: the tier, 30 points spread
      over the seven coverage flags, and the bonuses. The score shown is rounded;
      `recommended` is read off the unrounded score. */
  function Score(ratio: Numbers.Float, features: Value): Recommendation {
    var (points, reason) := Tier(ratio);
    var k := Covered(features, CoverageFlags);
    var (bonus, extra) := Bonuses(features);
    var exact := points as real + (k as real / 7.0) * 30.0 + bonus as real;
    Recommendation(Numbers.JsRound(exact), exact, [reason] + BreadthReason(k) + extra, exact >= 70.0)
  }

  /** `getAIRecommendation`: nothing without a truthy salary; then the features and the
      pricing are parsed, the premium is looked up (which may throw: `Err`), and nothing is
      shown for a falsy premium. */
  /** `parseStructuredFeatures` gave a value whose properties cannot be read: the column
      held the JSON text "null". */
  predicate FeaturesUnreadable(o: Offer, parse: string -> Option<Value>) {
    Values.Get(Parsed(o.features, NoFeatures, parse), "outpatient_coverage").Err?
  }

  function Recommend(salary: Option<int>, age: Option<int>, o: Offer, parse: string -> Option<Value>)
    : (r: Result<Option<Recommendation>>)
    ensures !Given(salary) ==> r == Ok(None)
    ensures Given(salary) ==>
              (r.Err? <==> PremiumOf(o, age, parse).Err?
                           || (PremiumNumber(PremiumOf(o, age, parse).value).Some? && FeaturesUnreadable(o, parse)))
    ensures r.Ok? && r.value.Some? <==>
              Given(salary) && PremiumOf(o, age, parse).Ok? && PremiumNumber(PremiumOf(o, age, parse).value).Some?
              && !FeaturesUnreadable(o, parse)
  {
    if !Given(salary) then Ok(None)
    else
      match PremiumOf(o, age, parse)
      case Err(e) => Err(e)
      case Ok(p) =>
        match PremiumNumber(p)
        case None => Ok(None)
        case Some(premium) =>
          var features := Parsed(o.features, NoFeatures, parse);
          match Values.Get(features, "outpatient_coverage")
          case Err(e) => Err(e)
          case Ok(_) => Ok(Some(Score(Ratio(premium, salary.value), features)))
  }

  /** The score lies between 10 and 100, the reasons open with exactly one affordability
      verdict, and the badge agrees with the rounded score shown next to it. */
  lemma RecommendSpec(salary: Option<int>, age: Option<int>, o: Offer, parse: string -> Option<Value>)
    requires Recommend(salary, age, o, parse).Ok? && Recommend(salary, age, o, parse).value.Some?
    ensures var r := Recommend(salary, age, o, parse).value.value;
            && 10.0 <= r.exact <= 100.0 && 10 <= r.score <= 100
            && r.reasons != [] && AffordabilityReason(r.reasons[0])
            && (forall i :: 0 < i < |r.reasons| ==> !AffordabilityReason(r.reasons[i]))
            && (r.recommended <==> r.score >= 70)
  {
    var premium := PremiumNumber(PremiumOf(o, age, parse).value).value;
    ScoreSpec(Ratio(premium, salary.value), Parsed(o.features, NoFeatures, parse));
  }

  lemma ScoreSpec(ratio: Numbers.Float, features: Value)
    ensures var r := Score(ratio, features);
            && 10.0 <= r.exact <= 100.0 && 10 <= r.score <= 100
            && r.reasons != [] && AffordabilityReason(r.reasons[0])
            && (forall i :: 0 < i < |r.reasons| ==> !AffordabilityReason(r.reasons[i]))
            && (r.recommended <==> r.score >= 70)
  {
    var (points, reason) := Tier(ratio);
    var k := Covered(features, CoverageFlags);
    var (bonus, extra) := Bonuses(features);
    var r := Score(ratio, features);
    ScoreRounding(points, k, bonus);
    assert r.reasons == [reason] + BreadthReason(k) + extra;
    forall i | 0 < i < |r.reasons|
      ensures !AffordabilityReason(r.reasons[i])
    {
      if i <= |BreadthReason(k)| {
        assert r.reasons[i] == BreadthReason(k)[i - 1];
      } else {
        assert r.reasons[i] == extra[i - 1 - |BreadthReason(k)|];
      }
    }
  }

  /** Features sent as JSON text are scored as the object they encode: the recommendation
      is the same as for the parsed column. */
  lemma FeaturesAsText(salary: Option<int>, age: Option<int>, o: Offer, parse: string -> Option<Value>, s: string, x: Value)
    requires o.features == Str(s) && s != [] && parse(s) == Some(x) && Truthy(x) && !x.Str?
    ensures Recommend(salary, age, o, parse) == Recommend(salary, age, o.(features := x), parse)
  {
    ParsedText(s, x, NoFeatures, parse);
    assert PremiumOf(o, age, parse) == PremiumOf(o.(features := x), age, parse);
  }

  /** Age pricing sent as JSON text is searched as the array it encodes. */
  lemma PricingAsText(salary: Option<int>, age: Option<int>, o: Offer, parse: string -> Option<Value>, s: string, x: Value)
    requires o.agePricing == Str(s) && s != [] && parse(s) == Some(x) && Truthy(x) && !x.Str?
    ensures Recommend(salary, age, o, parse) == Recommend(salary, age, o.(agePricing := x), parse)
  {
    ParsedText(s, x, NoBands, parse);
    assert PremiumOf(o, age, parse) == PremiumOf(o.(agePricing := x), age, parse);
  }

  /** Features stored as the JSON text "null" parse to `null`, and reading the first
      coverage flag from it throws: a plan that would be scored fails instead. */
  lemma NullFeaturesThrow(salary: Option<int>, age: Option<int>, o: Offer, parse: string -> Option<Value>, s: string)
    requires Given(salary) && o.features == Str(s) && s != [] && parse(s) == Some(Null)
    requires PremiumOf(o, age, parse).Ok? && PremiumNumber(PremiumOf(o, age, parse).value).Some?
    ensures Recommend(salary, age, o, parse).Err?
  {
  }

  /** A plan whose monthly cost is 0 (sent as the text "0.00") is still scored, as highly
      affordable, for any positive salary when no age band applies. */
  lemma ZeroCostScored(salary: Option<int>, age: Option<int>, o: Offer, parse: string -> Option<Value>)
    requires salary.Some? && salary.value > 0 && o.monthlyCost == Some(0.0) && !Truthy(o.agePricing)
    requires !FeaturesUnreadable(o, parse)
    ensures var r := Recommend(salary, age, o, parse);
            r.Ok? && r.value.Some? && r.value.value.reasons[0] == HighlyAffordable
  {
    assert PremiumOf(o, age, parse) == Ok(Column(Some(0.0)));
    assert Ratio(Numbers.Finite(0.0), salary.value) == Numbers.Finite(0.0);
  }

  /** Tier points and bonuses are multiples of five and the breadth points sevenths of 30,
      so no score falls between 69.5 and 70: rounding never crosses the badge's threshold. */
  lemma ScoreRounding(points: int, k: nat, bonus: int)
    requires points in {10, 20, 30, 40} && k <= 7 && 0 <= bonus <= 30 && bonus % 5 == 0
    ensures var exact := points as real + (k as real / 7.0) * 30.0 + bonus as real;
            && 10.0 <= exact <= 100.0
            && 10 <= Numbers.JsRound(exact) <= 100
            && (exact >= 70.0 <==> Numbers.JsRound(exact) >= 70)
  {
    var exact := points as real + (k as real / 7.0) * 30.0 + bonus as real;
    var n := 7 * (points + bonus) + 30 * k;
    assert exact == n as real / 7.0;
    assert n % 5 == 0;
    var r := Numbers.JsRound(exact);
    if exact >= 70.0 {
      assert exact + 0.5 >= 70.0;
    } else {
      assert n < 490;
      assert n <= 485;
      assert exact + 0.5 < 70.0;
    }
  }

  // ---------------------------------------------------------------- cells

  /** A benefit cell: only `true` is covered, only `false` is not, anything else is N/A. */
  function BenefitCell(v: Value): (r: string)
    ensures r == "✓ Covered" <==> v == Bool(true)
    ensures r == "✗ Not Covered" <==> v == Bool(false)
  {
    if v == Bool(true) then "✓ Covered" else if v == Bool(false) then "✗ Not Covered" else "N/A"
  }

  /** The regions with a truthy flag, in the fixed order UAE, GCC, International. */
  function Areas(features: Value): (r: seq<string>)
    ensures "UAE" in r <==> Truthy(Prop(features, "uae_coverage"))
    ensures "GCC" in r <==> Truthy(Prop(features, "gcc_coverage"))
    ensures "International" in r <==> Truthy(Prop(features, "international_coverage"))
    ensures forall i, j :: 0 <= i < j < |r| ==> Rank(r[i]) < Rank(r[j])
  {
    (if Truthy(Prop(features, "uae_coverage")) then ["UAE"] else [])
      + (if Truthy(Prop(features, "gcc_coverage")) then ["GCC"] else [])
      + (if Truthy(Prop(features, "international_coverage")) then ["International"] else [])
  }

  function Rank(area: string): nat {
    if area == "UAE" then 0 else if area == "GCC" then 1 else 2
  }

  /** The coverage-area cell. */
  function CoverageArea(features: Value): (r: string)
    ensures Areas(features) == [] ==> r == "N/A"
  {
    var areas := Areas(features);
    if areas == [] then "N/A" else Text.Join(areas, ", ")
  }
}

=== FILE: documents.dfy ===
/** Text extraction from uploaded documents (`extractTextFromFile` and its helpers in
    backend/routes/admin.js). The binary decoders (pdf-parse, mammoth, xlsx) are foreign:
    they are the fields of `Decoders`. */
module Documents {
  import opened Wrappers
  import Text

  /** An uploaded file as the upload middleware delivers it. */
  datatype Upload = Upload(name: string, mimetype: string, size: nat, data: seq<bv8>)

  /** One worksheet as the spreadsheet library reads it: rows of rendered cells, and the
      result of its CSV conversion, which may throw. */
  datatype Sheet = Sheet(name: string, rows: seq<seq<string>>, csv: Result<string>)

  /** A named CSV table handed to the language model. */
  datatype Table = Table(sheetName: string, csv: string)

  datatype Extracted = Extracted(text: string, tables: seq<Table>)

  datatype Decoders = Decoders(
    pdf: seq<bv8> -> Result<string>,
    word: seq<bv8> -> Result<string>,
    workbook: seq<bv8> -> Result<seq<Sheet>>)

  datatype Format = Pdf | Word | Spreadsheet | Unsupported

  /** The last path segment. */
  function BaseName(path: string): (r: string)
    ensures '/' !in r
  {
    var i := Text.LastIndexOf(path, '/');
    path[i + 1..]
  }

  /** Node's `path.extname`: from the last '.' of the base name, or empty when there is no
      such dot, when it is the first character, or when the base name is "..". */
  function ExtName(path: string): (r: string)
    ensures r != [] ==> r[0] == '.' && '.' !in r[1..]
    ensures |r| < |BaseName(path)| || r == []
    ensures r != [] ==> BaseName(path)[|BaseName(path)| - |r|..] == r
  {
    var base := BaseName(path);
    var i := Text.LastIndexOf(base, '.');
    if i <= 0 || base == ".." then [] else base[i..]
  }

  /** The dispatch of `extractTextFromFile`: the lower-cased extension or a MIME substring
      decides, tested in the order PDF, Word, spreadsheet. */
  function FormatOf(path: string, mimetype: string): (f: Format)
    ensures f == Pdf <==> Text.Contains(mimetype, "pdf") || Text.Lower(ExtName(path)) == ".pdf"
    ensures f == Word ==> !Text.Contains(mimetype, "pdf") && Text.Lower(ExtName(path)) != ".pdf"
    ensures f == Word <==> (f != Pdf
                            && (Text.Contains(mimetype, "word")
                                || Text.Lower(ExtName(path)) in {".doc", ".docx"}))
    ensures f == Spreadsheet <==> (f != Pdf && f != Word
                                   && (Text.Contains(mimetype, "spreadsheet")
                                       || Text.Lower(ExtName(path)) in {".xls", ".xlsx", ".csv"}))
  {
    var ext := Text.Lower(ExtName(path));
    if Text.Contains(mimetype, "pdf") || ext == ".pdf" then Pdf
    else if Text.Contains(mimetype, "word") || ext in {".doc", ".docx"} then Word
    else if Text.Contains(mimetype, "spreadsheet") || ext in {".xls", ".xlsx", ".csv"} then Spreadsheet
    else Unsupported
  }

  /** One line per row, cells joined by " | ", over all sheets in order. */
  function SheetText(sheets: seq<Sheet>): string {
    if sheets == [] then [] else RowsText(sheets[0].rows) + SheetText(sheets[1..])
  }

  function RowsText(rows: seq<seq<string>>): string {
    if rows == [] then [] else Text.Join(rows[0], " | ") + "\n" + RowsText(rows[1..])
  }

  /** The sheets whose CSV conversion succeeded, as tables, in sheet order. */
  function SheetTables(sheets: seq<Sheet>): (r: seq<Table>)
    ensures |r| <= |sheets|
    ensures |r| == |sheets| <==> forall k :: 0 <= k < |sheets| ==> sheets[k].csv.Ok?
  {
    if sheets == [] then []
    else
      var rest := SheetTables(sheets[1..]);
      match sheets[0].csv
      case Ok(csv) => [Table(sheets[0].name, csv)] + rest
      case Err(_) => rest
  }

  /** `extractTextFromExcel` once the workbook is read. */
  function ExcelText(sheets: seq<Sheet>): (r: Extracted)
    ensures |r.tables| <= |sheets|
    ensures |r.tables| == |sheets| <==> forall k :: 0 <= k < |sheets| ==> sheets[k].csv.Ok?
    ensures sheets == [] ==> r == Extracted([], [])
  {
    Extracted(SheetText(sheets), SheetTables(sheets))
  }

  /** A sheet whose CSV conversion throws still contributes its rows to the text, and
      only that sheet's table is missing. */
  lemma CsvFailureKeepsText(sheets: seq<Sheet>, k: nat, e: string)
    requires k < |sheets|
    ensures SheetText(sheets[k := sheets[k].(csv := Err(e))]) == SheetText(sheets)
    ensures SheetTables(sheets[k := sheets[k].(csv := Err(e))])
         == SheetTables(sheets[..k]) + SheetTables(sheets[k + 1..])
  {
    var pre, post := sheets[..k], sheets[k + 1..];
    var x := sheets[k];
    var x' := x.(csv := Err(e));
    assert sheets == pre + ([x] + post);
    assert sheets[k := x'] == pre + ([x'] + post);
    SheetTablesConcat(pre, [x] + post);
    SheetTablesConcat(pre, [x'] + post);
    SheetTablesConcat([x], post);
    SheetTablesConcat([x'], post);
    assert [x'][1..] == [] && [x][1..] == [];
    assert SheetTables([x']) == [];
    assert SheetText([x']) == SheetText([x]);
  }

  /** Text and tables of consecutive sheets are the concatenations, in sheet order. */
  lemma {:induction false} SheetTablesConcat(a: seq<Sheet>, b: seq<Sheet>)
    ensures SheetTables(a + b) == SheetTables(a) + SheetTables(b)
    ensures SheetText(a + b) == SheetText(a) + SheetText(b)
  {
    if a != [] {
      var ab := a + b;
      assert ab[0] == a[0] && ab[1..] == a[1..] + b;
      SheetTablesConcat(a[1..], b);
      var first := match a[0].csv case Ok(csv) => [Table(a[0].name, csv)] case Err(_) => [];
      assert SheetTables(ab) == first + SheetTables(a[1..] + b);
      assert SheetTables(a) == first + SheetTables(a[1..]);
      Text.Assoc(first, SheetTables(a[1..]), SheetTables(b));
      Text.Assoc(RowsText(a[0].rows), SheetText(a[1..]), SheetText(b));
    } else {
      assert a + b == b;
    }
  }

  /** `extractTextFromFile`: PDF and Word yield no tables, a spreadsheet yields its rows as
      text and its convertible sheets as tables, anything else fails. */
  function ExtractText(path: string, file: Upload, d: Decoders): (r: Result<Extracted>)
    ensures FormatOf(path, file.mimetype) == Unsupported ==> r == Err("Unsupported file type")
    ensures FormatOf(path, file.mimetype) in {Pdf, Word} && r.Ok? ==> r.value.tables == []
    ensures FormatOf(path, file.mimetype) == Pdf ==>
              (r.Ok? <==> d.pdf(file.data).Ok?) && (r.Ok? ==> r.value.text == d.pdf(file.data).value)
    ensures FormatOf(path, file.mimetype) == Word ==>
              (r.Ok? <==> d.word(file.data).Ok?) && (r.Ok? ==> r.value.text == d.word(file.data).value)
    ensures FormatOf(path, file.mimetype) == Spreadsheet ==>
              (r.Ok? <==> d.workbook(file.data).Ok?)
              && (r.Ok? ==> r.value == ExcelText(d.workbook(file.data).value))
  {
    match FormatOf(path, file.mimetype)
    case Pdf =>
      var t :- d.pdf(file.data);
      Ok(Extracted(t, []))
    case Word =>
      var t :- d.word(file.data);
      Ok(Extracted(t, []))
    case Spreadsheet =>
      var sheets :- d.workbook(file.data);
      Ok(ExcelText(sheets))
    case Unsupported => Err("Unsupported file type")
  }
}

=== FILE: extraction_prompt.dfy ===
/** The prompt `extractPlanData` sends to the language model (backend/services/gemini.js):
    the fixed extraction instructions, optional metadata (file name, CSV excerpts of
    spreadsheet tables), then the whole document text. The instructions are a long constant
    template that no rule here inspects, so they are a parameter. */
module ExtractionPrompt {
  import Text
  import Documents

  /** Options passed alongside the document text; an empty file name stands for none. */
  datatype Options = Options(filename: string, tables: seq<Documents.Table>)

  const CsvLimit: nat := 2000
  const TruncationMark: string := "\n... (truncated)"
  const TablesOpen: string := "\n-- TABLES (CSV) INCLUDED BELOW --\n"
  const TablesClose: string := "\n-- END TABLES --\n\n"
  const ContentLabel: string := "Document Content:\n"
  const Closing: string :=
    "\n\nExtract the insurance plan data and return ONLY valid JSON, no markdown formatting:"

  /** A CSV excerpt: at most the first 2000 characters, marked when something was cut. */
  function Clip(csv: string): (r: string)
    ensures |csv| <= CsvLimit ==> r == csv
    ensures |csv| > CsvLimit ==> |r| == CsvLimit + |TruncationMark|
    ensures Text.IsPrefix(if |csv| <= CsvLimit then csv else csv[..CsvLimit], r)
  {
    if |csv| <= CsvLimit then csv else csv[..CsvLimit] + TruncationMark
  }

  /** One sheet's block: its name line, the clipped CSV and a closing newline. */
  function Excerpt(t: Documents.Table): string {
    "\n[Sheet: " + t.sheetName + "]\n" + Clip(t.csv) + "\n"
  }

  function Excerpts(ts: seq<Documents.Table>): string {
    if ts == [] then [] else Excerpt(ts[0]) + Excerpts(ts[1..])
  }

  /** The tables block is present exactly when there are tables. */
  function TablesBlock(ts: seq<Documents.Table>): (r: string)
    ensures r == [] <==> ts == []
    ensures r != [] ==> r[0] == '\n'
  {
    if ts == [] then [] else TablesOpen + Excerpts(ts) + TablesClose
  }

  function FilenameLine(filename: string): string {
    if filename != [] then "Filename: " + filename + "\n" else []
  }

  function Metadata(o: Options): string {
    FilenameLine(o.filename) + TablesBlock(o.tables)
  }

  /** The whole prompt for the instruction template `template`: the instructions come
      first, and the document is somewhere in it, whole. */
  function Prompt(template: string, doc: string, o: Options): (r: string)
    ensures Text.IsPrefix(template, r)
    ensures |r| >= |template| + |doc|
  {
    template + "\n\n" + Metadata(o) + ContentLabel + doc + Closing
  }

  /** The metadata opens with a file name line exactly when a file name was given. */
  lemma FilenameLineIff(o: Options)
    ensures Text.IsPrefix("Filename: ", Metadata(o)) <==> o.filename != []
  {
    if o.filename != [] {
      Text.Assoc("Filename: ", o.filename + "\n", TablesBlock(o.tables));
      assert FilenameLine(o.filename) == "Filename: " + (o.filename + "\n");
      assert Metadata(o)[..10] == "Filename: ";
    } else {
      assert Metadata(o) == TablesBlock(o.tables);
    }
  }

  /** Excerpts of consecutive table lists concatenate, so every table appears once, in
      order. */
  lemma {:induction false} ExcerptsConcat(a: seq<Documents.Table>, b: seq<Documents.Table>)
    ensures Excerpts(a + b) == Excerpts(a) + Excerpts(b)
  {
    if a == [] {
      assert a + b == b;
    } else {
      assert (a + b)[0] == a[0] && (a + b)[1..] == a[1..] + b;
      ExcerptsConcat(a[1..], b);
      Text.Assoc(Excerpt(a[0]), Excerpts(a[1..]), Excerpts(b));
    }
  }

  /** The document text is passed whole, right after its label and before the closing
      request, and the instructions come first. */
  lemma DocumentUntruncated(template: string, doc: string, o: Options)
    ensures var p := Prompt(template, doc, o);
            Text.IsPrefix(template, p)
            && |ContentLabel + doc + Closing| <= |p|
            && p[|p| - |ContentLabel + doc + Closing|..] == ContentLabel + doc + Closing
  {
    var head := template + "\n\n" + Metadata(o);
    var p := Prompt(template, doc, o);
    assert p == head + ContentLabel + doc + Closing;
    Text.Assoc(head, ContentLabel, doc);
    Text.Assoc(head, ContentLabel + doc, Closing);
    assert p == head + (ContentLabel + doc + Closing);
    Text.Assoc(template, "\n\n", Metadata(o));
    Text.Assoc(template, "\n\n" + Metadata(o), ContentLabel + doc + Closing);
    assert p == template + ("\n\n" + Metadata(o) + (ContentLabel + doc + Closing));
  }
}

=== FILE: ingestion.dfy ===
/** The `POST /upload-plans` coordinator of backend/routes/admin.js as a transition from a
    request and a store to a response and a store: the request guards, the per-file
    save-and-extract loop with its accounting, one extraction over the combined text, the
    manual provider override, the replacement transaction and the summary message.

    The clock, the uploads directory, the file move, the decoders, the language model and
    the database's column conversions are the fields of `Env`. */
module Ingestion {
  import opened Wrappers
  import opened Values
  import Text
  import Numbers
  import Documents
  import ExtractionPrompt
  import ReplyParser
  import MockExtractor
  import PlanExtraction
  import Catalog

  /** One multipart field: absent, a single file, or several files under the same name. */
  datatype FileField = Absent | One(upload: Documents.Upload) | Many(uploads: seq<Documents.Upload>)

  /** The multipart request: the `files` and `file` fields and the two text fields. */
  datatype UploadRequest = UploadRequest(
    files: FileField,
    file: FileField,
    stateId: Option<string>,
    providerName: Option<string>)

  /** Everything the handler takes from outside: `Date.now()`, the uploads directory, the
      file move (`mv`, which may throw), the decoders, the extraction template, the mock
      switch, the model and the database driver. */
  datatype Env = Env(
    now: nat,
    dir: string,
    move: (string, Documents.Upload) -> Result<()>,
    decoders: Documents.Decoders,
    template: string,
    mock: bool,
    model: PlanExtraction.Model,
    driver: Catalog.Driver)

  /** A row reported back for an inserted plan: its id, the row, and whether the delete
      before it removed anything. */
  datatype Inserted = Inserted(id: nat, row: Catalog.PlanRow, updated: bool)

  /** An entry of `results.details`. */
  datatype Detail =
    | FileFailed(file: string, error: string)
    | Processed(files: seq<string>, provider: Value, plans: seq<Inserted>)

  /** The `results` object. */
  datatype Summary = Summary(totalFiles: nat, successful: nat, failed: nat, plansAdded: nat, details: seq<Detail>)

  /** What the route answers. */
  datatype Outcome =
    | Refused(error: string)                          // 400 from a guard
    | NothingExtracted(results: Summary)              // 400, every file failed
    | ExtractionFailed(details: string, results: Summary)  // 500 "Failed to process files with AI"
    | Crashed(details: string)                        // 500 "Failed to upload and process files"
    | Uploaded(message: string, stateName: string, totalPlans: nat, results: Summary)

  function Status(o: Outcome): nat {
    match o
    case Refused(_) => 400
    case NothingExtracted(_) => 400
    case ExtractionFailed(_, _) => 500
    case Crashed(_) => 500
    case Uploaded(_, _, _, _) => 200
  }

  /** No `files` and no `file` field. An empty list under either name is still a field. */
  predicate NoFiles(req: UploadRequest) {
    req.files.Absent? && req.file.Absent?
  }

  function AsList(f: FileField): seq<Documents.Upload> {
    match f
    case Absent => []
    case One(u) => [u]
    case Many(us) => us
  }

  /** `files` takes precedence over `file`; a single upload becomes a one-element list. */
  function Uploads(req: UploadRequest): seq<Documents.Upload> {
    if !req.files.Absent? then AsList(req.files) else AsList(req.file)
  }

  /** The stored file name `<now>_<i>_<name>` and its path in the uploads directory. */
  function StoredPath(env: Env, i: nat, name: string): string {
    env.dir + "/" + Numbers.NatToString(env.now) + "_" + Numbers.NatToString(i) + "_" + name
  }

  /** What became of one file: the move failed, the file was saved but could not be read, or
      its text (and tables) were extracted. */
  datatype FileResult = NotSaved(error: string) | NotRead(error: string) | Read(x: Documents.Extracted)

  function Process(env: Env, i: nat, f: Documents.Upload): (r: FileResult)
    ensures r.NotSaved? <==> env.move(StoredPath(env, i, f.name), f).Err?
  {
    var path := StoredPath(env, i, f.name);
    match env.move(path, f)
    case Err(e) => NotSaved(e)
    case Ok(_) =>
      match Documents.ExtractText(path, f, env.decoders)
      case Err(e) => NotRead(e)
      case Ok(x) => Read(x)
  }

  /** The separator and text one extracted file adds to the combined content. */
  function Section(name: string, text: string): string {
    "\n\n=== FILE: " + name + " ===\n\n" + text
  }

  const ExtractionFailurePrefix: string := "Text extraction failed: "

  /** The loop's accumulators: combined content, all tables with the file each came from,
      the names of the saved files, the counts and the failure details. */
  datatype Gathered = Gathered(
    content: string,
    tables: seq<Documents.Table>,
    sources: seq<string>,
    saved: seq<string>,
    successful: nat,
    failed: nat,
    details: seq<Detail>)

  /** One turn of the loop. A file is recorded as saved before it is read. */
  function Step(g: Gathered, f: Documents.Upload, r: FileResult): Gathered {
    match r
    case NotSaved(e) =>
      g.(failed := g.failed + 1, details := g.details + [FileFailed(f.name, ExtractionFailurePrefix + e)])
    case NotRead(e) =>
      g.(saved := g.saved + [f.name], failed := g.failed + 1,
         details := g.details + [FileFailed(f.name, ExtractionFailurePrefix + e)])
    case Read(x) =>
      g.(content := g.content + Section(f.name, x.text),
         tables := g.tables + x.tables,
         sources := g.sources + seq(|x.tables|, _ => f.name),
         saved := g.saved + [f.name],
         successful := g.successful + 1)
  }

  /** What became of each upload, the i-th file stored under index i. */
  function Results(env: Env, files: seq<Documents.Upload>): (rs: seq<FileResult>)
    ensures |rs| == |files| && forall i :: 0 <= i < |files| ==> rs[i] == Process(env, i, files[i])
  {
    seq(|files|, i requires 0 <= i < |files| => Process(env, i, files[i]))
  }

  /** The loop's accumulators after the given files with the given results, in order. */
  function Tally(files: seq<Documents.Upload>, rs: seq<FileResult>): (g: Gathered)
    requires |rs| == |files|
    ensures g.successful + g.failed == |files|
    ensures |g.details| == g.failed && |g.sources| == |g.tables| && |g.saved| <= |files|
    ensures forall k :: 0 <= k < |g.details| ==> g.details[k].FileFailed?
  {
    if files == [] then Gathered([], [], [], [], 0, 0, [])
    else
      var n := |files| - 1;
      Step(Tally(files[..n], rs[..n]), files[n], rs[n])
  }

  /** The loop over the uploads. */
  function Gather(env: Env, files: seq<Documents.Upload>): (g: Gathered)
    ensures g.successful + g.failed == |files|
    ensures |g.details| == g.failed && |g.sources| == |g.tables| && |g.saved| <= |files|
    ensures forall k :: 0 <= k < |g.details| ==> g.details[k].FileFailed?
  {
    Tally(files, Results(env, files))
  }

  /** The route with the summary built from the inserted plans (see `HandleAsWritten` for
      the summary as backend/routes/admin.js builds it). A refusal leaves the store alone;
      a completed upload reports as its total the plans counted in its accounting, and
      says whether it replaced or created them. */
  function Handle(req: UploadRequest, c: Catalog.Catalog, env: Env): (r: (Outcome, Catalog.Catalog))
    ensures r.0.Refused? ==> r.1 == c && r.0.error in {NoFilesError, NoStateError, BadStateError}
    ensures r.0.Uploaded? ==> r.0.totalPlans == r.0.results.plansAdded
  {
    UploadReported(req, c, env);
    Upload(req, c, env, Report)
  }

  /** What the final step reported is what a completed upload answers. */
  lemma UploadReported(req: UploadRequest, c: Catalog.Catalog, env: Env)
    ensures var r := Upload(req, c, env, Report);
            r.0.Uploaded? ==> r.0.totalPlans == r.0.results.plansAdded
                              && (r.0.message == Message(r.0.results, true, r.0.totalPlans)
                                  || r.0.message == Message(r.0.results, false, r.0.totalPlans))
  {
    var r := Upload(req, c, env, Report);
    if r.0.Uploaded? {
      var state := Catalog.Integer(req.stateId.value, env.driver).value;
      var files := Uploads(req);
      assert r == Ingest(files, state, req.providerName, c, env, Report);
      var g, data := Extracted(files, state, req.providerName, c, env);
      CommitReported(g, Summary(|files|, g.successful, g.failed, 0, g.details), data, state, req.providerName, c, env);
    }
  }

  lemma CommitReported(g: Gathered, results: Summary, data: ReplyParser.PlanData, state: int, manual: Option<string>,
                       c: Catalog.Catalog, env: Env)
    requires state in c.states
    ensures var r := Commit(g, results, data, state, manual, c, env, Report);
            r.0.Uploaded? ==> r.0.totalPlans == r.0.results.plansAdded
                              && (r.0.message == Message(r.0.results, true, r.0.totalPlans)
                                  || r.0.message == Message(r.0.results, false, r.0.totalPlans))
  {
    var r := Commit(g, results, data, state, manual, c, env, Report);
    if r.0.Uploaded? {
      var ins :| Report(r.0.results, ins) == Ok((r.0.message, r.0.totalPlans)) && r.0.results.plansAdded == |ins|;
    }
  }

  /** The message and total of a successful upload, from the plans actually inserted. */
  function Report(results: Summary, inserted: seq<Inserted>): Result<(string, nat)> {
    Ok((Message(results, HadExisting(inserted), |inserted|), |inserted|))
  }

  predicate HadExisting(inserted: seq<Inserted>) {
    exists k :: 0 <= k < |inserted| && inserted[k].updated
  }

  /** The file counts that open the success message. */
  function CountsLine(results: Summary): string {
    "Processed " + Numbers.NatToString(results.totalFiles) + " file(s): "
    + Numbers.NatToString(results.successful) + " successful, "
    + Numbers.NatToString(results.failed) + " failed. "
  }

  /** The success message: the counts, then a sentence that opens with "Replaced" exactly
      when existing plans were replaced. */
  function Message(results: Summary, replaced: bool, total: nat): (r: string)
    ensures Text.IsPrefix(CountsLine(results), r)
    ensures |r| > |CountsLine(results)| && (r[|CountsLine(results)|] == 'R' <==> replaced)
  {
    CountsLine(results)
    + (if replaced then "Replaced existing plans with " + Numbers.NatToString(total) + " new plan(s) from uploaded documents."
       else "Created " + Numbers.NatToString(total) + " new plan(s).")
  }

  const NoFilesError: string := "No files uploaded"
  const NoStateError: string := "State ID is required"
  const BadStateError: string := "Invalid state ID"

  /** The name the replacement looks up: the manual name replaces the extracted one only
      when the manual name is non-empty and the extracted one is falsy or the placeholder. */
  function ProviderFor(extracted: Value, manual: Option<string>): (p: Value)
    ensures manual.None? || manual == Some([]) ==> p == extracted
    ensures Truthy(extracted) && extracted != Str("Unknown Provider") ==> p == extracted
  {
    if manual.Some? && manual.value != [] && (!Truthy(extracted) || extracted == Str("Unknown Provider"))
    then Str(manual.value)
    else extracted
  }

  /** The file name passed to the extraction for `n` uploads. */
  function CombinedName(n: nat): string {
    "Combined_" + Numbers.NatToString(n) + "_files"
  }

  /** The inserted rows as reported, ids `from`, `from + 1`, ... */
  function Reported(rep: Catalog.Replacement): (ins: seq<Inserted>)
    ensures |ins| == |rep.rows|
  {
    seq(|rep.rows|, k requires 0 <= k < |rep.rows| => Inserted(rep.from + k, rep.rows[k], rep.deleted > 0))
  }

  /** The whole route; `report` is the final step that builds the message. The three
      guards refuse before anything is stored. */
  function Upload(req: UploadRequest, c: Catalog.Catalog, env: Env,
                  report: (Summary, seq<Inserted>) -> Result<(string, nat)>)
    : (r: (Outcome, Catalog.Catalog))
    ensures NoFiles(req) ==> r == (Refused(NoFilesError), c)
    ensures r.0.Refused? ==> r.1 == c && r.0.error in {NoFilesError, NoStateError, BadStateError}
  {
    if NoFiles(req) then (Refused(NoFilesError), c)
    else if req.stateId.None? || req.stateId.value == [] then (Refused(NoStateError), c)
    else
      match Catalog.Integer(req.stateId.value, env.driver)
      case Err(e) => (Crashed(e), c)
      case Ok(state) =>
        if state !in c.states then (Refused(BadStateError), c)
        else Ingest(Uploads(req), state, req.providerName, c, env, report)
  }

  /** After the guards: the file loop, the all-failed abort and the one extraction call. */
  function Ingest(files: seq<Documents.Upload>, state: int, manual: Option<string>, c: Catalog.Catalog, env: Env,
                  report: (Summary, seq<Inserted>) -> Result<(string, nat)>)
    : (r: (Outcome, Catalog.Catalog))
    requires state in c.states
    ensures !r.0.Refused?
  {
    var g := Gather(env, files);
    var results := Summary(|files|, g.successful, g.failed, 0, g.details);
    if g.failed == |files| then (NothingExtracted(results), c)
    else
      var o := ExtractionPrompt.Options(CombinedName(|files|), g.tables);
      match PlanExtraction.ExtractPlanData(env.template, g.content, o, env.mock, env.model)
      case Err(e) => (ExtractionFailed(e, results), c)
      case Ok(data) => Commit(g, results, data, state, manual, c, env, report)
  }

  /** The transaction and the report. An error inside the transaction rolls it back and is
      answered like an extraction failure. */
  function Commit(g: Gathered, results: Summary, data: ReplyParser.PlanData, state: int, manual: Option<string>,
                  c: Catalog.Catalog, env: Env, report: (Summary, seq<Inserted>) -> Result<(string, nat)>)
    : (r: (Outcome, Catalog.Catalog))
    requires state in c.states
    ensures !r.0.Refused? && !r.0.NothingExtracted?
    ensures r.0.ExtractionFailed? ==> r.0.results == results && r.1 == c
    ensures r.0.Uploaded? ==> exists ins :: report(r.0.results, ins) == Ok((r.0.message, r.0.totalPlans))
                                            && r.0.results.plansAdded == |ins|
  {
    var provider := ProviderFor(data.provider, manual);
    var source := Text.Join(g.saved, ", ");
    match Catalog.Replace(c, Catalog.Param(provider, env.driver), state, data.plans, source, env.driver, env.now)
    case Err(e) => (ExtractionFailed(e, results), c)
    case Ok(rep) =>
      var ins := Reported(rep);
      var done := results.(plansAdded := |ins|, details := results.details + [Processed(g.saved, provider, ins)]);
      match report(done, ins)
      case Err(e) => (Crashed(e), rep.after)
      case Ok(m) =>
        assert report(done, ins) == Ok((m.0, m.1)) && done.plansAdded == |ins|;
        (Uploaded(m.0, c.states[state], m.1, done), rep.after)
  }

  /** The route exactly as written: the total and the "Replaced" test read
      `results.details.flatMap(d => d.plans)`. */
  function HandleAsWritten(req: UploadRequest, c: Catalog.Catalog, env: Env): (r: (Outcome, Catalog.Catalog))
    ensures r.0.Refused? <==> Handle(req, c, env).0.Refused?
    ensures r.0.Refused? ==> r == Handle(req, c, env)
  {
    Upload(req, c, env, ReportAsWritten)
  }

  /** `d.plans` for each detail: a failure detail has no `plans`, so `flatMap` keeps one
      `undefined` (`None`) for it; a success detail contributes its plans. */
  function Flat(details: seq<Detail>): (r: seq<Option<Inserted>>) {
    if details == [] then []
    else
      var first := match details[0]
        case FileFailed(_, _) => [None]
        case Processed(_, _, ps) => Somes(ps);
      first + Flat(details[1..])
  }

  function Somes(ps: seq<Inserted>): (r: seq<Option<Inserted>>)
    ensures |r| == |ps| && forall k :: 0 <= k < |ps| ==> r[k] == Some(ps[k])
  {
    seq(|ps|, k requires 0 <= k < |ps| => Some(ps[k]))
  }

  const UndefinedRead: string := "Cannot read properties of undefined (reading 'updated')"

  /** `allPlans.some(p => p.updated)`: stops at the first updated plan, and throws on an
      `undefined` reached before one. */
  function SomeUpdated(ps: seq<Option<Inserted>>): (r: Result<bool>)
    ensures r == Err(UndefinedRead) || r.Ok?
  {
    if ps == [] then Ok(false)
    else if ps[0].None? then Err(UndefinedRead)
    else if ps[0].value.updated then Ok(true)
    else SomeUpdated(ps[1..])
  }

  function ReportAsWritten(results: Summary, inserted: seq<Inserted>): Result<(string, nat)> {
    var all := Flat(results.details);
    var replaced :- SomeUpdated(all);
    Ok((Message(results, replaced, |all|), |all|))
  }

  /** Over plans only, `some` is the existential. */
  lemma {:induction false} SomeUpdatedSomes(ps: seq<Inserted>)
    ensures SomeUpdated(Somes(ps)) == Ok(HadExisting(ps))
    decreases |ps|
  {
    if ps != [] {
      SomeUpdatedSomes(ps[1..]);
      assert Somes(ps)[1..] == Somes(ps[1..]);
      if !ps[0].updated && HadExisting(ps) {
        var k :| 0 <= k < |ps| && ps[k].updated;
        assert ps[1..][k - 1].updated;
      }
      if HadExisting(ps[1..]) {
        var k :| 0 <= k < |ps[1..]| && ps[1..][k].updated;
        assert ps[k + 1].updated;
      }
    }
  }

  /** The two reports of one commit: the same when no file failed; when one did, the
      as-written report throws, after the transaction has committed. */
  lemma ReportsCompared(details: seq<Detail>, results: Summary, ins: seq<Inserted>, saved: seq<string>, provider: Value)
    requires forall k :: 0 <= k < |details| ==> details[k].FileFailed?
    requires results.details == details + [Processed(saved, provider, ins)]
    ensures details == [] ==> ReportAsWritten(results, ins) == Report(results, ins)
    ensures details != [] ==> ReportAsWritten(results, ins) == Err(UndefinedRead)
  {
    if details == [] {
      assert results.details == [Processed(saved, provider, ins)];
      assert Flat(results.details) == Somes(ins) + Flat([]);
      assert Flat(results.details) == Somes(ins);
      SomeUpdatedSomes(ins);
    } else {
      assert results.details[0].FileFailed?;
      assert Flat(results.details)[0] == None;
    }
  }

  /** The same request and store through the route as written and through the corrected
      route. */
  lemma AsWrittenCrashes(req: UploadRequest, c: Catalog.Catalog, env: Env)
    ensures var r := Handle(req, c, env);
            var w := HandleAsWritten(req, c, env);
            && (r.0.Uploaded? && r.0.results.failed > 0 ==> w == (Crashed(UndefinedRead), r.1))
            && (!(r.0.Uploaded? && r.0.results.failed > 0) ==> w == r)
  {
    if !NoFiles(req) && req.stateId.Some? && req.stateId.value != [] {
      var st := Catalog.Integer(req.stateId.value, env.driver);
      if st.Ok? && st.value in c.states {
        IngestCompared(Uploads(req), st.value, req.providerName, c, env);
      }
    }
  }

  lemma IngestCompared(files: seq<Documents.Upload>, state: int, manual: Option<string>, c: Catalog.Catalog, env: Env)
    requires state in c.states
    ensures var r := Ingest(files, state, manual, c, env, Report);
            var w := Ingest(files, state, manual, c, env, ReportAsWritten);
            && (r.0.Uploaded? && r.0.results.failed > 0 ==> w == (Crashed(UndefinedRead), r.1))
            && (!(r.0.Uploaded? && r.0.results.failed > 0) ==> w == r)
  {
    var g := Gather(env, files);
    var results := Summary(|files|, g.successful, g.failed, 0, g.details);
    var o := ExtractionPrompt.Options(CombinedName(|files|), g.tables);
    var x := PlanExtraction.ExtractPlanData(env.template, g.content, o, env.mock, env.model);
    if g.failed != |files| && x.Ok? {
      CommitCompared(g, results, x.value, state, manual, c, env);
    }
  }

  lemma CommitCompared(g: Gathered, results: Summary, data: ReplyParser.PlanData, state: int,
                       manual: Option<string>, c: Catalog.Catalog, env: Env)
    requires state in c.states
    requires results.details == g.details && results.failed == |g.details|
    requires forall k :: 0 <= k < |g.details| ==> g.details[k].FileFailed?
    ensures var r := Commit(g, results, data, state, manual, c, env, Report);
            var w := Commit(g, results, data, state, manual, c, env, ReportAsWritten);
            && (r.0.Uploaded? && r.0.results.failed > 0 ==> w == (Crashed(UndefinedRead), r.1))
            && (!(r.0.Uploaded? && r.0.results.failed > 0) ==> w == r)
  {
    var provider := ProviderFor(data.provider, manual);
    var source := Text.Join(g.saved, ", ");
    var rep := Catalog.Replace(c, Catalog.Param(provider, env.driver), state, data.plans, source, env.driver, env.now);
    if rep.Ok? {
      var ins := Reported(rep.value);
      var done := results.(plansAdded := |ins|, details := results.details + [Processed(g.saved, provider, ins)]);
      ReportsCompared(g.details, done, ins, g.saved, provider);
    }
  }

  /** A request the route passed through its guards: the state id it parsed. */
  lemma Guarded(req: UploadRequest, c: Catalog.Catalog, env: Env) returns (state: int)
    requires !Handle(req, c, env).0.Refused? && !Handle(req, c, env).0.Crashed?
    ensures !NoFiles(req) && req.stateId.Some? && req.stateId.value != []
    ensures Catalog.Integer(req.stateId.value, env.driver) == Ok(state) && state in c.states
    ensures Handle(req, c, env) == Ingest(Uploads(req), state, req.providerName, c, env, Report)
  {
    state := Catalog.Integer(req.stateId.value, env.driver).value;
  }

  /** An ingestion that reached the transaction: the loop's result and the extracted data. */
  lemma Extracted(files: seq<Documents.Upload>, state: int, manual: Option<string>, c: Catalog.Catalog, env: Env)
    returns (g: Gathered, data: ReplyParser.PlanData)
    requires state in c.states
    requires Ingest(files, state, manual, c, env, Report).0.Uploaded?
    ensures g == Gather(env, files) && g.failed < |files|
    ensures PlanExtraction.ExtractPlanData(env.template, g.content,
              ExtractionPrompt.Options(CombinedName(|files|), g.tables), env.mock, env.model) == Ok(data)
    ensures Ingest(files, state, manual, c, env, Report)
            == Commit(g, Summary(|files|, g.successful, g.failed, 0, g.details), data, state, manual, c, env, Report)
  {
    g := Gather(env, files);
    data := PlanExtraction.ExtractPlanData(env.template, g.content,
              ExtractionPrompt.Options(CombinedName(|files|), g.tables), env.mock, env.model).value;
  }

  /** A commit that succeeded: the replacement it made and what it reported. */
  lemma Committed(g: Gathered, results: Summary, data: ReplyParser.PlanData, state: int, manual: Option<string>,
                  c: Catalog.Catalog, env: Env) returns (rep: Catalog.Replacement)
    requires state in c.states
    requires Commit(g, results, data, state, manual, c, env, Report).0.Uploaded?
    ensures var provider := ProviderFor(data.provider, manual);
            Catalog.Replace(c, Catalog.Param(provider, env.driver), state, data.plans, Text.Join(g.saved, ", "),
                            env.driver, env.now) == Ok(rep)
    ensures var provider := ProviderFor(data.provider, manual);
            var ins := Reported(rep);
            var done := results.(plansAdded := |ins|, details := results.details + [Processed(g.saved, provider, ins)]);
            Commit(g, results, data, state, manual, c, env, Report)
            == (Uploaded(Message(done, HadExisting(ins), |ins|), c.states[state], |ins|, done), rep.after)
  {
    var provider := ProviderFor(data.provider, manual);
    rep := Catalog.Replace(c, Catalog.Param(provider, env.driver), state, data.plans, Text.Join(g.saved, ", "),
                           env.driver, env.now).value;
  }

  /** Only a completed upload changes the store: every refusal and every failure, including
      a failed transaction, answers with the store as it was. */
  lemma FailureKeepsStore(req: UploadRequest, c: Catalog.Catalog, env: Env)
    ensures !Handle(req, c, env).0.Uploaded? ==> Handle(req, c, env).1 == c
  {
    if !Handle(req, c, env).0.Refused? && !Handle(req, c, env).0.Crashed? {
      var state := Guarded(req, c, env);
      var files := Uploads(req);
      var g := Gather(env, files);
      var results := Summary(|files|, g.successful, g.failed, 0, g.details);
      var o := ExtractionPrompt.Options(CombinedName(|files|), g.tables);
      var x := PlanExtraction.ExtractPlanData(env.template, g.content, o, env.mock, env.model);
      if g.failed != |files| && x.Ok? {
        assert Handle(req, c, env) == Commit(g, results, x.value, state, req.providerName, c, env, Report);
      }
    }
  }

  /** The guards run before any file is moved: a refused request is refused whatever the
      file system would have done, and a refusal is always one of the three guard errors. */
  lemma GuardsBeforeSave(req: UploadRequest, c: Catalog.Catalog, env: Env,
                         move: (string, Documents.Upload) -> Result<()>, d: Documents.Decoders)
    ensures Handle(req, c, env).0.Refused? ==>
              Handle(req, c, env.(move := move, decoders := d)) == Handle(req, c, env)
              && Handle(req, c, env).1 == c
              && Handle(req, c, env).0.error in {NoFilesError, NoStateError, BadStateError}
  {
  }

  /** The first two guards in order: no file at all, then no state id. */
  lemma GuardOrder(req: UploadRequest, c: Catalog.Catalog, env: Env)
    ensures NoFiles(req) ==> Handle(req, c, env) == (Refused(NoFilesError), c)
    ensures !NoFiles(req) && (req.stateId.None? || req.stateId == Some([])) ==>
              Handle(req, c, env) == (Refused(NoStateError), c)
  {
  }

  /** Each loop turn counts its file once, as a success or a failure. */
  lemma {:induction false} TallyCounts(files: seq<Documents.Upload>, rs: seq<FileResult>)
    requires |rs| == |files|
    ensures Tally(files, rs).failed == |files| <==> forall i :: 0 <= i < |rs| ==> !rs[i].Read?
    decreases |files|
  {
    if files != [] {
      var n := |files| - 1;
      TallyCounts(files[..n], rs[..n]);
      assert forall i :: 0 <= i < n ==> rs[..n][i] == rs[i];
    }
  }

  /** Provenance: a file is among the saved names exactly when its move succeeded, even if
      its text could not be extracted afterwards. */
  lemma {:induction false} TallySaved(files: seq<Documents.Upload>, rs: seq<FileResult>)
    requires |rs| == |files|
    ensures forall i :: 0 <= i < |files| && !rs[i].NotSaved? ==> files[i].name in Tally(files, rs).saved
    ensures forall n :: n in Tally(files, rs).saved ==> exists i :: 0 <= i < |files| && files[i].name == n && !rs[i].NotSaved?
    decreases |files|
  {
    if files != [] {
      var m := |files| - 1;
      var pre := Tally(files[..m], rs[..m]);
      TallySaved(files[..m], rs[..m]);
      assert forall i :: 0 <= i < m ==> files[..m][i] == files[i] && rs[..m][i] == rs[i];
      var g := Tally(files, rs);
      assert pre.saved <= g.saved;
      forall n | n in g.saved
        ensures exists i :: 0 <= i < |files| && files[i].name == n && !rs[i].NotSaved?
      {
        if n !in pre.saved {
          assert n == files[m].name && !rs[m].NotSaved?;
        }
      }
    }
  }

  /** The loop reads nothing but the clock, the directory, the file move and the decoders. */
  lemma GatherInputs(env: Env, files: seq<Documents.Upload>, other: Env)
    requires other.now == env.now && other.dir == env.dir && other.move == env.move && other.decoders == env.decoders
    ensures Gather(other, files) == Gather(env, files)
  {
    assert Results(other, files) == Results(env, files);
  }

  /** When every file fails there is no model call: the outcome is the 400 with the
      accounting, whatever the model, the mock switch or the template. */
  lemma AllFailedSkipsModel(files: seq<Documents.Upload>, state: int, manual: Option<string>, c: Catalog.Catalog,
                            env: Env, model: PlanExtraction.Model, mock: bool, template: string)
    requires state in c.states
    requires forall i :: 0 <= i < |files| ==> !Process(env, i, files[i]).Read?
    ensures var other := env.(model := model, mock := mock, template := template);
            var g := Gather(env, files);
            && Ingest(files, state, manual, c, other, Report) == Ingest(files, state, manual, c, env, Report)
            && Ingest(files, state, manual, c, env, Report)
               == (NothingExtracted(Summary(|files|, 0, |files|, 0, g.details)), c)
  {
    var other := env.(model := model, mock := mock, template := template);
    TallyCounts(files, Results(env, files));
    GatherInputs(env, files, other);
  }

  /** A completed upload, stage by stage: the state it resolved, the loop's result, the
      extracted data and the replacement the transaction made. */
  lemma Completed(req: UploadRequest, c: Catalog.Catalog, env: Env)
    returns (state: int, g: Gathered, data: ReplyParser.PlanData, rep: Catalog.Replacement)
    requires Handle(req, c, env).0.Uploaded?
    ensures req.stateId.Some? && Catalog.Integer(req.stateId.value, env.driver) == Ok(state) && state in c.states
    ensures g == Gather(env, Uploads(req)) && g.failed < |Uploads(req)|
    ensures PlanExtraction.ExtractPlanData(env.template, g.content,
              ExtractionPrompt.Options(CombinedName(|Uploads(req)|), g.tables), env.mock, env.model) == Ok(data)
    ensures Catalog.Replace(c, Catalog.Param(ProviderFor(data.provider, req.providerName), env.driver), state,
                            data.plans, Text.Join(g.saved, ", "), env.driver, env.now) == Ok(rep)
    ensures var files := Uploads(req);
            var results := Summary(|files|, g.successful, g.failed, 0, g.details);
            var ins := Reported(rep);
            var done := results.(plansAdded := |ins|, details := results.details
                                   + [Processed(g.saved, ProviderFor(data.provider, req.providerName), ins)]);
            Handle(req, c, env) == (Uploaded(Message(done, HadExisting(ins), |ins|), c.states[state], |ins|, done), rep.after)
  {
    state := Guarded(req, c, env);
    g, data := Extracted(Uploads(req), state, req.providerName, c, env);
    var files := Uploads(req);
    rep := Committed(g, Summary(|files|, g.successful, g.failed, 0, g.details), data, state, req.providerName, c, env);
  }

  /** The summary of a completed upload: every file is counted once, each failure has its
      detail, and the one success detail lists the inserted plans, at least one. */
  lemma UploadedAccounting(req: UploadRequest, c: Catalog.Catalog, env: Env)
    requires Handle(req, c, env).0.Uploaded?
    ensures var r := Handle(req, c, env).0.results;
            && r.totalFiles == |Uploads(req)| == r.successful + r.failed
            && r.successful > 0
            && |r.details| == r.failed + 1
            && (forall k :: 0 <= k < r.failed ==> r.details[k].FileFailed?)
            && r.details[r.failed].Processed?
            && |r.details[r.failed].plans| == r.plansAdded == Handle(req, c, env).0.totalPlans > 0
  {
    var state, g, data, rep := Completed(req, c, env);
  }

  /** An aborted upload still accounts for every file. */
  lemma AbortedAccounting(req: UploadRequest, c: Catalog.Catalog, env: Env)
    requires Handle(req, c, env).0.NothingExtracted? || Handle(req, c, env).0.ExtractionFailed?
    ensures var r := Handle(req, c, env).0.results;
            && r.totalFiles == |Uploads(req)| == r.successful + r.failed
            && |r.details| == r.failed && r.plansAdded == 0
            && (forall k :: 0 <= k < |r.details| ==> r.details[k].FileFailed?)
            && (Handle(req, c, env).0.NothingExtracted? ==> r.successful == 0)
  {
    var state := Guarded(req, c, env);
    IngestAborted(Uploads(req), state, req.providerName, c, env);
  }

  lemma IngestAborted(files: seq<Documents.Upload>, state: int, manual: Option<string>, c: Catalog.Catalog, env: Env)
    requires state in c.states
    ensures var o := Ingest(files, state, manual, c, env, Report).0;
            o.NothingExtracted? || o.ExtractionFailed? ==>
              var r := o.results;
              && r.totalFiles == |files| == r.successful + r.failed
              && |r.details| == r.failed && r.plansAdded == 0
              && (forall k :: 0 <= k < |r.details| ==> r.details[k].FileFailed?)
              && (o.NothingExtracted? ==> r.successful == 0)
  {
    var g := Gather(env, files);
    var results := Summary(|files|, g.successful, g.failed, 0, g.details);
    var r := Ingest(files, state, manual, c, env, Report).0;
    if g.failed == |files| {
      assert r == NothingExtracted(results);
    } else {
      var o := ExtractionPrompt.Options(CombinedName(|files|), g.tables);
      var x := PlanExtraction.ExtractPlanData(env.template, g.content, o, env.mock, env.model);
      if x.Err? {
        assert r == ExtractionFailed(x.message, results);
      } else {
        assert r == Commit(g, results, x.value, state, manual, c, env, Report).0;
      }
    }
  }

  /** A completed upload keeps the store consistent. */
  lemma UploadedValid(req: UploadRequest, c: Catalog.Catalog, env: Env)
    requires Catalog.Valid(c)
    requires Handle(req, c, env).0.Uploaded?
    ensures Catalog.Valid(Handle(req, c, env).1)
  {
    var state, g, data, rep := Completed(req, c, env);
    Catalog.ReplaceValid(c, Catalog.Param(ProviderFor(data.provider, req.providerName), env.driver), state,
                         data.plans, Text.Join(g.saved, ", "), env.driver, env.now);
  }

  /** The rows a replacement reports are in the table under their ids, active, of the
      replaced pair, and tagged with the source. */
  lemma ReportedRows(c: Catalog.Catalog, name: Option<string>, state: int, plans: seq<Value>, source: string,
                     d: Catalog.Driver, now: int, rep: Catalog.Replacement)
    requires Catalog.Replace(c, name, state, plans, source, d, now) == Ok(rep)
    ensures var ins := Reported(rep);
            forall k :: 0 <= k < |ins| ==>
              && Catalog.Holds(rep.after.plans, ins[k].id, ins[k].row)
              && ins[k].row.active == Some(true)
              && ins[k].row.source == source
              && Catalog.InPair(ins[k].row, rep.provider, state)
  {
    Catalog.ReplaceInOrder(c, name, state, plans, source, d, now, rep);
    var ins := Reported(rep);
    forall k | 0 <= k < |ins|
      ensures Catalog.Holds(rep.after.plans, ins[k].id, ins[k].row)
    {
      assert ins[k].id == rep.from + k && ins[k].row == rep.rows[k];
    }
  }

  /** The plans a completed upload reports are in the store under their ids, active, of the
      provider and state the upload named, and tagged with the saved file names. */
  lemma UploadedRows(req: UploadRequest, c: Catalog.Catalog, env: Env)
    requires Handle(req, c, env).0.Uploaded?
    ensures var (o, after) := Handle(req, c, env);
            && o.Uploaded? && o.results.details != []
            && var last := o.results.details[|o.results.details| - 1];
            && last.Processed?
            && forall k :: 0 <= k < |last.plans| ==>
                 && Catalog.Holds(after.plans, last.plans[k].id, last.plans[k].row)
                 && last.plans[k].row.active == Some(true)
                 && last.plans[k].row.source == Text.Join(last.files, ", ")
                 && Catalog.Integer(req.stateId.value, env.driver) == Ok(last.plans[k].row.state)
                 && last.plans[k].row.provider == last.plans[0].row.provider
  {
    var state, g, data, rep := Completed(req, c, env);
    var name := Catalog.Param(ProviderFor(data.provider, req.providerName), env.driver);
    ReportedRows(c, name, state, data.plans, Text.Join(g.saved, ", "), env.driver, env.now, rep);
  }

  /** A completed upload touches only the (provider, state) pair it replaced: every other
      plan keeps its id and row, and no other plan appears. */
  lemma UploadedKeepsOthers(req: UploadRequest, c: Catalog.Catalog, env: Env)
    requires Catalog.Valid(c)
    requires Handle(req, c, env).0.Uploaded?
    ensures var (o, after) := Handle(req, c, env);
            && o.Uploaded? && o.results.details != []
            && var last := o.results.details[|o.results.details| - 1];
            && last.Processed? && last.plans != []
            && var p := last.plans[0].row.provider;
               var state := last.plans[0].row.state;
               && after.states == c.states
               && (forall k :: k in c.plans && !Catalog.InPair(c.plans[k], p, state) ==>
                     k in after.plans && after.plans[k] == c.plans[k])
               && (forall k :: k in after.plans && !Catalog.InPair(after.plans[k], p, state) ==>
                     k in c.plans && c.plans[k] == after.plans[k])
  {
    var state, g, data, rep := Completed(req, c, env);
    var name := Catalog.Param(ProviderFor(data.provider, req.providerName), env.driver);
    var source := Text.Join(g.saved, ", ");
    ReportedRows(c, name, state, data.plans, source, env.driver, env.now, rep);
    Catalog.ReplaceKeepsOthers(c, name, state, data.plans, source, env.driver, env.now);
  }

  /** Every reported row carries the same flag: whether the delete removed anything. */
  lemma HadExistingDeleted(rep: Catalog.Replacement)
    requires rep.rows != []
    ensures HadExisting(Reported(rep)) <==> rep.deleted > 0
  {
    assert Reported(rep)[0].updated == (rep.deleted > 0);
  }

  /** The store holds a plan of the given provider and state. */
  predicate HasPair(c: Catalog.Catalog, provider: nat, state: int) {
    exists k :: k in c.plans && Catalog.InPair(c.plans[k], provider, state)
  }

  /** A replacement of a non-empty extraction reports "updated" exactly when the pair already
      had plans. */
  lemma ReplacedExisting(c: Catalog.Catalog, name: Option<string>, state: int, plans: seq<Value>, source: string,
                         d: Catalog.Driver, now: int, rep: Catalog.Replacement)
    requires plans != []
    requires Catalog.Replace(c, name, state, plans, source, d, now) == Ok(rep)
    ensures HadExisting(Reported(rep)) <==> HasPair(c, rep.provider, state)
  {
    HadExistingDeleted(rep);
    var ids := Catalog.PairIds(c.plans, rep.provider, state);
    if HasPair(c, rep.provider, state) {
      var k :| k in c.plans && Catalog.InPair(c.plans[k], rep.provider, state);
      assert k in ids;
    }
  }

  /** The message says "Replaced existing plans" exactly when the store already held a plan of
      the provider and state the upload replaced, and "Created" otherwise. */
  lemma UploadedMessage(req: UploadRequest, c: Catalog.Catalog, env: Env)
    requires Handle(req, c, env).0.Uploaded?
    ensures var o := Handle(req, c, env).0;
            && o.Uploaded? && o.results.details != []
            && var last := o.results.details[|o.results.details| - 1];
            && last.Processed? && last.plans != []
            && o.message == Message(o.results, HasPair(c, last.plans[0].row.provider, last.plans[0].row.state), o.totalPlans)
  {
    var state, g, data, rep := Completed(req, c, env);
    var name := Catalog.Param(ProviderFor(data.provider, req.providerName), env.driver);
    ReportedRows(c, name, state, data.plans, Text.Join(g.saved, ", "), env.driver, env.now, rep);
    ReplacedExisting(c, name, state, data.plans, Text.Join(g.saved, ", "), env.driver, env.now, rep);
  }

  /** In mock mode the combined extraction always names the provider "Combined", which no
      manual name overrides. */
  lemma MockUploadProvider(req: UploadRequest, c: Catalog.Catalog, env: Env)
    requires env.mock
    requires Handle(req, c, env).0.Uploaded?
    ensures var o := Handle(req, c, env).0;
            && o.Uploaded? && o.results.details != []
            && var last := o.results.details[|o.results.details| - 1];
            last.Processed? && last.provider == Str("Combined")
  {
    var state, g, data, rep := Completed(req, c, env);
    var n := Numbers.NatToString(|Uploads(req)|);
    assert CombinedName(|Uploads(req)|) == "Combined_" + (n + "_files");
    MockExtractor.CombinedUploadProvider(n + "_files");
  }
}

=== FILE: interactive_comparison.dfy ===
/** Choosing which insurers to compare, as frontend/src/components/InteractiveComparison.jsx
    does it: the provider list, the default and top-N selections, the manual toggle, and the
    guards on starting a comparison and on the user profile. */
module InteractiveComparison {
  import opened Wrappers
  import Numbers
  import Ordering
  import Text

  /** `[...new Set(plans.map(p => p.provider_name))].sort()`. */
  function Providers(names: seq<string>): (r: seq<string>)
    ensures Ordering.StrictlySorted(r)
    ensures forall y :: y in r <==> y in names
  {
    Ordering.DistinctSorted(names)
  }

  /** `providers.slice(0, count)` for the counts the selector offers, and for any other
      value `parseInt` can give as `slice` reads it: a negative count is taken from the end,
      and `NaN` (`None`, from a cleared field) reads as 0. */
  function Top(providers: seq<string>, count: Option<int>): (r: seq<string>)
    ensures |r| <= |providers| && r == providers[..|r|]
    ensures count.Some? && 0 <= count.value <= |providers| ==> |r| == count.value
    ensures count.Some? && count.value >= |providers| ==> r == providers
    ensures count.None? ==> r == []
  {
    match count
    case None => []
    case Some(n) =>
      var end := if n < 0 then (if |providers| + n < 0 then 0 else |providers| + n)
                 else if n > |providers| then |providers| else n;
      providers[..end]
  }

  /** The selection after loading: the first three providers, or all of them if fewer. */
  function Initial(providers: seq<string>): (r: seq<string>)
    ensures |r| == if |providers| >= 3 then 3 else |providers|
    ensures r == providers[..|r|]
  {
    if |providers| >= 3 then providers[..3] else providers
  }

  /** The initial selection is made of distinct providers that exist. */
  lemma InitialDistinct(names: seq<string>)
    ensures var sel := Initial(Providers(names));
            Ordering.Distinct(sel) && forall p :: p in sel ==> p in names
  {
    var ps := Providers(names);
    Ordering.StrictlySortedDistinct(ps);
    var sel := Initial(ps);
    forall p | p in sel
      ensures p in names
    {
      assert p in ps;
    }
  }

  function Without(s: seq<string>, p: string): (r: seq<string>)
    ensures forall q :: q in r <==> q in s && q != p
    ensures |r| <= |s|
  {
    if s == [] then []
    else
      var init := Without(s[..|s| - 1], p);
      var last := s[|s| - 1];
      assert s == s[..|s| - 1] + [last];
      if last == p then init else init + [last]
  }

  /** `handleProviderToggle`: a selected provider is removed, any other is added at the end. */
  function Toggle(selected: seq<string>, p: string): (r: seq<string>)
    ensures p in r <==> p !in selected
    ensures forall q :: q != p ==> (q in r <==> q in selected)
  {
    if p in selected then Without(selected, p) else selected + [p]
  }

  lemma {:induction false} WithoutKeepsDistinct(s: seq<string>, p: string)
    requires Ordering.Distinct(s)
    ensures Ordering.Distinct(Without(s, p))
  {
    if s != [] {
      var init := s[..|s| - 1];
      WithoutKeepsDistinct(init, p);
      assert s[|s| - 1] !in init;
    }
  }

  /** Toggling flips the membership of that one provider, keeps every other, and never
      introduces a duplicate. */
  lemma ToggleSpec(selected: seq<string>, p: string)
    requires Ordering.Distinct(selected)
    ensures var r := Toggle(selected, p);
            && (p in r <==> p !in selected)
            && (forall q :: q != p ==> (q in r <==> q in selected))
            && Ordering.Distinct(r)
  {
    if p in selected {
      WithoutKeepsDistinct(selected, p);
    }
  }

  /** Adding a provider and toggling it again gives back the selection unchanged. */
  lemma {:induction false} ToggleTwice(selected: seq<string>, p: string)
    requires p !in selected
    ensures Toggle(Toggle(selected, p), p) == selected
  {
    WithoutAppended(selected, p);
  }

  lemma {:induction false} WithoutAbsent(s: seq<string>, p: string)
    requires p !in s
    ensures Without(s, p) == s
  {
    if s != [] {
      WithoutAbsent(s[..|s| - 1], p);
      assert s == s[..|s| - 1] + [s[|s| - 1]];
    }
  }

  lemma WithoutAppended(s: seq<string>, p: string)
    requires p !in s
    ensures Without(s + [p], p) == s
  {
    assert (s + [p])[..|s|] == s;
    WithoutAbsent(s, p);
  }

  datatype Mode = TopMode | Manual

  /** The selection settings: the mode, the top count (`None` for `NaN`) and the selected
      providers. */
  datatype Choice = Choice(mode: Mode, count: Option<int>, selected: seq<string>)

  /** `handleSelectionModeChange`: switching to 'top' reselects the first providers;
      switching to manual keeps the selection. */
  function SetMode(c: Choice, mode: Mode, providers: seq<string>): (r: Choice)
    ensures r.mode == mode && r.count == c.count
    ensures mode == TopMode ==> r.selected == Top(providers, c.count)
    ensures mode == Manual ==> r.selected == c.selected
  {
    if mode == TopMode then Choice(mode, c.count, Top(providers, c.count)) else c.(mode := mode)
  }

  /** `handleTopCountChange`: the count always changes, the selection only in 'top' mode. */
  function SetCount(c: Choice, count: Option<int>, providers: seq<string>): (r: Choice)
    ensures r.mode == c.mode && r.count == count
    ensures c.mode == TopMode ==> r.selected == Top(providers, count)
    ensures c.mode == Manual ==> r.selected == c.selected
    ensures c.mode == TopMode && count.None? ==> r.selected == []
  {
    if c.mode == TopMode then Choice(c.mode, count, Top(providers, count)) else c.(count := count)
  }

  /** In 'top' mode the selection is always the first `count` providers, whatever order the
      mode and count changes come in. */
  lemma TopStaysTop(c: Choice, count: Option<int>, providers: seq<string>)
    requires c.mode == TopMode && c.selected == Top(providers, c.count)
    ensures var r := SetCount(c, count, providers);
            r.selected == Top(providers, r.count)
    ensures SetMode(SetCount(c.(mode := Manual), count, providers), TopMode, providers).selected == Top(providers, count)
  {
  }

  /** `startComparison`: at least two providers. */
  predicate CanCompare(selected: seq<string>) {
    |selected| >= 2
  }

  /** A comparison can start right after loading exactly when there are at least two
      providers. */
  lemma InitialComparable(names: seq<string>)
    ensures CanCompare(Initial(Providers(names))) <==> |Providers(names)| >= 2
  {
  }

  /** The count field hands `parseInt(e.target.value)` to `handleTopCountChange`. Clearing
      it in 'top' mode gives `NaN`, which empties the selection, and no comparison can start
      until a count is typed again. */
  lemma ClearedCount(c: Choice, providers: seq<string>)
    requires c.mode == TopMode
    ensures var r := SetCount(c, Numbers.JsParseInt(""), providers);
            r.count.None? && r.selected == [] && !CanCompare(r.selected)
  {
  }

  /** What the age and salary fields store: `parseInt(typed) || ''`, so text that parses
      to `NaN` or to zero is stored as the empty string, here `None`. */
  function Stored(typed: string): (r: Option<int>)
    ensures r.Some? <==> Numbers.JsParseInt(typed).Some? && Numbers.JsParseInt(typed).value != 0
    ensures r.Some? ==> r.value == Numbers.JsParseInt(typed).value
  {
    match Numbers.JsParseInt(typed)
    case Some(n) => if n != 0 then Some(n) else None
    case None => None
  }

  /** `handleProfileSubmit`: the profile counts as set only when both stored values are
      truthy. */
  predicate ProfileSet(age: Option<int>, salary: Option<int>) {
    age.Some? && salary.Some?
  }

  /** A typed whole number is stored as itself unless it is zero; a zero or text with no
      leading digits leaves the profile unset. */
  lemma ProfileFromTyped(age: nat, salary: string)
    ensures Stored(Numbers.NatToString(age)) == (if age == 0 then None else Some(age))
    ensures !ProfileSet(Stored("0"), Stored(salary))
    ensures !ProfileSet(Stored("abc"), Stored(salary))
    ensures ProfileSet(Stored(Numbers.NatToString(age)), Stored(salary)) <==>
              age != 0 && Stored(salary).Some?
  {
    Numbers.ParseIntOfNat(age);
    StoredZero();
    StoredLetters();
  }

  lemma StoredZero()
    ensures Stored("0") == None
  {
    Numbers.ParseIntOfNat(0);
    assert Numbers.NatToString(0) == "0";
  }

  lemma StoredLetters()
    ensures Stored("abc") == None
  {
    assert Text.TrimStart("abc") == "abc";
    assert Numbers.SplitSign("abc").1 == "abc";
  }
}

=== FILE: listings.dfy ===
/** What the plan listings of backend/routes/plans.js and backend/routes/admin.js share: a
    plan joined with its provider's and its state's names, the plans passing a filter in id
    order, the same plans under an `ORDER BY`, and `LIMIT`/`OFFSET` paging with the
    `parseInt` of their query parameters. */
module Listings {
  import opened Wrappers
  import Numbers
  import Ordering
  import Catalog

  /** A listed plan: the row with its provider's name (inner join) and its state's name
      (left join, `None` when the state row is missing). */
  datatype Listed = Listed(id: nat, row: Catalog.PlanRow, providerName: Option<string>, stateName: Option<string>)

  /** The inner join with providers holds. */
  predicate Joined(c: Catalog.Catalog, row: Catalog.PlanRow) {
    row.provider < |c.providers|
  }

  function Listing(c: Catalog.Catalog, k: nat): Listed
    requires k in c.plans
  {
    var row := c.plans[k];
    Listed(k, row,
           if Joined(c, row) then c.providers[row.provider] else None,
           if row.state in c.states then Some(c.states[row.state]) else None)
  }

  /** The plans with ids below `n` that the filter keeps, by id. */
  function Candidates(c: Catalog.Catalog, keep: Catalog.PlanRow -> bool, n: nat): seq<Listed> {
    if n == 0 then []
    else
      var k := n - 1;
      Candidates(c, keep, k) + (if k in c.plans && keep(c.plans[k]) then [Listing(c, k)] else [])
  }

  /** The candidates are exactly the kept plans below `n`, each with its names. */
  lemma {:induction false} CandidatesSpec(c: Catalog.Catalog, keep: Catalog.PlanRow -> bool, n: nat)
    ensures forall x :: x in Candidates(c, keep, n) <==>
              x.id < n && x.id in c.plans && keep(c.plans[x.id]) && x == Listing(c, x.id)
  {
    if n > 0 {
      CandidatesSpec(c, keep, n - 1);
    }
  }

  /** Every kept plan under the given order; plans the order ties stay in id order. */
  function Ranked(c: Catalog.Catalog, keep: Catalog.PlanRow -> bool, le: (Listed, Listed) -> bool): (r: seq<Listed>)
    requires Ordering.TotalPreorder(le)
    ensures Ordering.SortedBy(r, le)
    ensures multiset(r) == multiset(Candidates(c, keep, c.nextPlan))
  {
    Ordering.SortBy(Candidates(c, keep, c.nextPlan), le)
  }

  /** Every ranked row is a stored plan the filter keeps, with its names. */
  lemma RankedSound(c: Catalog.Catalog, keep: Catalog.PlanRow -> bool, le: (Listed, Listed) -> bool)
    requires Ordering.TotalPreorder(le)
    ensures forall x :: x in Ranked(c, keep, le) ==>
              x.id in c.plans && keep(c.plans[x.id]) && x == Listing(c, x.id)
  {
    CandidatesSpec(c, keep, c.nextPlan);
    var r := Ranked(c, keep, le);
    forall x | x in r ensures x in Candidates(c, keep, c.nextPlan) {
      assert x in multiset(r);
    }
  }

  /** With every id issued below `nextPlan`, the ranking holds every kept plan. */
  lemma RankedComplete(c: Catalog.Catalog, keep: Catalog.PlanRow -> bool, le: (Listed, Listed) -> bool)
    requires Catalog.Valid(c) && Ordering.TotalPreorder(le)
    ensures forall k :: k in c.plans && keep(c.plans[k]) ==> Listing(c, k) in Ranked(c, keep, le)
  {
    CandidatesSpec(c, keep, c.nextPlan);
    var r := Ranked(c, keep, le);
    forall k | k in c.plans && keep(c.plans[k])
      ensures Listing(c, k) in r
    {
      assert Listing(c, k) in multiset(Candidates(c, keep, c.nextPlan));
    }
  }

  /** The ids the filter keeps: what `SELECT COUNT(*)` counts. */
  function Kept(c: Catalog.Catalog, keep: Catalog.PlanRow -> bool): set<nat> {
    set k | k in c.plans && keep(c.plans[k])
  }

  /** The ranking lists each kept plan once: it is as long as the set of kept ids. */
  lemma RankedCount(c: Catalog.Catalog, keep: Catalog.PlanRow -> bool, le: (Listed, Listed) -> bool)
    requires Catalog.Valid(c) && Ordering.TotalPreorder(le)
    ensures |Ranked(c, keep, le)| == |Kept(c, keep)|
  {
    CandidatesCount(c, keep, c.nextPlan);
    assert Kept(c, keep) == set k | k in c.plans && k < c.nextPlan && keep(c.plans[k]);
    assert |multiset(Ranked(c, keep, le))| == |multiset(Candidates(c, keep, c.nextPlan))|;
  }

  lemma {:induction false} CandidatesCount(c: Catalog.Catalog, keep: Catalog.PlanRow -> bool, n: nat)
    ensures |Candidates(c, keep, n)| == |set k | k in c.plans && k < n && keep(c.plans[k])|
  {
    if n > 0 {
      CandidatesCount(c, keep, n - 1);
      var below := set k | k in c.plans && k < n - 1 && keep(c.plans[k]);
      var upto := set k | k in c.plans && k < n && keep(c.plans[k]);
      if n - 1 in c.plans && keep(c.plans[n - 1]) {
        assert upto == below + {n - 1};
      } else {
        assert upto == below;
      }
    }
  }

  /** The largest `bigint` PostgreSQL accepts as a `LIMIT` or `OFFSET`. */
  const MaxBigint: int := 0x7FFF_FFFF_FFFF_FFFF

  /** `parseInt` of a `LIMIT` or `OFFSET` parameter, or the default when it is absent. The
      server rejects `NaN`, a negative count and a count beyond `bigint`. */
  function Bound(t: Option<string>, default: nat): (r: Result<nat>)
    ensures t.None? ==> r == Ok(default)
    ensures t.Some? && r.Ok? ==> Numbers.JsParseInt(t.value) == Some(r.value as int) && r.value <= MaxBigint
    ensures t.Some? && r.Err? ==> Numbers.JsParseInt(t.value).None? || Numbers.JsParseInt(t.value).value < 0
                                  || Numbers.JsParseInt(t.value).value > MaxBigint
  {
    if t.None? then Ok(default)
    else
      var n := Numbers.JsParseInt(t.value);
      if n.None? then Err("invalid input syntax for type bigint: \"NaN\"")
      else if n.value < 0 then Err("LIMIT and OFFSET must not be negative")
      else if n.value > MaxBigint then Err("bigint out of range")
      else Ok(n.value as nat)
  }

  /** `LIMIT limit OFFSET offset`. */
  function Page<T>(s: seq<T>, offset: nat, limit: nat): (r: seq<T>)
    ensures |r| <= limit
  {
    var from := if offset <= |s| then offset else |s|;
    var to := if from + limit <= |s| then from + limit else |s|;
    s[from..to]
  }

  /** A page holds elements of the sequence, in the same order, and the rows after it are
      exactly those beyond `offset` plus its length. */
  lemma PageWithin<T>(s: seq<T>, offset: nat, limit: nat, le: (T, T) -> bool)
    ensures forall x :: x in Page(s, offset, limit) ==> x in s
    ensures Ordering.SortedBy(s, le) ==> Ordering.SortedBy(Page(s, offset, limit), le)
    ensures offset + |Page(s, offset, limit)| < |s| <==> offset < |s| && |Page(s, offset, limit)| == limit && offset + limit < |s|
  {
    var from := if offset <= |s| then offset else |s|;
    var p := Page(s, offset, limit);
    forall i | 0 <= i < |p| ensures p[i] == s[from + i] { }
  }
}

=== FILE: mock_extractor.dfy ===
/** The deterministic stand-in for the language model that `extractPlanData` uses when
    mock mode is on (backend/services/gemini.js): the provider from the file name, one plan,
    a pricing line from the first CSV table, and a "max coverage" figure found in the text. */
module MockExtractor {
  import opened Wrappers
  import opened Values
  import Text
  import Numbers
  import Documents
  import ReplyParser
  import ExtractionPrompt

  const NameSeparators: set<char> := {'.', '_', '-'}

  /** `s.split(/[._-]/)[0]`: the longest prefix free of separators. */
  function UpToAny(s: string, seps: set<char>): (r: string)
    ensures Text.IsPrefix(r, s)
    ensures forall k :: 0 <= k < |r| ==> r[k] !in seps
    ensures |r| == |s| || s[|r|] in seps
  {
    if s == [] || s[0] in seps then [] else [s[0]] + UpToAny(s[1..], seps)
  }

  /** The provider of a mock extraction: the file name up to its first '.', '_' or '-',
      or "Mock Provider" without a file name. */
  function MockProvider(filename: string): (r: string)
    ensures filename == [] ==> r == "Mock Provider"
    ensures filename != [] ==> Text.IsPrefix(r, filename)
                               && (forall k :: 0 <= k < |r| ==> r[k] !in NameSeparators)
                               && (|r| == |filename| || filename[|r|] in NameSeparators)
  {
    if filename != [] then UpToAny(filename, NameSeparators) else "Mock Provider"
  }

  /** A name starting "Combined_", as the upload route passes for several files, always
      yields "Combined". */
  lemma CombinedUploadProvider(x: string)
    ensures MockProvider("Combined_" + x) == "Combined"
  {
    assert "Combined_" + x == "Combined" + ("_" + x);
    UpToAnyStops("Combined", "_" + x, NameSeparators);
  }

  /** A separator-free prefix followed by a separator is exactly what is kept. */
  lemma {:induction false} UpToAnyStops(a: string, b: string, seps: set<char>)
    requires forall k :: 0 <= k < |a| ==> a[k] !in seps
    requires b != [] && b[0] in seps
    ensures UpToAny(a + b, seps) == a
  {
    if a == [] {
      assert a + b == b;
    } else {
      assert (a + b)[0] == a[0] && (a + b)[1..] == a[1..] + b;
      UpToAnyStops(a[1..], b, seps);
      assert [a[0]] + a[1..] == a;
    }
  }

  /** The non-empty lines of a CSV text, each split on commas. */
  function CsvRows(csv: string): (rows: seq<seq<string>>)
    ensures forall k :: 0 <= k < |rows| ==> |rows[k]| >= 1
  {
    NonEmptyRows(Text.Split(csv, '\n'))
  }

  function NonEmptyRows(lines: seq<string>): (rows: seq<seq<string>>)
    ensures forall k :: 0 <= k < |rows| ==> |rows[k]| >= 1
    ensures |rows| <= |lines|
  {
    if lines == [] then []
    else if lines[0] == [] then NonEmptyRows(lines[1..])
    else [Text.Split(lines[0], ',')] + NonEmptyRows(lines[1..])
  }

  /** The non-empty lines, in order (`filter(Boolean)`). */
  function NonEmptyLines(lines: seq<string>): (r: seq<string>)
    ensures |r| <= |lines|
    ensures forall k :: 0 <= k < |r| ==> r[k] != [] && r[k] in lines
  {
    if lines == [] then []
    else if lines[0] == [] then NonEmptyLines(lines[1..])
    else [lines[0]] + NonEmptyLines(lines[1..])
  }

  /** Each row joined back with commas. */
  function JoinRows(rows: seq<seq<string>>): (r: seq<string>)
    ensures |r| == |rows|
  {
    if rows == [] then [] else [Text.Join(rows[0], ",")] + JoinRows(rows[1..])
  }

  /** The rows are the non-empty lines, in order, each cut at its commas: joining each row
      back gives the lines again. */
  lemma {:induction false} RowsRejoin(lines: seq<string>)
    ensures JoinRows(NonEmptyRows(lines)) == NonEmptyLines(lines)
  {
    if lines != [] {
      RowsRejoin(lines[1..]);
      if lines[0] != [] {
        Text.JoinSplit(lines[0], ',');
        var rows := NonEmptyRows(lines);
        assert rows[0] == Text.Split(lines[0], ',') && rows[1..] == NonEmptyRows(lines[1..]);
      }
    }
  }

  /** "<first cell>: <second cell>", both trimmed, the second empty when missing. */
  function PricingLine(row: seq<string>): (r: string)
    requires |row| >= 1
    ensures r == Text.Trim(row[0]) + ": " + (if |row| > 1 then Text.Trim(row[1]) else [])
  {
    Text.Trim(row[0]) + ": " + (if |row| > 1 && row[1] != [] then Text.Trim(row[1]) else [])
  }

  function PricingLines(rows: seq<seq<string>>): seq<string>
    requires forall k :: 0 <= k < |rows| ==> |rows[k]| >= 1
  {
    seq(|rows|, k requires 0 <= k < |rows| => PricingLine(rows[k]))
  }

  /** The rows after the header row. */
  function DataRows(csv: string): (rows: seq<seq<string>>)
    ensures forall k :: 0 <= k < |rows| ==> |rows[k]| >= 1
    ensures CsvRows(csv) != [] ==> CsvRows(csv) == [CsvRows(csv)[0]] + rows
  {
    var rows := CsvRows(csv);
    if rows == [] then [] else rows[1..]
  }

  const PricingPrefix: string := "Age-based pricing: "
  const PricingFallback: string := "Age-based pricing available in attached table"

  /** `_mockParseCsvTablesToFeatures`: one feature string summarising the first table, the
      header row skipped; with no table to read the fallback sentence. */
  function MockCsvFeatures(tables: seq<Documents.Table>): (r: seq<string>)
    ensures |r| == 1
    ensures tables == [] <==> r == [PricingFallback]
    ensures tables != [] ==> Text.IsPrefix(PricingPrefix, r[0])
  {
    if tables == [] then [PricingFallback]
    else
      var r := PricingPrefix + Text.Join(PricingLines(DataRows(tables[0].csv)), " | ");
      assert r[..|PricingPrefix|] == PricingPrefix;
      assert r != PricingFallback by { assert r[18] != PricingFallback[18]; }
      [r]
  }

  /** The feature reads the first table only: the prefix, then one "<cell>: <cell>" entry per
      data row of its CSV, in order, separated by " | ". */
  lemma MockCsvContent(t: Documents.Table, more: seq<Documents.Table>)
    ensures MockCsvFeatures([t] + more)
            == [PricingPrefix + Text.Join(PricingLines(DataRows(t.csv)), " | ")]
  {
    assert ([t] + more)[0] == t;
  }

  /** Splitting on newlines peels off a first line that holds none. */
  lemma SplitFirstLine(h: string, rest: string)
    requires '\n' !in h
    ensures Text.Split(h + "\n" + rest, '\n') == [h] + Text.Split(rest, '\n')
  {
    var s := h + "\n" + rest;
    Text.Assoc(h, "\n", rest);
    Text.IndexOfAfter(h, "\n" + rest, '\n');
    assert Text.IndexOf("\n" + rest, '\n') == 0;
    assert s[..|h|] == h;
    assert s[|h| + 1..] == rest;
  }

  /** The header line does not matter: any two non-empty headers give the same feature. */
  lemma HeaderIgnored(h1: string, h2: string, rest: string, n1: string, n2: string)
    requires h1 != [] && h2 != [] && '\n' !in h1 && '\n' !in h2
    ensures MockCsvFeatures([Documents.Table(n1, h1 + "\n" + rest)])
         == MockCsvFeatures([Documents.Table(n2, h2 + "\n" + rest)])
  {
    SplitFirstLine(h1, rest);
    SplitFirstLine(h2, rest);
    var lines := Text.Split(rest, '\n');
    assert ([h1] + lines)[1..] == lines && ([h2] + lines)[1..] == lines;
    assert CsvRows(h1 + "\n" + rest) == [Text.Split(h1, ',')] + NonEmptyRows(lines);
    assert CsvRows(h2 + "\n" + rest) == [Text.Split(h2, ',')] + NonEmptyRows(lines);
  }

  predicate IsGroupChar(c: char) { Numbers.IsDigit(c) || c == ',' }

  /** Length of the longest prefix of digits and commas. */
  function GroupRun(s: string): (n: nat)
    ensures n <= |s|
    ensures forall k :: 0 <= k < n ==> IsGroupChar(s[k])
    ensures n < |s| ==> !IsGroupChar(s[n])
  {
    if s == [] || !IsGroupChar(s[0]) then 0 else GroupRun(s[1..]) + 1
  }

  /** `t` opens with `w`, letters compared ASCII case-insensitively (`w` is lower case). */
  predicate StartsCI(t: string, w: string) {
    |w| <= |t| && forall k :: 0 <= k < |w| ==> Text.LowerChar(t[k]) == w[k]
  }

  /** The rest of `t` after the word `w` and any white space, when `t` opens with `w`. */
  function AfterWord(t: string, w: string): (r: Option<string>)
    ensures r.Some? <==> StartsCI(t, w)
    ensures r.Some? ==> |r.value| <= |t| - |w|
  {
    if StartsCI(t, w) then Some(Text.TrimStart(t[|w|..])) else None
  }

  /** After "coverage": an optional ':' or '-' and more white space. */
  function AfterSeparator(w: string): (r: string)
    ensures |r| <= |w|
  {
    if w != [] && (w[0] == ':' || w[0] == '-') then Text.TrimStart(w[1..]) else w
  }

  /** `/max\s*coverage\s*[:\-]?\s*([0-9,]+)/i` anchored at the start of `t`: the captured
      group of digits and commas. */
  function MatchAt(t: string): (r: Option<string>)
    ensures r.Some? ==> r.value != [] && forall k :: 0 <= k < |r.value| ==> IsGroupChar(r.value[k])
  {
    match AfterLabel(t)
    case None => None
    case Some(w) => Group(AfterSeparator(w))
  }

  /** What follows "max", white space, "coverage" and white space, when `t` opens so. */
  function AfterLabel(t: string): Option<string> {
    match AfterWord(t, "max")
    case None => None
    case Some(u) => AfterWord(u, "coverage")
  }

  /** The leading run of digits and commas, when there is one. */
  function Group(g: string): (r: Option<string>)
    ensures r.Some? ==> r.value != [] && forall k :: 0 <= k < |r.value| ==> IsGroupChar(r.value[k])
    ensures r.Some? ==> Text.IsPrefix(r.value, g)
  {
    var n := GroupRun(g);
    if n == 0 then None else Some(g[..n])
  }

  /** `String.prototype.match` without the `g` flag: the group of the leftmost match. */
  function FindCoverage(t: string): (r: Option<string>)
    ensures r.Some? ==> forall k :: 0 <= k < |r.value| ==> IsGroupChar(r.value[k])
    decreases |t|
  {
    if MatchAt(t).Some? then MatchAt(t)
    else if t == [] then None
    else FindCoverage(t[1..])
  }

  /** There is no match exactly when no position of the text starts one. */
  lemma {:induction false} FindCoverageNone(t: string)
    ensures FindCoverage(t).None? <==> forall i :: 0 <= i <= |t| ==> MatchAt(t[i..]).None?
    decreases |t|
  {
    assert t[0..] == t;
    if MatchAt(t).None? && t != [] {
      FindCoverageNone(t[1..]);
      forall i | 1 <= i <= |t|
        ensures MatchAt(t[i..]) == MatchAt(t[1..][i - 1..])
      {
        assert t[1..][i - 1..] == t[i..];
      }
    }
  }

  /** The match found is the one at the smallest position that starts a match. */
  lemma {:induction false} FindCoverageLeftmost(t: string, i: nat)
    requires i <= |t| && MatchAt(t[i..]).Some?
    requires forall j :: 0 <= j < i ==> MatchAt(t[j..]).None?
    ensures FindCoverage(t) == MatchAt(t[i..])
    decreases i
  {
    if i > 0 {
      assert t[0..] == t;
      forall j | 0 <= j < i - 1
        ensures MatchAt(t[1..][j..]).None?
      {
        assert t[1..][j..] == t[j + 1..];
      }
      assert t[1..][i - 1..] == t[i..];
      FindCoverageLeftmost(t[1..], i - 1);
    }
  }

  /** `parseInt(group.replace(/,/g, ''), 10)`: `NaN` when the group held only commas. */
  function CoverageValue(group: string): (v: Value)
    requires forall k :: 0 <= k < |group| ==> IsGroupChar(group[k])
    ensures v.NaN? <==> forall k :: 0 <= k < |group| ==> group[k] == ','
  {
    var digits := Text.RemoveChars(group, {','});
    if digits == [] then
      forall k | 0 <= k < |group|
        ensures group[k] == ','
      {
        assert group[k] in group;
      }
      NaN
    else
      forall k | 0 <= k < |digits| ensures Numbers.IsDigit(digits[k]) {
        assert digits[k] in digits;
        var j :| 0 <= j < |group| && group[j] == digits[k];
        assert IsGroupChar(group[j]);
      }
      assert digits[0] in digits;
      var j :| 0 <= j < |group| && group[j] == digits[0];
      assert group[j] != ',';
      Num(Numbers.DigitsValue(digits) as real)
  }

  /** The "max coverage" figure: `null` when the text has none, otherwise the number its
      digits spell, or `NaN` when the match holds only commas. */
  function MaxCoverage(doc: string): (r: Value)
    ensures r.Null? <==> FindCoverage(doc).None?
    ensures r.Null? || r.NaN? || (r.Num? && r.n >= 0.0)
  {
    match FindCoverage(doc)
    case None => Null
    case Some(g) => CoverageValue(g)
  }

  /** A figure written as "Max Coverage: <digits>" at the start of the text is read back. */
  lemma CoverageRoundTrip(n: nat)
    ensures MaxCoverage("Max Coverage: " + Numbers.NatToString(n)) == Num(n as real)
  {
    var d := Numbers.NatToString(n);
    FindsLabelled(d);
    NoCommas(d);
  }

  lemma FindsLabelled(d: string)
    requires Numbers.AllDigits(d) && d != []
    ensures FindCoverage("Max Coverage: " + d) == Some(d)
  {
    var t := "Max Coverage: " + d;
    MaxWord(d);
    CoverageWord(d);
    SeparatorThenDigits(d);
    GroupRunDigits(d);
    assert d[..|d|] == d;
    assert MatchAt(t) == Some(d);
  }

  lemma MaxWord(d: string)
    ensures AfterWord("Max Coverage: " + d, "max") == Some("Coverage: " + d)
  {
    var t := "Max Coverage: " + d;
    var u := "Coverage: " + d;
    Text.Assoc("Max ", "Coverage: ", d);
    assert t == "Max " + u;
    assert t[3..] == " " + u by { assert t[3..] == (" " + u); }
    SkipOneSpace(u);
  }

  /** One space in front of text that does not start with white space is trimmed away. */
  lemma SkipOneSpace(u: string)
    requires u != [] && !Text.IsJsSpace(u[0])
    ensures Text.TrimStart(" " + u) == u
  {
    assert (" " + u)[1..] == u;
  }

  lemma CoverageWord(d: string)
    ensures AfterWord("Coverage: " + d, "coverage") == Some(": " + d)
  {
    var t := "Coverage: " + d;
    Text.Assoc("Coverage", ": ", d);
    assert t[8..] == ": " + d;
    assert Text.TrimStart(": " + d) == ": " + d;
  }

  lemma SeparatorThenDigits(d: string)
    requires Numbers.AllDigits(d) && d != []
    ensures AfterSeparator(": " + d) == d
  {
    assert (": " + d)[1..] == " " + d;
    SkipOneSpace(d);
  }

  lemma {:induction false} GroupRunDigits(d: string)
    requires Numbers.AllDigits(d)
    ensures GroupRun(d) == |d|
  {
    if d != [] {
      GroupRunDigits(d[1..]);
    }
  }

  lemma {:induction false} NoCommas(d: string)
    requires Numbers.AllDigits(d)
    ensures Text.RemoveChars(d, {','}) == d
  {
    if d != [] {
      NoCommas(d[1..]);
      assert [d[0]] + d[1..] == d;
    }
  }

  function Strs(xs: seq<string>): (vs: seq<Value>)
    ensures |vs| == |xs| && forall k :: 0 <= k < |xs| ==> vs[k] == Str(xs[k])
  {
    if xs == [] then [] else [Str(xs[0])] + Strs(xs[1..])
  }

  const DefaultFeature: string := "Standard benefits as listed in document"

  /** The mock plan's feature list: the pricing line of the first table when there is one,
      the default sentence otherwise. */
  function MockFeatures(tables: seq<Documents.Table>): (r: seq<string>)
    ensures |r| == 1
    ensures tables == [] <==> r == [DefaultFeature]
    ensures tables != [] ==> r == MockCsvFeatures(tables)
  {
    if tables != [] then
      var f := MockCsvFeatures(tables);
      assert f[0] != DefaultFeature by { assert f[0][0] != DefaultFeature[0]; }
      f
    else [DefaultFeature]
  }

  /** The mock plan's values, in the order of `MockKeys`. */
  function MockValues(provider: string, coverage: Value, features: seq<string>): (vs: seq<Value>)
    ensures |vs| == |MockKeys|
  {
    [Str("Mock Plan from " + provider), Str("Health"), Null, Null, Null,
     coverage, Str("Family"), Arr(Strs(features)), Null, Null]
  }

  /** Keys paired with values, in order. */
  function Fields(vs: seq<Value>): seq<(string, Value)>
    requires |vs| == |MockKeys|
  {
    seq(|MockKeys|, k requires 0 <= k < |MockKeys| => (MockKeys[k], vs[k]))
  }

  /** The single mock plan, from its provider, coverage figure and features. */
  function MockPlan(provider: string, coverage: Value, features: seq<string>): Value {
    Obj(Fields(MockValues(provider, coverage, features)))
  }

  /** The mock result: one plan, reported under the provider named after the file. */
  function MockExtract(doc: string, o: ExtractionPrompt.Options): (r: ReplyParser.PlanData)
    ensures |r.plans| == 1 && r.plans[0].Obj?
    ensures r.provider == Str(MockProvider(o.filename))
    ensures r.plans[0] == MockPlan(MockProvider(o.filename), MaxCoverage(doc), MockFeatures(o.tables))
  {
    var provider := MockProvider(o.filename);
    ReplyParser.PlanData(Str(provider), [MockPlan(provider, MaxCoverage(doc), MockFeatures(o.tables))])
  }

  /** The mock plan is a Health plan of Family coverage named after its provider. */
  lemma MockPlanNamed(provider: string, coverage: Value, features: seq<string>)
    ensures var p := MockPlan(provider, coverage, features);
            && Prop(p, "plan_name") == Str("Mock Plan from " + provider)
            && Prop(p, "plan_type") == Str("Health")
            && Prop(p, "coverage_type") == Str("Family")
  {
    var vs := MockValues(provider, coverage, features);
    ReadField(vs, 0);
    ReadField(vs, 1);
    ReadField(vs, 6);
  }

  /** The mock plan carries the coverage figure and the features it was given. */
  lemma MockPlanCarries(provider: string, coverage: Value, features: seq<string>)
    ensures var p := MockPlan(provider, coverage, features);
            && Prop(p, "max_coverage") == coverage
            && Prop(p, "features") == Arr(Strs(features))
  {
    var vs := MockValues(provider, coverage, features);
    ReadField(vs, 5);
    ReadField(vs, 7);
  }

  /** The mock plan's keys are pairwise distinct, so each reads back its own value. */
  lemma ReadField(vs: seq<Value>, i: nat)
    requires |vs| == |MockKeys| && i < |MockKeys|
    ensures Field(Fields(vs), MockKeys[i]) == Some(vs[i])
  {
    var fields := Fields(vs);
    forall j | i < j < |fields|
      ensures fields[j].0 != MockKeys[i]
    {
      DistinctKeys(i, j);
    }
    FieldAt(fields, MockKeys[i], i);
  }

  const MockKeys: seq<string> := ["plan_name", "plan_type", "monthly_cost", "annual_cost", "deductible",
    "max_coverage", "coverage_type", "features", "eligibility_criteria", "exclusions"]

  lemma DistinctKeys(i: nat, j: nat)
    requires i < j < |MockKeys|
    ensures MockKeys[i] != MockKeys[j]
  {
  }
}

=== FILE: numbers.dfy ===
/** Number parsing and formatting as JavaScript and PostgreSQL perform it, over exact
    integers and reals (binary floating point is not modelled). */
module Numbers {
  import opened Wrappers
  import opened Values
  import Text

  predicate IsDigit(c: char) { '0' <= c <= '9' }

  predicate AllDigits(s: string) {
    forall k :: 0 <= k < |s| ==> IsDigit(s[k])
  }

  /** The value of a string of decimal digits, most significant first. */
  function DigitsValue(s: string): nat
    requires AllDigits(s)
  {
    if s == [] then 0 else DigitsValue(s[..|s| - 1]) * 10 + (s[|s| - 1] as int - '0' as int)
  }

  /** Decimal rendering of a natural number, as `String(n)` gives it. */
  function NatToString(n: nat): (r: string)
    ensures r != [] && AllDigits(r)
    ensures DigitsValue(r) == n
    ensures |r| > 1 ==> r[0] != '0'
  {
    var d := ['0' + (n % 10) as char];
    if n < 10 then d
    else
      var p := NatToString(n / 10);
      assert (p + d)[..|p + d| - 1] == p;
      p + d
  }

  /** `String(i)` for an integer. */
  function IntToString(i: int): (r: string)
    ensures r != []
    ensures i >= 0 ==> r == NatToString(i)
    ensures i < 0 ==> r == "-" + NatToString(-i)
  {
    if i >= 0 then NatToString(i) else "-" + NatToString(-i)
  }

  /** Length of the longest prefix of `s` whose characters satisfy `IsDigit`. */
  function DigitRun(s: string): (n: nat)
    ensures n <= |s| && AllDigits(s[..n])
    ensures n < |s| ==> !IsDigit(s[n])
  {
    if s == [] || !IsDigit(s[0]) then 0
    else
      var n := DigitRun(s[1..]);
      assert s[..n + 1] == [s[0]] + s[1..][..n];
      n + 1
  }

  predicate IsHexDigit(c: char) { IsDigit(c) || 'a' <= c <= 'f' || 'A' <= c <= 'F' }

  function HexRun(s: string): (n: nat)
    ensures n <= |s|
    ensures forall k :: 0 <= k < n ==> IsHexDigit(s[k])
  {
    if s == [] || !IsHexDigit(s[0]) then 0 else HexRun(s[1..]) + 1
  }

  function HexValue(s: string): nat
    requires forall k :: 0 <= k < |s| ==> IsHexDigit(s[k])
  {
    if s == [] then 0
    else
      var c := s[|s| - 1];
      assert IsHexDigit(c);
      var d: nat := if IsDigit(c) then c as int - '0' as int
               else if 'a' <= c <= 'f' then c as int - 'a' as int + 10
               else c as int - 'A' as int + 10;
      HexValue(s[..|s| - 1]) * 16 + d
  }

  /** Sign handling shared by `parseInt` and `parseFloat`: an optional leading `+` or `-`. */
  function SplitSign(t: string): (r: (bool, string))
    ensures |r.1| <= |t|
  {
    if t != [] && (t[0] == '+' || t[0] == '-') then (t[0] == '-', t[1..]) else (false, t)
  }

  /** `parseInt(s)` with no radix: leading white space skipped, an optional sign, then a
      `0x`/`0X` hexadecimal prefix or decimal digits; `None` stands for `NaN`. */
  function JsParseInt(s: string): (r: Option<int>)
    ensures r.None? <==> Magnitude(SplitSign(Text.TrimStart(s)).1).None?
    ensures r.Some? && !SplitSign(Text.TrimStart(s)).0 ==> r.value >= 0
  {
    var signed := SplitSign(Text.TrimStart(s));
    match Magnitude(signed.1)
    case None => None
    case Some(v) => Some(if signed.0 then -v else v)
  }

  predicate HexPrefixed(u: string) {
    |u| >= 2 && u[0] == '0' && (u[1] == 'x' || u[1] == 'X')
  }

  /** The unsigned part of `parseInt`: hexadecimal digits after `0x`, otherwise decimal
      digits, as many as there are; `None` when there is no digit at all. */
  function Magnitude(u: string): (r: Option<int>)
    ensures r.None? <==> if HexPrefixed(u) then HexRun(u[2..]) == 0 else DigitRun(u) == 0
    ensures r.Some? ==> r.value >= 0
  {
    if HexPrefixed(u) then
      var n := HexRun(u[2..]);
      if n == 0 then None else Some(HexValue(u[2..][..n]))
    else
      var n := DigitRun(u);
      if n == 0 then None else Some(DigitsValue(u[..n]))
  }

  lemma ParseIntOfNat(n: nat)
    ensures JsParseInt(NatToString(n)) == Some(n)
  {
    ParseDigits(NatToString(n));
  }

  /** A digit string is read whole. */
  lemma ParseDigits(r: string)
    requires r != [] && AllDigits(r)
    ensures JsParseInt(r) == Some(DigitsValue(r))
  {
    DigitsUntrimmed(r);
    MagnitudeOfDigits(r);
  }

  /** A decimal string is read whole, and not as hexadecimal. */
  lemma MagnitudeOfDigits(r: string)
    requires r != [] && AllDigits(r)
    ensures Magnitude(r) == Some(DigitsValue(r))
  {
    NotHex(r);
    WholeRun(r);
  }

  /** Neither white space nor a sign opens a digit string. */
  lemma DigitsUntrimmed(r: string)
    requires r != [] && AllDigits(r)
    ensures Text.TrimStart(r) == r && SplitSign(r) == (false, r)
  {
    DigitNotSpace(r[0]);
    Text.TrimStartNoSpace(r);
  }

  lemma DigitNotSpace(c: char)
    requires IsDigit(c)
    ensures !Text.IsJsSpace(c) && c != '+' && c != '-'
  {
  }

  lemma NotHex(r: string)
    requires r != [] && AllDigits(r)
    ensures !HexPrefixed(r)
  {
    if |r| >= 2 {
      assert IsDigit(r[1]);
    }
  }

  lemma WholeRun(r: string)
    requires AllDigits(r)
    ensures DigitRun(r) == |r| && r[..DigitRun(r)] == r
  {
    DigitRunAll(r);
    assert r[..|r|] == r;
  }

  lemma {:induction false} DigitRunAll(s: string)
    requires AllDigits(s)
    ensures DigitRun(s) == |s|
  {
    if s != [] {
      DigitRunAll(s[1..]);
    }
  }

  function Pow10(n: nat): (r: real)
    ensures r >= 1.0
  {
    if n == 0 then 1.0 else 10.0 * Pow10(n - 1)
  }

  /** A `parseFloat` result. */
  datatype Float = FNaN | FInf(negative: bool) | Finite(r: real)

  /** The exponent part `e`/`E`, optional sign, digits; `None` when absent or incomplete. */
  function Exponent(s: string): Option<int> {
    if s == [] || (s[0] != 'e' && s[0] != 'E') then None
    else
      var (neg, u) := SplitSign(s[1..]);
      var n := DigitRun(u);
      if n == 0 then None
      else
        var v: int := DigitsValue(u[..n]);
        Some(if neg then -v else v)
  }

  /** The value of the decimal literal that opens `u` (digits with an optional fraction and
      exponent); `None` when there is none. */
  function DecimalValue(u: string): (r: Option<real>)
    ensures r.None? <==> DigitRun(u) == 0 && !(|u| >= 2 && u[0] == '.' && IsDigit(u[1]))
  {
    var i := DigitRun(u);
    var rest := u[i..];
    var dot := rest != [] && rest[0] == '.';
    var f := if dot then DigitRun(rest[1..]) else 0;
    if i == 0 && f == 0 then None
    else
      var digits := u[..i] + (if dot then rest[1..][..f] else []);
      var mantissa := DigitsValue(digits) as real / Pow10(f);
      var after := if dot then rest[1 + f..] else rest;
      Some(match Exponent(after)
           case None => mantissa
           case Some(e) => if e >= 0 then mantissa * Pow10(e) else mantissa / Pow10(-e))
  }

  /** `parseFloat(s)`: the longest prefix, after white space, that is a decimal literal
      (`Infinity`, digits with an optional fraction and exponent); `FNaN` when there is none. */
  function JsParseFloat(s: string): (r: Float)
    ensures r.FNaN? <==> !StartsNumeric(s)
  {
    var (neg, u) := SplitSign(Text.TrimStart(s));
    if Text.IsPrefix("Infinity", u) then FInf(neg)
    else
      match DecimalValue(u)
      case None => FNaN
      case Some(m) => Finite(if neg then -m else m)
  }

  /** The leading characters that make `parseFloat` produce a number rather than `NaN`. */
  predicate StartsNumeric(s: string) {
    var u := SplitSign(Text.TrimStart(s)).1;
    Text.IsPrefix("Infinity", u) || (u != [] && IsDigit(u[0]))
      || (|u| >= 2 && u[0] == '.' && IsDigit(u[1]))
  }

  /** `isNaN(parseFloat(s))` holds exactly when `s` does not start (after white space and a
      sign) with `Infinity`, a digit, or a point followed by a digit. */
  lemma ParseFloatNaN(s: string)
    ensures JsParseFloat(s).FNaN? <==> !StartsNumeric(s)
  {
  }

  lemma ParseFloatOfNat(n: nat)
    ensures JsParseFloat(NatToString(n)) == Finite(n as real)
  {
    var r := NatToString(n);
    DigitRunAll(r);
    assert Text.TrimStart(r) == r;
    assert SplitSign(r) == (false, r);
    assert !Text.IsPrefix("Infinity", r) by { assert r[0] != 'I'; }
    assert r[..|r|] + [] == r;
    assert r[|r|..] == [];
    assert Exponent([]) == None;
  }

  // ---------------------------------------------------------------- Number()

  /** The length of the exponent part at the start of `s`: `e`/`E`, an optional sign and at
      least one digit; 0 when there is none. */
  function ExponentLength(s: string): (n: nat)
    ensures n <= |s|
    ensures n == 0 <==> Exponent(s).None?
  {
    if s == [] || (s[0] != 'e' && s[0] != 'E') then 0
    else
      var (neg, u) := SplitSign(s[1..]);
      var k := DigitRun(u);
      if k == 0 then 0 else |s| - |u| + k
  }

  /** The length of the decimal literal that opens `u`: digits, an optional point and
      fraction (with a digit on at least one side of the point), an optional exponent. */
  function DecimalLength(u: string): (n: nat)
    ensures n <= |u|
    ensures n == 0 <==> DigitRun(u) == 0 && !(|u| >= 2 && u[0] == '.' && IsDigit(u[1]))
  {
    var i := DigitRun(u);
    var rest := u[i..];
    var dot := rest != [] && rest[0] == '.';
    var f := if dot then DigitRun(rest[1..]) else 0;
    if i == 0 && f == 0 then 0
    else
      var m := i + (if dot then 1 + f else 0);
      m + ExponentLength(u[m..])
  }

  /** The base a `0x`, `0o` or `0b` prefix selects, 0 for any other letter. */
  function RadixOf(c: char): nat {
    if c == 'x' || c == 'X' then 16 else if c == 'o' || c == 'O' then 8
    else if c == 'b' || c == 'B' then 2 else 0
  }

  /** The value of `c` as a digit of base `radix`, if it is one. */
  function DigitIn(c: char, radix: nat): (r: Option<nat>)
    ensures r.Some? ==> r.value < radix
  {
    var d := if IsDigit(c) then c as int - '0' as int
             else if 'a' <= c <= 'f' then c as int - 'a' as int + 10
             else if 'A' <= c <= 'F' then c as int - 'A' as int + 10
             else radix;
    if 0 <= d < radix then Some(d) else None
  }

  /** The value of a run of base-`radix` digits, most significant first; `None` as soon as
      one character is not such a digit. */
  function RadixValue(s: string, radix: nat): Option<nat> {
    if s == [] then Some(0)
    else
      match (RadixValue(s[..|s| - 1], radix), DigitIn(s[|s| - 1], radix))
      case (Some(v), Some(d)) => Some(v * radix + d)
      case _ => None
  }

  /** A run has a value exactly when every character is a digit of the base. */
  lemma {:induction false} RadixValueSpec(s: string, radix: nat)
    ensures RadixValue(s, radix).Some? <==> forall k :: 0 <= k < |s| ==> DigitIn(s[k], radix).Some?
  {
    if s != [] {
      var init := s[..|s| - 1];
      RadixValueSpec(init, radix);
      assert forall k :: 0 <= k < |init| ==> init[k] == s[k];
    }
  }

  /** `Number(s)` for a string (the ToNumber conversion that `>` applies to a string
      operand): white space around the text is ignored and blank text is 0; otherwise the
      whole text must be a `0x`/`0o`/`0b` integer, or `Infinity` or a decimal literal after
      an optional sign; anything else is `NaN`. */
  function StringToNumber(s: string): (r: Float)
    ensures Text.AllSpace(s) ==> r == Finite(0.0)
    ensures r.FInf? ==> SplitSign(Text.Trim(s)).1 == "Infinity"
  {
    TrimmedNumber(Text.Trim(s))
  }

  predicate RadixPrefixed(t: string) {
    |t| > 2 && t[0] == '0' && RadixOf(t[1]) > 0
  }

  function TrimmedNumber(t: string): (r: Float)
    ensures r.FInf? ==> SplitSign(t).1 == "Infinity"
  {
    if t == [] then Finite(0.0)
    else if RadixPrefixed(t) then
      match RadixValue(t[2..], RadixOf(t[1]))
      case Some(n) => Finite(n as real)
      case None => FNaN
    else
      var (neg, u) := SplitSign(t);
      Signed(neg, UnsignedNumber(u))
  }

  function Signed(neg: bool, x: Float): Float {
    match x
    case FInf(_) => FInf(neg)
    case Finite(m) => Finite(if neg then -m else m)
    case FNaN => FNaN
  }

  /** `Infinity`, or text that is exactly one decimal literal. */
  function UnsignedNumber(u: string): (r: Float)
    ensures r.FInf? <==> u == "Infinity"
  {
    if u == "Infinity" then FInf(false)
    else if u != [] && DecimalLength(u) == |u| then
      match DecimalValue(u)
      case Some(m) => Finite(m)
      case None => FNaN
    else FNaN
  }

  /** Text that, once trimmed and unsigned, opens with neither a digit, a point nor
      `Infinity` (and is not blank) is `NaN`: `Number("12abc")` is `NaN` like
      `Number("abc")`, where `parseFloat` would read 12 from the first. */
  lemma NumberNaN(s: string)
    requires var u := SplitSign(Text.Trim(s)).1;
             u != [] && !IsDigit(u[0]) && u[0] != '.' && u != "Infinity"
    ensures StringToNumber(s) == FNaN
  {
    TrimmedNaN(Text.Trim(s));
  }

  lemma TrimmedNaN(t: string)
    requires var u := SplitSign(t).1;
             u != [] && !IsDigit(u[0]) && u[0] != '.' && u != "Infinity"
    ensures TrimmedNumber(t) == FNaN
  {
    var u := SplitSign(t).1;
    assert !RadixPrefixed(t);
    UnsignedNaN(u);
  }

  lemma UnsignedNaN(u: string)
    requires u != [] && !IsDigit(u[0]) && u[0] != '.' && u != "Infinity"
    ensures UnsignedNumber(u) == FNaN
  {
    assert DecimalLength(u) == 0;
  }

  /** A digit string is one decimal literal, whose value is the number it spells. */
  lemma DecimalOfDigits(r: string)
    requires r != [] && AllDigits(r)
    ensures DecimalLength(r) == |r| && DecimalValue(r) == Some(DigitsValue(r) as real)
  {
    DigitRunAll(r);
    assert r[|r|..] == [];
    assert r[..|r|] + [] == r;
    assert Exponent([]) == None;
  }

  /** `Number` reads back a whole number written in decimal, and agrees there with
      `parseFloat`. */
  lemma NumberOfNat(n: nat)
    ensures StringToNumber(NatToString(n)) == Finite(n as real) == JsParseFloat(NatToString(n))
  {
    var r := NatToString(n);
    TrimDigits(r);
    ParseFloatOfNat(n);
    TrimmedDigits(r);
  }

  /** Trimmed digits, leading zeros included, are read in decimal. */
  lemma TrimmedDigits(r: string)
    requires r != [] && AllDigits(r)
    ensures TrimmedNumber(r) == Finite(DigitsValue(r) as real)
  {
    assert !RadixPrefixed(r) by {
      if |r| > 2 {
        assert IsDigit(r[1]);
      }
    }
    DigitNotSpace(r[0]);
    assert SplitSign(r) == (false, r);
    UnsignedDigits(r);
  }

  lemma UnsignedDigits(r: string)
    requires r != [] && AllDigits(r)
    ensures UnsignedNumber(r) == Finite(DigitsValue(r) as real)
  {
    DecimalOfDigits(r);
    assert r != "Infinity" by { assert IsDigit(r[0]); }
  }

  /** A digit string has no white space to trim. */
  lemma TrimDigits(r: string)
    requires r != [] && AllDigits(r)
    ensures Text.Trim(r) == r
  {
    DigitNotSpace(r[0]);
    Text.TrimStartNoSpace(r);
    DigitNotSpace(r[|r| - 1]);
  }

  /** `+v`, the ToNumber conversion of a JavaScript value. `null` is 0 and booleans 0 or
      1; objects and `undefined` are `NaN`; an array reads as its comma-joined text, so an
      empty one is 0, a one-element one is its element's text read as a number, and a
      longer one (whose text holds a comma) is `NaN`. */
  function ToNumber(v: Value): (r: Float)
    ensures v.Num? ==> r == Finite(v.n)
    ensures v.Str? ==> r == StringToNumber(v.s)
    ensures v.Obj? || v.Undefined? || v.NaN? ==> r == FNaN
    decreases v, 0
  {
    match v
    case Undefined => FNaN
    case Null => Finite(0.0)
    case Bool(b) => Finite(if b then 1.0 else 0.0)
    case Num(n) => Finite(n)
    case NaN => FNaN
    case Str(s) => StringToNumber(s)
    case Obj(_) => FNaN
    case Arr(items) =>
      if items == [] then Finite(0.0)
      else if |items| == 1 then ElementNumber(items[0])
      else FNaN
  }

  /** An array element read through its text: `null` and `undefined` are the empty text,
      `true` and `false` are words. */
  function ElementNumber(e: Value): (r: Float)
    ensures e.Null? || e.Undefined? ==> r == Finite(0.0)
    ensures e.Bool? ==> r == FNaN
    decreases e, 1
  {
    match e
    case Undefined => Finite(0.0)
    case Null => Finite(0.0)
    case Bool(_) => FNaN
    case _ => ToNumber(e)
  }

  /** A whole number reads the same whether it comes as a JSON number, as its decimal text
      or as a one-element array of either. */
  lemma ToNumberOfNat(n: nat)
    ensures ToNumber(Str(NatToString(n))) == ToNumber(Num(n as real)) == Finite(n as real)
    ensures ToNumber(Arr([Str(NatToString(n))])) == ToNumber(Arr([Num(n as real)])) == Finite(n as real)
  {
    NumberOfNat(n);
    ToNumberSingle(Str(NatToString(n)));
    ToNumberSingle(Num(n as real));
  }

  lemma ToNumberSingle(e: Value)
    ensures ToNumber(Arr([e])) == ElementNumber(e)
  {
  }

  /** `Math.round`: the nearest integer, halves rounded up. */
  function JsRound(x: real): (r: int)
    ensures x - 0.5 < r as real <= x + 0.5
  {
    (x + 0.5).Floor
  }
}

=== FILE: ordering.dfy ===
/** Sorting as the system uses it: a stable insertion sort under a caller-given order, and
    the "distinct names, sorted" list that the client builds with `[...new Set(xs)].sort()`. */
module Ordering {
  import Text

  ghost predicate TotalPreorder<T(!new)>(le: (T, T) -> bool) {
    && (forall a, b :: le(a, b) || le(b, a))
    && (forall a, b, c :: le(a, b) && le(b, c) ==> le(a, c))
  }

  ghost predicate SortedBy<T>(s: seq<T>, le: (T, T) -> bool) {
    forall i, j :: 0 <= i < j < |s| ==> le(s[i], s[j])
  }

  /** Places `x` before the first element it is ordered before. */
  function Insert<T(!new)>(x: T, s: seq<T>, le: (T, T) -> bool): (r: seq<T>)
    requires TotalPreorder(le) && SortedBy(s, le)
    ensures SortedBy(r, le)
    ensures |r| == |s| + 1
    ensures r[0] == x || (s != [] && r[0] == s[0])
  {
    if s == [] then [x]
    else if le(x, s[0]) then [x] + s
    else
      var t := Insert(x, s[1..], le);
      assert s == [s[0]] + s[1..];
      assert le(s[0], t[0]);
      [s[0]] + t
  }

  /** Insertion adds exactly `x` to the elements. */
  lemma {:induction false} InsertPermutes<T(!new)>(x: T, s: seq<T>, le: (T, T) -> bool)
    requires TotalPreorder(le) && SortedBy(s, le)
    ensures multiset(Insert(x, s, le)) == multiset(s) + multiset{x}
  {
    if s != [] && !le(x, s[0]) {
      InsertPermutes(x, s[1..], le);
      assert s == [s[0]] + s[1..];
    }
  }

  /** Stable sort: the result is an ordered permutation of `s`. */
  function SortBy<T(!new)>(s: seq<T>, le: (T, T) -> bool): (r: seq<T>)
    requires TotalPreorder(le)
    ensures SortedBy(r, le)
    ensures multiset(r) == multiset(s)
  {
    if s == [] then []
    else
      var r := Insert(s[0], SortBy(s[1..], le), le);
      InsertPermutes(s[0], SortBy(s[1..], le), le);
      assert s == [s[0]] + s[1..];
      r
  }

  /** When everything ties, sorting changes nothing: the sort is stable. */
  lemma {:induction false} AllTies<T(!new)>(s: seq<T>, le: (T, T) -> bool)
    requires TotalPreorder(le) && forall a, b :: le(a, b)
    ensures SortBy(s, le) == s
  {
    if s != [] {
      AllTies(s[1..], le);
      assert s == [s[0]] + s[1..];
    }
  }

  /** Strictly increasing in character order, hence free of duplicates. */
  predicate StrictlySorted(s: seq<string>) {
    forall i, j :: 0 <= i < j < |s| ==> Text.Below(s[i], s[j])
  }

  function InsertDistinct(x: string, s: seq<string>): (r: seq<string>)
    requires StrictlySorted(s)
    ensures StrictlySorted(r)
    ensures r != [] && (r[0] == x || (s != [] && r[0] == s[0]))
  {
    if s == [] then [x]
    else if x == s[0] then s
    else if Text.Below(x, s[0]) then
      var r := [x] + s;
      forall j | 0 < j < |r|
        ensures Text.Below(x, r[j])
      {
        if j > 1 {
          Text.BelowTransitive(x, s[0], r[j]);
        }
      }
      r
    else
      Text.BelowTotal(x, s[0]);
      var tail := InsertDistinct(x, s[1..]);
      var r := [s[0]] + tail;
      assert Text.Below(s[0], tail[0]);
      forall j | 1 < j < |r|
        ensures Text.Below(s[0], r[j])
      {
        Text.BelowTransitive(s[0], tail[0], tail[j - 1]);
      }
      r
  }

  /** Inserting adds `x` to the names and nothing else. */
  lemma {:induction false} InsertDistinctElems(x: string, s: seq<string>)
    requires StrictlySorted(s)
    ensures forall y :: y in InsertDistinct(x, s) <==> y in s || y == x
  {
    if s != [] && x != s[0] && !Text.Below(x, s[0]) {
      InsertDistinctElems(x, s[1..]);
      assert s == [s[0]] + s[1..];
    }
  }

  /** `[...new Set(names)].sort()`: every name once, in character order. */
  function DistinctSorted(names: seq<string>): (r: seq<string>)
    ensures StrictlySorted(r)
    ensures forall y :: y in r <==> y in names
  {
    if names == [] then []
    else
      assert names == [names[0]] + names[1..];
      InsertDistinctElems(names[0], DistinctSorted(names[1..]));
      InsertDistinct(names[0], DistinctSorted(names[1..]))
  }

  /** No element occurs twice. */
  predicate Distinct<T(==)>(s: seq<T>) {
    forall i, j :: 0 <= i < j < |s| ==> s[i] != s[j]
  }

  /** A strictly sorted list never repeats a name. */
  lemma StrictlySortedDistinct(s: seq<string>)
    requires StrictlySorted(s)
    ensures Distinct(s)
  {
    forall i, j | 0 <= i < j < |s|
      ensures s[i] != s[j]
    {
      Text.BelowIrreflexive(s[i]);
    }
  }
}

=== FILE: plan_admin.dfy ===
/** The plan administration routes of backend/routes/admin.js other than the upload:
    `PUT /plans/:id` (a partial update built from the fields present in the body),
    `DELETE /plans/:id` (soft by default, hard on `hard_delete=true`) and the admin
    `GET /plans` listing (optional state and activity filters, newest first, paged).
    Each is a transition from a request and a store to a reply and a store. */
module PlanAdmin {
  import opened Wrappers
  import opened Values
  import Text
  import Numbers
  import Ordering
  import Catalog
  import Listings

  /** What the routes answer. */
  datatype Reply =
    | PlanUpdated(plan: Catalog.PlanRow)
    | PlanDeleted
    | PlansListed(plans: seq<Listings.Listed>, count: nat)
    | Failed(status: nat, error: string)

  const UpdatedMessage: string := "Plan updated successfully"
  const DeletedMessage: string := "Plan deleted successfully"
  const NoFieldsError: string := "No fields to update"
  const NotFoundError: string := "Plan not found"
  const UpdateFailure: string := "Failed to update plan"
  const DeleteFailure: string := "Failed to delete plan"
  const ListFailure: string := "Failed to fetch plans"

  function Status(r: Reply): nat {
    if r.Failed? then r.status else 200
  }

  // ---------------------------------------------------------------------------------
  // PUT /plans/:id

  /** The seven updatable columns, in the order the handler tests them. */
  datatype Column = PlanName | MonthlyCost | AnnualCost | Deductible | MaxCoverage | Features | IsActive

  const Columns: seq<Column> := [PlanName, MonthlyCost, AnnualCost, Deductible, MaxCoverage, Features, IsActive]

  /** The position of a column in the handler's order. */
  function Rank(col: Column): nat {
    match col
    case PlanName => 0
    case MonthlyCost => 1
    case AnnualCost => 2
    case Deductible => 3
    case MaxCoverage => 4
    case Features => 5
    case IsActive => 6
  }

  function ColumnName(col: Column): string {
    match col
    case PlanName => "plan_name"
    case MonthlyCost => "monthly_cost"
    case AnnualCost => "annual_cost"
    case Deductible => "deductible"
    case MaxCoverage => "max_coverage"
    case Features => "features"
    case IsActive => "is_active"
  }

  /** The body fields the update reads; `Undefined` when the body does not have one. */
  datatype Patch = Patch(
    planName: Value,
    monthlyCost: Value,
    annualCost: Value,
    deductible: Value,
    maxCoverage: Value,
    features: Value,
    isActive: Value)

  function FieldOf(p: Patch, col: Column): Value {
    match col
    case PlanName => p.planName
    case MonthlyCost => p.monthlyCost
    case AnnualCost => p.annualCost
    case Deductible => p.deductible
    case MaxCoverage => p.maxCoverage
    case Features => p.features
    case IsActive => p.isActive
  }

  /** The columns among `cols` whose field is not `undefined`, in the same order. */
  function PresentAmong(p: Patch, cols: seq<Column>): (r: seq<Column>)
    ensures |r| <= |cols|
  {
    if cols == [] then []
    else
      var rest := PresentAmong(p, cols[1..]);
      if FieldOf(p, cols[0]).Undefined? then rest else [cols[0]] + rest
  }

  /** The columns the update sets. */
  function Present(p: Patch): seq<Column> {
    PresentAmong(p, Columns)
  }

  /** The `SET` items, the k-th naming placeholder `$k+1`. */
  function Assignments(cols: seq<Column>): (r: seq<string>)
    ensures |r| == |cols|
  {
    seq(|cols|, k requires 0 <= k < |cols| => ColumnName(cols[k]) + " = $" + Numbers.NatToString(k + 1))
  }

  /** The statement text: the assignments, the timestamp, and the id behind the last
      placeholder. */
  function Statement(cols: seq<Column>): string {
    "UPDATE plans SET " + Text.Join(Assignments(cols), ", ") + ", updated_at = CURRENT_TIMESTAMP\n"
    + "       WHERE id = $" + Numbers.NatToString(|cols| + 1) + "\n"
    + "       RETURNING *"
  }

  /** The bound values: the present fields in order, then the id from the URL. */
  function Params(p: Patch, cols: seq<Column>, id: string): (r: seq<Value>)
    ensures |r| == |cols| + 1
  {
    seq(|cols|, k requires 0 <= k < |cols| => FieldOf(p, cols[k])) + [Str(id)]
  }

  /** The server's conversion of one value to its column's type: the cost columns take
      numeric input and `is_active` boolean input; text and the feature list accept anything. */
  function Cast(col: Column, v: Value, d: Catalog.Driver): Result<()> {
    match col
    case MonthlyCost => var _ :- Catalog.Numeric(v, d); Ok(())
    case AnnualCost => var _ :- Catalog.Numeric(v, d); Ok(())
    case Deductible => var _ :- Catalog.Numeric(v, d); Ok(())
    case MaxCoverage => var _ :- Catalog.Numeric(v, d); Ok(())
    case IsActive => var _ :- Catalog.Flag(v, d); Ok(())
    case _ => Ok(())
  }

  predicate Casts(p: Patch, cols: seq<Column>, d: Catalog.Driver) {
    forall k :: 0 <= k < |cols| ==> Cast(cols[k], FieldOf(p, cols[k]), d).Ok?
  }

  /** One assignment applied to a row, after its value converted. */
  function Assign(row: Catalog.PlanRow, col: Column, v: Value, d: Catalog.Driver): Catalog.PlanRow
    requires Cast(col, v, d).Ok?
  {
    match col
    case PlanName => row.(name := Catalog.Param(v, d))
    case MonthlyCost => row.(monthlyCost := Catalog.Numeric(v, d).value)
    case AnnualCost => row.(annualCost := Catalog.Numeric(v, d).value)
    case Deductible => row.(deductible := Catalog.Numeric(v, d).value)
    case MaxCoverage => row.(maxCoverage := Catalog.Numeric(v, d).value)
    case Features => row.(features := v)
    case IsActive => row.(active := Catalog.Flag(v, d).value)
  }

  function AssignAll(row: Catalog.PlanRow, p: Patch, cols: seq<Column>, d: Catalog.Driver): Catalog.PlanRow
    requires Casts(p, cols, d)
    decreases |cols|
  {
    if cols == [] then row
    else
      CastsTail(p, cols, d);
      AssignAll(Assign(row, cols[0], FieldOf(p, cols[0]), d), p, cols[1..], d)
  }

  lemma CastsTail(p: Patch, cols: seq<Column>, d: Catalog.Driver)
    requires cols != [] && Casts(p, cols, d)
    ensures Cast(cols[0], FieldOf(p, cols[0]), d).Ok? && Casts(p, cols[1..], d)
  {
    forall k | 0 <= k < |cols[1..]|
      ensures Cast(cols[1..][k], FieldOf(p, cols[1..][k]), d).Ok?
    {
      assert cols[1..][k] == cols[k + 1];
    }
  }

  /** `PUT /plans/:id` with the id text from the URL and the body fields; `now` is the
      statement's `CURRENT_TIMESTAMP`. A value the server cannot convert, or an id that is
      not an integer, fails the statement whether or not the plan exists. */
  function Update(c: Catalog.Catalog, id: string, p: Patch, d: Catalog.Driver, now: int)
    : (r: (Reply, Catalog.Catalog))
    ensures r.0.Failed? ==> r.1 == c
  {
    var cols := Present(p);
    if cols == [] then (Failed(400, NoFieldsError), c)
    else
      match Catalog.Integer(id, d)
      case Err(_) => (Failed(500, UpdateFailure), c)
      case Ok(k) =>
        if !Casts(p, cols, d) then (Failed(500, UpdateFailure), c)
        else if k < 0 || k !in c.plans then (Failed(404, NotFoundError), c)
        else
          var row := AssignAll(c.plans[k], p, cols, d).(updated := now);
          (PlanUpdated(row), c.(plans := c.plans[k := row]))
  }

  /** Strictly in the handler's order, hence without repetition. */
  predicate Ordered(cols: seq<Column>) {
    forall a, b :: 0 <= a < b < |cols| ==> Rank(cols[a]) < Rank(cols[b])
  }

  lemma {:induction false} PresentAmongSpec(p: Patch, cols: seq<Column>)
    ensures forall col :: col in PresentAmong(p, cols) <==> col in cols && !FieldOf(p, col).Undefined?
    ensures Ordered(cols) ==> Ordered(PresentAmong(p, cols))
  {
    if cols != [] {
      PresentAmongSpec(p, cols[1..]);
      var rest := PresentAmong(p, cols[1..]);
      if Ordered(cols) && !FieldOf(p, cols[0]).Undefined? {
        var r := [cols[0]] + rest;
        forall a, b | 0 <= a < b < |r|
          ensures Rank(r[a]) < Rank(r[b])
        {
          if a == 0 {
            assert r[b] == rest[b - 1] && rest[b - 1] in rest;
            var j :| 0 <= j < |cols[1..]| && cols[1..][j] == r[b];
            assert cols[j + 1] == r[b];
          }
        }
      }
    }
  }

  /** A column is set exactly when its field is present (`!== undefined`, so `null` is
      written), and the set columns keep the handler's order. */
  lemma PresentSpec(p: Patch)
    ensures forall col :: col in Present(p) <==> !FieldOf(p, col).Undefined?
    ensures Ordered(Present(p))
  {
    PresentAmongSpec(p, Columns);
    forall col ensures col in Columns {
      assert Columns[Rank(col)] == col;
    }
  }

  /** Placeholders are numbered from `$1` in the order the columns are set, each bound to
      the field its column names, and the id is bound to the one after the last. */
  lemma PlaceholdersBind(p: Patch, id: string)
    ensures var cols := Present(p);
            var params := Params(p, cols, id);
            && (forall k :: 0 <= k < |cols| ==>
                  Assignments(cols)[k] == ColumnName(cols[k]) + " = $" + Numbers.NatToString(k + 1)
                  && params[k] == FieldOf(p, cols[k]) && !params[k].Undefined?)
            && |params| == |cols| + 1 && params[|cols|] == Str(id)
  {
    PresentSpec(p);
    var cols := Present(p);
    forall k | 0 <= k < |cols|
      ensures !FieldOf(p, cols[k]).Undefined?
    {
      assert cols[k] in cols;
    }
  }

  /** The value of one updatable column of a row. */
  datatype Cell = TextCell(t: Option<string>) | NumberCell(x: Option<real>) | JsonCell(v: Value) | FlagCell(b: Option<bool>)

  function Read(row: Catalog.PlanRow, col: Column): Cell {
    match col
    case PlanName => TextCell(row.name)
    case MonthlyCost => NumberCell(row.monthlyCost)
    case AnnualCost => NumberCell(row.annualCost)
    case Deductible => NumberCell(row.deductible)
    case MaxCoverage => NumberCell(row.maxCoverage)
    case Features => JsonCell(row.features)
    case IsActive => FlagCell(row.active)
  }

  /** What the column holds after the server converts the bound value. */
  function Converted(col: Column, v: Value, d: Catalog.Driver): Cell
    requires Cast(col, v, d).Ok?
  {
    match col
    case PlanName => TextCell(Catalog.Param(v, d))
    case Features => JsonCell(v)
    case IsActive => FlagCell(Catalog.Flag(v, d).value)
    case _ => NumberCell(Catalog.Numeric(v, d).value)
  }

  /** The row with its seven updatable columns blanked: everything an update must keep. */
  function Fixed(row: Catalog.PlanRow): Catalog.PlanRow {
    row.(name := None, monthlyCost := None, annualCost := None, deductible := None,
         maxCoverage := None, features := Null, active := None)
  }

  /** Each assignment in turn: a set column holds its converted value, every other column
      and every other field keep theirs. */
  lemma {:induction false} AssignAllSpec(row: Catalog.PlanRow, p: Patch, cols: seq<Column>, d: Catalog.Driver)
    requires Casts(p, cols, d) && Ordered(cols)
    ensures var after := AssignAll(row, p, cols, d);
            && Fixed(after) == Fixed(row)
            && forall col :: Read(after, col)
                 == if col in cols then Converted(col, FieldOf(p, col), d) else Read(row, col)
    decreases |cols|
  {
    if cols != [] {
      CastsTail(p, cols, d);
      var first := Assign(row, cols[0], FieldOf(p, cols[0]), d);
      AssignAllSpec(first, p, cols[1..], d);
      OrderedHead(cols);
    }
  }

  /** The first column of an ordered list does not come back, and the rest stays ordered. */
  lemma OrderedHead(cols: seq<Column>)
    requires cols != [] && Ordered(cols)
    ensures cols[0] !in cols[1..] && Ordered(cols[1..])
    ensures forall col :: col in cols <==> col == cols[0] || col in cols[1..]
  {
    assert cols == [cols[0]] + cols[1..];
  }

  /** A successful update changes one plan: its present columns take the converted body
      values, its other columns and fields stay, and its update time is the statement's
      timestamp; every other plan is untouched and no plan appears or disappears. */
  lemma UpdateEffect(c: Catalog.Catalog, id: string, p: Patch, d: Catalog.Driver, now: int)
    requires Update(c, id, p, d, now).0.PlanUpdated?
    ensures var (reply, after) := Update(c, id, p, d, now);
            && Catalog.Integer(id, d).Ok?
            && var k := Catalog.Integer(id, d).value;
               && k in c.plans && after.plans.Keys == c.plans.Keys
               && after.plans[k] == reply.plan
               && (forall j :: j in c.plans && j != k ==> after.plans[j] == c.plans[j])
               && after.states == c.states && after.providers == c.providers && after.nextPlan == c.nextPlan
               && Fixed(reply.plan) == Fixed(c.plans[k]).(updated := now)
               && forall col :: if FieldOf(p, col).Undefined? then Read(reply.plan, col) == Read(c.plans[k], col)
                                else Cast(col, FieldOf(p, col), d).Ok?
                                     && Read(reply.plan, col) == Converted(col, FieldOf(p, col), d)
  {
    PresentSpec(p);
    var k := Catalog.Integer(id, d).value;
    AssignAllSpec(c.plans[k], p, Present(p), d);
  }

  /** The failures in order: an empty update is refused before the id is looked at; then an
      unreadable id or an unconvertible value fails the statement; only then is a missing
      plan reported. None of them changes the store. */
  lemma UpdateFailures(c: Catalog.Catalog, id: string, p: Patch, d: Catalog.Driver, now: int)
    ensures var reply := Update(c, id, p, d, now).0;
            reply == Failed(400, NoFieldsError) <==> forall col :: FieldOf(p, col).Undefined?
    ensures var reply := Update(c, id, p, d, now).0;
            reply == Failed(404, NotFoundError) <==>
              && (exists col :: !FieldOf(p, col).Undefined?)
              && Catalog.Integer(id, d).Ok? && Casts(p, Present(p), d)
              && Catalog.Integer(id, d).value !in c.plans
    ensures Update(c, id, p, d, now).0.Failed? ==> Update(c, id, p, d, now).1 == c
  {
    PresentSpec(p);
    if Present(p) == [] {
      forall col ensures FieldOf(p, col).Undefined? {
        assert col !in Present(p);
      }
    } else {
      assert Present(p)[0] in Present(p);
    }
  }

  /** Repeating an update at the same timestamp changes nothing more. */
  lemma UpdateIdempotent(c: Catalog.Catalog, id: string, p: Patch, d: Catalog.Driver, now: int)
    requires Update(c, id, p, d, now).0.PlanUpdated?
    ensures var once := Update(c, id, p, d, now);
            Update(once.1, id, p, d, now) == once
  {
    PresentSpec(p);
    var k := Catalog.Integer(id, d).value;
    var once := Update(c, id, p, d, now);
    var row := once.0.plan;
    AssignAllSpec(c.plans[k], p, Present(p), d);
    AssignAllSpec(row, p, Present(p), d);
    var again := AssignAll(row, p, Present(p), d).(updated := now);
    assert Fixed(again) == Fixed(row);
    forall col ensures Read(again, col) == Read(row, col) { }
    ReadDetermines(again, row);
    assert once.1.plans[k := row] == once.1.plans;
  }

  /** Two rows that agree on the fixed part and on every column are the same row. */
  lemma ReadDetermines(a: Catalog.PlanRow, b: Catalog.PlanRow)
    requires Fixed(a) == Fixed(b)
    requires forall col :: Read(a, col) == Read(b, col)
    ensures a == b
  {
    assert Read(a, PlanName) == Read(b, PlanName);
    assert Read(a, MonthlyCost) == Read(b, MonthlyCost);
    assert Read(a, AnnualCost) == Read(b, AnnualCost);
    assert Read(a, Deductible) == Read(b, Deductible);
    assert Read(a, MaxCoverage) == Read(b, MaxCoverage);
    assert Read(a, Features) == Read(b, Features);
    assert Read(a, IsActive) == Read(b, IsActive);
  }

  // ---------------------------------------------------------------------------------
  // DELETE /plans/:id

  /** `DELETE /plans/:id?hard_delete=...`: only the exact text "true" removes the row; any
      other value, or none, marks it inactive. A missing plan is not an error. */
  function Delete(c: Catalog.Catalog, id: string, hardDelete: Option<string>, d: Catalog.Driver)
    : (r: (Reply, Catalog.Catalog))
    ensures r.0.Failed? ==> r.1 == c
  {
    match Catalog.Integer(id, d)
    case Err(_) => (Failed(500, DeleteFailure), c)
    case Ok(k) =>
      if hardDelete == Some("true") then
        (PlanDeleted, c.(plans := map j | j in c.plans && j != k :: c.plans[j]))
      else if k >= 0 && k in c.plans then
        (PlanDeleted, c.(plans := c.plans[k := c.plans[k].(active := Some(false))]))
      else (PlanDeleted, c)
  }

  /** A delete reports success whenever the id is an integer. A hard delete removes that one
      plan; a soft delete keeps every plan and only marks that one inactive. No other plan
      changes in either case. */
  lemma DeleteEffect(c: Catalog.Catalog, id: string, hardDelete: Option<string>, d: Catalog.Driver)
    ensures var (reply, after) := Delete(c, id, hardDelete, d);
            && (reply == PlanDeleted <==> Catalog.Integer(id, d).Ok?)
            && (reply != PlanDeleted ==> reply == Failed(500, DeleteFailure) && after == c)
            && (reply == PlanDeleted ==>
                  var k := Catalog.Integer(id, d).value;
                  && after.states == c.states && after.providers == c.providers && after.nextPlan == c.nextPlan
                  && (forall j :: j in c.plans && j != k ==> j in after.plans && after.plans[j] == c.plans[j])
                  && (hardDelete == Some("true") ==> forall j :: j in after.plans <==> j in c.plans && j != k)
                  && (hardDelete != Some("true") ==>
                        && after.plans.Keys == c.plans.Keys
                        && (k in c.plans ==> after.plans[k] == c.plans[k].(active := Some(false)))))
  {
  }

  /** Deleting twice is deleting once. */
  lemma DeleteIdempotent(c: Catalog.Catalog, id: string, hardDelete: Option<string>, d: Catalog.Driver)
    ensures var once := Delete(c, id, hardDelete, d);
            Delete(once.1, id, hardDelete, d) == once
  {
    var once := Delete(c, id, hardDelete, d);
    if Catalog.Integer(id, d).Ok? {
      var k := Catalog.Integer(id, d).value;
      if hardDelete == Some("true") {
        var m := map j | j in once.1.plans && j != k :: once.1.plans[j];
        assert k !in once.1.plans;
        assert m.Keys == once.1.plans.Keys;
        assert m == once.1.plans;
        assert Delete(once.1, id, hardDelete, d).1 == once.1.(plans := m);
        assert Delete(once.1, id, hardDelete, d).0 == once.0;
      } else if k >= 0 && k in c.plans {
        assert once.1.plans[k := once.1.plans[k].(active := Some(false))] == once.1.plans;
      }
    }
  }

  // ---------------------------------------------------------------------------------
  // GET /plans (admin)

  /** The query string: each parameter absent or its text. */
  datatype ListQuery = ListQuery(stateId: Option<string>, isActive: Option<string>, limit: Option<string>, offset: Option<string>)

  /** The two optional conjuncts of the `WHERE` clause. */
  datatype Filter = Filter(state: Option<int>, active: Option<bool>)

  /** A non-empty `state_id` filters by state (its text must be an integer); any `is_active`
      filters by activity, and only the text "true" asks for active plans. */
  function Criteria(q: ListQuery, d: Catalog.Driver): (r: Result<Filter>)
    ensures r.Ok? ==> (r.value.active == Some(true) <==> q.isActive == Some("true"))
    ensures r.Ok? ==> (r.value.active.None? <==> q.isActive.None?)
    ensures r.Ok? ==> (r.value.state.None? <==> q.stateId.None? || q.stateId == Some([]))
  {
    var state :- if q.stateId.Some? && q.stateId.value != [] then
                   var s :- Catalog.Integer(q.stateId.value, d); Ok(Some(s))
                 else Ok(None);
    Ok(Filter(state, if q.isActive.Some? then Some(q.isActive.value == "true") else None))
  }

  /** The two filters; a NULL `is_active` matches neither filter value. */
  predicate Matches(f: Filter, row: Catalog.PlanRow) {
    && (f.state.Some? ==> row.state == f.state.value)
    && (f.active.Some? ==> row.active == Some(f.active.value))
  }

  /** The `WHERE` clause with the inner join. */
  function Keep(c: Catalog.Catalog, f: Filter): Catalog.PlanRow -> bool {
    row => Listings.Joined(c, row) && Matches(f, row)
  }

  /** `ORDER BY created_at DESC`. */
  function Newest(a: Listings.Listed, b: Listings.Listed): bool {
    a.row.created >= b.row.created
  }

  lemma NewestPreorder()
    ensures Ordering.TotalPreorder(Newest)
  {
  }

  /** `GET /plans` of the admin routes; the store is only read. */
  function List(c: Catalog.Catalog, q: ListQuery, d: Catalog.Driver): (r: Reply)
    ensures r.PlansListed? ==> r.count == |r.plans|
    ensures r.Failed? ==> r == Failed(500, ListFailure)
  {
    match (Criteria(q, d), Listings.Bound(q.limit, 100), Listings.Bound(q.offset, 0))
    case (Ok(f), Ok(limit), Ok(offset)) =>
      NewestPreorder();
      var page := Listings.Page(Listings.Ranked(c, Keep(c, f), Newest), offset, limit);
      PlansListed(page, |page|)
    case _ => Failed(500, ListFailure)
  }

  /** A listing is a window of the full ranking, at most `limit` long and newest first; every
      row in it is a stored plan of a known provider that passes the filters, and (ids being
      issued in order) every such plan is in the full ranking. */
  lemma ListSpec(c: Catalog.Catalog, q: ListQuery, d: Catalog.Driver)
    requires List(c, q, d).PlansListed?
    ensures var r := List(c, q, d);
            && Criteria(q, d).Ok? && Listings.Bound(q.limit, 100).Ok? && Listings.Bound(q.offset, 0).Ok?
            && var f := Criteria(q, d).value;
               && Ordering.TotalPreorder(Newest)
               && r.plans == Listings.Page(Listings.Ranked(c, Keep(c, f), Newest),
                                           Listings.Bound(q.offset, 0).value, Listings.Bound(q.limit, 100).value)
               && r.count <= Listings.Bound(q.limit, 100).value
               && Ordering.SortedBy(r.plans, Newest)
               && (forall x :: x in r.plans ==>
                     x.id in c.plans && Listings.Joined(c, c.plans[x.id]) && Matches(f, c.plans[x.id])
                     && x == Listings.Listing(c, x.id))
               && (Catalog.Valid(c) ==>
                     forall k :: k in c.plans && Matches(f, c.plans[k]) ==>
                       Listings.Listing(c, k) in Listings.Ranked(c, Keep(c, f), Newest))
  {
    var f := Criteria(q, d).value;
    NewestPreorder();
    var all := Listings.Ranked(c, Keep(c, f), Newest);
    Listings.PageWithin(all, Listings.Bound(q.offset, 0).value, Listings.Bound(q.limit, 100).value, Newest);
    Listings.RankedSound(c, Keep(c, f), Newest);
    if Catalog.Valid(c) {
      Listings.RankedComplete(c, Keep(c, f), Newest);
    }
  }
}

=== FILE: plan_extraction.dfy ===
/** `extractPlanData` end to end (backend/services/gemini.js): the mock switch, one call to
    the language model with the assembled prompt, the reply parser, and the single error
    wrapper every failure passes through. */
module PlanExtraction {
  import opened Wrappers
  import opened Values
  import Text
  import ExtractionPrompt
  import ReplyParser
  import MockExtractor

  const FailurePrefix: string := "Failed to extract plan data from document: "

  /** The foreign parts of the real branch: the model's reply to a prompt (or the error its
      client throws), and `JSON.parse`. */
  datatype Model = Model(generate: string -> Result<string>, parse: string -> Result<Value>)

  /** The real branch before the outer wrapper: ask the model, then parse its reply. */
  function Attempt(template: string, doc: string, o: ExtractionPrompt.Options, m: Model)
    : (r: Result<ReplyParser.PlanData>)
    ensures var reply := m.generate(ExtractionPrompt.Prompt(template, doc, o));
            && (reply.Err? ==> r == Err(reply.message))
            && (reply.Ok? ==> r == ReplyParser.ParseReply(reply.value, m.parse))
    ensures r.Ok? ==> r.value.plans != []
  {
    var reply :- m.generate(ExtractionPrompt.Prompt(template, doc, o));
    ReplyParser.ParseReply(reply, m.parse)
  }

  /** `extractPlanData(documentContent, options)`; `mock` is the MOCK_GEMINI switch and
      `template` the fixed extraction instructions. */
  function ExtractPlanData(template: string, doc: string, o: ExtractionPrompt.Options, mock: bool, m: Model)
    : (r: Result<ReplyParser.PlanData>)
    ensures mock ==> r == Ok(MockExtractor.MockExtract(doc, o))
    ensures r.Err? ==> !mock && Text.IsPrefix(FailurePrefix, r.message)
    ensures r.Ok? ==> r.value.plans != []
  {
    if mock then Ok(MockExtractor.MockExtract(doc, o))
    else
      match Attempt(template, doc, o, m)
      case Ok(d) => Ok(d)
      case Err(e) => Err(FailurePrefix + e)
  }

  /** Outside mock mode an extraction succeeds exactly when the model answers and its reply
      passes the parser; a failure is the parser's or the client's message behind the one
      prefix. */
  lemma RealBranch(template: string, doc: string, o: ExtractionPrompt.Options, m: Model)
    ensures var reply := m.generate(ExtractionPrompt.Prompt(template, doc, o));
            var r := ExtractPlanData(template, doc, o, false, m);
            && (reply.Err? ==> r == Err(FailurePrefix + reply.message))
            && (reply.Ok? ==>
                  (r.Ok? <==> ReplyParser.ParseReply(reply.value, m.parse).Ok?)
                  && (r.Ok? ==> r == ReplyParser.ParseReply(reply.value, m.parse))
                  && (r.Err? ==> r.message == FailurePrefix + ReplyParser.ParseReply(reply.value, m.parse).message))
  {
  }

  /** The prompt is all the model is shown: two models that answer it alike give the same
      outcome, whatever they would answer to anything else. */
  lemma OnlyThePrompt(template: string, doc: string, o: ExtractionPrompt.Options, m1: Model, m2: Model)
    requires m1.parse == m2.parse
    requires m1.generate(ExtractionPrompt.Prompt(template, doc, o))
          == m2.generate(ExtractionPrompt.Prompt(template, doc, o))
    ensures ExtractPlanData(template, doc, o, false, m1) == ExtractPlanData(template, doc, o, false, m2)
  {
  }

  /** Mock mode ignores the template and the model: the result depends on the document and
      the options only. */
  lemma MockDeterministic(t1: string, t2: string, doc: string, o: ExtractionPrompt.Options, m1: Model, m2: Model)
    ensures ExtractPlanData(t1, doc, o, true, m1) == ExtractPlanData(t2, doc, o, true, m2)
    ensures ExtractPlanData(t1, doc, o, true, m1).value.provider == Str(MockExtractor.MockProvider(o.filename))
  {
  }

  /** A model that wraps its JSON in a ```json fence yields the same extraction as one
      that answers with the bare JSON. */
  lemma FenceTransparent(template: string, doc: string, o: ExtractionPrompt.Options, m1: Model, m2: Model,
                         p: string, w1: string, body: string, w2: string)
    requires m1.parse == m2.parse
    requires '`' !in p && '{' !in p && '}' !in p && '`' !in body
    requires Text.AllSpace(w1) && Text.AllSpace(w2)
    requires ReplyParser.Candidate(body).Some?
    requires m1.generate(ExtractionPrompt.Prompt(template, doc, o)) == Ok(ReplyParser.Fenced(p, w1, body, w2))
    requires m2.generate(ExtractionPrompt.Prompt(template, doc, o)) == Ok(body)
    ensures ExtractPlanData(template, doc, o, false, m1) == ExtractPlanData(template, doc, o, false, m2)
  {
    ReplyParser.FencedReply(p, w1, body, w2, m1.parse);
  }
}

=== FILE: plan_query.dfy ===
/** The plan search of backend/routes/plans.js: `GET /` filters the active plans by state
    (the user's own state by default), type, deductible, cost, coverage and coverage type,
    orders them by monthly cost and pages them, with a total counted by a second query;
    `GET /:id` fetches one active plan. Filters compare under the database's rules: NULL
    matches no comparison, and `parseFloat` results are bound as numeric text, so `NaN`
    sorts above every number and `Infinity` is infinite. */
module PlanQuery {
  import opened Wrappers
  import Text
  import Numbers
  import Ordering
  import Catalog
  import Listings
  import Validation

  /** The query string of `GET /api/plans`; every parameter may be absent. */
  datatype Query = Query(
    planType: Option<string>,
    stateId: Option<string>,
    maxDeductible: Option<string>,
    maxCost: Option<string>,
    minCoverage: Option<string>,
    coverageType: Option<string>,
    limit: Option<string>,
    offset: Option<string>)

  datatype Reply =
    | Found(plans: seq<Listings.Listed>, total: nat, limit: nat, offset: nat, hasMore: bool)
    | PlanFound(plan: Listings.Listed)
    | Failed(status: nat, error: string)

  const SearchFailure: string := "Failed to fetch insurance plans"
  const DetailFailure: string := "Failed to fetch plan details"
  const NotFound: string := "Plan not found"
  const DefaultLimit: nat := 50
  const DefaultOffset: nat := 0

  /** The `WHERE` conditions the query string asks for, bounds already parsed. */
  datatype Filter = Filter(
    state: Option<int>,
    planType: Option<string>,
    maxDeductible: Option<Numbers.Float>,
    maxCost: Option<Numbers.Float>,
    minCoverage: Option<Numbers.Float>,
    coverage: Option<string>)

  // ---------------------------------------------------------------- comparisons

  /** `column <= bound` for a numeric column: NULL is false, `NaN` is above every number. */
  predicate AtMost(column: Option<real>, bound: Numbers.Float) {
    column.Some? &&
    match bound
    case FNaN => true
    case FInf(negative) => !negative
    case Finite(b) => column.value <= b
  }

  /** `column >= bound`. */
  predicate AtLeast(column: Option<real>, bound: Numbers.Float) {
    column.Some? &&
    match bound
    case FNaN => false
    case FInf(negative) => negative
    case Finite(b) => column.value >= b
  }

  /** `s LIKE p` with `%`, `_` and the escape character `\`. Every pattern the route builds
      ends in `%`, so the error for a pattern ending in a lone escape cannot arise. */
  predicate Like(s: string, p: string)
    decreases |p|
  {
    if p == [] then s == []
    else if p[0] == '%' then exists i :: 0 <= i <= |s| && Like(s[i..], p[1..])
    else if p[0] == '\\' then |p| >= 2 && s != [] && s[0] == p[1] && Like(s[1..], p[2..])
    else s != [] && (p[0] == '_' || s[0] == p[0]) && Like(s[1..], p[1..])
  }

  /** `s ILIKE p`, with letter case folded on both sides. */
  predicate ILike(s: string, p: string) {
    Like(Text.Lower(s), Text.Lower(p))
  }

  /** Text with none of the pattern's special characters. */
  predicate Literal(x: string) {
    forall k :: 0 <= k < |x| ==> x[k] != '%' && x[k] != '_' && x[k] != '\\'
  }

  /** A literal followed by the rest of a pattern matches a text that starts with the
      literal and whose remainder matches the rest. */
  lemma {:induction false} LikeLiteral(s: string, x: string, q: string)
    requires Literal(x)
    ensures Like(s, x + q) <==> Text.IsPrefix(x, s) && Like(s[|x|..], q)
  {
    if x == [] {
      assert x + q == q;
    } else {
      assert (x + q)[0] == x[0] && (x + q)[1..] == x[1..] + q;
      if s != [] {
        LikeLiteral(s[1..], x[1..], q);
        assert Text.IsPrefix(x, s) <==> s[0] == x[0] && Text.IsPrefix(x[1..], s[1..]) by {
          if |x| <= |s| {
            assert s[..|x|] == [s[0]] + s[1..][..|x| - 1];
            assert x == [x[0]] + x[1..];
          }
        }
        if |x| <= |s| {
          assert s[1..][|x| - 1..] == s[|x|..];
        }
      }
    }
  }

  /** `%x%` for a literal `x` is a substring test. */
  lemma LikeContains(s: string, x: string)
    requires Literal(x)
    ensures Like(s, "%" + x + "%") <==> Text.Contains(s, x)
  {
    var p := "%" + x + "%";
    assert p[0] == '%' && p[1..] == x + "%";
    forall i | 0 <= i <= |s|
      ensures Like(s[i..], x + "%") <==> Text.IsPrefix(x, s[i..])
    {
      LikeLiteral(s[i..], x, "%");
      if Text.IsPrefix(x, s[i..]) {
        var rest := s[i..][|x|..];
        assert "%"[0] == '%' && "%"[1..] == [];
        assert Like(rest[|rest|..], "%"[1..]);
      }
    }
  }

  /** `coverage_type ILIKE '%x%'` for text `x` without `%`, `_` or `\`: the column, letter
      case aside, contains `x`. */
  lemma CoverageContains(column: string, x: string)
    requires Literal(x)
    ensures ILike(column, "%" + x + "%") <==> Text.Contains(Text.Lower(column), Text.Lower(x))
  {
    assert Text.Lower("%" + x + "%") == "%" + Text.Lower(x) + "%";
    LikeContains(Text.Lower(column), Text.Lower(x));
  }

  // ---------------------------------------------------------------- GET /

  /** The row conditions: active, then each filter that was asked for. */
  predicate Matches(f: Filter, row: Catalog.PlanRow) {
    && row.active == Some(true)
    && (f.state.Some? ==> row.state == f.state.value)
    && (f.planType.Some? ==> row.planType == f.planType)
    && (f.maxDeductible.Some? ==> AtMost(row.deductible, f.maxDeductible.value))
    && (f.maxCost.Some? ==> AtMost(row.monthlyCost, f.maxCost.value))
    && (f.minCoverage.Some? ==> AtLeast(row.maxCoverage, f.minCoverage.value))
    && (f.coverage.Some? ==> row.coverageType.Some? && ILike(row.coverageType.value, "%" + f.coverage.value + "%"))
  }

  /** The listing query adds the inner join with providers; the count query does not. */
  function Keep(c: Catalog.Catalog, f: Filter): Catalog.PlanRow -> bool {
    row => Listings.Joined(c, row) && Matches(f, row)
  }

  function Counted(f: Filter): Catalog.PlanRow -> bool {
    row => Matches(f, row)
  }

  /** `ORDER BY monthly_cost ASC`, NULLs last. */
  predicate Cheaper(a: Listings.Listed, b: Listings.Listed) {
    match (a.row.monthlyCost, b.row.monthlyCost)
    case (Some(x), Some(y)) => x <= y
    case (Some(_), None) => true
    case (None, Some(_)) => false
    case (None, None) => true
  }

  lemma CheaperPreorder()
    ensures Ordering.TotalPreorder(Cheaper)
  {
  }

  /** A given text parameter, `None` when absent or empty. */
  function Given(t: Option<string>): (r: Option<string>)
    ensures r.Some? <==> Validation.Given(t)
    ensures r.Some? ==> r == t
  {
    if Validation.Given(t) then t else None
  }

  function Bound(t: Option<string>): Option<Numbers.Float> {
    if Validation.Given(t) then Some(Numbers.JsParseFloat(t.value)) else None
  }

  /** `state_id || req.user.state_id`: the query's state (as an integer the server reads),
      else the user's own state unless it is NULL or 0. */
  function StateFilter(q: Query, userState: Option<int>, d: Catalog.Driver): (r: Result<Option<int>>)
    ensures Validation.Given(q.stateId) ==>
              (r.Ok? <==> d.integer(q.stateId.value).Some?)
              && (r.Ok? ==> r.value == d.integer(q.stateId.value))
    ensures !Validation.Given(q.stateId) ==>
              r == Ok(if userState.Some? && userState.value != 0 then userState else None)
  {
    if Validation.Given(q.stateId) then
      var s :- Catalog.Integer(q.stateId.value, d);
      Ok(Some(s))
    else Ok(if userState.Some? && userState.value != 0 then userState else None)
  }

  /** The filters a query asks for: each text filter only when given, each numeric bound
      read with `parseFloat` only when given, and the state as above. */
  function Criteria(q: Query, userState: Option<int>, d: Catalog.Driver): (r: Result<Filter>)
    ensures r.Ok? <==> StateFilter(q, userState, d).Ok?
    ensures r.Ok? ==> r.value.state == StateFilter(q, userState, d).value
    ensures r.Ok? ==> (r.value.planType.Some? <==> Validation.Given(q.planType))
                      && (r.value.coverage.Some? <==> Validation.Given(q.coverageType))
    ensures r.Ok? && Validation.Given(q.maxCost) ==> r.value.maxCost == Some(Numbers.JsParseFloat(q.maxCost.value))
    ensures r.Ok? && Validation.Given(q.maxDeductible) ==>
              r.value.maxDeductible == Some(Numbers.JsParseFloat(q.maxDeductible.value))
    ensures r.Ok? && Validation.Given(q.minCoverage) ==>
              r.value.minCoverage == Some(Numbers.JsParseFloat(q.minCoverage.value))
    ensures r.Ok? ==> (r.value.maxCost.None? <==> !Validation.Given(q.maxCost))
  {
    var state :- StateFilter(q, userState, d);
    Ok(Filter(state, Given(q.planType), Bound(q.maxDeductible), Bound(q.maxCost), Bound(q.minCoverage),
              Given(q.coverageType)))
  }

  /** `GET /api/plans` behind the query gate: a rejected query is 400, any query the
      database refuses (a state id that is not an integer, a limit or offset that is `NaN`
      or negative) is 500. */
  function Search(c: Catalog.Catalog, q: Query, userState: Option<int>, d: Catalog.Driver): (r: Reply)
    ensures r.Found? || r.Failed?
    ensures r.Failed? ==> r.status in {400, 500}
    ensures r.Failed? && r.status == 400 ==>
              Validation.PlanQuery(q.planType, q.maxDeductible, q.maxCost) == Validation.Reject(r.error)
    ensures r.Found? ==> |r.plans| <= r.limit && r.hasMore == (r.offset + |r.plans| < r.total)
  {
    match Validation.PlanQuery(q.planType, q.maxDeductible, q.maxCost)
    case Reject(e) => Failed(400, e)
    case Pass =>
      match (Criteria(q, userState, d), Listings.Bound(q.limit, DefaultLimit), Listings.Bound(q.offset, DefaultOffset))
      case (Ok(f), Ok(limit), Ok(offset)) =>
        CheaperPreorder();
        var page := Listings.Page(Listings.Ranked(c, Keep(c, f), Cheaper), offset, limit);
        var total := |Listings.Kept(c, Counted(f))|;
        Found(page, total, limit, offset, offset + |page| < total)
      case _ => Failed(500, SearchFailure)
  }

  /** A search answers with a window of the plans the filters keep, cheapest first; each is
      an active stored plan of a known provider that passes every filter, and (ids being
      issued in order, every plan naming a stored provider) every such plan is in the full
      ranking, the total counts exactly them, and `has_more` holds exactly when the ranking
      goes on past the page. */
  lemma SearchSpec(c: Catalog.Catalog, q: Query, userState: Option<int>, d: Catalog.Driver)
    requires Search(c, q, userState, d).Found?
    ensures var r := Search(c, q, userState, d);
            && Criteria(q, userState, d).Ok?
            && var f := Criteria(q, userState, d).value;
               && Ordering.TotalPreorder(Cheaper)
               && var all := Listings.Ranked(c, Keep(c, f), Cheaper);
                  && r.plans == Listings.Page(all, r.offset, r.limit)
                  && Ordering.SortedBy(r.plans, Cheaper)
                  && (forall x :: x in r.plans ==>
                        x.id in c.plans && Listings.Joined(c, c.plans[x.id]) && Matches(f, c.plans[x.id])
                        && x == Listings.Listing(c, x.id))
                  && (Catalog.Valid(c) ==>
                        && (forall k :: k in c.plans && Matches(f, c.plans[k]) ==> Listings.Listing(c, k) in all)
                        && r.total == |all|
                        && (r.hasMore <==> r.offset + |r.plans| < |all|))
  {
    var f := Criteria(q, userState, d).value;
    CheaperPreorder();
    var r := Search(c, q, userState, d);
    var all := Listings.Ranked(c, Keep(c, f), Cheaper);
    Listings.PageWithin(all, r.offset, r.limit, Cheaper);
    Listings.RankedSound(c, Keep(c, f), Cheaper);
    if Catalog.Valid(c) {
      Listings.RankedComplete(c, Keep(c, f), Cheaper);
      Listings.RankedCount(c, Keep(c, f), Cheaper);
      JoinCounts(c, f);
    }
  }

  /** When every plan names a stored provider the join drops nothing, so the count query
      and the listing query agree. */
  lemma JoinCounts(c: Catalog.Catalog, f: Filter)
    requires Catalog.Valid(c)
    ensures Listings.Kept(c, Keep(c, f)) == Listings.Kept(c, Counted(f))
  {
  }

  /** A minimum coverage that does not start like a number passes the query gate, is
      bound as `NaN`, and no plan's coverage reaches it. */
  lemma CoverageNaN(c: Catalog.Catalog, q: Query, userState: Option<int>, d: Catalog.Driver)
    requires Validation.Given(q.minCoverage) && !Numbers.StartsNumeric(q.minCoverage.value)
    requires Criteria(q, userState, d).Ok?
    ensures forall row :: !Matches(Criteria(q, userState, d).value, row)
  {
    Numbers.ParseFloatNaN(q.minCoverage.value);
  }

  // ---------------------------------------------------------------- GET /:id

  /** `GET /api/plans/:id`: an id the server cannot read as an integer is 500; a plan that
      is missing, inactive or of an unknown provider is 404. */
  function Fetch(c: Catalog.Catalog, id: string, d: Catalog.Driver): (r: Reply)
    ensures r.PlanFound? || r.Failed?
    ensures r.Failed? ==> r == Failed(500, DetailFailure) || r == Failed(404, NotFound)
    ensures r.Failed? && r.status == 500 <==> d.integer(id).None?
    ensures r.PlanFound? <==>
              && d.integer(id).Some? && d.integer(id).value >= 0
              && var k := d.integer(id).value as nat;
                 && k in c.plans && c.plans[k].active == Some(true) && Listings.Joined(c, c.plans[k])
    ensures r.PlanFound? ==> r.plan.id in c.plans && r.plan == Listings.Listing(c, r.plan.id)
                             && r.plan.id as int == d.integer(id).value
  {
    match Catalog.Integer(id, d)
    case Err(_) => Failed(500, DetailFailure)
    case Ok(k) =>
      if k >= 0 && k as nat in c.plans && c.plans[k as nat].active == Some(true) && Listings.Joined(c, c.plans[k as nat])
      then PlanFound(Listings.Listing(c, k as nat))
      else Failed(404, NotFound)
  }

  /** A plan the detail route returns is one an unfiltered search ranks. */
  lemma FetchListed(c: Catalog.Catalog, id: string, d: Catalog.Driver)
    requires Catalog.Valid(c) && Fetch(c, id, d).PlanFound?
    ensures var x := Fetch(c, id, d).plan;
            var none := Filter(None, None, None, None, None, None);
            && Ordering.TotalPreorder(Cheaper)
            && x in Listings.Ranked(c, Keep(c, none), Cheaper)
  {
    var x := Fetch(c, id, d).plan;
    var none := Filter(None, None, None, None, None, None);
    CheaperPreorder();
    Listings.CandidatesSpec(c, Keep(c, none), c.nextPlan);
    assert x in multiset(Listings.Ranked(c, Keep(c, none), Cheaper)) by {
      assert x in Listings.Candidates(c, Keep(c, none), c.nextPlan);
    }
  }
}

=== FILE: questionnaire.dfy ===
/** The three-step plan questionnaire of frontend/src/components/Questionnaire.jsx: the form
    fields, the budget suggested from a salary, the step machine, when a step may be left,
    and the filters the comparison page receives. */
module Questionnaire {
  import opened Wrappers
  import opened Values
  import Numbers
  import Validation
  import ClientApi

  /** The form; every field holds the text of its input. */
  datatype Form = Form(
    insuranceType: string,
    coverageType: string,
    monthlySalary: string,
    maxMonthlyBudget: string,
    maxDeductible: string,
    minCoverage: string)

  datatype Input = InsuranceType | CoverageType | MonthlySalary | MaxMonthlyBudget | MaxDeductible | MinCoverage

  const Start: Form := Form([], [], [], [], [], [])
  const InsuranceTypes: seq<string> := ["Health", "Auto", "Life", "Property", "Travel"]

  /** The coverage choices offered for each insurance type. */
  function CoverageTypes(t: string): seq<string> {
    if t == "Health" then ["Individual", "Family", "Senior"]
    else if t == "Auto" then ["Comprehensive", "Third Party", "Third Party Fire & Theft"]
    else if t == "Life" then ["Term Life", "Whole Life", "Universal Life"]
    else if t == "Property" then ["Home", "Renters", "Commercial"]
    else if t == "Travel" then ["Single Trip", "Annual Multi-Trip", "Family"]
    else []
  }

  function Get(f: Form, field: Input): string {
    match field
    case InsuranceType => f.insuranceType
    case CoverageType => f.coverageType
    case MonthlySalary => f.monthlySalary
    case MaxMonthlyBudget => f.maxMonthlyBudget
    case MaxDeductible => f.maxDeductible
    case MinCoverage => f.minCoverage
  }

  /** `{ ...formData, [field]: value }`. */
  function Set(f: Form, field: Input, value: string): (r: Form)
    ensures Get(r, field) == value
    ensures forall other :: other != field ==> Get(r, other) == Get(f, other)
  {
    match field
    case InsuranceType => f.(insuranceType := value)
    case CoverageType => f.(coverageType := value)
    case MonthlySalary => f.(monthlySalary := value)
    case MaxMonthlyBudget => f.(maxMonthlyBudget := value)
    case MaxDeductible => f.(maxDeductible := value)
    case MinCoverage => f.(minCoverage := value)
  }

  /** `Math.round(parseFloat(salary) * 12 / 10 / 12).toString()`: a tenth of the salary,
      rounded, or the text of what `Math.round` makes of a non-number. */
  function Budget(salary: string): (r: string)
    ensures Numbers.JsParseFloat(salary).Finite? ==>
              r == Numbers.IntToString(Numbers.JsRound(Numbers.JsParseFloat(salary).r / 10.0))
    ensures Numbers.JsParseFloat(salary).FNaN? ==> r == "NaN"
  {
    var f := Numbers.JsParseFloat(salary);
    Tenth(if f.Finite? then f.r else 0.0);
    Suggested(Numbers.JsParseFloat(salary))
  }

  function Suggested(salary: Numbers.Float): string {
    match salary
    case Finite(x) => Numbers.IntToString(Numbers.JsRound(x * 12.0 / 10.0 / 12.0))
    case FNaN => "NaN"
    case FInf(negative) => if negative then "-Infinity" else "Infinity"
  }

  /** A salary typed as a whole number is read as that number. */
  lemma BudgetOfSalary(n: nat)
    ensures Budget(Numbers.NatToString(n)) == Suggested(Numbers.Finite(n as real))
  {
    Numbers.ParseFloatOfNat(n);
  }

  /** The suggestion is a tenth of the monthly salary (twelve months' salary, a tenth of
      it, spread over twelve months), rounded half up. */
  lemma SuggestedTenth(x: real)
    ensures Suggested(Numbers.Finite(x)) == Numbers.IntToString(Numbers.JsRound(x / 10.0))
  {
    Tenth(x);
  }

  lemma Tenth(x: real)
    ensures x * 12.0 / 10.0 / 12.0 == x / 10.0
  {
    var y := x * 12.0;
    assert y / 10.0 == x * 1.2;
    assert x * 1.2 / 12.0 == x / 10.0;
  }

  /** `handleChange`: only the named field changes, except that a non-empty salary also
      replaces the budget with the suggested one. Choosing another insurance type keeps the
      coverage type that was chosen before. */
  function Change(f: Form, field: Input, value: string): (r: Form)
    ensures Get(r, field) == value
    ensures forall other :: other != field && other != MaxMonthlyBudget ==> Get(r, other) == Get(f, other)
    ensures r.maxMonthlyBudget ==
              if field == MonthlySalary && value != [] then Budget(value)
              else if field == MaxMonthlyBudget then value
              else f.maxMonthlyBudget
  {
    var updated := Set(f, field, value);
    if field == MonthlySalary && value != [] then updated.(maxMonthlyBudget := Budget(value)) else updated
  }

  /** `handleNext` and `handleBack`. */
  function Next(step: int): (r: int)
    ensures 1 <= step <= 3 ==> 1 <= r <= 3
    ensures r == step + 1 || (r == step && step >= 3)
  {
    if step < 3 then step + 1 else step
  }

  function Back(step: int): (r: int)
    ensures 1 <= step <= 3 ==> 1 <= r <= 3
    ensures r == step - 1 || (r == step && step <= 1)
  {
    if step > 1 then step - 1 else step
  }

  datatype Move = Forward | Backward

  function Walk(step: int, moves: seq<Move>): int
    decreases |moves|
  {
    if moves == [] then step
    else Walk(if moves[0] == Forward then Next(step) else Back(step), moves[1..])
  }

  /** From any of the three steps, no sequence of Next and Back presses leaves them. */
  lemma {:induction false} WalkStays(step: int, moves: seq<Move>)
    requires 1 <= step <= 3
    ensures 1 <= Walk(step, moves) <= 3
    decreases |moves|
  {
    if moves != [] {
      WalkStays(if moves[0] == Forward then Next(step) else Back(step), moves[1..]);
    }
  }

  /** Pressing Next enough times reaches the last step. */
  lemma {:induction false} WalkForward(step: int)
    requires 1 <= step <= 3
    ensures Walk(step, seq(3 - step, i => Forward)) == 3
    decreases 3 - step
  {
    if step < 3 {
      var f := seq(3 - step, i => Forward);
      assert f[1..] == seq(3 - (step + 1), i => Forward);
      WalkForward(step + 1);
    }
  }

  /** The field each step asks for. */
  function StepField(step: int): Input
    requires 1 <= step <= 3
  {
    [InsuranceType, CoverageType, MaxMonthlyBudget][step - 1]
  }

  /** `isStepValid`: a step is complete when its own field is filled in; there is no
      step outside the three. */
  function StepValid(step: int, f: Form): (r: bool)
    ensures r ==> 1 <= step <= 3
    ensures 1 <= step <= 3 ==> (r <==> Get(f, StepField(step)) != [])
  {
    if step == 1 then f.insuranceType != []
    else if step == 2 then f.coverageType != []
    else if step == 3 then f.maxMonthlyBudget != []
    else false
  }

  /** Entering a salary is enough to finish the last step: it fills the budget. */
  lemma SalaryCompletes(f: Form, salary: string)
    requires salary != []
    ensures StepValid(3, Change(f, MonthlySalary, salary))
  {
    match Numbers.JsParseFloat(salary)
    case Finite(x) =>
    case FNaN =>
    case FInf(negative) =>
  }

  /** `handleSubmit`: the filters handed to the comparison page, the state being the user's
      own. */
  function Filters(f: Form, userState: Value): (r: seq<(string, Value)>)
    ensures |r| == 6
    ensures ClientApi.UniqueKeys(r)
  {
    [("type", Str(f.insuranceType)),
     ("coverage_type", Str(f.coverageType)),
     ("max_cost", Str(f.maxMonthlyBudget)),
     ("max_deductible", Str(f.maxDeductible)),
     ("min_coverage", Str(f.minCoverage)),
     ("state_id", userState)]
  }

  /** The plan search receives the budget as `max_cost` and the chosen type as `type`
      exactly when they are filled in; empty fields never reach it. */
  lemma SubmitReceived(f: Form, userState: Value, render: Value -> string)
    ensures var p := ClientApi.Params(Filters(f, userState), true, render);
            && ClientApi.Received(p, "max_cost") == (if f.maxMonthlyBudget != [] then Some(f.maxMonthlyBudget) else None)
            && ClientApi.Received(p, "type") == (if f.insuranceType != [] then Some(f.insuranceType) else None)
            && ClientApi.Received(p, "coverage_type") == (if f.coverageType != [] then Some(f.coverageType) else None)
  {
    var filters := Filters(f, userState);
    ClientApi.ReceivedAt(filters, true, render, 0);
    ClientApi.ReceivedAt(filters, true, render, 1);
    ClientApi.ReceivedAt(filters, true, render, 2);
  }
}

=== FILE: reply_parser.dfy ===
/** Reading structured plan data out of a language-model reply (backend/services/gemini.js,
    the tail of `extractPlanData`): strip Markdown code fences, take the outermost brace
    span, parse it (JSON.parse is a parameter) and validate its shape. */
module ReplyParser {
  import opened Wrappers
  import opened Values
  import Text

  const JsonFence: string := "```json"
  const Fence: string := "```"

  /** `s.replace(/<marker>\s*\/g, '')`: occurrences of `marker`, found left to right without
      overlap, are removed together with the white space that follows each. */
  function StripMarker(s: string, marker: string): (r: string)
    requires marker != []
    ensures |r| <= |s|
    decreases |s|
  {
    if |s| < |marker| then s
    else if s[..|marker|] == marker then StripMarker(Text.TrimStart(s[|marker|..]), marker)
    else [s[0]] + StripMarker(s[1..], marker)
  }

  /** Both fence passes, "```json" first and then bare "```". No fence survives. */
  function StripFences(reply: string): (r: string)
    ensures |r| <= |reply|
    ensures !Text.Contains(r, Fence)
  {
    var once := StripMarker(reply, JsonFence);
    NoFenceLeft(once);
    StripMarker(once, Fence)
  }

  /** A string that does not open with the marker keeps its first character. */
  lemma StripStep(s: string, marker: string)
    requires marker != [] && s != [] && !Text.IsPrefix(marker, s)
    ensures StripMarker(s, marker) == [s[0]] + StripMarker(s[1..], marker)
  {
    if |s| < |marker| {
      assert [s[0]] + s[1..] == s;
    }
  }

  /** A string with a non-backtick among its first three characters is not a fence. */
  lemma NotFenceAt(t: string, k: nat)
    requires k < 3 && k < |t| && t[k] != '`'
    ensures !Text.IsPrefix(Fence, t)
  {
    if |t| >= 3 {
      assert t[..3][k] == t[k];
    }
  }

  lemma FenceChars(t: string)
    requires |t| >= 3 && t[0] == '`' && t[1] == '`' && t[2] == '`'
    ensures Text.IsPrefix(Fence, t)
  {
    assert t[..3] == Fence;
  }

  lemma {:induction false} NoFenceLeft(s: string)
    ensures !Text.Contains(StripMarker(s, Fence), Fence)
    decreases |s|
  {
    var r := StripMarker(s, Fence);
    if |s| < 3 {
    } else if s[..3] == Fence {
      NoFenceLeft(Text.TrimStart(s[3..]));
    } else {
      var rest := StripMarker(s[1..], Fence);
      NoFenceLeft(s[1..]);
      StripStep(s, Fence);
      HeadNotFence(s);
      forall i | 0 < i <= |r|
        ensures !Text.IsPrefix(Fence, r[i..])
      {
        assert r[i..] == rest[i - 1..];
      }
    }
  }

  /** Where the text does not open with a fence, neither does its stripped form. */
  lemma HeadNotFence(s: string)
    requires |s| >= 3 && s[..3] != Fence
    ensures !Text.IsPrefix(Fence, StripMarker(s, Fence))
  {
    var r := StripMarker(s, Fence);
    var t := s[1..];
    StripStep(s, Fence);
    if s[0] != '`' {
      NotFenceAt(r, 0);
    } else if s[1] != '`' {
      NotFenceAt(t, 0);
      StripStep(t, Fence);
      NotFenceAt(r, 1);
    } else {
      if s[2] == '`' {
        FenceChars(s);
      }
      NotFenceAt(t, 1);
      StripStep(t, Fence);
      var u := t[1..];
      NotFenceAt(u, 0);
      StripStep(u, Fence);
      NotFenceAt(r, 2);
    }
  }

  /** Text with no backtick passes through both fence passes unchanged. */
  lemma {:induction false} StripPrefixFree(x: string, y: string, marker: string)
    requires marker != [] && marker[0] == '`' && '`' !in x
    ensures StripMarker(x + y, marker) == x + StripMarker(y, marker)
    decreases |x|
  {
    if x != [] {
      var xy := x + y;
      assert xy[0] == x[0];
      assert |xy| >= |marker| ==> xy[..|marker|][0] != marker[0];
      assert xy[1..] == x[1..] + y;
      StripPrefixFree(x[1..], y, marker);
      Text.HeadTail(x, StripMarker(y, marker));
    } else {
      assert x + y == y;
    }
  }

  /** The greedy match of `/\{[\s\S]*\}/`: from the first '{' to the last '}' after it. */
  function Candidate(text: string): (r: Option<string>)
    ensures r.Some? ==> |r.value| >= 2 && r.value[0] == '{' && r.value[|r.value| - 1] == '}'
  {
    Span(text, Text.IndexOf(text, '{'), Text.LastIndexOf(text, '}'))
  }

  /** The characters from `i` to `j` inclusive, when `i` is a position at or before `j`. */
  function Span(text: string, i: int, j: int): Option<string>
    requires -1 <= i < |text| && -1 <= j < |text|
  {
    if i == -1 || j < i then None else Some(text[i..j + 1])
  }

  /** The span exists exactly when some '{' comes before some '}', and it is the widest such
      span: no '{' before it and no '}' after it. */
  lemma {:induction false} CandidateSpec(text: string)
    ensures Candidate(text).Some?
        <==> exists a, b :: 0 <= a < b < |text| && text[a] == '{' && text[b] == '}'
    ensures Candidate(text).Some? ==>
              var v := Candidate(text).value;
              exists i :: 0 <= i && i + |v| <= |text| && text[i..i + |v|] == v
                          && '{' !in text[..i] && '}' !in text[i + |v|..]
  {
    BraceSpan(text);
    var i := Text.IndexOf(text, '{');
    var j := Text.LastIndexOf(text, '}');
    if i != -1 && i < j {
      var v := text[i..j + 1];
      assert text[i..i + |v|] == v;
    }
  }

  /** Some '{' precedes some '}' exactly when the first '{' precedes the last '}'. */
  lemma {:induction false} BraceSpan(text: string)
    ensures (exists a, b :: 0 <= a < b < |text| && text[a] == '{' && text[b] == '}')
        <==> (Text.IndexOf(text, '{') != -1 && Text.IndexOf(text, '{') < Text.LastIndexOf(text, '}'))
  {
    var i := Text.IndexOf(text, '{');
    var j := Text.LastIndexOf(text, '}');
    if exists a, b :: 0 <= a < b < |text| && text[a] == '{' && text[b] == '}' {
      var a, b :| 0 <= a < b < |text| && text[a] == '{' && text[b] == '}';
      assert text[a] in text && text[b] in text;
      assert i <= a;
      assert b <= j;
    }
    if i != -1 && i < j {
      assert text[i] == '{' && text[j] == '}';
    }
  }

  /** Brace-free text around a reply does not change which span is taken. */
  lemma {:induction false} CandidateFrame(p: string, x: string, q: string)
    requires '{' !in p && '}' !in p && '{' !in q && '}' !in q
    ensures Candidate(p + x + q) == Candidate(x)
  {
    Text.Assoc(p, x, q);
    CandidateAfter(p, x + q);
    CandidateBefore(x, q);
  }

  lemma {:induction false} CandidateAfter(p: string, s: string)
    requires '{' !in p && '}' !in p
    ensures Candidate(p + s) == Candidate(s)
  {
    var i := Text.IndexOf(s, '{');
    var j := Text.LastIndexOf(s, '}');
    BracesAfter(p, s);
    CandidateIs(p + s, Shift(|p|, i), Shift(|p|, j));
    CandidateIs(s, i, j);
    SpanShift(p, s, i, j);
  }

  /** A position `i` of `s`, or -1, as a position of `p + s` with `|p| == n`. */
  function Shift(n: nat, i: int): int {
    if i == -1 then -1 else n + i
  }

  lemma BracesAfter(p: string, s: string)
    requires '{' !in p && '}' !in p
    ensures Text.IndexOf(p + s, '{') == Shift(|p|, Text.IndexOf(s, '{'))
    ensures Text.LastIndexOf(p + s, '}') == Shift(|p|, Text.LastIndexOf(s, '}'))
  {
    Text.IndexOfAfter(p, s, '{');
    Text.LastIndexOfAfter(p, s, '}');
  }

  lemma {:induction false} SpanShift(p: string, s: string, i: int, j: int)
    requires -1 <= i < |s| && -1 <= j < |s|
    ensures Span(p + s, Shift(|p|, i), Shift(|p|, j)) == Span(s, i, j)
  {
    if i != -1 && i <= j {
      assert (p + s)[|p| + i..|p| + j + 1] == s[i..j + 1];
    }
  }

  lemma CandidateIs(t: string, i: int, j: int)
    requires Text.IndexOf(t, '{') == i && Text.LastIndexOf(t, '}') == j
    ensures -1 <= i < |t| && -1 <= j < |t|
    ensures Candidate(t) == Span(t, i, j)
  {
  }

  lemma {:induction false} CandidateBefore(s: string, q: string)
    requires '{' !in q && '}' !in q
    ensures Candidate(s + q) == Candidate(s)
  {
    Text.IndexOfBefore(s, q, '{');
    Text.LastIndexOfBefore(s, q, '}');
    var i := Text.IndexOf(s, '{');
    var j := Text.LastIndexOf(s, '}');
    CandidateIs(s + q, i, j);
    CandidateIs(s, i, j);
    SpanExtend(s, q, i, j);
  }

  lemma {:induction false} SpanExtend(s: string, q: string, i: int, j: int)
    requires -1 <= i < |s| && -1 <= j < |s|
    ensures Span(s + q, i, j) == Span(s, i, j)
  {
    if i != -1 && i <= j {
      assert (s + q)[i..j + 1] == s[i..j + 1];
    }
  }

  /** A reply as the model often frames it: free text `p`, an opening "```json", white
      space `w1`, the body, a closing "```" and white space `w2`. */
  function Fenced(p: string, w1: string, body: string, w2: string): string {
    p + (JsonFence + (w1 + (body + (Fence + w2))))
  }

  /** Framing a body in fences, behind any brace-free preamble, changes neither the JSON
      candidate nor, when the body has one, the outcome of reading the reply. */
  lemma FencedReply(p: string, w1: string, body: string, w2: string, parse: string -> Result<Value>)
    requires '`' !in p && '{' !in p && '}' !in p && '`' !in body
    requires Text.AllSpace(w1) && Text.AllSpace(w2)
    ensures StripFences(body) == body
    ensures Candidate(StripFences(Fenced(p, w1, body, w2))) == Candidate(body)
    ensures Candidate(body).Some? ==> ParseReply(Fenced(p, w1, body, w2), parse) == ParseReply(body, parse)
  {
    StripBody(body);
    FencedCandidate(p, w1, body, w2);
  }

  lemma StripBody(body: string)
    requires '`' !in body
    ensures StripFences(body) == body
  {
    StripAbsent(body, JsonFence, '`');
    StripAbsent(body, Fence, '`');
  }

  lemma {:induction false} FencedCandidate(p: string, w1: string, body: string, w2: string)
    requires '`' !in p && '{' !in p && '}' !in p && '`' !in body
    requires Text.AllSpace(w1) && Text.AllSpace(w2)
    ensures Candidate(StripFences(Fenced(p, w1, body, w2))) == Candidate(body)
  {
    var b := Text.TrimStart(body);
    NoTickSuffix(body);
    FirstPass(p, w1, body, w2);
    SecondPass(p, b, w2);
    CandidateAfter(p, b);
    CandidateAfter(LeadingSpace(body), b);
  }

  /** The "```json" pass removes the opening fence with all the white space after it. */
  lemma {:induction false} FirstPass(p: string, w1: string, body: string, w2: string)
    requires '`' !in p && '`' !in body && Text.AllSpace(w1) && Text.AllSpace(w2)
    ensures StripMarker(Fenced(p, w1, body, w2), JsonFence)
            == p + (Text.TrimStart(body) + (Fence + w2))
  {
    var tail := Fence + w2;
    var b := Text.TrimStart(body);
    StripPrefixFree(p, JsonFence + (w1 + (body + tail)), JsonFence);
    StripAtMarker(JsonFence, w1 + (body + tail));
    TrimStartSpaces(w1, body + tail);
    TrimStartBefore(body, tail);
    NoTickSuffix(body);
    StripPrefixFree(b, tail, JsonFence);
    NoJ(w2);
    StripAbsent(tail, JsonFence, 'j');
  }

  lemma NoJ(w: string)
    requires Text.AllSpace(w)
    ensures 'j' !in Fence + w
  {
    forall k | 0 <= k < |Fence + w|
      ensures (Fence + w)[k] != 'j'
    {
      if k >= 3 {
        assert (Fence + w)[k] == w[k - 3];
      }
    }
  }

  /** The "```" pass removes the closing fence and the white space after it. */
  lemma {:induction false} SecondPass(p: string, b: string, w2: string)
    requires '`' !in p && '`' !in b && Text.AllSpace(w2)
    ensures StripMarker(p + (b + (Fence + w2)), Fence) == p + b
  {
    StripPrefixFree(p, b + (Fence + w2), Fence);
    StripPrefixFree(b, Fence + w2, Fence);
    StripAtMarker(Fence, w2);
    AllSpaceTrimmed(w2);
    assert b + [] == b;
  }

  lemma AllSpaceTrimmed(w: string)
    requires Text.AllSpace(w)
    ensures Text.TrimStart(w) == []
  {
  }

  /** Text without some character of the marker holds no occurrence of it. */
  lemma {:induction false} StripAbsent(x: string, marker: string, c: char)
    requires marker != [] && c in marker && c !in x
    ensures StripMarker(x, marker) == x
    decreases |x|
  {
    if |x| >= |marker| {
      var k :| 0 <= k < |marker| && marker[k] == c;
      assert x[..|marker|][k] != marker[k];
      StripAbsent(x[1..], marker, c);
      StripStep(x, marker);
      assert [x[0]] + x[1..] == x;
    }
  }

  /** White space in front is dropped by `trimStart`. */
  lemma {:induction false} TrimStartSpaces(w: string, y: string)
    requires Text.AllSpace(w)
    ensures Text.TrimStart(w + y) == Text.TrimStart(y)
    decreases |w|
  {
    if w == [] {
      assert w + y == y;
    } else {
      assert (w + y)[1..] == w[1..] + y;
      TrimStartSpaces(w[1..], y);
    }
  }

  /** Text after the first non-space character is kept whole by `trimStart`. */
  lemma {:induction false} TrimStartBefore(x: string, y: string)
    requires y != [] && !Text.IsJsSpace(y[0])
    ensures Text.TrimStart(x + y) == Text.TrimStart(x) + y
    decreases |x|
  {
    if x == [] {
      assert x + y == y;
      Text.TrimStartNoSpace(y);
    } else {
      assert (x + y)[0] == x[0];
      assert (x + y)[1..] == x[1..] + y;
      TrimStartBefore(x[1..], y);
    }
  }

  /** The white space `trimStart` removes holds no brace. */
  function LeadingSpace(body: string): (lead: string)
    ensures body == lead + Text.TrimStart(body)
    ensures '{' !in lead && '}' !in lead
  {
    var b := Text.TrimStart(body);
    var lead := body[..|body| - |b|];
    assert body == lead + b;
    forall k | 0 <= k < |lead|
      ensures lead[k] != '{' && lead[k] != '}'
    {
      assert Text.IsJsSpace(lead[k]);
    }
    lead
  }

  lemma NoTickSuffix(body: string)
    requires '`' !in body
    ensures '`' !in Text.TrimStart(body)
  {
    var b := Text.TrimStart(body);
    var i := |body| - |b|;
    forall k | 0 <= k < |b| ensures b[k] != '`' {
      assert b[k] == body[i + k];
    }
  }

  /** A string that opens with the marker loses it and the white space after it. */
  lemma StripAtMarker(marker: string, rest: string)
    requires marker != []
    ensures StripMarker(marker + rest, marker) == StripMarker(Text.TrimStart(rest), marker)
  {
    assert (marker + rest)[..|marker|] == marker;
    assert (marker + rest)[|marker|..] == rest;
  }

  /** What `extractPlanData` returns: the provider name and at least one plan. A name taken
      from the reply is truthy; the mock names a provider after a file-name prefix, which
      may be empty. */
  datatype PlanData = PlanData(provider: Value, plans: seq<Value>)

  /** A parsed reply that passes the structural checks: an object with a non-empty `plans`
      array. */
  predicate IsPlanObject(v: Value) {
    v.Obj? && Prop(v, "plans").Arr? && Prop(v, "plans").items != []
  }

  /** The structural checks on the parsed object, and the provider default. */
  function Validate(v: Value): (r: Result<PlanData>)
    ensures v.Null? || v.Undefined? ==> r.Err?
    ensures r.Ok? <==> IsPlanObject(v)
    ensures r.Ok? ==> r.value.plans == Prop(v, "plans").items && Truthy(r.value.provider)
    ensures r.Ok? ==> (Truthy(Prop(v, "provider_name")) <==> r.value.provider == Prop(v, "provider_name"))
    ensures r.Ok? && !Truthy(Prop(v, "provider_name")) ==> r.value.provider == Str("Unknown Provider")
    ensures !v.Null? && !v.Undefined? && !Prop(v, "plans").Arr? ==>
              r == Err("Invalid plan data structure - missing plans array")
    ensures Prop(v, "plans") == Arr([]) ==> r == Err("No plans found in document")
  {
    if v.Undefined? || v.Null? then Err(Get(v, "plans").message)
    else
    var plans := Prop(v, "plans");
    if !Truthy(plans) || !plans.Arr? then Err("Invalid plan data structure - missing plans array")
    else if |plans.items| == 0 then Err("No plans found in document")
    else
      var p := Prop(v, "provider_name");
      Ok(PlanData(if Truthy(p) then p else Str("Unknown Provider"), plans.items))
  }

  /** The first `n` characters, `substring(0, n)`. */
  function Head(s: string, n: nat): (r: string)
    ensures |r| <= n && Text.IsPrefix(r, s)
    ensures |s| <= n ==> r == s
  {
    if |s| <= n then s else s[..n]
  }

  const NoJsonPrefix := "Failed to extract valid JSON from AI response. Response was: "
  const ParseErrorPrefix := "Failed to parse JSON from AI response: "

  /** Everything after the model call, before the outer error prefix is added. */
  function ParseReply(reply: string, parse: string -> Result<Value>): (r: Result<PlanData>)
    ensures r.Ok? ==> r.value.plans != [] && Truthy(r.value.provider)
  {
    var text := StripFences(reply);
    match Candidate(text)
    case None => Err(NoJsonPrefix + Head(text, 200))
    case Some(c) =>
      match parse(c)
      case Err(m) => Err(ParseErrorPrefix + m)
      case Ok(v) => Validate(v)
  }

  /** A reply is accepted exactly when its cleaned text holds a brace span that parses to an
      object with a non-empty `plans` array; the plans come back unchanged and in order. */
  lemma ParseReplyOk(reply: string, parse: string -> Result<Value>)
    ensures var c := Candidate(StripFences(reply));
            ParseReply(reply, parse).Ok?
            <==> c.Some? && parse(c.value).Ok? && IsPlanObject(parse(c.value).value)
    ensures var c := Candidate(StripFences(reply));
            ParseReply(reply, parse).Ok? ==>
              ParseReply(reply, parse).value.plans == Prop(parse(c.value).value, "plans").items
  {
  }

  /** Without a brace span the error quotes at most 200 characters of the cleaned reply; a
      span the parser rejects is reported with the parser's message. */
  lemma ParseReplyErrors(reply: string, parse: string -> Result<Value>)
    ensures var c := Candidate(StripFences(reply));
            c.None? ==> exists q :: |q| <= 200 && Text.IsPrefix(q, StripFences(reply))
                                 && ParseReply(reply, parse) == Err(NoJsonPrefix + q)
    ensures var c := Candidate(StripFences(reply));
            c.Some? && parse(c.value).Err? ==>
              ParseReply(reply, parse) == Err(ParseErrorPrefix + parse(c.value).message)
  {
    var text := StripFences(reply);
    if Candidate(text).None? {
      var q := Head(text, 200);
      assert |q| <= 200 && Text.IsPrefix(q, text);
    }
  }
}

=== FILE: server.dfy ===
/** The request-level settings of backend/server.js: which browser origins the CORS
    middleware lets through, and the upload size limit that aborts a request before any
    route sees it. */
module Server {
  import opened Wrappers
  import Text
  import Documents

  const LocalOrigins: seq<string> := ["http://localhost:5173", "http://localhost:5174", "http://localhost:8080"]
  const PreviewHost: string := "vercel.app"
  const CorsError: string := "Not allowed by CORS"

  /** `[process.env.FRONTEND_URL, ...locals].filter(Boolean)`. */
  function AllowedOrigins(frontend: Option<string>): (r: seq<string>)
    ensures forall o :: o in r <==> o in LocalOrigins || (frontend.Some? && frontend.value != [] && o == frontend.value)
  {
    (if frontend.Some? && frontend.value != [] then [frontend.value] else []) + LocalOrigins
  }

  /** The origin callback: a request without an `Origin` header passes; otherwise the origin
      must be one of the allowed ones or contain "vercel.app" anywhere. */
  function Cors(origin: Option<string>, frontend: Option<string>): (r: Result<bool>)
    ensures r.Ok? ==> r.value
    ensures r.Err? ==> r.message == CorsError
  {
    if origin.None? || origin.value == [] then Ok(true)
    else if origin.value in AllowedOrigins(frontend) || Text.Contains(origin.value, PreviewHost) then Ok(true)
    else Err(CorsError)
  }

  /** Exactly the listed origins, the configured front end, header-less requests and any
      origin mentioning "vercel.app" pass. */
  lemma CorsSpec(origin: Option<string>, frontend: Option<string>)
    ensures Cors(origin, frontend).Ok? <==>
              || origin.None? || origin.value == []
              || origin.value in LocalOrigins
              || (frontend.Some? && frontend.value != [] && origin.value == frontend.value)
              || Text.Contains(origin.value, PreviewHost)
  {
  }

  /** The preview-host test is a substring test, so a host that merely starts with
      "vercel.app" is let through whatever domain it belongs to. */
  lemma PreviewSubstring(frontend: Option<string>)
    ensures Cors(Some("https://vercel.app.example.net"), frontend) == Ok(true)
  {
    var o := "https://vercel.app.example.net";
    assert Text.IsPrefix(PreviewHost, o[8..]);
  }

  /** `limits: { fileSize: 10 * 1024 * 1024 }`. */
  const MaxFileSize: nat := 10 * 1024 * 1024
  const LimitStatus: nat := 413
  const LimitMessage: string := "File size exceeds the 10MB limit"

  /** `abortOnLimit`: a request with any file over the limit is answered with 413 and never
      reaches its route. */
  function UploadLimit(files: seq<Documents.Upload>): (r: Option<(nat, string)>)
    ensures r.Some? ==> r.value == (LimitStatus, LimitMessage)
  {
    if exists i :: 0 <= i < |files| && files[i].size > MaxFileSize then Some((LimitStatus, LimitMessage)) else None
  }

  /** The request goes on exactly when every file is at most 10 MiB. */
  lemma UploadLimitSpec(files: seq<Documents.Upload>)
    ensures UploadLimit(files).None? <==> forall i :: 0 <= i < |files| ==> files[i].size <= 10485760
  {
  }
}

=== FILE: text.dfy ===
/** JavaScript string operations used across the system, on strings as `seq<char>`. */
module Text {

  /** The characters JavaScript's `\s`, `trim()` and `parseInt` treat as white space:
      WhiteSpace plus LineTerminator of the ECMAScript grammar. */
  predicate IsJsSpace(c: char) {
    || c == ' ' || c == '\t' || c == '\n' || c == '\r' || c == '\U{000B}' || c == '\U{000C}'
    || c == '\U{00A0}' || c == '\U{1680}' || ('\U{2000}' <= c <= '\U{200A}')
    || c == '\U{2028}' || c == '\U{2029}' || c == '\U{202F}' || c == '\U{205F}'
    || c == '\U{3000}' || c == '\U{FEFF}'
  }

  predicate AllSpace(s: string) {
    forall k :: 0 <= k < |s| ==> IsJsSpace(s[k])
  }

  predicate NoSpace(s: string) {
    forall k :: 0 <= k < |s| ==> !IsJsSpace(s[k])
  }

  /** `String.prototype.trimStart`: the longest suffix that does not start with white space. */
  function TrimStart(s: string): (r: string)
    ensures |r| <= |s| && r == s[|s| - |r|..]
    ensures AllSpace(s[..|s| - |r|])
    ensures r == [] || !IsJsSpace(r[0])
  {
    if s == [] || !IsJsSpace(s[0]) then s
    else
      var r := TrimStart(s[1..]);
      assert s[1..][..|s| - 1 - |r|] == s[1..|s| - |r|];
      r
  }

  lemma TrimStartNoSpace(s: string)
    requires s != [] && !IsJsSpace(s[0])
    ensures TrimStart(s) == s
  {
  }

  /** `String.prototype.trimEnd`: the longest prefix that does not end with white space. */
  function TrimEnd(s: string): (r: string)
    ensures |r| <= |s| && r == s[..|r|]
    ensures AllSpace(s[|r|..])
    ensures r == [] || !IsJsSpace(r[|r| - 1])
  {
    if s == [] || !IsJsSpace(s[|s| - 1]) then s
    else
      var r := TrimEnd(s[..|s| - 1]);
      assert s[..|s| - 1][|r|..] + [s[|s| - 1]] == s[|r|..];
      r
  }

  /** `String.prototype.trim`. */
  function Trim(s: string): (r: string)
    ensures |r| <= |s|
    ensures r == [] <==> AllSpace(s)
    ensures r != [] ==> !IsJsSpace(r[0]) && !IsJsSpace(r[|r| - 1])
  {
    var t := TrimEnd(TrimStart(s));
    assert t == [] ==> AllSpace(s) by {
      if t == [] {
        var u := TrimStart(s);
        assert s == s[..|s| - |u|] + u;
        assert AllSpace(u[|t|..]);
      }
    }
    t
  }

  /** ASCII case mapping (the model's stand-in for `toLowerCase`/`toUpperCase`). */
  function LowerChar(c: char): char {
    if 'A' <= c <= 'Z' then (c as int + 32) as char else c
  }

  function UpperChar(c: char): char {
    if 'a' <= c <= 'z' then (c as int - 32) as char else c
  }

  function Lower(s: string): (r: string)
    ensures |r| == |s|
    ensures forall k :: 0 <= k < |s| ==> r[k] == LowerChar(s[k])
  {
    if s == [] then [] else [LowerChar(s[0])] + Lower(s[1..])
  }

  lemma LowerIdempotent(s: string)
    ensures Lower(Lower(s)) == Lower(s)
  {
  }

  lemma Assoc<T>(a: seq<T>, b: seq<T>, c: seq<T>)
    ensures a + b + c == a + (b + c)
  {
  }

  lemma HeadTail(x: string, z: string)
    requires x != []
    ensures [x[0]] + (x[1..] + z) == x + z
  {
    assert [x[0]] + x[1..] == x;
  }

  predicate IsPrefix(p: string, s: string) {
    |p| <= |s| && s[..|p|] == p
  }

  /** `s.includes(p)`. */
  predicate Contains(s: string, p: string) {
    exists i :: 0 <= i <= |s| && IsPrefix(p, s[i..])
  }

  /** `s.indexOf(c)`, with -1 when absent. */
  function IndexOf(s: string, c: char): (r: int)
    ensures -1 <= r < |s|
    ensures r == -1 <==> c !in s
    ensures r >= 0 ==> s[r] == c && c !in s[..r]
  {
    if s == [] then -1
    else if s[0] == c then 0
    else
      var r := IndexOf(s[1..], c);
      if r == -1 then -1 else r + 1
  }

  /** `s.lastIndexOf(c)`, with -1 when absent. */
  function LastIndexOf(s: string, c: char): (r: int)
    ensures -1 <= r < |s|
    ensures r == -1 <==> c !in s
    ensures r >= 0 ==> s[r] == c && c !in s[r + 1..]
  {
    if s == [] then -1
    else if s[|s| - 1] == c then |s| - 1
    else
      var r := LastIndexOf(s[..|s| - 1], c);
      assert r >= 0 ==> s[r + 1..] == s[..|s| - 1][r + 1..] + [s[|s| - 1]];
      assert s == s[..|s| - 1] + [s[|s| - 1]];
      r
  }

  /** Text free of `c` in front shifts the first occurrence of `c` by its length. */
  lemma {:induction false} IndexOfAfter(p: string, s: string, c: char)
    requires c !in p
    ensures IndexOf(p + s, c) == if IndexOf(s, c) == -1 then -1 else |p| + IndexOf(s, c)
  {
    if p != [] {
      assert (p + s)[1..] == p[1..] + s;
      IndexOfAfter(p[1..], s, c);
    } else {
      assert p + s == s;
    }
  }

  /** Text free of `c` behind does not change the first occurrence of `c`. */
  lemma {:induction false} IndexOfBefore(s: string, q: string, c: char)
    requires c !in q
    ensures IndexOf(s + q, c) == IndexOf(s, c)
  {
    if s != [] {
      assert (s + q)[1..] == s[1..] + q;
      IndexOfBefore(s[1..], q, c);
    } else {
      assert s + q == q;
    }
  }

  /** Text free of `c` behind does not change the last occurrence of `c`. */
  lemma {:induction false} LastIndexOfBefore(s: string, q: string, c: char)
    requires c !in q
    ensures LastIndexOf(s + q, c) == LastIndexOf(s, c)
    decreases |q|
  {
    if q != [] {
      var t := s + q;
      assert t[..|t| - 1] == s + q[..|q| - 1];
      assert t[|t| - 1] == q[|q| - 1];
      LastIndexOfBefore(s, q[..|q| - 1], c);
    } else {
      assert s + q == s;
    }
  }

  /** Text free of `c` in front shifts the last occurrence of `c` by its length. */
  lemma {:induction false} LastIndexOfAfter(p: string, s: string, c: char)
    requires c !in p
    ensures LastIndexOf(p + s, c) == if LastIndexOf(s, c) == -1 then -1 else |p| + LastIndexOf(s, c)
    decreases |s|
  {
    if s != [] {
      var t := p + s;
      assert t[..|t| - 1] == p + s[..|s| - 1];
      assert t[|t| - 1] == s[|s| - 1];
      LastIndexOfAfter(p, s[..|s| - 1], c);
    } else {
      assert p + s == p;
    }
  }

  /** `parts.join(sep)`. */
  function Join(parts: seq<string>, sep: string): string {
    if parts == [] then []
    else if |parts| == 1 then parts[0]
    else parts[0] + sep + Join(parts[1..], sep)
  }

  /** `s.split(c)` for a one-character separator: the pieces between occurrences of `c`. */
  function Split(s: string, c: char): (r: seq<string>)
    ensures |r| >= 1
    ensures forall k :: 0 <= k < |r| ==> c !in r[k]
  {
    var i := IndexOf(s, c);
    if i == -1 then [s] else [s[..i]] + Split(s[i + 1..], c)
  }

  /** Splitting and joining back with the same separator restores the text. */
  lemma {:induction false} JoinSplit(s: string, c: char)
    ensures Join(Split(s, c), [c]) == s
    decreases |s|
  {
    var i := IndexOf(s, c);
    if i != -1 {
      var rest := Split(s[i + 1..], c);
      JoinSplit(s[i + 1..], c);
      JoinCons(s[..i], rest, [c]);
      Reassemble(s, i);
    }
  }

  /** Splitting at the first separator: the text before it, then the pieces after it. */
  lemma SplitFirst(word: string, after: string, c: char)
    requires c !in word
    ensures Split(word + [c] + after, c) == [word] + Split(after, c)
  {
    var h := word + [c] + after;
    assert h == word + ([c] + after);
    IndexOfAfter(word, [c] + after, c);
    assert ([c] + after)[0] == c;
    assert h[..|word|] == word && h[|word| + 1..] == after;
  }

  lemma JoinCons(a: string, rest: seq<string>, sep: string)
    requires rest != []
    ensures Join([a] + rest, sep) == a + sep + Join(rest, sep)
  {
    assert ([a] + rest)[1..] == rest;
  }

  lemma Reassemble(s: string, i: nat)
    requires i < |s|
    ensures s[..i] + [s[i]] + s[i + 1..] == s
  {
  }

  /** Every character of `s` except those in `drop`, in order (`replace(/[..]/g, '')`). */
  function RemoveChars(s: string, drop: set<char>): (r: string)
    ensures |r| <= |s|
    ensures forall k :: 0 <= k < |r| ==> r[k] !in drop
    ensures forall ch :: ch in s && ch !in drop ==> ch in r
    ensures forall ch :: ch in r ==> ch in s
  {
    if s == [] then []
    else
      var rest := RemoveChars(s[1..], drop);
      if s[0] in drop then rest else [s[0]] + rest
  }

  /** `s.replace(/x/g, y)` for one character. */
  function ReplaceChar(s: string, x: char, y: char): (r: string)
    ensures |r| == |s|
    ensures forall k :: 0 <= k < |s| ==> r[k] == (if s[k] == x then y else s[k])
  {
    if s == [] then [] else [if s[0] == x then y else s[0]] + ReplaceChar(s[1..], x, y)
  }

  /** Lexicographic character order on strings. JavaScript's default `sort()` compares
      UTF-16 code units; the two orders agree on text within the Basic Multilingual Plane. */
  function Below(a: string, b: string): (r: bool)
    ensures IsPrefix(a, b) ==> (r <==> a != b)
  {
    if a == [] then b != []
    else if b == [] then false
    else if a[0] != b[0] then a[0] < b[0]
    else Below(a[1..], b[1..])
  }

  lemma {:induction false} BelowIrreflexive(a: string)
    ensures !Below(a, a)
  {
    if a != [] {
      BelowIrreflexive(a[1..]);
    }
  }

  lemma {:induction false} BelowTransitive(a: string, b: string, c: string)
    requires Below(a, b) && Below(b, c)
    ensures Below(a, c)
  {
    if a != [] && b != [] && c != [] && a[0] == b[0] && b[0] == c[0] {
      BelowTransitive(a[1..], b[1..], c[1..]);
    }
  }

  lemma {:induction false} BelowTotal(a: string, b: string)
    ensures a == b || Below(a, b) || Below(b, a)
  {
    if a != [] && b != [] && a[0] == b[0] {
      BelowTotal(a[1..], b[1..]);
      if a[1..] == b[1..] {
        assert a == [a[0]] + a[1..] && b == [b[0]] + b[1..];
      }
    }
  }
}

=== FILE: validation.dfy ===
/** The request checks of backend/middleware/validation.js: the e-mail and password
    patterns, the registration, login and plan-query gates that answer 400 before a route
    runs, and `sanitizeInput`. Each regular expression is stated as written (anchors,
    character classes, look-aheads) and proved equal to a plain description of the strings
    it accepts. */
module Validation {
  import Text
  import Numbers
  import opened Wrappers
  import opened Values

  /** What a gate does with a request: hand it on, or answer 400 with the error. */
  datatype Gate = Pass | Reject(error: string)

  const MissingFields: string := "Missing required fields"
  const BadEmail: string := "Invalid email format"
  const WeakPassword: string :=
    "Password must be at least 8 characters with uppercase, lowercase, number, and special character"
  const MissingCredentials: string := "Email and password are required"
  const BadPlanType: string := "Invalid plan type"
  const BadDeductible: string := "max_deductible must be a number"
  const BadCost: string := "max_cost must be a number"
  const PlanTypes: seq<string> := ["Health", "Auto", "Life", "Property", "Travel"]

  /** The text `RegExp.prototype.test` matches: a string as it is, any other value as its
      `String(...)` conversion, which is a parameter. */
  function AsText(v: Value, render: Value -> string): string {
    if v.Str? then v.s else render(v)
  }

  // ---------------------------------------------------------------- e-mail

  /** `[^\s@]`. */
  predicate Word(c: char) {
    !Text.IsJsSpace(c) && c != '@'
  }

  /** `[^\s@]+`. */
  predicate Words(t: string) {
    t != [] && forall k :: 0 <= k < |t| ==> Word(t[k])
  }

  /** The pattern split at the `@` (index `i`) and the escaped point (index `j`). */
  predicate EmailSplit(s: string, i: nat, j: nat)
    requires i < j < |s|
  {
    s[i] == '@' && s[j] == '.' && Words(s[..i]) && Words(s[i + 1..j]) && Words(s[j + 1..])
  }

  /** `/^[^\s@]+@[^\s@]+\.[^\s@]+$/.test(s)`. */
  predicate EmailPattern(s: string) {
    exists i: nat, j: nat :: i < j < |s| && EmailSplit(s, i, j)
  }

  /** No white space, exactly one `@` with something before it, and a point in what
      follows the `@` that is neither its first nor its last character. */
  predicate EmailShape(s: string) {
    var a := Text.IndexOf(s, '@');
    && Text.NoSpace(s)
    && a > 0 && '@' !in s[a + 1..]
    && a + 2 < |s| && '.' in s[a + 2..|s| - 1]
  }

  function ValidateEmail(s: string): (r: bool)
    ensures r <==> EmailShape(s)
  {
    EmailShapes(s);
    EmailPattern(s)
  }

  /** The anchored pattern accepts exactly the strings of the plain description. */
  lemma EmailShapes(s: string)
    ensures EmailPattern(s) <==> EmailShape(s)
  {
    if EmailPattern(s) {
      var i: nat, j: nat :| i < j < |s| && EmailSplit(s, i, j);
      EmailSplitShape(s, i, j);
    }
    if EmailShape(s) {
      var a := Text.IndexOf(s, '@');
      var dots := s[a + 2..|s| - 1];
      var d := Text.IndexOf(dots, '.');
      var j := a + 2 + d;
      assert s[j] == '.';
      assert Words(s[..a]) by {
        forall k | 0 <= k < a ensures Word(s[..a][k]) {
          assert s[..a][k] in s[..a];
        }
      }
      var middle := s[a + 1..j];
      assert Words(middle) by {
        forall k | 0 <= k < |middle| ensures Word(middle[k]) {
          assert middle[k] == s[a + 1..][k];
          assert s[a + 1..][k] in s[a + 1..];
        }
      }
      var last := s[j + 1..];
      assert Words(last) by {
        forall k | 0 <= k < |last| ensures Word(last[k]) {
          assert last[k] == s[a + 1..][k + j - a];
          assert s[a + 1..][k + j - a] in s[a + 1..];
        }
      }
      assert EmailSplit(s, a, j);
    }
  }

  lemma EmailSplitShape(s: string, i: nat, j: nat)
    requires i < j < |s| && EmailSplit(s, i, j)
    ensures EmailShape(s)
  {
    assert forall k :: 0 <= k < i ==> s[k] == s[..i][k];
    assert forall k :: i < k < j ==> s[k] == s[i + 1..j][k - i - 1];
    assert forall k :: j < k < |s| ==> s[k] == s[j + 1..][k - j - 1];
    assert '@' !in s[..i];
    assert Text.IndexOf(s, '@') == i;
    assert s[i + 1..] == s[i + 1..j] + [s[j]] + s[j + 1..];
    assert s[i + 2..|s| - 1][j - i - 2] == '.';
  }

  // ---------------------------------------------------------------- password

  /** The four classes the password pattern looks ahead for. */
  datatype Class = LowerCase | UpperCase | Digit | Special

  function Classes(): seq<Class> { [LowerCase, UpperCase, Digit, Special] }

  predicate InClass(c: char, cl: Class) {
    match cl
    case LowerCase => 'a' <= c <= 'z'
    case UpperCase => 'A' <= c <= 'Z'
    case Digit => '0' <= c <= '9'
    case Special => c == '@' || c == '$' || c == '!' || c == '%' || c == '*' || c == '?' || c == '&' || c == '#'
  }

  /** `[A-Za-z\d@$!%*?&#]`. */
  predicate Allowed(c: char) {
    InClass(c, LowerCase) || InClass(c, UpperCase) || InClass(c, Digit) || InClass(c, Special)
  }

  /** What `.` does not match. */
  predicate LineTerminator(c: char) {
    c == '\n' || c == '\r' || c == '\U{2028}' || c == '\U{2029}'
  }

  /** `(?=.*[class])` at the start: a character of the class that no line terminator
      precedes. */
  predicate LooksAhead(s: string, cl: Class) {
    exists k :: 0 <= k < |s| && InClass(s[k], cl) && forall m :: 0 <= m < k ==> !LineTerminator(s[m])
  }

  /** `/^(?=.*[a-z])(?=.*[A-Z])(?=.*\d)(?=.*[@$!%*?&#])[A-Za-z\d@$!%*?&#]{8,}$/.test(s)`. */
  predicate PasswordPattern(s: string) {
    && LooksAhead(s, LowerCase) && LooksAhead(s, UpperCase) && LooksAhead(s, Digit)
    && LooksAhead(s, Special)
    && |s| >= 8 && forall k :: 0 <= k < |s| ==> Allowed(s[k])
  }

  predicate Has(s: string, cl: Class) {
    exists k :: 0 <= k < |s| && InClass(s[k], cl)
  }

  /** At least eight characters, all from the allowed set, with a lower-case letter, an
      upper-case letter, a digit and one of `@$!%*?&#` among them. */
  predicate Strong(s: string) {
    && |s| >= 8
    && (forall k :: 0 <= k < |s| ==> Allowed(s[k]))
    && forall cl :: cl in Classes() ==> Has(s, cl)
  }

  function ValidatePassword(s: string): (r: bool)
    ensures r <==> Strong(s)
  {
    PasswordShapes(s);
    PasswordPattern(s)
  }

  /** The look-aheads ask for nothing beyond the classes being present, because the
      allowed characters include no line terminator. */
  lemma PasswordShapes(s: string)
    ensures PasswordPattern(s) <==> Strong(s)
  {
    if Strong(s) {
      StrongLooksAhead(s);
    }
    if PasswordPattern(s) {
      forall cl | cl in Classes() ensures Has(s, cl) {
        assert LooksAhead(s, cl);
      }
    }
  }

  lemma StrongLooksAhead(s: string)
    requires Strong(s)
    ensures forall cl :: LooksAhead(s, cl)
  {
    forall cl ensures LooksAhead(s, cl) {
      assert cl == Classes()[0] || cl == Classes()[1] || cl == Classes()[2] || cl == Classes()[3];
      assert Has(s, cl);
      var k :| 0 <= k < |s| && InClass(s[k], cl);
      forall m | 0 <= m < k ensures !LineTerminator(s[m]) {
        assert Allowed(s[m]);
      }
    }
  }

  // ---------------------------------------------------------------- gates

  /** `validateRegistration`: all four fields must be truthy, then the e-mail must match,
      then the password. */
  function Registration(email: Value, password: Value, fullName: Value, stateId: Value,
                        render: Value -> string): (r: Gate)
    ensures r.Pass? <==> Truthy(email) && Truthy(password) && Truthy(fullName) && Truthy(stateId)
                         && EmailShape(AsText(email, render)) && Strong(AsText(password, render))
    ensures r.Reject? ==> r.error in {MissingFields, BadEmail, WeakPassword}
  {
    if !Truthy(email) || !Truthy(password) || !Truthy(fullName) || !Truthy(stateId) then Reject(MissingFields)
    else if !ValidateEmail(AsText(email, render)) then Reject(BadEmail)
    else if !ValidatePassword(AsText(password, render)) then Reject(WeakPassword)
    else Pass
  }

  /** A missing field is reported whatever else is wrong, and a bad e-mail before a weak
      password. */
  lemma RegistrationOrder(email: Value, password: Value, fullName: Value, stateId: Value,
                          render: Value -> string)
    ensures var r := Registration(email, password, fullName, stateId, render);
            && (r == Reject(MissingFields) <==>
                  !Truthy(email) || !Truthy(password) || !Truthy(fullName) || !Truthy(stateId))
            && (r == Reject(BadEmail) <==>
                  Truthy(email) && Truthy(password) && Truthy(fullName) && Truthy(stateId)
                  && !EmailShape(AsText(email, render)))
  {
  }

  /** `validateLogin`: both fields truthy, then the e-mail must match; the password's
      strength is not checked. */
  function Login(email: Value, password: Value, render: Value -> string): (r: Gate)
    ensures r.Pass? <==> Truthy(email) && Truthy(password) && EmailShape(AsText(email, render))
    ensures r.Reject? ==> r.error in {MissingCredentials, BadEmail}
    ensures !Truthy(email) || !Truthy(password) ==> r == Reject(MissingCredentials)
  {
    if !Truthy(email) || !Truthy(password) then Reject(MissingCredentials)
    else if !ValidateEmail(AsText(email, render)) then Reject(BadEmail)
    else Pass
  }

  /** Any password, however weak, passes the login gate with a well-formed e-mail, while
      registration refuses the same pair when the password is not strong. */
  lemma LoginIgnoresStrength(e: string, p: string, fullName: Value, stateId: Value, render: Value -> string)
    requires EmailShape(e) && p != []
    ensures Login(Str(e), Str(p), render) == Pass
    ensures Truthy(fullName) && Truthy(stateId) && !Strong(p) ==>
              Registration(Str(e), Str(p), fullName, stateId, render) == Reject(WeakPassword)
  {
  }

  /** A query parameter is truthy when present and not empty. */
  predicate Given(t: Option<string>) {
    t.Some? && t.value != []
  }

  /** `validatePlanQuery`: a given type must be one of the five plan types, and a given
      maximum deductible or maximum cost must start like a number. `state_id` and
      `min_coverage` are not checked. */
  function PlanQuery(planType: Option<string>, maxDeductible: Option<string>, maxCost: Option<string>)
    : (r: Gate)
    ensures r.Pass? <==>
              && (Given(planType) ==> planType.value in PlanTypes)
              && (Given(maxDeductible) ==> Numbers.StartsNumeric(maxDeductible.value))
              && (Given(maxCost) ==> Numbers.StartsNumeric(maxCost.value))
    ensures r.Reject? ==> r.error in {BadPlanType, BadDeductible, BadCost}
  {
    var deductible := if maxDeductible.Some? then maxDeductible.value else "";
    var cost := if maxCost.Some? then maxCost.value else "";
    Numbers.ParseFloatNaN(deductible);
    Numbers.ParseFloatNaN(cost);
    if Given(planType) && planType.value !in PlanTypes then Reject(BadPlanType)
    else if Given(maxDeductible) && Numbers.JsParseFloat(deductible).FNaN? then Reject(BadDeductible)
    else if Given(maxCost) && Numbers.JsParseFloat(cost).FNaN? then Reject(BadCost)
    else Pass
  }

  // ---------------------------------------------------------------- sanitizing

  /** `sanitizeInput`: a string is trimmed and stripped of `<` and `>`; anything else is
      returned as it is. */
  function Sanitize(v: Value): (r: Value)
    ensures !v.Str? ==> r == v
    ensures v.Str? ==> r.Str? && |r.s| <= |v.s| && '<' !in r.s && '>' !in r.s
    ensures v.Str? ==> forall ch :: ch in r.s ==> ch in v.s
  {
    if v.Str? then Str(Text.RemoveChars(Text.Trim(v.s), {'<', '>'})) else v
  }

  /** Text that is already trimmed and free of angle brackets comes back unchanged. */
  lemma SanitizeClean(s: string)
    requires '<' !in s && '>' !in s
    requires s == [] || (!Text.IsJsSpace(s[0]) && !Text.IsJsSpace(s[|s| - 1]))
    ensures Sanitize(Str(s)) == Str(s)
  {
    if s != [] {
      Text.TrimStartNoSpace(s);
      assert Text.TrimEnd(s) == s;
      KeepAll(s, {'<', '>'});
    }
  }

  lemma {:induction false} KeepAll(s: string, drop: set<char>)
    requires forall k :: 0 <= k < |s| ==> s[k] !in drop
    ensures Text.RemoveChars(s, drop) == s
  {
    if s != [] {
      KeepAll(s[1..], drop);
    }
  }

  /** Trimming comes before the brackets go, so white space they enclosed is left at the
      ends and a second pass removes more. */
  lemma SanitizeNotIdempotent()
    ensures Sanitize(Str("< >")) == Str(" ")
    ensures Sanitize(Sanitize(Str("< >"))) == Str("")
  {
    var s := "< >";
    assert !Text.IsJsSpace(s[0]);
    Text.TrimStartNoSpace(s);
    assert Text.TrimEnd(s) == s;
    var drop := {'<', '>'};
    assert Text.RemoveChars(s[2..], drop) == [];
    assert Text.RemoveChars(s[1..], drop) == " ";
    assert Text.AllSpace(" ");
  }
}

=== FILE: values.dfy ===
/** The JavaScript values that flow through the system: parsed JSON bodies, LLM output,
    plan rows as the client sees them. */
module Values {
  import opened Wrappers

  /** A JavaScript value. `NaN` is kept apart from `Num` because `parseInt` can produce it;
      object fields keep their insertion order. */
  datatype Value =
    | Undefined
    | Null
    | Bool(b: bool)
    | Num(n: real)
    | NaN
    | Str(s: string)
    | Arr(items: seq<Value>)
    | Obj(fields: seq<(string, Value)>)

  /** JavaScript truthiness: `undefined`, `null`, `false`, `0`, `NaN` and `''` are falsy. */
  predicate Truthy(v: Value) {
    match v
    case Undefined => false
    case Null => false
    case Bool(b) => b
    case Num(n) => n != 0.0
    case NaN => false
    case Str(s) => s != []
    case Arr(_) => true
    case Obj(_) => true
  }

  /** Value of the LAST field named `key` (a later duplicate key wins in `JSON.parse`). */
  function Field(fields: seq<(string, Value)>, key: string): Option<Value> {
    if fields == [] then None
    else if fields[|fields| - 1].0 == key then Some(fields[|fields| - 1].1)
    else Field(fields[..|fields| - 1], key)
  }

  /** A field is found exactly when some entry has the key, and what is found is the value
      of an entry with that key. */
  lemma {:induction false} FieldSpec(fields: seq<(string, Value)>, key: string)
    ensures Field(fields, key).None? <==> forall k :: 0 <= k < |fields| ==> fields[k].0 != key
    ensures Field(fields, key).Some? ==>
              exists k :: 0 <= k < |fields| && fields[k] == (key, Field(fields, key).value)
    decreases |fields|
  {
    if fields != [] && fields[|fields| - 1].0 != key {
      var init := fields[..|fields| - 1];
      FieldSpec(init, key);
      assert forall k :: 0 <= k < |init| ==> init[k] == fields[k];
    }
  }

  /** The field at position `i` is the one read when no later field has its name. */
  lemma {:induction false} FieldAt(fields: seq<(string, Value)>, key: string, i: nat)
    requires i < |fields| && fields[i].0 == key
    requires forall j :: i < j < |fields| ==> fields[j].0 != key
    ensures Field(fields, key) == Some(fields[i].1)
    decreases |fields|
  {
    if i < |fields| - 1 {
      FieldAt(fields[..|fields| - 1], key, i);
    }
  }

  /** Property access `v.key`: reading from `null` or `undefined` throws a TypeError;
      a property missing from an object, or asked of a primitive, reads as `undefined`. */
  function Get(v: Value, key: string): (r: Result<Value>)
    ensures r.Err? <==> v.Undefined? || v.Null?
    ensures v.Obj? && Field(v.fields, key).None? ==> r == Ok(Undefined)
  {
    match v
    case Undefined => Err("Cannot read properties of undefined (reading '" + key + "')")
    case Null => Err("Cannot read properties of null (reading '" + key + "')")
    case Obj(fields) => Ok(Field(fields, key).GetOr(Undefined))
    case _ => Ok(Undefined)
  }

  /** `v[key]` on a value known not to be `null`/`undefined`, `undefined` when absent. */
  function Prop(v: Value, key: string): Value {
    match v
    case Obj(fields) => Field(fields, key).GetOr(Undefined)
    case _ => Undefined
  }
}

=== FILE: wrappers.dfy ===
/** Failure-carrying result types shared by every module of the model. */
module Wrappers {

  /** A value that may be absent: JavaScript `undefined`/`null`, or a SQL NULL. */
  datatype Option<+T> = None | Some(value: T) {
    function GetOr(default: T): T {
      match this
      case Some(v) => v
      case None => default
    }
  }

  /** The outcome of a call that can throw: `Err` carries the thrown message. */
  datatype Result<+R> = Ok(value: R) | Err(message: string) {
    predicate IsFailure() { Err? }

    function PropagateFailure<U>(): Result<U>
      requires Err?
    {
      Err(message)
    }

    function Extract(): R
      requires Ok?
    {
      value
    }
  }
}
